=== FILE: README.md ===
# SimpleECSAbilityTimeline in Dafny

This project models the core of SimpleECSAbilityTimeline. That is a Unity
package in which an ability is authored as a tree:

- an ability (`AbilityConfigSO.AbilityDef`) holds phases;
- a phase holds tracks;
- a track holds keys and clips.

The package has three parts, and the model covers each of them.

- **Baking.** The authored tree is baked into a runtime definition
  database. Before that, `OnValidate` synchronises the resource GUIDs.
- **Runtime.** ECS systems play abilities on entities:
  - cast handling, cooldowns and the phase/key state machine;
  - cue dispatch into typed request buffers;
  - the clip pipeline: activate, advance, dispatch, clean up.
- **Editor.** A timeline window edits the tree:
  - selection, playback, group drag and zoom;
  - phase and track edits;
  - the preview's active-set computation;
  - multi-key deletion;
  - the track row's mouse and menu actions.

Each source file is one Dafny module.

- **Pure code** is modelled by datatypes, functions and lemmas. This
  covers the authored tree, the baker, the track-type rules, and the
  phase, key and clip arithmetic.
- **State-changing code** is modelled by classes with `modifies` frames.
  This covers the ECS entity, the clip world, the editor state and
  controllers, the preview controller, the timeline view and the track
  row. Each method is proved against a specification function of the old
  state, and the properties are proved about that function as lemmas.

ECS command buffers are explicit `Command` sequences played back at the
end of the update. The runtime properties below therefore hold for
a whole simulation update, including deferred effects: a cast becomes
active only at playback, and a completed clip is destroyed one update
later.

Times and other `float`s are modelled as `real`. `String.GetHashCode` is a
function parameter `hash`, and the hash of `"Footstep"` is a parameter
`footstepHash`. Object identity of clips and keys is their position
`(phase, track, index)`.

## Model

| member | source | states |
|---|---|---|
| AbilitySystems.AbilityEntity.RecordMissingBuffers | Runtime/Systems/AbilitySystems.cs:24-30 | one AddBuffer command for each of the cooldown, cast-request and cue buffers the entity lacks |
| AbilitySystems.DecayAllSpec | Runtime/Systems/AbilitySystems.cs:32-41 | each cooldown entry becomes max(0, Remaining - dt): never negative, never larger for a non-negative tick, exactly dt less while that stays non-negative; ids and order kept |
| AbilitySystems.AbilityEntity.DecrementCooldowns | Runtime/Systems/AbilitySystems.cs:32-41 | the in-place loop leaves exactly the decayed buffer |
| AbilitySystems.FirstSlotIndex | Runtime/Systems/AbilitySystems.cs:50-54 | the first loadout entry with the requested slot, or -1 when none has it |
| AbilitySystems.FindSlot | Runtime/Systems/AbilitySystems.cs:50-54 | the scan with early break returns that first matching index |
| AbilitySystems.FirstDefIndex | Runtime/Systems/AbilitySystems.cs:63-66 | the first definition with the id, or -1 when the id is unknown |
| AbilitySystems.FindDef | Runtime/Systems/AbilitySystems.cs:63-66 | the definition scan returns that first index |
| AbilitySystems.IsOnCooldown | Runtime/Systems/AbilitySystems.cs:57-61 | true iff some entry for the id has Remaining > 0 |
| AbilitySystems.Accepted | Runtime/Systems/AbilitySystems.cs:47-68 | a cast is accepted iff the resolved id is non-zero, not on cooldown and has a definition; the accepted id is that resolved id |
| AbilitySystems.CastStep | Runtime/Systems/AbilitySystems.cs:45-47 | an entity with an active ability or an empty request buffer is left alone and records nothing |
| AbilitySystems.AbilityEntity.HandleCast | Runtime/Systems/AbilitySystems.cs:45-70 | the cast loop body: the new state and commands are those of the cast step |
| AbilityUpdate.CastTakesEffectAtPlayback | Runtime/Systems/AbilitySystems.cs:43-70 | only idle entities with a request are handled; the buffer is cleared on every outcome; an accepted cast becomes ActiveAbility(id, 0, 0, 0) at playback and is not advanced in the same update |
| AbilitySystems.KeyCuesSpec | Runtime/Systems/AbilitySystems.cs:98-114 | one cue per key with prev < Time <= now, carrying the ability id, the key type and the current Elapsed, and nothing else |
| AbilitySystems.AbilityEntity.FireKeys | Runtime/Systems/AbilitySystems.cs:98-114 | the nested key loop appends exactly the window's cues, in track and key order, and changes nothing else |
| AbilitySystems.FiresExactlyOnce | Runtime/Systems/AbilitySystems.cs:85-87 | over consecutive non-negative ticks from TimeInPhase 0, a key with 0 < Time <= the final time fires in exactly one tick, and any other key (one at time 0 included) fires in none |
| AbilitySystems.PhaseTimes | Runtime/Systems/AbilitySystems.cs:85-86 | the times in phase tick after tick start at 0 and have one entry per tick plus one |
| AbilitySystems.StepActiveAdvance | Runtime/Systems/AbilitySystems.cs:85-119 | Elapsed grows by dt; at TimeInPhase >= Duration the phase index increments and TimeInPhase is exactly 0 (the overshoot is dropped), otherwise the phase is kept and its time grows by dt |
| AbilitySystems.StepActiveEnds | Runtime/Systems/AbilitySystems.cs:78-95 | the ability is removed exactly when it ends; a cooldown entry is written exactly when it ends with a known definition whose cooldown is positive; an unknown id is removed with no cooldown |
| AbilityUpdate.ApplyEnd | Runtime/Systems/AbilitySystems.cs:120-135 | playing back an ending tick removes ActiveAbility and appends (id, Cooldown) only for a positive cooldown |
| AbilitySystems.AbilityEntity.AdvanceActive | Runtime/Systems/AbilitySystems.cs:72-128 | the active-ability loop body equals the specification tick on the entity's state |
| AbilitySystems.AbilityEntity.StateMachineUpdate | Runtime/Systems/AbilitySystems.cs:19-129 | the whole OnUpdate of the state machine equals the specification pass |
| AbilityUpdate.ActiveAbilityTick | Runtime/Systems/AbilitySystems.cs:72-128 | with an active ability the cast buffer is untouched; after the update the ability is gone iff the tick ended it, and the cooldown buffer is the old entries decremented plus the ending cooldown |
| AbilityUpdate.CooldownsNeverNegative | Runtime/Systems/AbilitySystems.cs:32-41 | after any update no cooldown entry is negative, and the old entries, decremented, are still in front: entries are only appended |
| AbilitySystems.DispatchCue | Runtime/Systems/AbilitySystems.cs:186-288 | each cue maps to one request of its type's buffer; Footstep uses the fallback id, volume 0.6 and pitch 1 + ParamF.y*0.2 - 0.1 with no attach target; CameraShake has duration 0.2, a positive magnitude and a byte profile id; AnimationEvent is a Trigger |
| AbilitySystems.AbilityEntity.DispatchCues | Runtime/Systems/AbilitySystems.cs:146-164 | the dispatcher for the entity equals the specification dispatch step |
| AbilityUpdate.ApplyRequestBuffers | Runtime/Systems/AbilitySystems.cs:166-184 | the recorded EnsureRequestBuffers commands add an empty buffer for every missing request kind and nothing else |
| AbilityUpdate.ApplyEnsure | Runtime/Systems/AbilitySystems.cs:24-30 | the ensure commands fill exactly the missing cooldown, cast-request and cue buffers, with empty buffers, and touch nothing else |
| AbilityUpdate.ApplyAppends | Runtime/Systems/AbilitySystems.cs:153-160 | appending requests keeps the set of request kinds, and each buffer gains its kind's requests in order |
| AbilityUpdate.ApplyKeepsRequests | Runtime/Systems/AbilitySystems.cs:43-129 | commands that are not request-buffer commands leave the request buffers alone |
| AbilityUpdate.ApplyOnlyRequests | Runtime/Systems/AbilitySystems.cs:166-184 | request-buffer commands change nothing but the request buffers |
| AbilityUpdate.ApplyPassCommands | Runtime/Systems/AbilitySystems.cs:43-135 | the state-machine commands change only the active ability and the cooldowns; cooldowns only grow by appending, and stay non-negative when the appended entries are |
| AbilityUpdate.ApplyStepCommands | Runtime/Systems/AbilitySystems.cs:76-135 | playing back one tick removes the active ability iff the tick ends it and appends its cooldown entry, if any |
| AbilityUpdate.CuesFanOutToRequests | Runtime/Systems/AbilitySystems.cs:151-162 | an empty cue buffer dispatches nothing; otherwise every request kind exists after playback and each buffer is its old contents followed, in cue order, by one request per cue of that kind |
| AbilityUpdate.UpdateEstablishesBuffers | Runtime/Systems/AbilitySystems.cs:24-30 | after any update the entity has all three ability buffers, its cue buffer is empty, and the state machine can run on it again |
| AbilityUpdate.Segments | Runtime/Systems/AbilitySystems.cs:24-43 | the update is the ensure, state-machine and dispatch command segments played back in order after both passes |
| AbilityUpdate.PassKeepsShape | Runtime/Systems/AbilitySystems.cs:43-129 | the state-machine pass never creates or drops an ability buffer; only the ensure commands do |
| AbilitySystems.ApplyCommandsConcat | Runtime/Systems/AbilitySystems.cs:24 | playing back a + b is playing back a, then b |
| AbilitySystems.AbilityEntity.Playback | Runtime/Systems/AbilitySystems.cs:43 | the end-of-simulation playback applies the recorded commands in order; an AddBuffer sets the buffer to empty even when it exists |
| AbilitySystems.AbilityEntity.Update | Runtime/Systems/AbilitySystems.cs:19-164 | one simulation update: state machine, dispatch, then playback, equal to the specification update |
| AbilityClipSystems.ClipWorld.ActivateClips | Runtime/Systems/AbilityClipSystems.cs:29-73 | one CreateClip command per pending request, in order, and every non-empty request buffer is cleared |
| AbilityClipSystems.CreateRequests | Runtime/Systems/AbilityClipSystems.cs:34-70 | the inner request loop emits the CreateClip commands of the whole request list, one per request, in order |
| AbilityClipUpdate.ApplyCreates | Runtime/Systems/AbilityClipSystems.cs:34-54 | each created clip has Elapsed 0 and Flags 0, copies id, type, owner and duration from its request, sits at StartPosition, has an empty cue buffer and a fresh entity number |
| AbilityClipUpdate.ApplyTags | Runtime/Systems/AbilityClipSystems.cs:110-114 | the tag commands tag exactly the clips whose tick completes them |
| AbilityClipUpdate.ApplyDestroys | Runtime/Systems/AbilityClipSystems.cs:259-263 | the cleanup commands remove exactly the tagged clips |
| AbilityClipUpdate.ClipRequestsConsumed | Runtime/Systems/AbilityClipSystems.cs:72 | after an update every existing clip request buffer is empty and the owners are the same entities in the same order |
| AbilityClipSystems.ClipWorld.AdvanceClips | Runtime/Systems/AbilityClipSystems.cs:98-117 | every clip not paused advances; a completing clip is flagged and a destroy tag is recorded for it |
| AbilityClipUpdate.AfterSpec | Runtime/Systems/AbilityClipSystems.cs:103-114 | a surviving clip keeps its id; Elapsed grows by dt unless bit 0 is set; a completing tick adds bit value 2 and the tag; its cues are cleared exactly when non-empty with a live owner |
| AbilityClipUpdate.FlagBits | Runtime/Systems/AbilityClipSystems.cs:112 | Flags with bit value 2 or-ed in keeps bit 0 and has bit 1 set |
| AbilityClipUpdate.PauseBitNeverSet | Runtime/Systems/AbilityClipSystems.cs:45 | no update ever sets the pause bit: new clips start at 0 and ticks add only bit value 2 |
| AbilityClipSystems.FindOwner | Runtime/Systems/AbilityClipSystems.cs:148-149 | the first owner that is the entity, or -1 exactly when it no longer exists |
| AbilityClipSystems.FindOwnerIndex | Runtime/Systems/AbilityClipSystems.cs:148-149 | the existence check returns that index |
| AbilityClipUpdate.RelabelSpec | Runtime/Systems/AbilityClipSystems.cs:156-164 | a clip cue is relabelled with AbilityIdHash = ClipIdHash, ParamF = (cue.ParamF, 0, 0, 0) and TargetSlot 0; type, time and Param0 are kept |
| AbilityClipSystems.DispatchClipCue | Runtime/Systems/AbilityClipSystems.cs:199-235 | only VFX, SFX and AnimationEvent cues give a request, one each, of the matching kind |
| AbilityClipUpdate.ClipRequestsSpec | Runtime/Systems/AbilityClipSystems.cs:153-167 | a clip's cues give exactly one request per VFX, SFX or AnimationEvent cue and none for other types |
| AbilityClipSystems.ClipWorld.RecordEnsure | Runtime/Systems/AbilityClipSystems.cs:173-183 | the VFX, SFX, animation and camera buffers the owner lacks get an AddBuffer command |
| AbilityClipSystems.ClipWorld.DispatchOne | Runtime/Systems/AbilityClipSystems.cs:146-169 | the body for one clip: its new cue buffer and the commands it records |
| AbilityClipSystems.ClipWorld.DispatchClipCues | Runtime/Systems/AbilityClipSystems.cs:142-170 | cues of clips whose owner exists become requests on the owner and their buffer is cleared; the rest are left alone |
| AbilityClipUpdate.CuesKeptWithoutOwner | Runtime/Systems/AbilityClipSystems.cs:146-149 | when the owner no longer exists the clip's cues are neither dispatched nor cleared |
| AbilityClipSystems.ClipWorld.CleanupClips | Runtime/Systems/AbilityClipSystems.cs:259-263 | one DestroyClip command per tagged clip |
| AbilityClipSystems.CleanupAfterPasses | Runtime/Systems/AbilityClipSystems.cs:259-263 | cleanup reads only ids and tags, which the earlier passes of the update leave alone |
| AbilityClipUpdate.ClipDestroyedUpdateAfterCompletion | Runtime/Systems/AbilityClipSystems.cs:110-114 | a clip whose tick completes it is still alive and tagged after that update and gone after the next: never destroyed in the update that completes it |
| AbilityClipUpdate.TaggedGone | Runtime/Systems/AbilityClipSystems.cs:259-263 | a tagged clip is destroyed by the next update |
| AbilityClipUpdate.ClipUpdateSpec | Runtime/Systems/AbilityClipSystems.cs:24-263 | after an update the clips are the untagged old clips, advanced and dispatched, in order, followed by one new clip per pending request |
| AbilityClipUpdate.ClipUpdateValid | Runtime/Systems/AbilityClipSystems.cs:37 | an update keeps clip entity numbers increasing and below the next free number |
| AbilityClipUpdate.SurvivorsMembers | Runtime/Systems/AbilityClipSystems.cs:259-263 | the survivors are exactly the untagged clips, each advanced and dispatched |
| AbilityClipUpdate.SurvivorsOrdered | Runtime/Systems/AbilityClipSystems.cs:259-263 | removal keeps the survivors in increasing entity order and below the bound |
| AbilityClipUpdate.SurvivorsFromPasses | Runtime/Systems/AbilityClipSystems.cs:98-263 | advancing, dispatching, tagging completions and removing the previously tagged clips gives the survivors |
| AbilityClipUpdate.PlaybackSegments | Runtime/Systems/AbilityClipSystems.cs:24-263 | playback of the four systems' commands gives the dispatched clips plus the created ones, tagged and with the old tagged ones removed, and advances the entity counter by the number of requests |
| AbilityClipUpdate.TagAndRemove | Runtime/Systems/AbilityClipSystems.cs:37 | clips created in this update are neither tagged nor removed by it, and stay at the end |
| AbilityClipUpdate.FindOwnerCleared | Runtime/Systems/AbilityClipSystems.cs:72 | clearing the request buffers does not change which owners exist |
| AbilityClipUpdate.OwnerCommandsKeepEntities | Runtime/Systems/AbilityClipSystems.cs:151-183 | owner commands keep the owner list, its entities and its clip requests |
| AbilityClipUpdate.ApplyConcat | Runtime/Systems/AbilityClipSystems.cs:26 | playing back a + b is playing back a, then b |
| AbilityClipSystems.ClipWorld.Playback | Runtime/Systems/AbilityClipSystems.cs:26 | the end-of-simulation playback applies the recorded commands in order; an AddBuffer sets the owner's buffer to empty even when it exists |
| AbilityClipSystems.ClipWorld.Update | Runtime/Systems/AbilityClipSystems.cs:24-263 | one update of the four clip systems equals the specification update |
| ClipRequestDelivery.OwnerAfter | Runtime/Systems/AbilityClipSystems.cs:138-139 | playback keeps the owner list's length and changes each owner exactly as its own commands say |
| ClipRequestDelivery.PlayOwnerConcat | Runtime/Systems/AbilityClipSystems.cs:138-139 | playing back a + b on an owner is playing back a, then b |
| ClipRequestDelivery.PlayKeepsOwner | Runtime/Systems/AbilityClipSystems.cs:173-183 | playback changes nothing of an owner but its request buffers |
| ClipRequestDelivery.PlayOthers | Runtime/Systems/AbilityClipSystems.cs:151-166 | commands addressed to other entities leave an owner unchanged |
| ClipRequestDelivery.PlayEnsure | Runtime/Systems/AbilityClipSystems.cs:173-183 | after the ensure commands recorded against an owner, each kind it lacked in the live world has an empty buffer, replacing any buffer an earlier command made; all other buffers are kept |
| ClipRequestDelivery.PlayAppends | Runtime/Systems/AbilityClipSystems.cs:153-167 | appends to existing buffers keep the buffer kinds and extend each buffer by exactly the requests of its kind, in order |
| ClipRequestDelivery.OfKindNone | Runtime/Systems/AbilityClipSystems.cs:153-167 | a request list with no request of a kind adds nothing to that kind's buffer |
| ClipRequestDelivery.DispatchDropsEarlierRequests | Runtime/Systems/AbilityClipSystems.cs:142-183 | as written: two dispatching clips of an owner without a VFX buffer leave only the second clip's request in it |
| ClipRequestDelivery.FixedDelivers | Runtime/Systems/AbilityClipSystems.cs:142-183 | with the buffers ensured once per owner per pass, an owner no clip reaches is unchanged, and a reached owner gains the four request buffers, each holding its old contents followed by every dispatched request of that kind, in clip order |
| ClipRequestDelivery.FixedKeepsBothRequests | Runtime/Systems/AbilityClipSystems.cs:142-183 | on the same two clips, the corrected dispatch keeps both requests in order |
| AbilityDBBaker.Bake | Runtime/Baker/AbilityDBBaker.cs:20-202 | a null config yields no database; otherwise the database is the bake of every authored ability, in order |
| AbilityDBBaker.BakeShape | Runtime/Baker/AbilityDBBaker.cs:30-67 | as many abilities, phases per ability, tracks per phase and keys per track as authored, in order; cooldowns, durations, key times and clip starts and durations are all >= 0 |
| AbilityDBBaker.BakePhases | Runtime/Baker/AbilityDBBaker.cs:40-49 | one baked phase per authored phase, at the same index |
| AbilityDBBaker.BakeTracks | Runtime/Baker/AbilityDBBaker.cs:48-64 | one baked track per authored track, at the same index |
| AbilityDBBaker.BakeKeys | Runtime/Baker/AbilityDBBaker.cs:66-124 | one baked key per authored key, at the same index |
| AbilityDBBaker.BakeKey | Runtime/Baker/AbilityDBBaker.cs:72-123 | Time is max(0, Time); the type maps name for name; an empty name or param hashes to 0; hitbox data only for Hitbox keys; VFX and SFX data only with both resource and GUID |
| AbilityDBBaker.MapKeyType | Runtime/Baker/AbilityDBBaker.cs:72-81 | a baked key type is never the runtime-only VFX or SFX type |
| AbilityDBBaker.TypeMappingsInjective | Runtime/Baker/AbilityDBBaker.cs:54-64 | the track, key and clip type mappings are injective: name for name |
| AbilityDBBaker.NameHash | Runtime/Baker/AbilityDBBaker.cs:37 | a null or empty string hashes to 0 |
| AbilityDBBaker.ValidClipsSpec | Runtime/Baker/AbilityDBBaker.cs:125-149 | a clip is kept iff it has a valid resource (Custom always); the kept list is no longer than the authored one |
| AbilityDBBaker.ValidClipsConcat | Runtime/Baker/AbilityDBBaker.cs:127-149 | the filter distributes over concatenation, so kept clips keep their relative order |
| AbilityDBBaker.ValidClipsAllValid | Runtime/Baker/AbilityDBBaker.cs:125-149 | a list of clips that all have valid resources is kept whole |
| AbilityDBBaker.FilterClips | Runtime/Baker/AbilityDBBaker.cs:126-149 | the foreach collects exactly the valid clips, in order |
| AbilityDBBaker.BakeClips | Runtime/Baker/AbilityDBBaker.cs:150-191 | one baked clip per kept clip, at the same index |
| AbilityDBBaker.BakeClip | Runtime/Baker/AbilityDBBaker.cs:155-190 | Start and Duration are max(0, ...); the type maps name for name; only the GUID hash of the clip's own type can be non-zero |
| AbilityConfigSO.NewAbilityShape | Runtime/Core/AbilityConfigSO.cs:119-195 | a new ability has cooldown 1 and one enabled phase of duration 1 holding one unmuted Animation track with no clips and one Hitbox key at 0.05 |
| AbilityConfigSO.Duration | Runtime/Core/AbilityConfigSO.cs:248-270 | Custom gives ParamF.x if positive else 0.25; Animation and SFX without a resource give 0.25; VFX without a prefab or particle system gives 1 |
| AbilityConfigSO.DurationPositive | Runtime/Core/AbilityConfigSO.cs:250-270 | a clip's duration is positive iff its resource's length is; every fallback is positive |
| AbilityConfigSO.SyncGuidSpec | Runtime/Core/AbilityConfigSO.cs:28-41 | one GUID field after sync agrees with its resource; it changes iff it was stale; a field in sync is left alone |
| AbilityConfigSO.SyncTrackSpec | Runtime/Core/AbilityConfigSO.cs:24-105 | a synced track has every key and clip GUID in sync, and an in-sync track is unchanged |
| AbilityConfigSO.SyncPhaseSpec | Runtime/Core/AbilityConfigSO.cs:19-107 | the same for a phase |
| AbilityConfigSO.SyncAbilitySpec | Runtime/Core/AbilityConfigSO.cs:16-108 | the same for an ability |
| AbilityConfigSO.SyncAllSpec | Runtime/Core/AbilityConfigSO.cs:16-108 | after sync every GUID agrees with its resource; an in-sync tree is unchanged; so a second sync changes nothing |
| AbilityConfigSO.ValidateKey | Runtime/Core/AbilityConfigSO.cs:26-56 | the key's two GUID fields are synced and dirty is reported iff the key changed |
| AbilityConfigSO.ValidateClip | Runtime/Core/AbilityConfigSO.cs:60-104 | the clip's three GUID fields are synced and dirty is reported iff the clip changed |
| AbilityConfigSO.ValidateTrack | Runtime/Core/AbilityConfigSO.cs:22-106 | the track is synced and dirty is reported iff it changed |
| AbilityConfigSO.ValidatePhase | Runtime/Core/AbilityConfigSO.cs:19-107 | the phase is synced and dirty is reported iff it changed |
| AbilityConfigSO.ValidateAbility | Runtime/Core/AbilityConfigSO.cs:16-108 | the ability is synced and dirty is reported iff it changed |
| AbilityConfigSO.AbilityConfig.OnValidate | Runtime/Core/AbilityConfigSO.cs:12-114 | the list becomes its synced form, and SetDirty is requested iff something changed |
| PrefabGuidUtility.GetGuid | Runtime/Utils/PrefabGuidUtility.cs:16-44 | both overloads give the empty string for a null asset |
| PrefabGuidUtility.IsValidGuid | Runtime/Utils/PrefabGuidUtility.cs:63-72 | false for null or empty input and for a length other than 32; true iff 32 characters, all hex digits |
| PrefabGuidUtility.GuidToHash | Runtime/Utils/PrefabGuidUtility.cs:76-80 | 0 for null or empty input, otherwise the string's hash |
| TrackTypeRules.DefaultKeyType | Editor/Utils/TrackTypeRules.cs:120-133 | the default key type of every track type is one the track accepts |
| TrackTypeRules.DefaultClipType | Editor/Utils/TrackTypeRules.cs:137-146 | the default clip type is accepted iff the track is not a Hitbox track |
| TrackTypeRules.HitboxTrackRules | Editor/Utils/TrackTypeRules.cs:19-21 | a Hitbox track accepts no clip type and only the Hitbox key type |
| TrackTypeRules.CustomTrackAcceptsAll | Editor/Utils/TrackTypeRules.cs:44-50 | a Custom track accepts all four clip types and all six key types |
| TrackTypeRules.KeyTypesNeverEmpty | Editor/Utils/TrackTypeRules.cs:57-101 | every track type accepts some key type; Signal is accepted everywhere but on Hitbox tracks |
| TrackTypeRules.DefaultTrackKeyNotAllowed | Runtime/Core/AbilityConfigSO.cs:153-164 | a new track is an Animation track holding a Hitbox key, which the rules do not allow on it |
| TimelineState.SelItemEquality | Editor/Core/TimelineState.cs:45-77 | items are equal iff P, T, K and C are, and C defaults to -1 |
| TimelineState.SelectionState.Clear | Editor/Core/TimelineState.cs:38-43 | no selection kind, every index -1, an empty multi-selection |
| TimelineState.SelectAbility | Editor/Core/TimelineState.cs:144-153 | no current ability iff there is no config or the index is out of range; otherwise the ability at the index |
| TimelineState.TotalDurationOf | Editor/Core/TimelineState.cs:154-165 | 1 without an ability, else the sum of phase durations when that is at least 0.001, and exactly 0.001 otherwise |
| TimelineState.PhaseStartOffsetStep | Editor/Core/TimelineState.cs:210-221 | phase 0 starts at 0 and each phase starts where the previous one ends |
| TimelineState.LastPhaseEnds | Editor/Core/TimelineState.cs:210-221 | the last phase ends at the sum of all durations |
| TimelineState.ValidRange | Editor/Core/TimelineState.cs:225-234 | the range ends clamped into the duration and put in order: 0 <= in <= out <= duration; a valid range is kept |
| TimelineState.ValidRangeIdempotent | Editor/Core/TimelineState.cs:225-234 | making a range valid twice is the same as once |
| TimelineState.TimelineState.EnsureRangeValid | Editor/Core/TimelineState.cs:225-234 | the range becomes valid for TotalDuration and the other playback fields stay |
| TimelineState.TimelineState.EnsurePlayheadInRange | Editor/Core/TimelineState.cs:238-247 | nothing changes without a range; otherwise the range is made valid and the playhead clamped into it |
| TimelineState.GridSnap | Editor/Core/TimelineController.cs:274-279 | snapping to the grid moves a time by at most half a grid step |
| TimelineState.ViewState.Step | Editor/Core/TimelineController.cs:276 | the grid step is always positive |
| TimelineState.DataState.SetCurrentAbility | Editor/Core/TimelineState.cs:144-153 | an edit of the current ability lands in the config at its index, and no other ability changes |
| TimelineController.Toggled | Editor/Core/TimelineController.cs:163-175 | the first occurrence of the item is removed, or the item is appended when absent |
| TimelineController.ToggleTwice | Editor/Core/TimelineController.cs:163-175 | toggling an absent item twice restores the list |
| TimelineController.SelectionController.SelectKey | Editor/Core/TimelineController.cs:102-112 | a key selection whose multi-selection is exactly that key |
| TimelineController.SelectionController.SelectClip | Editor/Core/TimelineController.cs:114-122 | a clip selection with an empty multi-selection |
| TimelineController.SelectionController.SelectPhase | Editor/Core/TimelineController.cs:124-130 | a phase selection with an empty multi-selection |
| TimelineController.SelectionController.SelectTrack | Editor/Core/TimelineController.cs:132-139 | a track selection with an empty multi-selection |
| TimelineController.SelectionController.AddToSelection | Editor/Core/TimelineController.cs:141-161 | no-op without an ability; otherwise a lone primary key is copied in first, then the item is appended without de-duplication and becomes primary |
| TimelineController.SelectionController.ToggleSelection | Editor/Core/TimelineController.cs:163-193 | the item is removed or appended; the first entry becomes primary, or the selection is cleared when the list empties |
| TimelineController.SelectionController.ClearSelection | Editor/Core/TimelineController.cs:214-218 | the selection is cleared |
| TimelineController.BoundPlayhead | Editor/Core/TimelineController.cs:286-326 | in-range playheads are kept; looping wraps into [in, in + len); otherwise the playhead is clamped to the bound it crossed and playback stops; without a range only the end is checked |
| TimelineController.LoopWrapExample | Editor/Core/TimelineController.cs:293-297 | 2.9 + 0.3 in the looping range [1, 3] wraps to 1.2 |
| TimelineController.PlaybackController.TogglePlay | Editor/Core/TimelineController.cs:237-248 | IsPlaying flips; pausing snaps the playhead to the grid even with Snap off |
| TimelineController.PlaybackController.Stop | Editor/Core/TimelineController.cs:250-255 | not playing, playhead 0 |
| TimelineController.PlaybackController.SetPlayhead | Editor/Core/TimelineController.cs:257-261 | the playhead is the time clamped into [0, TotalDuration] |
| TimelineController.PlaybackController.SetPlayheadFromGlobalTime | Editor/Core/TimelineController.cs:263-270 | snapped first only when Snap is on, then clamped |
| Mathf.Clamp | Editor/Core/TimelineController.cs:259 | the result is within [lo, hi] when lo <= hi, is the value itself when inside, lo below lo, and hi above hi when not below lo |
| Mathf.Round | Editor/Core/TimelineController.cs:277 | the nearest integer, within half of the value, exact on integers, and the even neighbour on a tie |
| Mathf.Repeat | Editor/Core/TimelineController.cs:296 | the result lies in [0, len) and is the value itself when already there |
| TimelineController.PlaybackController.UpdatePlayback | Editor/Core/TimelineController.cs:281-329 | the playhead advances by deltaTime * Speed and is then bounded as BoundPlayhead says; with a range, the range is made valid first |
| TimelineController.TimelineController.Update | Editor/Core/TimelineController.cs:42-58 | playback advances only while playing, by the clock difference; in preview mode the preview is resampled at the playhead on every call |
| TimelineController.TimelineController.PlayFrame | Editor/Core/TimelineController.cs:48-53 | the playhead moves by the scaled clock difference and is bounded by the range or the total, playback stops where the bounding says so, and the view scrolls to keep the playhead visible |
| TimelineController.FollowScroll | Editor/Core/TimelineController.cs:60-80 | afterwards the playhead is inside the viewport a margin from each edge, unless near time 0; a visible playhead leaves the scroll alone |
| TimelineController.TimelineController.EnsurePlayheadVisible | Editor/Core/TimelineController.cs:60-80 | the scroll follows the playhead; zoom and snap settings stay |
| TimelineController.ZoomView | Editor/Core/TimelineController.cs:369-380 | pixels-per-second stays in [50, 600] and the scroll stays >= 0 |
| TimelineController.ZoomKeepsCursorTime | Editor/Core/TimelineController.cs:369-380 | when the scroll needs no clamping, the time under the cursor is the same before and after |
| TimelineController.EditController.Zoom | Editor/Core/TimelineController.cs:369-380 | the view takes the zoomed values |
| TimelineController.EditController.StartPanning | Editor/Core/TimelineController.cs:346-351 | panning starts at the mouse position |
| TimelineController.EditController.UpdatePanning | Editor/Core/TimelineController.cs:353-361 | only while panning, the scroll follows the mouse's horizontal motion and stays >= 0 |
| TimelineController.EditController.StopPanning | Editor/Core/TimelineController.cs:363-367 | panning stops |
| TimelineController.InitialTimes | Editor/Core/TimelineController.cs:410-420 | the recorded times are exactly those of the selected items whose key exists, each that key's time |
| TimelineController.RecordInitialTimes | Editor/Core/TimelineController.cs:410-420 | the loop records those times |
| TimelineController.EditController.BeginGroupDrag | Editor/Core/TimelineController.cs:382-427 | an active drag is ended first; with an ability, a lone primary key is copied into the empty multi-selection and the existing selected keys' times are recorded |
| TimelineController.SnapClamp | Editor/Core/TimelineController.cs:456-460 | the result is in [0, max(0, duration)]; without snap an in-phase time is kept; with snap it moves by at most half a step |
| TimelineController.DragAbility | Editor/Core/TimelineController.cs:440-466 | each processed recorded key gets SnapClamp(base + delta) in its phase; every other key and field is kept |
| TimelineController.DragStep | Editor/Core/TimelineController.cs:440-466 | one more recorded entry moves exactly its own key, if that key still exists |
| TimelineController.DragNone | Editor/Core/TimelineController.cs:429-470 | with nothing processed the ability is unchanged |
| TimelineController.EditController.UpdateGroupDrag | Editor/Core/TimelineController.cs:429-470 | no-op unless dragging with an ability; otherwise every recorded key that exists is set to its dragged time |
| TimelineController.DragRecordedKeys | Editor/Core/TimelineController.cs:446-465 | the loop over the recorded start times yields the ability in which every recorded key that exists sits at its snapped and clamped dragged time and nothing else moved |
| TimelineController.EditController.EndGroupDrag | Editor/Core/TimelineController.cs:472-477 | not dragging, nothing recorded |
| TimelineController.EditController.AddPhase | Editor/Core/TimelineController.cs:489-502 | with an ability and config, one default phase is appended |
| TimelineController.PhaseDeleted | Editor/Core/TimelineController.cs:504-514 | bounds-checked: out of range is a no-op; otherwise one phase fewer, the rest as a multiset |
| TimelineController.EditController.DeletePhase | Editor/Core/TimelineController.cs:504-514 | the current ability becomes PhaseDeleted of it |
| TimelineController.PhaseMoved | Editor/Core/TimelineController.cs:516-531 | a no-op when either index is out of range; otherwise a permutation with the phase at i + delta |
| TimelineController.PhaseMoveBack | Editor/Core/TimelineController.cs:516-531 | moving by delta then by -delta restores the ability |
| TimelineController.EditController.MovePhase | Editor/Core/TimelineController.cs:516-531 | the current ability becomes PhaseMoved of it |
| TimelineController.EditController.AddTrackToPhase | Editor/Core/TimelineController.cs:533-548 | a default track is appended to a valid phase; otherwise nothing |
| TimelineController.TrackDeleted | Editor/Core/TimelineController.cs:550-563 | bounds-checked removal in one phase, other phases untouched |
| TimelineController.EditController.DeleteTrack | Editor/Core/TimelineController.cs:550-563 | the current ability becomes TrackDeleted of it |
| TimelineController.TrackMoved | Editor/Core/TimelineController.cs:565-583 | a no-op when an index is out of range; otherwise a permutation of the phase's tracks with the track at t + delta |
| TimelineController.EditController.MoveTrack | Editor/Core/TimelineController.cs:565-583 | the current ability becomes TrackMoved of it |
| ListOps.RemoveAt | Editor/Core/TimelineController.cs:511 | the item goes and the others close up in order |
| ListOps.Insert | Editor/Core/TimelineController.cs:526-527 | the item lands at the index and later items move up |
| ListOps.Move | Editor/Core/TimelineController.cs:516-531 | remove then insert is a permutation with the item at its new index |
| ListOps.MoveBack | Editor/Core/TimelineController.cs:516-531 | moving and moving back restores the list |
| ListOps.MoveShifts | Editor/Core/TimelineController.cs:526-527 | items between the old and new index shift by one toward the old index; the others stay |
| ListOps.IndexOf | Editor/Core/TimelineController.cs:168 | the first index holding the item, as List.Remove looks it up |
| ListOps.RemoveFirst | Editor/Core/TimelineController.cs:168-170 | List.Remove drops one occurrence when present and is a no-op otherwise |
| Preview.ActiveClips | Editor/Preview/PreviewController.cs:122-152 | exactly the clips of enabled phases containing the time, of live tracks (enabled, not muted, solo when any is), whose span [Start, Start + Duration) holds the local time |
| Preview.ActiveKeys | Editor/Preview/PreviewController.cs:122-165 | exactly the keys of live phases and tracks within 0.1 of the time |
| Preview.ActiveClipLocalTime | Editor/Preview/PreviewController.cs:134-151 | an active clip's recorded local time lies in [0, Duration), and start + local time is the sampled time |
| Preview.SkippedTrackContributesNothing | Editor/Preview/PreviewController.cs:131-133 | a disabled or muted track, or a non-solo one beside a solo track, contributes nothing |
| Preview.TrackClips | Editor/Preview/PreviewController.cs:134-152 | the clip loop of one track records exactly its live clips |
| Preview.TrackKeys | Editor/Preview/PreviewController.cs:153-165 | the key loop of one track records exactly its keys within the window |
| Preview.PhaseClips | Editor/Preview/PreviewController.cs:129-166 | the track loop of one phase records exactly the live clips of its live tracks |
| Preview.PhaseKeys | Editor/Preview/PreviewController.cs:129-166 | the same for keys |
| Preview.PreviewController.CollectActive | Editor/Preview/PreviewController.cs:122-167 | the loops of Sample produce exactly the active clips and keys |
| Preview.PreviewController.CollectPhase | Editor/Preview/PreviewController.cs:129-166 | the track loop for one phase |
| Preview.PreviewController.CollectTrack | Editor/Preview/PreviewController.cs:134-165 | the clip and key loops for one track |
| Preview.PreviewController.CollectTrackClips | Editor/Preview/PreviewController.cs:134-152 | the clips recorded for a track are exactly those whose span holds the phase-local time, in list order, with their global start and local time |
| Preview.PreviewController.CollectTrackKeys | Editor/Preview/PreviewController.cs:153-165 | the keys recorded for a track are exactly those within 0.1 s of the time, in list order |
| Preview.PreviewController.Sample | Editor/Preview/PreviewController.cs:105-182 | nothing changes unless in preview mode with a target; otherwise both lists are rebuilt as the active sets and the instances are reconciled with the VFX and SFX clips |
| Preview.PreviewController.CollectSamples | Editor/Preview/PreviewController.cs:170-178 | the samples handed to the instance manager are the VFX and SFX entries among the active clips, in order |
| Preview.CreateInstance | Editor/Preview/PreviewController.cs:295-306 | an instance exactly for VFX and SFX clips, none for other types |
| Preview.InstanceSamples | Editor/Preview/PreviewController.cs:170-178 | only VFX and SFX clips are passed, each active one of them |
| Preview.WithCreatedKeys | Editor/Preview/PreviewController.cs:262-277 | after the first loop a clip has an instance iff it had one or its creation succeeded |
| Preview.ReconcileKeys | Editor/Preview/PreviewController.cs:259-286 | after UpdateClips the instances are exactly for the passed clips whose instance existed or was created; existing ones are reused |
| Preview.ReconcileInstancedKeys | Editor/Preview/PreviewController.cs:259-286 | when every passed clip can be instanced, the map's keys are exactly the passed clips |
| Preview.SampledInstances | Editor/Preview/PreviewController.cs:168-180 | after a sample the live instances are exactly the active VFX and SFX clips |
| Preview.PreviewClipInstanceManager.UpdateClips | Editor/Preview/PreviewController.cs:259-286 | the map becomes the reconciled map |
| Preview.PreviewClipInstanceManager.DestroyStale | Editor/Preview/PreviewController.cs:278-285 | every stale instance is destroyed and removed |
| Preview.PreviewClipInstanceManager.ClearAll | Editor/Preview/PreviewController.cs:287-294 | the map is emptied |
| Preview.PreviewController.EnterPreviewMode | Editor/Preview/PreviewController.cs:71-85 | succeeds at once in preview mode, fails without a target, else turns preview on |
| Preview.PreviewController.ExitPreviewMode | Editor/Preview/PreviewController.cs:89-101 | outside preview mode nothing; otherwise instances, flag and both lists are cleared |
| Preview.PreviewController.SetPreviewTarget | Editor/Preview/PreviewController.cs:50-67 | switching target leaves preview mode first; a target gets a fresh empty instance manager |
| TimelineView.SortDesc | Editor/Views/TimelineView.cs:173-178 | the sort is a permutation of the targets |
| TimelineView.SortSorted | Editor/Views/TimelineView.cs:173-178 | the result is in descending (p, t, k) order |
| TimelineView.SortDistinct | Editor/Views/TimelineView.cs:173-178 | distinct targets sort into strictly descending order |
| TimelineView.DeleteKeys | Editor/Views/TimelineView.cs:182-198 | the removal loop counts at most one deletion per target |
| TimelineView.Filtered | Editor/Views/TimelineView.cs:182-198 | removing a set of keys keeps every phase and track |
| TimelineView.FilterStep | Editor/Views/TimelineView.cs:188-194 | a target below every removed one in its track is in range iff it was originally, and removing it extends the removed set |
| TimelineView.DeleteSortedExactly | Editor/Views/TimelineView.cs:182-198 | in strictly descending order the loop removes exactly the targets naming a key, keeps every other key in order, and counts the removed ones |
| TimelineView.DeleteSelectedExactly | Editor/Views/TimelineView.cs:166-198 | with distinct selected triples, exactly the selected keys that exist are deleted and counted |
| TimelineView.DuplicateRemovesNeighbour | Editor/Views/TimelineView.cs:173-198 | as written: a selection repeating one existing key, with a key after it on the track, names one key but deletes two |
| TimelineView.Dedup | Editor/Views/TimelineView.cs:166-170 | the selected triples without repeats: no triple twice and the same triples as the selection |
| TimelineView.DeleteDedupExactly | Editor/Views/TimelineView.cs:166-198 | with repeats dropped before sorting, exactly the selected keys that exist are deleted and counted, for every selection |
| TimelineView.TimelineView.DeleteSelectedKeys | Editor/Views/TimelineView.cs:157-204 | no-op without an ability; otherwise sort, remove in range, count, then clear the selection |
| TimelineView.CollectTargets | Editor/Views/TimelineView.cs:166-170 | the delete list holds the (phase, track, key) triple of every selected entry, in selection order |
| TimelineView.RemoveTargets | Editor/Views/TimelineView.cs:181-198 | the removal loop agrees with the reference deletion: each in-range triple is removed and counted in list order, out-of-range ones are skipped |
| TimelineView.TimelineView.OnKeyDown | Editor/Views/TimelineView.cs:143-155 | deletion runs iff the key is Delete and the selection is a non-empty key multi-selection |
| TrackElement.MuteToggled | Editor/Elements/TrackElement.cs:98-106 | Mute flips; turning it on clears Solo; they are never both on; nothing else changes |
| TrackElement.SoloToggled | Editor/Elements/TrackElement.cs:110-118 | Solo flips; turning it on clears Mute; nothing else changes |
| TrackElement.LockToggled | Editor/Elements/TrackElement.cs:122-128 | Lock flips and nothing else changes |
| TrackElement.StatusExclusive | Editor/Elements/TrackElement.cs:98-128 | from a track without both flags, no button press sets both; Lock twice is the identity |
| TrackElement.ToggleTwiceRestores | Editor/Elements/TrackElement.cs:98-118 | Mute twice restores the track iff Solo was off, and Solo twice iff Mute was off |
| TrackElement.TrackHeader.ToggleMute | Editor/Elements/TrackElement.cs:98-106 | the track becomes MuteToggled of itself |
| TrackElement.TrackHeader.ToggleSolo | Editor/Elements/TrackElement.cs:110-118 | the track becomes SoloToggled of itself |
| TrackElement.TrackHeader.ToggleLock | Editor/Elements/TrackElement.cs:122-128 | the track becomes LockToggled of itself |
| TrackElement.TrackRow.OnMouseDown | Editor/Elements/TrackElement.cs:441-525 | nothing for another button or a locked track; a key press selects and starts a drag; a double click adds a Hitbox key at the placed time without the rules; a clip press starts a clip drag; else a pending click |
| TrackElement.TrackRow.PressKey | Editor/Elements/TrackElement.cs:460-486 | the selection follows the modifiers, then a key drag and a group drag start |
| TrackElement.TrackRow.SelectPressedKey | Editor/Elements/TrackElement.cs:462-477 | the selection stays valid; without Ctrl, or when the key was not selected, the key ends up selected; with Shift alone it becomes the primary selection |
| TrackElement.TrackRow.PressClip | Editor/Elements/TrackElement.cs:506-516 | the clip is selected and a clip drag starts from its start time |
| TrackElement.TrackRow.Snap | Editor/Elements/TrackElement.cs:942-947 | the time itself without Snap; within half a grid step with it |
| TrackElement.TrackRow.DragClip | Editor/Elements/TrackElement.cs:563-593 | the start follows the mouse, snapped, clamped to [0, max(0, phase - clip duration)], written only when it moves by more than 0.0001 |
| TrackElement.TrackRow.DraggedStart | Editor/Elements/TrackElement.cs:576-583 | the dragged start is the snapped and clamped start, and lies in [0, max(0, room)] |
| TrackElement.DraggedClipFits | Editor/Elements/TrackElement.cs:583 | a dragged clip starts at or after 0 and, when it fits at all, ends by the phase's end |
| TrackElement.ClipMoved | Editor/Elements/TrackElement.cs:586 | only that clip's start changes |
| TrackElement.WithSameClip | Editor/Elements/TrackElement.cs:584-588 | writing back the same start changes nothing |
| TrackElement.TrackRow.DeleteKey | Editor/Elements/TrackElement.cs:949-964 | an in-range key is removed; otherwise nothing |
| TrackElement.TrackRow.DeleteClip | Editor/Elements/TrackElement.cs:966-988 | an in-range clip is removed and the selection cleared iff it was that clip; otherwise nothing |
| TrackElement.ClipRemoved | Editor/Elements/TrackElement.cs:977 | the track's clips lose the one at the index; other tracks untouched |
| TrackElement.Duplicate | Editor/Elements/TrackElement.cs:998-1015 | the copy takes type, names, params and colour, is 0.1 later, and has new-key defaults elsewhere |
| TrackElement.DuplicateFaithful | Editor/Elements/TrackElement.cs:998-1015 | a duplicate equals the original shifted by 0.1 iff the original holds defaults in every field not copied |
| TrackElement.TrackRow.DuplicateKey | Editor/Elements/TrackElement.cs:990-1016 | one copy is appended, unclamped, when the index is in range |
| TrackElement.KeyAdded | Editor/Elements/TrackElement.cs:1042 | one key appended to one track; all other tracks, keys and clips kept |
| TrackElement.TrackRow.AppendKey | Editor/Elements/TrackElement.cs:1042 | the current ability gains the key on this row's track, and only the current ability changes |
| TrackElement.AddKeyThenDelete | Editor/Elements/TrackElement.cs:949-964 | deleting the key just added restores the ability |
| TrackElement.TrackRow.AddKeyAtPosition | Editor/Elements/TrackElement.cs:1018-1047 | a key of the track's default type at the snapped and clamped time |
| TrackElement.ClipAdded | Editor/Elements/TrackElement.cs:1089 | one clip appended to one track; all else kept |
| TrackElement.AddClipThenDelete | Editor/Elements/TrackElement.cs:966-988 | deleting the clip just added restores the ability |
| TrackElement.PlannedClip | Editor/Elements/TrackElement.cs:1068-1078 | the chosen type at the start, no resource, Custom with ParamF.x 0.25; its length is 1 for VFX, else 0.25 |
| TrackElement.AcceptedClipFits | Editor/Elements/TrackElement.cs:1056-1088 | an accepted clip lies inside its phase, and a Hitbox track never accepts one |
| TrackElement.TrackRow.AddClipAtPosition | Editor/Elements/TrackElement.cs:1049-1095 | refused for a type the track disallows or a clip ending after the phase; otherwise exactly one clip appended and selected at the last index |
| TrackElement.TrackOf | Editor/Elements/TrackElement.cs:565-570 | a track exists iff there is an ability and the indices are in range |

## Findings

| source | as written | input that shows it | evidently intended | confidence | as-written member | corrected member |
|---|---|---|---|---|---|---|
| Runtime/Systems/AbilityClipSystems.cs:151 | EnsureRequestBuffers asks the live world, which playback has not yet changed, so every dispatching clip of an owner lacking a buffer records its own AddBuffer after the earlier clips' appends, and AddBuffer empties the buffer at playback | one owner with no request buffers and two clips with one VFX cue each in the same update: the VFX buffer ends as [r2] | the owner's buffer holds [r1, r2] | not executed | ClipRequestDelivery.DispatchDropsEarlierRequests | ClipRequestDelivery.FixedDelivers |
| Editor/Views/TimelineView.cs:182-194 | the removal loop removes each collected triple once per occurrence, and shift-clicking a selected key adds it to the multi-selection again (Editor/Core/TimelineController.cs:154-155) | a selection holding key k of a track twice, where the track also has key k + 1: two keys are deleted and counted | each selected key is deleted once | not executed | TimelineView.DuplicateRemovesNeighbour | TimelineView.DeleteDedupExactly |

## Left out

- Unity and editor services are not modelled: Undo, SetDirty, the `Notify*` events, dialogs, `MarkDirtyRepaint`, `SceneView.RepaintAll` and log output. `OnValidate` reports `dirty` in place of calling SetDirty.
- AnimationMode sampling, and the `Sample`/`Destroy` effects of the VFX and SFX clip instances, are left out. The model keeps only which instances exist.
- ECS scheduling, Burst and queries are not modelled. Within each update, the ability systems run in their declared order, and so do the clip systems. Entity iteration is in list order.
- AbilitySystems.AbilityEntity.Update and AbilityClipSystems.ClipWorld.Update are modelled with separate entities and separate playbacks. In the source both write to the end-of-simulation command buffers and share the owner entity, and the clip systems run after AbilityCueDispatchSystem (Runtime/Systems/AbilityClipSystems.cs:14). So the model does not capture one reset across the two systems. Suppose an owner without request buffers fires an ability VFX cue and one of its clips fires a VFX cue in the same frame. Both systems then record an AddBuffer, because both consult the live world (Runtime/Systems/AbilitySystems.cs:148-184, Runtime/Systems/AbilityClipSystems.cs:173-183). At playback the clip system's AddBuffer empties the buffer after the ability's request was appended, so only the clip's request remains. This is the same cause as the first finding.
- The `Position` and `Heading` lookups and `quaternion.LookRotationSafe` are left out. Position and rotation are opaque values stored on the entity and copied into requests.
- `AbilityKeyHandlerSystems.cs` is not part of this model. Its handlers only drain request buffers.
- String hashing is the parameter `hash`. `AssetDatabase` is modelled only through the asset's recorded GUID. `LoadPrefabFromGuid` is not part of this model.
- IEEE-754 rounding is not modelled: times are reals. Epsilons such as 0.0001 and 0.1 are kept.
- Painting, hit-testing and pixel geometry are left out. `OnMouseDown` takes the hit key or clip, the click count and the local and global times as inputs.
- Box selection, pending-click promotion to a box select, `OnMouseUp`, the context menus, `BoxHitTest` and the key-drag branch of `OnMouseMove` are left out. The key-drag branch only calls `UpdateGroupDrag`, which is modelled.
- The inspector's field clamps are not modelled.
- Aliasing of the nested authored objects is not modelled. The authored tree is a value, and an edit writes an updated copy of the current ability back into the config.
- Object identity (`Dictionary<Clip, ...>`, `IndexOf` on phases, the track captured by a header closure) is modelled by positions `(phase, track, index)` taken when the action happens.
- `List.Sort` with the descending comparison is modelled as an insertion sort, `SortDesc`. Only its result is modelled, not the algorithm's steps.
- `TimelineController.EditController.Zoom` requires pixels-per-second > 0. The source divides by it, and the view keeps it in [50, 600].
- `TrackElement.TrackRow.DragClip` requires pixels-per-second > 0, for the same division.
- `AbilityConfigSO.Duration`: the resource lengths (animation or audio clip length, particle system duration plus start lifetime) are unconstrained fields of the asset model.
- `PrefabGuidUtility.GetGuid`: for a live asset the result is the asset's recorded GUID. The asset-path lookup and its empty-path case are not modelled.
- `TrackElement.TrackRow.AddKeyAtPosition`: the refusal when no key type is allowed is omitted, because `TrackTypeRules.KeyTypesNeverEmpty` proves it unreachable.
- TimelineView.DeleteSelectedExactly: stated only for distinct selected triples. `AddToSelection` can repeat an item, and a repeated triple removes a neighbouring key (see the findings). `DeleteKeys` and `TimelineView.TimelineView.DeleteSelectedKeys` model that case as written.
- AbilitySystems.Runnable: the model excludes the first-frame inputs on which the source throws. An entity whose first cast request resolves to a non-zero id but which has no cooldown buffer yet makes `GetBuffer` at Runtime/Systems/AbilitySystems.cs:57 throw, because the AddBuffer command recorded for it is played back only at the end of the update.
- TrackElement.TrackRow.Placed: the model excludes the inputs on which the source throws. A phase or track index out of range makes the list indexing at Editor/Elements/TrackElement.cs:448-449, 568-569 and 954-955 throw.
- The track header's "add key at start" menu is left out. It appends a Signal key at time 0 without consulting `TrackTypeRules`, even on a Hitbox track (Editor/Elements/TrackElement.cs:184-194).
- AbilityClipSystems.ClipWorld.Update: the dispatch pass is modelled as written, so it drops earlier requests as the finding above describes. The corrected dispatch, `ClipRequestDelivery.FixedDispatchCommands`, is stated and proved separately and is not wired into the update.
- The editor-only display fields of phases and tracks (name, colour, markers) are not part of the authored model. `TimelineController.EditController.AddPhase` therefore drops the "Phase n" name and the random colour the source gives a new phase (Editor/Core/TimelineController.cs:494-498). `TimelineController.EditController.AddTrackToPhase` drops the "Track n" name (Editor/Core/TimelineController.cs:541-545).
- AbilitySystems.ApplyCommand: an append to a buffer the entity lacks is skipped, where Unity's command-buffer playback would throw. `AbilityUpdate.UpdateEstablishesBuffers` shows that every modelled update creates the buffers before anything appends to them. `AbilityClipSystems.ApplyToOwner` skips the same case: every append there follows the ensure commands recorded for its owner.
- The runtime's null-config check is folded into the option types. A null list counts as empty, and a null string is `None`.

=== FILE: ability_clip_systems.dfy ===
/**
 * The clip sub-engine: ClipActivationSystem, ClipStateMachineSystem,
 * ClipCueDispatchSystem and ClipCleanupSystem, run in that order within one
 * simulation update, followed by playback of their end-of-simulation command
 * buffers in the order they were created.
 *
 * Nothing in this part of the system fills the ClipActivateRequest buffers
 * of the owners or the ClipCueEvent buffers of the clips: their contents at
 * the start of an update are inputs.
 */
module AbilityClipSystems {
  import opened Wrappers
  import opened UnityTypes
  import opened AbilityDB
  import opened AbilityComponents

  /** An entity that owns clips: its clip request buffer (if any) and its request buffers by kind. */
  datatype Owner = Owner(
    entity: Entity,
    position: Vec3,
    rotation: Quat,
    clipRequests: Option<seq<ClipActivateRequest>>,
    requests: map<RequestKind, seq<Request>>)

  /** A clip entity: its ActiveClip, Position, ClipCueEvent buffer and whether it carries ClipPendingDestroyTag. */
  datatype ClipEntity = ClipEntity(id: Entity, clip: ActiveClip, position: Vec3, cues: seq<ClipCueEvent>, tagged: bool)

  /** The owners, the live clip entities in creation order, and the index the next created entity gets. */
  datatype World = World(owners: seq<Owner>, clips: seq<ClipEntity>, nextIndex: int)

  /** Clip entities are created with increasing indices, all below nextIndex. */
  predicate ValidWorld(w: World)
  {
    (forall i, j :: 0 <= i < j < |w.clips| ==> w.clips[i].id.index < w.clips[j].id.index) &&
    (forall i :: 0 <= i < |w.clips| ==> w.clips[i].id.index < w.nextIndex)
  }

  datatype ClipCommand =
    | CreateClip(clip: ActiveClip, position: Vec3)
    | TagPendingDestroy(id: Entity)
    | DestroyClip(id: Entity)
    | AddRequestBuffer(owner: Entity, kind: RequestKind)
    | AppendRequest(owner: Entity, request: Request)

  // ---------------------------------------------------------------------
  // Playback

  function SetTag(clips: seq<ClipEntity>, ids: set<Entity>): seq<ClipEntity>
  {
    seq(|clips|, i requires 0 <= i < |clips| => clips[i].(tagged := clips[i].tagged || clips[i].id in ids))
  }

  /** The clips whose id is not in `ids`, in order. */
  function Without(clips: seq<ClipEntity>, ids: set<Entity>): seq<ClipEntity>
  {
    if clips == [] then []
    else Without(clips[..|clips| - 1], ids) + (if clips[|clips| - 1].id in ids then [] else [clips[|clips| - 1]])
  }

  function ApplyToOwner(o: Owner, c: ClipCommand): Owner
  {
    match c
    case AddRequestBuffer(e, k) => if o.entity == e then o.(requests := o.requests[k := []]) else o
    case AppendRequest(e, r) =>
      if o.entity == e && KindOf(r) in o.requests then o.(requests := o.requests[KindOf(r) := o.requests[KindOf(r)] + [r]]) else o
    case _ => o
  }

  function ApplyClipCommand(w: World, c: ClipCommand): World
  {
    match c
    case CreateClip(clip, pos) =>
      w.(clips := w.clips + [ClipEntity(Entity(w.nextIndex), clip, pos, [], false)], nextIndex := w.nextIndex + 1)
    case TagPendingDestroy(id) => w.(clips := SetTag(w.clips, {id}))
    case DestroyClip(id) => w.(clips := Without(w.clips, {id}))
    case _ => w.(owners := seq(|w.owners|, i requires 0 <= i < |w.owners| => ApplyToOwner(w.owners[i], c)))
  }

  function ApplyClipCommands(w: World, cmds: seq<ClipCommand>): World
  {
    if cmds == [] then w else ApplyClipCommand(ApplyClipCommands(w, cmds[..|cmds| - 1]), cmds[|cmds| - 1])
  }

  // ---------------------------------------------------------------------
  // ClipActivationSystem

  /** The clip a request starts: its id, type, owner and duration, no time elapsed, no flags. */
  function ClipFor(r: ClipActivateRequest): ActiveClip
  {
    ActiveClip(r.clipIdHash, r.clipType, r.ownerEntity, 0.0, r.duration, 0)
  }

  function CreateCommands(reqs: seq<ClipActivateRequest>): seq<ClipCommand>
  {
    seq(|reqs|, i requires 0 <= i < |reqs| => CreateClip(ClipFor(reqs[i]), reqs[i].startPosition))
  }

  /** All pending clip requests of all owners, owner by owner. */
  function PendingRequests(owners: seq<Owner>): seq<ClipActivateRequest>
  {
    if owners == [] then []
    else
      var o := owners[|owners| - 1];
      PendingRequests(owners[..|owners| - 1]) + (if o.clipRequests.Some? then o.clipRequests.value else [])
  }

  function ClearRequests(o: Owner): Owner
  {
    if o.clipRequests.Some? then o.(clipRequests := Some([])) else o
  }

  function ClearAll(owners: seq<Owner>): seq<Owner>
  {
    seq(|owners|, i requires 0 <= i < |owners| => ClearRequests(owners[i]))
  }

  // ---------------------------------------------------------------------
  // ClipStateMachineSystem

  predicate Paused(c: ClipEntity)
  {
    c.clip.flags & 1 != 0
  }

  /** Whether this update's tick finishes the clip (it is not paused and reaches its duration). */
  predicate Completes(c: ClipEntity, dt: real)
  {
    !Paused(c) && c.clip.elapsed + dt >= c.clip.duration
  }

  function Advance(c: ClipEntity, dt: real): ClipEntity
  {
    if Paused(c) then c
    else
      var e := c.clip.elapsed + dt;
      c.(clip := c.clip.(elapsed := e, flags := if e >= c.clip.duration then c.clip.flags | 2 else c.clip.flags))
  }

  function AdvanceAll(clips: seq<ClipEntity>, dt: real): seq<ClipEntity>
  {
    seq(|clips|, i requires 0 <= i < |clips| => Advance(clips[i], dt))
  }

  /** The ids of the clips that complete this tick, in order. */
  function TagCommands(clips: seq<ClipEntity>, dt: real): seq<ClipCommand>
  {
    if clips == [] then []
    else
      var c := clips[|clips| - 1];
      TagCommands(clips[..|clips| - 1], dt) + (if Completes(c, dt) then [TagPendingDestroy(c.id)] else [])
  }

  // ---------------------------------------------------------------------
  // ClipCueDispatchSystem

  /** The index of the first owner that is `e`, or -1 when that entity does not exist. */
  function FindOwner(owners: seq<Owner>, e: Entity): (i: int)
    ensures -1 <= i < |owners|
    ensures i >= 0 ==> owners[i].entity == e && forall j :: 0 <= j < i ==> owners[j].entity != e
    ensures i == -1 ==> forall j :: 0 <= j < |owners| ==> owners[j].entity != e
  {
    if owners == [] then -1
    else if owners[0].entity == e then 0
    else
      var r := FindOwner(owners[1..], e);
      if r < 0 then -1 else r + 1
  }

  /** A clip cue as the generic cue it is dispatched as. */
  function Relabel(clip: ActiveClip, cue: ClipCueEvent): (a: AbilityCueEvent)
  {
    AbilityCueEvent(clip.clipIdHash, cue.keyType, cue.time, cue.param0, Vec4(cue.paramF, 0.0, 0.0, 0.0), 0)
  }

  function PositiveOr1(x: real): real
  {
    if x > 0.0 then x else 1.0
  }

  /** DispatchClipCue: only VFX, SFX and AnimationEvent cues turn into a request. */
  function DispatchClipCue(cue: AbilityCueEvent, source: Entity, position: Vec3, rotation: Quat): (r: Option<Request>)
    ensures r.Some? <==> cue.keyType in {AbilityKeyType.VFX, AbilityKeyType.SFX, AbilityKeyType.AnimationEvent}
    ensures r.Some? ==> KindOf(r.value) == (if cue.keyType == AbilityKeyType.VFX then VFXKind
                                           else if cue.keyType == AbilityKeyType.SFX then SFXKind else AnimKind)
  {
    match cue.keyType
    case VFX => Some(VFXReq(VFXSpawnRequest(cue.param0, position, rotation, PositiveOr1(cue.paramF.x), 0, source)))
    case SFX => Some(SFXReq(SFXPlayRequest(cue.param0, position, PositiveOr1(cue.paramF.x), 1.0, 0, source)))
    case AnimationEvent => Some(AnimReq(AnimationParamRequest(cue.param0, Trigger, cue.paramF.x, 1, 1)))
    case _ => None
  }

  const ClipRequestKinds: seq<RequestKind> := [VFXKind, SFXKind, AnimKind, CameraKind]

  function EnsureCommands(o: Owner, kinds: seq<RequestKind>): seq<ClipCommand>
  {
    if kinds == [] then []
    else
      var k := kinds[|kinds| - 1];
      EnsureCommands(o, kinds[..|kinds| - 1]) + (if k in o.requests then [] else [AddRequestBuffer(o.entity, k)])
  }

  /** The number of cues of a type the clip dispatcher handles. */
  function DispatchableCount(cues: seq<ClipCueEvent>): nat
  {
    if cues == [] then 0
    else
      DispatchableCount(cues[..|cues| - 1]) +
      (if cues[|cues| - 1].keyType in {AbilityKeyType.VFX, AbilityKeyType.SFX, AbilityKeyType.AnimationEvent} then 1 else 0)
  }

  /** The requests a clip's cues produce, in cue order. */
  function ClipRequests(o: Owner, clip: ActiveClip, cues: seq<ClipCueEvent>): seq<Request>
  {
    if cues == [] then []
    else
      var r := DispatchClipCue(Relabel(clip, cues[|cues| - 1]), o.entity, o.position, o.rotation);
      ClipRequests(o, clip, cues[..|cues| - 1]) + (if r.Some? then [r.value] else [])
  }

  function AppendCommands(e: Entity, reqs: seq<Request>): seq<ClipCommand>
  {
    seq(|reqs|, i requires 0 <= i < |reqs| => AppendRequest(e, reqs[i]))
  }

  /** Whether the dispatcher consumes this clip's cues: it has some and its owner exists. */
  predicate Dispatches(owners: seq<Owner>, c: ClipEntity)
  {
    c.cues != [] && FindOwner(owners, c.clip.ownerEntity) >= 0
  }

  function DispatchClip(owners: seq<Owner>, c: ClipEntity): (ClipEntity, seq<ClipCommand>)
  {
    if !Dispatches(owners, c) then (c, [])
    else
      var o := owners[FindOwner(owners, c.clip.ownerEntity)];
      (c.(cues := []), EnsureCommands(o, ClipRequestKinds) + AppendCommands(o.entity, ClipRequests(o, c.clip, c.cues)))
  }

  function DispatchedClips(owners: seq<Owner>, clips: seq<ClipEntity>): seq<ClipEntity>
  {
    seq(|clips|, i requires 0 <= i < |clips| => DispatchClip(owners, clips[i]).0)
  }

  function DispatchCommands(owners: seq<Owner>, clips: seq<ClipEntity>): seq<ClipCommand>
  {
    if clips == [] then []
    else DispatchCommands(owners, clips[..|clips| - 1]) + DispatchClip(owners, clips[|clips| - 1]).1
  }

  // ---------------------------------------------------------------------
  // ClipCleanupSystem

  function CleanupCommands(clips: seq<ClipEntity>): seq<ClipCommand>
  {
    if clips == [] then []
    else
      var c := clips[|clips| - 1];
      CleanupCommands(clips[..|clips| - 1]) + (if c.tagged then [DestroyClip(c.id)] else [])
  }

  // ---------------------------------------------------------------------
  // One update

  /** The four passes and the commands they record, in recording order. */
  function ClipPasses(w: World, dt: real): (World, seq<ClipCommand>)
  {
    var owners := ClearAll(w.owners);
    var clips := DispatchedClips(owners, AdvanceAll(w.clips, dt));
    (World(owners, clips, w.nextIndex),
     CreateCommands(PendingRequests(w.owners)) + TagCommands(w.clips, dt) +
     DispatchCommands(owners, AdvanceAll(w.clips, dt)) + CleanupCommands(w.clips))
  }

  function ClipUpdate(w: World, dt: real): World
  {
    var (w1, cmds) := ClipPasses(w, dt);
    ApplyClipCommands(w1, cmds)
  }

  /** The cleanup pass reads only ids and tags, which the earlier passes leave alone. */
  lemma {:induction false} CleanupAfterPasses(owners: seq<Owner>, cs: seq<ClipEntity>, dt: real)
    ensures CleanupCommands(DispatchedClips(owners, AdvanceAll(cs, dt))) == CleanupCommands(cs)
  {
    if cs != [] {
      var init := cs[..|cs| - 1];
      CleanupAfterPasses(owners, init, dt);
      var d := DispatchedClips(owners, AdvanceAll(cs, dt));
      assert d[..|d| - 1] == DispatchedClips(owners, AdvanceAll(init, dt));
    }
  }

  // ---------------------------------------------------------------------
  // The world, updated in place

  /** The first owner that is `e`, as the existence check and buffer lookup of the dispatcher. */
  method FindOwnerIndex(owners: seq<Owner>, e: Entity) returns (i: int)
    ensures i == FindOwner(owners, e)
  {
    i := 0;
    while i < |owners|
      invariant 0 <= i <= |owners|
      invariant forall j :: 0 <= j < i ==> owners[j].entity != e
    {
      if owners[i].entity == e {
        return;
      }
      i := i + 1;
    }
    i := -1;
  }

  /** One more owner adds the creation commands for its pending requests, if it has any. */
  lemma PendingStep(owners: seq<Owner>, i: int)
    requires 0 <= i < |owners|
    ensures CreateCommands(PendingRequests(owners[..i + 1])) ==
      CreateCommands(PendingRequests(owners[..i])) +
      CreateCommands(if owners[i].clipRequests.Some? then owners[i].clipRequests.value else [])
  {
    assert owners[..i + 1][..i] == owners[..i];
    var a := PendingRequests(owners[..i]);
    var b := if owners[i].clipRequests.Some? then owners[i].clipRequests.value else [];
    assert CreateCommands(a + b) == CreateCommands(a) + CreateCommands(b);
  }

  /** The inner loop of ClipActivationSystem: one CreateClip per request, in order. */
  method CreateRequests(reqs: seq<ClipActivateRequest>) returns (cmds: seq<ClipCommand>)
    ensures cmds == CreateCommands(reqs)
  {
    cmds := [];
    for j := 0 to |reqs|
      invariant cmds == CreateCommands(reqs[..j])
    {
      assert CreateCommands(reqs[..j + 1]) == CreateCommands(reqs[..j]) + [CreateClip(ClipFor(reqs[j]), reqs[j].startPosition)];
      cmds := cmds + [CreateClip(ClipFor(reqs[j]), reqs[j].startPosition)];
    }
    assert reqs[..|reqs|] == reqs;
  }

  class ClipWorld {
    var owners: seq<Owner>
    var clips: seq<ClipEntity>
    var nextIndex: int

    function State(): World
      reads this
    {
      World(owners, clips, nextIndex)
    }

    constructor(owners: seq<Owner>, nextIndex: int)
      ensures State() == World(owners, [], nextIndex)
    {
      this.owners := owners;
      clips := [];
      this.nextIndex := nextIndex;
    }

    /** ClipActivationSystem: one CreateClip per pending request, then each non-empty request buffer is cleared. */
    method ActivateClips() returns (cmds: seq<ClipCommand>)
      modifies this
      ensures owners == ClearAll(old(owners)) && clips == old(clips) && nextIndex == old(nextIndex)
      ensures cmds == CreateCommands(PendingRequests(old(owners)))
    {
      cmds := [];
      ghost var start := owners;
      for i := 0 to |owners|
        invariant |owners| == |start| && clips == old(clips) && nextIndex == old(nextIndex)
        invariant forall j :: 0 <= j < i ==> owners[j] == ClearRequests(start[j])
        invariant forall j :: i <= j < |owners| ==> owners[j] == start[j]
        invariant cmds == CreateCommands(PendingRequests(start[..i]))
      {
        PendingStep(start, i);
        var o := owners[i];
        if o.clipRequests.None? || o.clipRequests.value == [] {
          continue;
        }
        var created := CreateRequests(o.clipRequests.value);
        cmds := cmds + created;
        owners := owners[i := o.(clipRequests := Some([]))];
      }
      assert start[..|start|] == start;
    }

    /** ClipStateMachineSystem: every clip not paused advances; a completing clip is flagged and tagged. */
    method AdvanceClips(dt: real) returns (cmds: seq<ClipCommand>)
      modifies this
      ensures clips == AdvanceAll(old(clips), dt) && owners == old(owners) && nextIndex == old(nextIndex)
      ensures cmds == TagCommands(old(clips), dt)
    {
      cmds := [];
      var cs := clips;
      for i := 0 to |cs|
        modifies {}
        invariant |cs| == |clips|
        invariant forall j :: 0 <= j < i ==> cs[j] == Advance(clips[j], dt)
        invariant forall j :: i <= j < |cs| ==> cs[j] == clips[j]
        invariant cmds == TagCommands(clips[..i], dt)
      {
        assert clips[..i + 1][..i] == clips[..i];
        var c := cs[i];
        assert TagCommands(clips[..i + 1], dt) == cmds + (if Completes(c, dt) then [TagPendingDestroy(c.id)] else []);
        if c.clip.flags & 1 != 0 {
          continue;
        }
        var clip := c.clip.(elapsed := c.clip.elapsed + dt);
        if clip.elapsed >= clip.duration {
          clip := clip.(flags := clip.flags | 2);
          cmds := cmds + [TagPendingDestroy(c.id)];
        }
        cs := cs[i := c.(clip := clip)];
      }
      assert clips[..|clips|] == clips;
      clips := cs;
    }

    /** EnsureRequestBuffers of the clip dispatcher: the four request buffers the owner must carry. */
    method RecordEnsure(o: Owner) returns (cmds: seq<ClipCommand>)
      ensures cmds == EnsureCommands(o, ClipRequestKinds)
    {
      cmds := [];
      assert ClipRequestKinds[..0] == [];
      if VFXKind !in o.requests { cmds := cmds + [AddRequestBuffer(o.entity, VFXKind)]; }
      assert ClipRequestKinds[..1][..0] == [];
      assert cmds == EnsureCommands(o, ClipRequestKinds[..1]);
      if SFXKind !in o.requests { cmds := cmds + [AddRequestBuffer(o.entity, SFXKind)]; }
      assert ClipRequestKinds[..2][..1] == ClipRequestKinds[..1];
      assert cmds == EnsureCommands(o, ClipRequestKinds[..2]);
      if AnimKind !in o.requests { cmds := cmds + [AddRequestBuffer(o.entity, AnimKind)]; }
      assert ClipRequestKinds[..3][..2] == ClipRequestKinds[..2];
      assert cmds == EnsureCommands(o, ClipRequestKinds[..3]);
      if CameraKind !in o.requests { cmds := cmds + [AddRequestBuffer(o.entity, CameraKind)]; }
      assert ClipRequestKinds[..3] == ClipRequestKinds[..|ClipRequestKinds| - 1];
    }

    /** The body of the dispatcher for one clip: its new cue buffer and the commands it records. */
    method DispatchOne(c: ClipEntity) returns (c': ClipEntity, cmds: seq<ClipCommand>)
      ensures (c', cmds) == DispatchClip(owners, c)
    {
      c', cmds := c, [];
      if c.cues == [] {
        return;
      }
      var oi := FindOwnerIndex(owners, c.clip.ownerEntity);
      if oi < 0 {
        return;
      }
      var o := owners[oi];
      var ensure := RecordEnsure(o);
      cmds := ensure;
      for j := 0 to |c.cues|
        invariant cmds == ensure + AppendCommands(o.entity, ClipRequests(o, c.clip, c.cues[..j]))
      {
        assert c.cues[..j + 1][..j] == c.cues[..j];
        var r := DispatchClipCue(Relabel(c.clip, c.cues[j]), o.entity, o.position, o.rotation);
        if r.Some? {
          assert AppendCommands(o.entity, ClipRequests(o, c.clip, c.cues[..j + 1])) ==
            AppendCommands(o.entity, ClipRequests(o, c.clip, c.cues[..j])) + [AppendRequest(o.entity, r.value)];
          cmds := cmds + [AppendRequest(o.entity, r.value)];
        } else {
          assert ClipRequests(o, c.clip, c.cues[..j + 1]) == ClipRequests(o, c.clip, c.cues[..j]) + [];
        }
      }
      assert c.cues[..|c.cues|] == c.cues;
      c' := c.(cues := []);
    }

    /** ClipCueDispatchSystem: cues of clips whose owner exists become requests on the owner; their buffer is cleared. */
    method DispatchClipCues() returns (cmds: seq<ClipCommand>)
      modifies this
      ensures clips == DispatchedClips(owners, old(clips)) && owners == old(owners) && nextIndex == old(nextIndex)
      ensures cmds == DispatchCommands(owners, old(clips))
    {
      cmds := [];
      ghost var start := clips;
      for i := 0 to |clips|
        invariant |clips| == |start| && owners == old(owners) && nextIndex == old(nextIndex)
        invariant forall j :: 0 <= j < i ==> clips[j] == DispatchClip(owners, start[j]).0
        invariant forall j :: i <= j < |clips| ==> clips[j] == start[j]
        invariant cmds == DispatchCommands(owners, start[..i])
      {
        assert start[..i + 1][..i] == start[..i];
        var c', more := DispatchOne(clips[i]);
        cmds := cmds + more;
        clips := clips[i := c'];
      }
      assert start[..|start|] == start;
    }

    /** ClipCleanupSystem: one DestroyClip per tagged clip. */
    method CleanupClips() returns (cmds: seq<ClipCommand>)
      ensures cmds == CleanupCommands(clips)
    {
      cmds := [];
      for i := 0 to |clips|
        invariant cmds == CleanupCommands(clips[..i])
      {
        assert clips[..i + 1][..i] == clips[..i];
        if clips[i].tagged {
          cmds := cmds + [DestroyClip(clips[i].id)];
        }
      }
      assert clips[..|clips|] == clips;
    }

    /** End-of-simulation playback of recorded commands, in order. */
    method Playback(cmds: seq<ClipCommand>)
      modifies this
      ensures State() == ApplyClipCommands(old(State()), cmds)
    {
      for i := 0 to |cmds|
        invariant State() == ApplyClipCommands(old(State()), cmds[..i])
      {
        assert cmds[..i + 1][..i] == cmds[..i];
        match cmds[i]
        case CreateClip(clip, pos) =>
          clips := clips + [ClipEntity(Entity(nextIndex), clip, pos, [], false)];
          nextIndex := nextIndex + 1;
        case TagPendingDestroy(id) =>
          clips := SetTag(clips, {id});
        case DestroyClip(id) =>
          clips := Without(clips, {id});
        case _ =>
          var os, c := owners, cmds[i];
          owners := seq(|os|, j requires 0 <= j < |os| => ApplyToOwner(os[j], c));
      }
      assert cmds[..|cmds|] == cmds;
    }

    /** One simulation update of the clip systems. */
    method Update(dt: real)
      modifies this
      ensures State() == ClipUpdate(old(State()), dt)
    {
      var cA := ActivateClips();
      var cS := AdvanceClips(dt);
      var cD := DispatchClipCues();
      var cC := CleanupClips();
      CleanupAfterPasses(ClearAll(old(owners)), old(clips), dt);
      Playback(cA + cS + cD + cC);
    }
  }
}

=== FILE: ability_clip_update.dfy ===
/**
 * What one update does to the clip entities: every untagged clip survives,
 * advanced and dispatched, and tagged if it completed; every tagged clip is
 * destroyed; one new clip is created per pending request.
 */
module AbilityClipUpdate {
  import opened Wrappers
  import opened AbilityDB
  import opened AbilityComponents
  import opened AbilityClipSystems

  lemma {:induction false} ApplyConcat(w: World, a: seq<ClipCommand>, b: seq<ClipCommand>)
    ensures ApplyClipCommands(w, a + b) == ApplyClipCommands(ApplyClipCommands(w, a), b)
  {
    if b == [] {
      assert a + b == a;
    } else {
      ApplyConcat(w, a, b[..|b| - 1]);
      assert (a + b)[..|a + b| - 1] == a + b[..|b| - 1];
    }
  }

  lemma ApplyLast(w: World, a: seq<ClipCommand>, c: ClipCommand)
    ensures ApplyClipCommands(w, a + [c]) == ApplyClipCommand(ApplyClipCommands(w, a), c)
  {
    assert (a + [c])[..|a|] == a;
  }

  /** The clips a world gains from a list of requests, numbered from n. */
  function NewClips(reqs: seq<ClipActivateRequest>, n: int): seq<ClipEntity>
  {
    seq(|reqs|, i requires 0 <= i < |reqs| => ClipEntity(Entity(n + i), ClipFor(reqs[i]), reqs[i].startPosition, [], false))
  }

  lemma {:induction false} ApplyCreates(w: World, reqs: seq<ClipActivateRequest>)
    ensures ApplyClipCommands(w, CreateCommands(reqs)) ==
      w.(clips := w.clips + NewClips(reqs, w.nextIndex), nextIndex := w.nextIndex + |reqs|)
  {
    if reqs == [] {
      assert w.clips + NewClips(reqs, w.nextIndex) == w.clips;
    } else {
      var init := reqs[..|reqs| - 1];
      var r := reqs[|reqs| - 1];
      ApplyCreates(w, init);
      assert CreateCommands(reqs) == CreateCommands(init) + [CreateClip(ClipFor(r), r.startPosition)];
      ApplyLast(w, CreateCommands(init), CreateClip(ClipFor(r), r.startPosition));
      assert NewClips(reqs, w.nextIndex) == NewClips(init, w.nextIndex) + [ClipEntity(Entity(w.nextIndex + |init|), ClipFor(r), r.startPosition, [], false)];
    }
  }

  /** The ids of the clips that complete this tick. */
  function TagIds(cs: seq<ClipEntity>, dt: real): set<Entity>
  {
    if cs == [] then {}
    else TagIds(cs[..|cs| - 1], dt) + (if Completes(cs[|cs| - 1], dt) then {cs[|cs| - 1].id} else {})
  }

  /** The ids of the clips that carry the pending-destroy tag. */
  function TaggedIds(cs: seq<ClipEntity>): set<Entity>
  {
    if cs == [] then {}
    else TaggedIds(cs[..|cs| - 1]) + (if cs[|cs| - 1].tagged then {cs[|cs| - 1].id} else {})
  }

  lemma SetTagTwice(x: seq<ClipEntity>, a: set<Entity>, b: set<Entity>)
    ensures SetTag(SetTag(x, a), b) == SetTag(x, a + b)
  {
  }

  lemma {:induction false} ApplyTags(w: World, cs: seq<ClipEntity>, dt: real)
    ensures ApplyClipCommands(w, TagCommands(cs, dt)) == w.(clips := SetTag(w.clips, TagIds(cs, dt)))
  {
    if cs == [] {
      assert SetTag(w.clips, {}) == w.clips;
    } else {
      var init := cs[..|cs| - 1];
      var c := cs[|cs| - 1];
      ApplyTags(w, init, dt);
      if Completes(c, dt) {
        assert TagCommands(cs, dt) == TagCommands(init, dt) + [TagPendingDestroy(c.id)];
        assert TagIds(cs, dt) == TagIds(init, dt) + {c.id};
        ApplyLast(w, TagCommands(init, dt), TagPendingDestroy(c.id));
        SetTagTwice(w.clips, TagIds(init, dt), {c.id});
      } else {
        assert TagCommands(cs, dt) == TagCommands(init, dt) + [] == TagCommands(init, dt);
        assert TagIds(cs, dt) == TagIds(init, dt) + {} == TagIds(init, dt);
      }
    }
  }

  lemma {:induction false} WithoutTwice(x: seq<ClipEntity>, a: set<Entity>, b: set<Entity>)
    ensures Without(Without(x, a), b) == Without(x, a + b)
  {
    if x != [] {
      var init := x[..|x| - 1];
      WithoutTwice(init, a, b);
      var last := x[|x| - 1];
      var pa := if last.id in a then [] else [last];
      assert Without(x, a) == Without(init, a) + pa;
      var wa := Without(init, a);
      if last.id !in a {
        assert (wa + [last])[..|wa + [last]| - 1] == wa;
      } else {
        assert wa + pa == wa;
      }
    }
  }

  lemma {:induction false} WithoutEmpty(x: seq<ClipEntity>)
    ensures Without(x, {}) == x
  {
    if x != [] {
      WithoutEmpty(x[..|x| - 1]);
    }
  }

  lemma {:induction false} ApplyDestroys(w: World, cs: seq<ClipEntity>)
    ensures ApplyClipCommands(w, CleanupCommands(cs)) == w.(clips := Without(w.clips, TaggedIds(cs)))
  {
    if cs == [] {
      WithoutEmpty(w.clips);
    } else {
      var init := cs[..|cs| - 1];
      var c := cs[|cs| - 1];
      ApplyDestroys(w, init);
      var prev := ApplyClipCommands(w, CleanupCommands(init));
      if c.tagged {
        assert CleanupCommands(cs) == CleanupCommands(init) + [DestroyClip(c.id)];
        ApplyLast(w, CleanupCommands(init), DestroyClip(c.id));
        assert ApplyClipCommands(w, CleanupCommands(cs)) == prev.(clips := Without(prev.clips, {c.id}));
        WithoutTwice(w.clips, TaggedIds(init), {c.id});
        assert TaggedIds(cs) == TaggedIds(init) + {c.id};
      } else {
        assert CleanupCommands(cs) == CleanupCommands(init) + [] == CleanupCommands(init);
        assert TaggedIds(cs) == TaggedIds(init) + {} == TaggedIds(init);
      }
    }
  }

  predicate OwnerCommand(c: ClipCommand)
  {
    c.AddRequestBuffer? || c.AppendRequest?
  }

  lemma {:induction false} ApplyOwnerCommands(w: World, cmds: seq<ClipCommand>)
    requires forall c <- cmds :: OwnerCommand(c)
    ensures ApplyClipCommands(w, cmds).clips == w.clips
    ensures ApplyClipCommands(w, cmds).nextIndex == w.nextIndex
    ensures |ApplyClipCommands(w, cmds).owners| == |w.owners|
  {
    if cmds != [] {
      var init := cmds[..|cmds| - 1];
      assert forall c <- init :: c in cmds;
      assert cmds[|cmds| - 1] in cmds;
      ApplyOwnerCommands(w, init);
    }
  }

  lemma {:induction false} EnsureCommandsAreOwnerCommands(o: Owner, kinds: seq<RequestKind>)
    ensures forall c <- EnsureCommands(o, kinds) :: c.AddRequestBuffer? && c.owner == o.entity
  {
    if kinds != [] {
      EnsureCommandsAreOwnerCommands(o, kinds[..|kinds| - 1]);
    }
  }

  lemma {:induction false} DispatchCommandsAreOwnerCommands(owners: seq<Owner>, clips: seq<ClipEntity>)
    ensures forall c <- DispatchCommands(owners, clips) :: OwnerCommand(c)
  {
    if clips != [] {
      DispatchCommandsAreOwnerCommands(owners, clips[..|clips| - 1]);
      var c := clips[|clips| - 1];
      if Dispatches(owners, c) {
        EnsureCommandsAreOwnerCommands(owners[FindOwner(owners, c.clip.ownerEntity)], ClipRequestKinds);
      }
    }
  }

  lemma {:induction false} WithoutConcat(a: seq<ClipEntity>, b: seq<ClipEntity>, ids: set<Entity>)
    ensures Without(a + b, ids) == Without(a, ids) + Without(b, ids)
  {
    if b == [] {
      assert a + b == a;
    } else {
      WithoutConcat(a, b[..|b| - 1], ids);
      assert (a + b)[..|a + b| - 1] == a + b[..|b| - 1];
    }
  }

  lemma {:induction false} WithoutNone(x: seq<ClipEntity>, ids: set<Entity>)
    requires forall c <- x :: c.id !in ids
    ensures Without(x, ids) == x
  {
    if x != [] {
      var init := x[..|x| - 1];
      forall c <- init
        ensures c.id !in ids
      {
        var i :| 0 <= i < |init| && init[i] == c;
        assert x[i] == c;
      }
      WithoutNone(init, ids);
      assert x[|x| - 1] in x;
      assert x == init + [x[|x| - 1]];
    }
  }

  /** What becomes of one clip entity that is not tagged at the start of the update. */
  function After(owners: seq<Owner>, c: ClipEntity, dt: real): ClipEntity
  {
    var d := DispatchClip(ClearAll(owners), Advance(c, dt)).0;
    d.(tagged := d.tagged || Completes(c, dt))
  }

  /** The clips that survive an update, each as After makes it. */
  function Survivors(owners: seq<Owner>, cs: seq<ClipEntity>, dt: real): seq<ClipEntity>
  {
    if cs == [] then []
    else
      var c := cs[|cs| - 1];
      Survivors(owners, cs[..|cs| - 1], dt) + (if c.tagged then [] else [After(owners, c, dt)])
  }

  /** The passes work clip by clip: dropping the last clip drops the last result. */
  lemma PassesPrefix(owners: seq<Owner>, cs: seq<ClipEntity>, dt: real, tags: set<Entity>)
    requires cs != []
    ensures var x := SetTag(DispatchedClips(ClearAll(owners), AdvanceAll(cs, dt)), tags);
      |x| == |cs| && x[..|x| - 1] == SetTag(DispatchedClips(ClearAll(owners), AdvanceAll(cs[..|cs| - 1], dt)), tags)
  {
  }

  lemma {:induction false} SurvivorsFromPasses(owners: seq<Owner>, cs: seq<ClipEntity>, dt: real, tags: set<Entity>, tagged: set<Entity>)
    requires forall c <- cs :: (c.id in tags <==> Completes(c, dt)) && (c.id in tagged <==> c.tagged)
    ensures Without(SetTag(DispatchedClips(ClearAll(owners), AdvanceAll(cs, dt)), tags), tagged) == Survivors(owners, cs, dt)
  {
    if cs != [] {
      var init := cs[..|cs| - 1];
      var c := cs[|cs| - 1];
      assert forall d <- init :: d in cs;
      assert c in cs;
      SurvivorsFromPasses(owners, init, dt, tags, tagged);
      var x := SetTag(DispatchedClips(ClearAll(owners), AdvanceAll(cs, dt)), tags);
      PassesPrefix(owners, cs, dt, tags);
      assert x[|x| - 1] == After(owners, c, dt);
    }
  }

  /** Membership in TagIds and TaggedIds, for clips whose ids are increasing. */
  lemma {:induction false} IdsOf(cs: seq<ClipEntity>, dt: real, bound: int)
    requires forall i, j :: 0 <= i < j < |cs| ==> cs[i].id.index < cs[j].id.index
    requires forall i :: 0 <= i < |cs| ==> cs[i].id.index < bound
    ensures forall c <- cs :: (c.id in TagIds(cs, dt) <==> Completes(c, dt)) && (c.id in TaggedIds(cs) <==> c.tagged)
    ensures forall id <- TagIds(cs, dt) :: id.index < bound
    ensures forall id <- TaggedIds(cs) :: id.index < bound
  {
    if cs != [] {
      var init := cs[..|cs| - 1];
      var last := cs[|cs| - 1];
      IdsOf(init, dt, last.id.index);
      forall c <- cs
        ensures (c.id in TagIds(cs, dt) <==> Completes(c, dt)) && (c.id in TaggedIds(cs) <==> c.tagged)
      {
        var i :| 0 <= i < |cs| && cs[i] == c;
        if i < |cs| - 1 {
          assert c in init;
          assert c.id != last.id;
        }
      }
    }
  }

  /**
   * The clip entities after an update: the clips that were not tagged, each
   * advanced, dispatched and tagged if it completed, in their old order,
   * followed by one new clip per pending request, numbered from nextIndex.
   * A tagged clip is gone.
   */
  lemma ClipUpdateSpec(w: World, dt: real)
    requires ValidWorld(w)
    ensures ClipUpdate(w, dt).clips ==
      Survivors(w.owners, w.clips, dt) + NewClips(PendingRequests(w.owners), w.nextIndex)
    ensures ClipUpdate(w, dt).nextIndex == w.nextIndex + |PendingRequests(w.owners)|
  {
    var owners := ClearAll(w.owners);
    var adv := AdvanceAll(w.clips, dt);
    var clips := DispatchedClips(owners, adv);
    var reqs := PendingRequests(w.owners);
    var created := NewClips(reqs, w.nextIndex);
    var tags := TagIds(w.clips, dt);
    var tagged := TaggedIds(w.clips);
    var u := ClipUpdate(w, dt);
    PlaybackSegments(w, dt);
    assert u.clips == Without(SetTag(clips + created, tags), tagged);
    IdsOf(w.clips, dt, w.nextIndex);
    TagAndRemove(clips, created, tags, tagged, w.nextIndex);
    SurvivorsFromPasses(w.owners, w.clips, dt, tags, tagged);
  }

  /** The four recorded segments, played back one after the other. */
  lemma PlaybackSegments(w: World, dt: real)
    ensures var reqs := PendingRequests(w.owners);
      var clips := DispatchedClips(ClearAll(w.owners), AdvanceAll(w.clips, dt));
      ClipUpdate(w, dt).clips == Without(SetTag(clips + NewClips(reqs, w.nextIndex), TagIds(w.clips, dt)), TaggedIds(w.clips)) &&
      ClipUpdate(w, dt).nextIndex == w.nextIndex + |reqs|
  {
    var owners := ClearAll(w.owners);
    var adv := AdvanceAll(w.clips, dt);
    var clips := DispatchedClips(owners, adv);
    var w1 := World(owners, clips, w.nextIndex);
    var reqs := PendingRequests(w.owners);
    var cA := CreateCommands(reqs);
    var cS := TagCommands(w.clips, dt);
    var cD := DispatchCommands(owners, adv);
    var cC := CleanupCommands(w.clips);
    assert ClipUpdate(w, dt) == ApplyClipCommands(w1, cA + cS + cD + cC);
    ApplyConcat(w1, cA + cS + cD, cC);
    ApplyConcat(w1, cA + cS, cD);
    ApplyConcat(w1, cA, cS);
    ApplyCreates(w1, reqs);
    var x1 := ApplyClipCommands(w1, cA);
    ApplyTags(x1, w.clips, dt);
    var x2 := ApplyClipCommands(x1, cS);
    DispatchCommandsAreOwnerCommands(owners, adv);
    ApplyOwnerCommands(x2, cD);
    var x3 := ApplyClipCommands(x2, cD);
    ApplyDestroys(x3, w.clips);
  }

  /** Tagging and removal by old ids leave the newly created clips alone. */
  lemma TagAndRemove(clips: seq<ClipEntity>, created: seq<ClipEntity>, tags: set<Entity>, tagged: set<Entity>, bound: int)
    requires forall c <- created :: c.id.index >= bound
    requires forall id <- tags :: id.index < bound
    requires forall id <- tagged :: id.index < bound
    ensures Without(SetTag(clips + created, tags), tagged) == Without(SetTag(clips, tags), tagged) + created
  {
    assert SetTag(clips + created, tags) == SetTag(clips, tags) + SetTag(created, tags);
    assert SetTag(created, tags) == created;
    WithoutConcat(SetTag(clips, tags), created, tagged);
    WithoutNone(created, tagged);
  }

  /**
   * One surviving clip: same id; elapsed grows by dt unless bit 0 of Flags
   * (pause) is set; a completing tick adds bit value 2 and the destroy tag;
   * the cue buffer is emptied exactly when it was non-empty and the owner
   * exists, and is otherwise kept as it was.
   */
  lemma AfterSpec(owners: seq<Owner>, c: ClipEntity, dt: real)
    requires !c.tagged
    ensures var a := After(owners, c, dt);
      a.id == c.id && a.position == c.position &&
      a.clip.clipIdHash == c.clip.clipIdHash && a.clip.ownerEntity == c.clip.ownerEntity &&
      a.clip.duration == c.clip.duration &&
      a.clip.elapsed == (if Paused(c) then c.clip.elapsed else c.clip.elapsed + dt) &&
      (a.clip.flags & 1 == c.clip.flags & 1) &&
      (Completes(c, dt) ==> a.clip.flags & 2 == 2) &&
      (a.tagged <==> Completes(c, dt)) &&
      (a.cues == if c.cues != [] && FindOwner(owners, c.clip.ownerEntity) >= 0 then [] else c.cues)
  {
    FindOwnerCleared(owners, c.clip.ownerEntity);
    FlagBits(c.clip.flags);
  }

  lemma FlagBits(f: bv8)
    ensures (f | 2) & 1 == f & 1 && (f | 2) & 2 == 2
  {
  }

  lemma FindOwnerCleared(owners: seq<Owner>, e: Entity)
    ensures FindOwner(ClearAll(owners), e) == FindOwner(owners, e)
  {
    assert forall k :: 0 <= k < |owners| ==> ClearAll(owners)[k].entity == owners[k].entity;
  }

  lemma {:induction false} SurvivorsMembers(owners: seq<Owner>, cs: seq<ClipEntity>, dt: real)
    ensures forall c <- cs :: !c.tagged ==> After(owners, c, dt) in Survivors(owners, cs, dt)
    ensures forall a <- Survivors(owners, cs, dt) :: exists c <- cs :: !c.tagged && a == After(owners, c, dt)
  {
    if cs != [] {
      var init := cs[..|cs| - 1];
      SurvivorsMembers(owners, init, dt);
      assert forall c <- cs :: c in init || c == cs[|cs| - 1];
      assert forall c <- init :: c in cs;
    }
  }

  /** Survivors keep their relative order, so ids stay increasing and below the old bound. */
  lemma {:induction false} SurvivorsOrdered(owners: seq<Owner>, cs: seq<ClipEntity>, dt: real, bound: int)
    requires forall i, j :: 0 <= i < j < |cs| ==> cs[i].id.index < cs[j].id.index
    requires forall i :: 0 <= i < |cs| ==> cs[i].id.index < bound
    ensures forall i, j :: 0 <= i < j < |Survivors(owners, cs, dt)| ==>
      Survivors(owners, cs, dt)[i].id.index < Survivors(owners, cs, dt)[j].id.index
    ensures forall i :: 0 <= i < |Survivors(owners, cs, dt)| ==> Survivors(owners, cs, dt)[i].id.index < bound
  {
    if cs != [] {
      var init := cs[..|cs| - 1];
      var last := cs[|cs| - 1];
      SurvivorsOrdered(owners, init, dt, last.id.index);
      var si := Survivors(owners, init, dt);
      assert last.id.index < bound;
      assert forall i :: 0 <= i < |si| ==> si[i].id.index < last.id.index;
      if !last.tagged {
        AfterSpec(owners, last, dt);
        var s := Survivors(owners, cs, dt);
        assert s == si + [After(owners, last, dt)];
        forall i | 0 <= i < |s| ensures s[i].id.index <= last.id.index && s[i].id.index < bound
        {
          if i < |si| { assert s[i] == si[i]; } else { assert s[i] == After(owners, last, dt); }
        }
        forall i, j | 0 <= i < j < |s| ensures s[i].id.index < s[j].id.index
        {
          if j < |si| { assert s[i] == si[i] && s[j] == si[j]; } else { assert s[i] == si[i]; }
        }
      } else {
        assert Survivors(owners, cs, dt) == si + [] == si;
      }
    }
  }

  /** An update keeps clip ids increasing and below nextIndex. */
  lemma ClipUpdateValid(w: World, dt: real)
    requires ValidWorld(w)
    ensures ValidWorld(ClipUpdate(w, dt))
  {
    ClipUpdateSpec(w, dt);
    SurvivorsOrdered(w.owners, w.clips, dt, w.nextIndex);
    var s := Survivors(w.owners, w.clips, dt);
    var n := NewClips(PendingRequests(w.owners), w.nextIndex);
    assert ClipUpdate(w, dt).clips == s + n;
    ConcatIncreasing(s, n, w.nextIndex);
  }

  /** Increasing ids below a bound, followed by increasing ids from the bound on, are increasing. */
  lemma ConcatIncreasing(s: seq<ClipEntity>, n: seq<ClipEntity>, bound: int)
    requires forall i, j :: 0 <= i < j < |s| ==> s[i].id.index < s[j].id.index
    requires forall i :: 0 <= i < |s| ==> s[i].id.index < bound
    requires forall i, j :: 0 <= i < j < |n| ==> n[i].id.index < n[j].id.index
    requires forall i :: 0 <= i < |n| ==> bound <= n[i].id.index
    ensures forall i, j :: 0 <= i < j < |s + n| ==> (s + n)[i].id.index < (s + n)[j].id.index
  {
    var u := s + n;
    forall i, j | 0 <= i < j < |u|
      ensures u[i].id.index < u[j].id.index
    {
      if j < |s| {
        assert u[i] == s[i] && u[j] == s[j];
      } else if i < |s| {
        assert u[i] == s[i] && u[j] == n[j - |s|];
      } else {
        assert u[i] == n[i - |s|] && u[j] == n[j - |s|];
      }
    }
  }

  /**
   * A clip that is not tagged survives the update as After describes it; a
   * tagged clip is destroyed.  Hence a clip whose tick completes it is still
   * alive, tagged, after that update, and is gone after the next one: it is
   * destroyed one update after it first completes, never in the same one.
   */
  lemma ClipDestroyedUpdateAfterCompletion(w: World, dt: real, dt2: real, c: ClipEntity)
    requires ValidWorld(w) && c in w.clips && !c.tagged && Completes(c, dt)
    ensures After(w.owners, c, dt) in ClipUpdate(w, dt).clips && After(w.owners, c, dt).tagged
    ensures forall d <- ClipUpdate(ClipUpdate(w, dt), dt2).clips :: d.id != c.id
  {
    var u := ClipUpdate(w, dt);
    ClipUpdateSpec(w, dt);
    SurvivorsMembers(w.owners, w.clips, dt);
    AfterSpec(w.owners, c, dt);
    ClipUpdateValid(w, dt);
    TaggedGone(u, dt2, After(w.owners, c, dt));
  }

  /** In a valid world different clip entities have different ids. */
  lemma IdsDistinct(w: World, c: ClipEntity, e: ClipEntity)
    requires ValidWorld(w) && c in w.clips && e in w.clips && c != e
    ensures c.id != e.id
  {
    var i :| 0 <= i < |w.clips| && w.clips[i] == c;
    var j :| 0 <= j < |w.clips| && w.clips[j] == e;
    assert i != j;
  }

  lemma TaggedGone(w: World, dt: real, c: ClipEntity)
    requires ValidWorld(w) && c in w.clips && c.tagged
    ensures forall d <- ClipUpdate(w, dt).clips :: d.id != c.id
  {
    ClipUpdateSpec(w, dt);
    SurvivorsMembers(w.owners, w.clips, dt);
    var u := ClipUpdate(w, dt).clips;
    var s := Survivors(w.owners, w.clips, dt);
    var n := NewClips(PendingRequests(w.owners), w.nextIndex);
    var i :| 0 <= i < |w.clips| && w.clips[i] == c;
    assert c.id.index < w.nextIndex;
    forall d <- u
      ensures d.id != c.id
    {
      if d in s {
        var e :| e in w.clips && !e.tagged && d == After(w.owners, e, dt);
        AfterSpec(w.owners, e, dt);
        IdsDistinct(w, c, e);
      } else {
        assert d in n;
      }
    }
  }

  /** When a clip's owner no longer exists its cues are neither dispatched nor cleared. */
  lemma CuesKeptWithoutOwner(w: World, dt: real, c: ClipEntity)
    requires ValidWorld(w) && c in w.clips && !c.tagged
    requires forall o <- w.owners :: o.entity != c.clip.ownerEntity
    ensures exists d <- ClipUpdate(w, dt).clips :: d.id == c.id && d.cues == c.cues
  {
    ClipUpdateSpec(w, dt);
    SurvivorsMembers(w.owners, w.clips, dt);
    AfterSpec(w.owners, c, dt);
    assert After(w.owners, c, dt) in ClipUpdate(w, dt).clips;
  }

  /** Bit 0 of Flags (pause) is never set by an update: new clips start at 0 and ticks only add bit value 2. */
  lemma PauseBitNeverSet(w: World, dt: real)
    requires ValidWorld(w)
    requires forall c <- w.clips :: c.clip.flags & 1 == 0
    ensures forall c <- ClipUpdate(w, dt).clips :: c.clip.flags & 1 == 0
  {
    ClipUpdateSpec(w, dt);
    SurvivorsMembers(w.owners, w.clips, dt);
    var s := Survivors(w.owners, w.clips, dt);
    var n := NewClips(PendingRequests(w.owners), w.nextIndex);
    forall d <- ClipUpdate(w, dt).clips
      ensures d.clip.flags & 1 == 0
    {
      if d in s {
        var e :| e in w.clips && !e.tagged && d == After(w.owners, e, dt);
        AfterSpec(w.owners, e, dt);
      } else {
        assert d in n;
      }
    }
  }

  /**
   * A clip's cues yield one request per VFX, SFX or AnimationEvent cue and
   * none for any other type; each request is of the kind of its cue.
   */
  lemma {:induction false} ClipRequestsSpec(o: Owner, clip: ActiveClip, cues: seq<ClipCueEvent>)
    ensures |ClipRequests(o, clip, cues)| == DispatchableCount(cues)
    ensures forall r <- ClipRequests(o, clip, cues) :: KindOf(r) in {VFXKind, SFXKind, AnimKind}
  {
    if cues != [] {
      ClipRequestsSpec(o, clip, cues[..|cues| - 1]);
    }
  }

  /** The relabelled cue carries the clip's id, the cue's scalar as ParamF.x and no target slot. */
  lemma RelabelSpec(clip: ActiveClip, cue: ClipCueEvent)
    ensures var a := Relabel(clip, cue);
      a.abilityIdHash == clip.clipIdHash && a.keyType == cue.keyType && a.time == cue.time &&
      a.param0 == cue.param0 && a.paramF.x == cue.paramF && a.paramF.y == 0.0 && a.paramF.z == 0.0 &&
      a.paramF.w == 0.0 && a.targetSlot == 0
  {
  }

  lemma {:induction false} OwnerCommandsKeepEntities(w: World, cmds: seq<ClipCommand>)
    requires forall c <- cmds :: OwnerCommand(c)
    ensures |ApplyClipCommands(w, cmds).owners| == |w.owners|
    ensures forall i :: 0 <= i < |w.owners| ==>
      ApplyClipCommands(w, cmds).owners[i].entity == w.owners[i].entity &&
      ApplyClipCommands(w, cmds).owners[i].clipRequests == w.owners[i].clipRequests
  {
    if cmds != [] {
      var init := cmds[..|cmds| - 1];
      assert forall c <- init :: c in cmds;
      assert cmds[|cmds| - 1] in cmds;
      OwnerCommandsKeepEntities(w, init);
    }
  }

  /**
   * Activation consumes every pending clip request: after an update every
   * owner's request buffer that exists is empty, and the owners are the
   * same entities in the same order.
   */
  lemma ClipRequestsConsumed(w: World, dt: real)
    ensures var u := ClipUpdate(w, dt);
      |u.owners| == |w.owners| &&
      forall i :: 0 <= i < |w.owners| ==>
        u.owners[i].entity == w.owners[i].entity &&
        u.owners[i].clipRequests == (if w.owners[i].clipRequests.Some? then Some([]) else None)
  {
    var owners := ClearAll(w.owners);
    var adv := AdvanceAll(w.clips, dt);
    var clips := DispatchedClips(owners, adv);
    var w1 := World(owners, clips, w.nextIndex);
    var reqs := PendingRequests(w.owners);
    var cA := CreateCommands(reqs);
    var cS := TagCommands(w.clips, dt);
    var cD := DispatchCommands(owners, adv);
    var cC := CleanupCommands(w.clips);
    assert ClipUpdate(w, dt) == ApplyClipCommands(w1, cA + cS + cD + cC);
    ApplyConcat(w1, cA + cS + cD, cC);
    ApplyConcat(w1, cA + cS, cD);
    ApplyConcat(w1, cA, cS);
    ApplyCreates(w1, reqs);
    var x1 := ApplyClipCommands(w1, cA);
    ApplyTags(x1, w.clips, dt);
    var x2 := ApplyClipCommands(x1, cS);
    DispatchCommandsAreOwnerCommands(owners, adv);
    OwnerCommandsKeepEntities(x2, cD);
    var x3 := ApplyClipCommands(x2, cD);
    ApplyDestroys(x3, w.clips);
  }
}

=== FILE: ability_components.dfy ===
/**
 * The ECS components and buffer elements of the ability runtime
 * (AbilityComponents.cs, AbilityRequestComponents.cs).
 */
module AbilityComponents {
  import opened UnityTypes
  import opened AbilityDB

  /** An entity handle; `NullEntity` is Entity.Null. */
  datatype Entity = Entity(index: int)
  const NullEntity := Entity(0)

  datatype AbilityLoadout = AbilityLoadout(slot: int, abilityIdHash: int)
  datatype AbilityCastRequest = AbilityCastRequest(slot: int, abilityIdHash: int)
  datatype AbilityCooldownEntry = AbilityCooldownEntry(abilityIdHash: int, remaining: real)
  datatype ActiveAbility = ActiveAbility(abilityIdHash: int, phaseIndex: int, timeInPhase: real, elapsed: real)

  datatype AbilityCueEvent = AbilityCueEvent(
    abilityIdHash: int, keyType: AbilityKeyType, time: real, param0: int, paramF: Vec4, targetSlot: int)

  datatype HitboxActivateRequest = HitboxActivateRequest(hitboxIdHash: int, paramF: Vec4, targetSlot: int)

  datatype VFXSpawnRequest = VFXSpawnRequest(
    vfxIdHash: int, position: Vec3, rotation: Quat, scale: real, flags: int, attachTarget: Entity)

  datatype SFXPlayRequest = SFXPlayRequest(
    sfxIdHash: int, position: Vec3, volume: real, pitch: real, flags: int, attachTarget: Entity)

  /** Only the Trigger member of the animator parameter kind is used by the dispatchers. */
  datatype AnimParamType = Trigger

  datatype AnimationParamRequest = AnimationParamRequest(
    paramHash: int, paramType: AnimParamType, floatValue: real, boolValue: int, triggerValue: int)

  /** `profileId` is a byte: the low eight bits of the value it was built from. */
  datatype CameraImpulseRequest = CameraImpulseRequest(direction: Vec3, magnitude: real, duration: real, profileId: int)

  datatype TimeScaleRequest = TimeScaleRequest(
    timeScale: real, duration: real, scope: int, targetEntity: Entity, areaCenter: Vec3, areaRadius: real)

  datatype ScriptHookRequest = ScriptHookRequest(hookIdHash: int, param0: int, paramF: real, contextEntity: Entity)

  datatype ClipActivateRequest = ClipActivateRequest(
    clipIdHash: int, clipType: AbilityClipType, duration: real, ownerEntity: Entity,
    startPosition: Vec3, endPosition: Vec3)

  /** Flags bit 0 pauses the clip, bit 1 (value 2) marks it finished. */
  datatype ActiveClip = ActiveClip(
    clipIdHash: int, clipType: AbilityClipType, ownerEntity: Entity, elapsed: real, duration: real, flags: bv8)

  datatype ClipCueEvent = ClipCueEvent(
    clipIdHash: int, keyType: AbilityKeyType, time: real, param0: int, paramF: real, targetEntity: Entity)

  /** One typed request, as appended to the buffer of its kind. */
  datatype Request =
    | HitboxReq(hitbox: HitboxActivateRequest)
    | VFXReq(vfx: VFXSpawnRequest)
    | SFXReq(sfx: SFXPlayRequest)
    | AnimReq(anim: AnimationParamRequest)
    | CameraReq(camera: CameraImpulseRequest)
    | ScriptReq(script: ScriptHookRequest)

  /** The request buffer kinds an entity may carry. */
  datatype RequestKind = HitboxKind | VFXKind | SFXKind | AnimKind | CameraKind | TimeScaleKind | ScriptKind | ClipActivateKind

  function KindOf(r: Request): RequestKind
  {
    match r
    case HitboxReq(_) => HitboxKind
    case VFXReq(_) => VFXKind
    case SFXReq(_) => SFXKind
    case AnimReq(_) => AnimKind
    case CameraReq(_) => CameraKind
    case ScriptReq(_) => ScriptKind
  }
}

=== FILE: ability_config.dfy ===
/**
 * The authored ability tree (AbilityConfigSO): abilities made of phases,
 * phases of tracks, tracks of keys and clips, with their default values,
 * the derived clip duration and the GUID synchronisation of OnValidate.
 */
module AbilityConfigSO {
  import opened Wrappers
  import opened UnityTypes
  import opened PrefabGuidUtility

  datatype TrackType = Hitbox | Animation | VFX | SFX | Camera | Script | Custom
  datatype KeyType = Hitbox | Signal | AnimationEvent | CameraShake | Footstep | Custom
  datatype HitboxShapeType = Sphere | Cone | Capsule
  datatype ClipType = Animation | SFX | VFX | Custom

  datatype Key = Key(
    keyType: KeyType,
    time: real,
    eventName: Option<string>,
    stringParam: Option<string>,
    paramF: Vec4,
    intParam: int,
    editorColor: Color,
    hitboxShape: HitboxShapeType,
    hitboxRadius: real,
    hitboxAngle: real,
    hitboxHeight: real,
    hitboxDamage: real,
    hitboxActiveDuration: real,
    hitboxTeamMask: int,
    hitboxOffset: Vec3,
    hitboxUseHeading: bool,
    vfxPrefab: Option<Asset>,
    vfxPrefabGuid: Option<string>,
    vfxOffset: Vec3,
    vfxRotation: Vec3,
    vfxScale: real,
    vfxAttachToTarget: bool,
    sfxClip: Option<Asset>,
    sfxClipGuid: Option<string>,
    sfxVolume: real,
    sfxPitch: real,
    sfxLoop: bool,
    cameraShakeRadius: real,
    markerPosition: Vec3)

  datatype Clip = Clip(
    clipType: ClipType,
    start: real,
    animationClip: Option<Asset>,
    animationClipGuid: Option<string>,
    audioClip: Option<Asset>,
    audioClipGuid: Option<string>,
    vfxPrefab: Option<Asset>,
    vfxPrefabGuid: Option<string>,
    paramF: Vec4)

  datatype Track = Track(
    trackType: TrackType,
    enabled: bool,
    locked: bool,
    visible: bool,
    muted: bool,
    solo: bool,
    clips: seq<Clip>,
    keys: seq<Key>)

  datatype Phase = Phase(enabled: bool, locked: bool, duration: real, tracks: seq<Track>)

  datatype AbilityDef = AbilityDef(abilityId: Option<string>, cooldown: real, phases: seq<Phase>)

  // ---------------------------------------------------------------------
  // Default values of freshly constructed objects

  function NewKey(): Key
  {
    Key(KeyType.Hitbox, 0.05, Some("OnKey"), Some(""), Zero4, 0, Cyan,
        Sphere, 1.0, 60.0, 2.0, 10.0, 0.2, 1, Zero3, true,
        None, None, Zero3, Zero3, 1.0, false,
        None, None, 1.0, 1.0, false,
        5.0, Zero3)
  }

  function NewClip(): Clip
  {
    Clip(ClipType.Animation, 0.0, None, None, None, None, None, None, Zero4)
  }

  function NewTrack(): Track
  {
    Track(TrackType.Animation, true, false, true, false, false, [], [NewKey()])
  }

  function NewPhase(): Phase
  {
    Phase(true, false, 1.0, [NewTrack()])
  }

  function NewAbility(): AbilityDef
  {
    AbilityDef(Some("Test_Ability"), 1.0, [NewPhase()])
  }

  /**
   * A new ability has cooldown 1 and one enabled phase of duration 1 with
   * one unmuted Animation track holding one Hitbox key at time 0.05.
   */
  lemma NewAbilityShape()
    ensures var a := NewAbility();
      a.cooldown == 1.0 && |a.phases| == 1 &&
      a.phases[0].enabled && a.phases[0].duration == 1.0 && |a.phases[0].tracks| == 1 &&
      a.phases[0].tracks[0].trackType == TrackType.Animation &&
      a.phases[0].tracks[0].enabled && !a.phases[0].tracks[0].muted && !a.phases[0].tracks[0].solo &&
      a.phases[0].tracks[0].clips == [] && |a.phases[0].tracks[0].keys| == 1 &&
      a.phases[0].tracks[0].keys[0].keyType == KeyType.Hitbox &&
      a.phases[0].tracks[0].keys[0].time == 0.05
  {
  }

  // ---------------------------------------------------------------------
  // Clip.Duration, derived on every read

  /** Clip.CalculateDuration: the clip's length from its type and resource, with fallbacks. */
  function Duration(c: Clip): (d: real)
    ensures c.clipType == ClipType.Custom ==> d > 0.0 && (d == c.paramF.x || d == 0.25)
    ensures c.clipType == ClipType.Custom && c.paramF.x > 0.0 ==> d == c.paramF.x
    ensures c.clipType == ClipType.Custom && c.paramF.x <= 0.0 ==> d == 0.25
    ensures c.clipType == ClipType.Animation && c.animationClip.None? ==> d == 0.25
    ensures c.clipType == ClipType.SFX && c.audioClip.None? ==> d == 0.25
    ensures c.clipType == ClipType.VFX && (c.vfxPrefab.None? || c.vfxPrefab.value.particles.None?) ==> d == 1.0
  {
    match c.clipType
    case Animation => if c.animationClip.Some? then c.animationClip.value.length else 0.25
    case SFX => if c.audioClip.Some? then c.audioClip.value.length else 0.25
    case VFX =>
      if c.vfxPrefab.Some? && c.vfxPrefab.value.particles.Some? then
        c.vfxPrefab.value.particles.value.duration + c.vfxPrefab.value.particles.value.startLifetimeMax
      else 1.0
    case Custom => if c.paramF.x > 0.0 then c.paramF.x else 0.25
  }

  /** Whether the resource the clip's type reads reports a positive length. */
  predicate ResourceLengthPositive(c: Clip)
  {
    match c.clipType
    case Animation => c.animationClip.Some? ==> c.animationClip.value.length > 0.0
    case SFX => c.audioClip.Some? ==> c.audioClip.value.length > 0.0
    case VFX => c.vfxPrefab.Some? && c.vfxPrefab.value.particles.Some? ==>
      c.vfxPrefab.value.particles.value.duration + c.vfxPrefab.value.particles.value.startLifetimeMax > 0.0
    case Custom => true
  }

  /** Every fallback is positive, so a clip's duration is positive whenever its resource's length is. */
  lemma DurationPositive(c: Clip)
    ensures Duration(c) > 0.0 <==> ResourceLengthPositive(c)
  {
  }

  // ---------------------------------------------------------------------
  // OnValidate: keep each stored GUID in step with its resource

  /**
   * One resource/GUID pair of OnValidate: a live resource imposes its GUID;
   * without a resource a non-empty GUID is reset to null and an empty or
   * null one is left alone.
   */
  function SyncGuid(res: Option<Asset>, guid: Option<string>): Option<string>
  {
    if res.Some? then
      var newGuid := GetGuid(res);
      if guid != Some(newGuid) then Some(newGuid) else guid
    else if !IsNullOrEmpty(guid) then None
    else guid
  }

  /** The condition under which OnValidate sets `dirty` for one pair. */
  predicate GuidStale(res: Option<Asset>, guid: Option<string>)
  {
    (res.Some? && guid != Some(GetGuid(res))) || (res.None? && !IsNullOrEmpty(guid))
  }

  /** The state OnValidate establishes for a pair. */
  predicate GuidInSync(res: Option<Asset>, guid: Option<string>)
  {
    (res.Some? ==> guid == Some(GetGuid(res))) && (res.None? ==> IsNullOrEmpty(guid))
  }

  /** Syncing a pair makes it in sync, changes it exactly when it was stale, and leaves an in-sync pair alone. */
  lemma SyncGuidSpec(res: Option<Asset>, guid: Option<string>)
    ensures GuidInSync(res, SyncGuid(res, guid))
    ensures SyncGuid(res, guid) != guid <==> GuidStale(res, guid)
    ensures GuidInSync(res, guid) ==> SyncGuid(res, guid) == guid
  {
  }

  function SyncKey(k: Key): Key
  {
    k.(vfxPrefabGuid := SyncGuid(k.vfxPrefab, k.vfxPrefabGuid),
       sfxClipGuid := SyncGuid(k.sfxClip, k.sfxClipGuid))
  }

  function SyncClip(c: Clip): Clip
  {
    c.(animationClipGuid := SyncGuid(c.animationClip, c.animationClipGuid),
       audioClipGuid := SyncGuid(c.audioClip, c.audioClipGuid),
       vfxPrefabGuid := SyncGuid(c.vfxPrefab, c.vfxPrefabGuid))
  }

  function SyncTrack(t: Track): Track
  {
    t.(keys := seq(|t.keys|, i requires 0 <= i < |t.keys| => SyncKey(t.keys[i])),
       clips := seq(|t.clips|, i requires 0 <= i < |t.clips| => SyncClip(t.clips[i])))
  }

  function SyncPhase(p: Phase): Phase
  {
    p.(tracks := seq(|p.tracks|, i requires 0 <= i < |p.tracks| => SyncTrack(p.tracks[i])))
  }

  function SyncAbility(a: AbilityDef): AbilityDef
  {
    a.(phases := seq(|a.phases|, i requires 0 <= i < |a.phases| => SyncPhase(a.phases[i])))
  }

  function SyncAll(abs: seq<AbilityDef>): seq<AbilityDef>
  {
    seq(|abs|, i requires 0 <= i < |abs| => SyncAbility(abs[i]))
  }

  predicate KeySynced(k: Key)
  {
    GuidInSync(k.vfxPrefab, k.vfxPrefabGuid) && GuidInSync(k.sfxClip, k.sfxClipGuid)
  }

  predicate ClipSynced(c: Clip)
  {
    GuidInSync(c.animationClip, c.animationClipGuid) &&
    GuidInSync(c.audioClip, c.audioClipGuid) &&
    GuidInSync(c.vfxPrefab, c.vfxPrefabGuid)
  }

  predicate TrackSynced(t: Track)
  {
    (forall k <- t.keys :: KeySynced(k)) && (forall c <- t.clips :: ClipSynced(c))
  }

  predicate PhaseSynced(p: Phase)
  {
    forall t <- p.tracks :: TrackSynced(t)
  }

  predicate AbilitySynced(a: AbilityDef)
  {
    forall p <- a.phases :: PhaseSynced(p)
  }

  predicate AllSynced(abs: seq<AbilityDef>)
  {
    forall a <- abs :: AbilitySynced(a)
  }

  lemma SyncTrackSpec(t: Track)
    ensures TrackSynced(SyncTrack(t))
    ensures TrackSynced(t) ==> SyncTrack(t) == t
  {
    var r := SyncTrack(t);
    forall k | k in r.keys ensures KeySynced(k) {
      var i :| 0 <= i < |r.keys| && r.keys[i] == k;
      SyncGuidSpec(t.keys[i].vfxPrefab, t.keys[i].vfxPrefabGuid);
      SyncGuidSpec(t.keys[i].sfxClip, t.keys[i].sfxClipGuid);
    }
    forall c | c in r.clips ensures ClipSynced(c) {
      var i :| 0 <= i < |r.clips| && r.clips[i] == c;
      SyncGuidSpec(t.clips[i].animationClip, t.clips[i].animationClipGuid);
      SyncGuidSpec(t.clips[i].audioClip, t.clips[i].audioClipGuid);
      SyncGuidSpec(t.clips[i].vfxPrefab, t.clips[i].vfxPrefabGuid);
    }
    if TrackSynced(t) {
      forall i | 0 <= i < |t.keys| ensures r.keys[i] == t.keys[i] {
        assert KeySynced(t.keys[i]);
        SyncGuidSpec(t.keys[i].vfxPrefab, t.keys[i].vfxPrefabGuid);
        SyncGuidSpec(t.keys[i].sfxClip, t.keys[i].sfxClipGuid);
      }
      forall i | 0 <= i < |t.clips| ensures r.clips[i] == t.clips[i] {
        assert ClipSynced(t.clips[i]);
        SyncGuidSpec(t.clips[i].animationClip, t.clips[i].animationClipGuid);
        SyncGuidSpec(t.clips[i].audioClip, t.clips[i].audioClipGuid);
        SyncGuidSpec(t.clips[i].vfxPrefab, t.clips[i].vfxPrefabGuid);
      }
    }
  }

  lemma SyncPhaseSpec(p: Phase)
    ensures PhaseSynced(SyncPhase(p))
    ensures PhaseSynced(p) ==> SyncPhase(p) == p
  {
    forall i | 0 <= i < |p.tracks| ensures TrackSynced(SyncPhase(p).tracks[i]) {
      SyncTrackSpec(p.tracks[i]);
    }
    if PhaseSynced(p) {
      forall i | 0 <= i < |p.tracks| ensures SyncPhase(p).tracks[i] == p.tracks[i] {
        SyncTrackSpec(p.tracks[i]);
      }
    }
  }

  lemma SyncAbilitySpec(a: AbilityDef)
    ensures AbilitySynced(SyncAbility(a))
    ensures AbilitySynced(a) ==> SyncAbility(a) == a
  {
    forall i | 0 <= i < |a.phases| ensures PhaseSynced(SyncAbility(a).phases[i]) {
      SyncPhaseSpec(a.phases[i]);
    }
    if AbilitySynced(a) {
      forall i | 0 <= i < |a.phases| ensures SyncAbility(a).phases[i] == a.phases[i] {
        SyncPhaseSpec(a.phases[i]);
      }
    }
  }

  /**
   * After OnValidate every GUID field agrees with its resource, and a tree
   * that already agrees is left exactly as it was; so a second OnValidate
   * (with a stable asset database) changes nothing.
   */
  lemma SyncAllSpec(abs: seq<AbilityDef>)
    ensures AllSynced(SyncAll(abs))
    ensures AllSynced(abs) ==> SyncAll(abs) == abs
    ensures SyncAll(SyncAll(abs)) == SyncAll(abs)
  {
    forall i | 0 <= i < |abs| ensures AbilitySynced(SyncAll(abs)[i]) {
      SyncAbilitySpec(abs[i]);
    }
    if AllSynced(abs) {
      forall i | 0 <= i < |abs| ensures SyncAll(abs)[i] == abs[i] {
        SyncAbilitySpec(abs[i]);
      }
    }
    var once := SyncAll(abs);
    forall i | 0 <= i < |once| ensures SyncAll(once)[i] == once[i] {
      SyncAbilitySpec(abs[i]);
      SyncAbilitySpec(once[i]);
    }
  }

  // The imperative OnValidate, level by level.  Each level returns the
  // updated value and whether anything changed (the `dirty` flag).

  method ValidateKey(k: Key) returns (r: Key, dirty: bool)
    ensures r == SyncKey(k)
    ensures dirty <==> r != k
  {
    r := k;
    dirty := false;
    if k.vfxPrefab.Some? {
      var newGuid := GetGuid(k.vfxPrefab);
      if r.vfxPrefabGuid != Some(newGuid) {
        r := r.(vfxPrefabGuid := Some(newGuid));
        dirty := true;
      }
    } else if !IsNullOrEmpty(r.vfxPrefabGuid) {
      r := r.(vfxPrefabGuid := None);
      dirty := true;
    }
    if k.sfxClip.Some? {
      var newGuid := GetGuid(k.sfxClip);
      if r.sfxClipGuid != Some(newGuid) {
        r := r.(sfxClipGuid := Some(newGuid));
        dirty := true;
      }
    } else if !IsNullOrEmpty(r.sfxClipGuid) {
      r := r.(sfxClipGuid := None);
      dirty := true;
    }
  }

  method ValidateClip(c: Clip) returns (r: Clip, dirty: bool)
    ensures r == SyncClip(c)
    ensures dirty <==> r != c
  {
    r := c;
    dirty := false;
    if c.animationClip.Some? {
      var newGuid := GetGuid(c.animationClip);
      if r.animationClipGuid != Some(newGuid) {
        r := r.(animationClipGuid := Some(newGuid));
        dirty := true;
      }
    } else if !IsNullOrEmpty(r.animationClipGuid) {
      r := r.(animationClipGuid := None);
      dirty := true;
    }
    if c.audioClip.Some? {
      var newGuid := GetGuid(c.audioClip);
      if r.audioClipGuid != Some(newGuid) {
        r := r.(audioClipGuid := Some(newGuid));
        dirty := true;
      }
    } else if !IsNullOrEmpty(r.audioClipGuid) {
      r := r.(audioClipGuid := None);
      dirty := true;
    }
    if c.vfxPrefab.Some? {
      var newGuid := GetGuid(c.vfxPrefab);
      if r.vfxPrefabGuid != Some(newGuid) {
        r := r.(vfxPrefabGuid := Some(newGuid));
        dirty := true;
      }
    } else if !IsNullOrEmpty(r.vfxPrefabGuid) {
      r := r.(vfxPrefabGuid := None);
      dirty := true;
    }
  }

  method ValidateTrack(t: Track) returns (r: Track, dirty: bool)
    ensures r == SyncTrack(t)
    ensures dirty <==> r != t
  {
    var keys := t.keys;
    dirty := false;
    for i := 0 to |keys|
      invariant |keys| == |t.keys|
      invariant forall j :: 0 <= j < i ==> keys[j] == SyncKey(t.keys[j])
      invariant forall j :: i <= j < |keys| ==> keys[j] == t.keys[j]
      invariant dirty <==> exists j :: 0 <= j < i && keys[j] != t.keys[j]
    {
      var k, d := ValidateKey(keys[i]);
      keys := keys[i := k];
      dirty := dirty || d;
    }
    var clips := t.clips;
    var dirtyClips := false;
    for i := 0 to |clips|
      invariant |clips| == |t.clips|
      invariant forall j :: 0 <= j < i ==> clips[j] == SyncClip(t.clips[j])
      invariant forall j :: i <= j < |clips| ==> clips[j] == t.clips[j]
      invariant dirtyClips <==> exists j :: 0 <= j < i && clips[j] != t.clips[j]
    {
      var c, d := ValidateClip(clips[i]);
      clips := clips[i := c];
      dirtyClips := dirtyClips || d;
    }
    r := t.(keys := keys, clips := clips);
    assert keys == SyncTrack(t).keys;
    assert clips == SyncTrack(t).clips;
    assert dirty <==> keys != t.keys;
    assert dirtyClips <==> clips != t.clips;
    dirty := dirty || dirtyClips;
  }

  method ValidatePhase(p: Phase) returns (r: Phase, dirty: bool)
    ensures r == SyncPhase(p)
    ensures dirty <==> r != p
  {
    var tracks := p.tracks;
    dirty := false;
    for i := 0 to |tracks|
      invariant |tracks| == |p.tracks|
      invariant forall j :: 0 <= j < i ==> tracks[j] == SyncTrack(p.tracks[j])
      invariant forall j :: i <= j < |tracks| ==> tracks[j] == p.tracks[j]
      invariant dirty <==> exists j :: 0 <= j < i && tracks[j] != p.tracks[j]
    {
      var t, d := ValidateTrack(tracks[i]);
      tracks := tracks[i := t];
      dirty := dirty || d;
    }
    r := p.(tracks := tracks);
    assert tracks == SyncPhase(p).tracks;
    assert dirty <==> tracks != p.tracks;
  }

  method ValidateAbility(a: AbilityDef) returns (r: AbilityDef, dirty: bool)
    ensures r == SyncAbility(a)
    ensures dirty <==> r != a
  {
    var phases := a.phases;
    dirty := false;
    for i := 0 to |phases|
      invariant |phases| == |a.phases|
      invariant forall j :: 0 <= j < i ==> phases[j] == SyncPhase(a.phases[j])
      invariant forall j :: i <= j < |phases| ==> phases[j] == a.phases[j]
      invariant dirty <==> exists j :: 0 <= j < i && phases[j] != a.phases[j]
    {
      var p, d := ValidatePhase(phases[i]);
      phases := phases[i := p];
      dirty := dirty || d;
    }
    r := a.(phases := phases);
    assert phases == SyncAbility(a).phases;
    assert dirty <==> phases != a.phases;
  }

  /** The AbilityConfigSO asset: the list of authored abilities, edited in place. */
  class AbilityConfig {
    var abilities: seq<AbilityDef>

    constructor ()
      ensures abilities == []
    {
      abilities := [];
    }

    /**
     * OnValidate: rewrite every stale GUID field; `dirty` (which triggers
     * SetDirty) is reported exactly when some field changed.
     */
    method OnValidate() returns (dirty: bool)
      modifies this
      ensures abilities == SyncAll(old(abilities))
      ensures dirty <==> abilities != old(abilities)
    {
      ghost var orig := abilities;
      dirty := false;
      for i := 0 to |abilities|
        invariant |abilities| == |orig|
        invariant forall j :: 0 <= j < i ==> abilities[j] == SyncAbility(orig[j])
        invariant forall j :: i <= j < |abilities| ==> abilities[j] == orig[j]
        invariant dirty <==> exists j :: 0 <= j < i && abilities[j] != orig[j]
      {
        var a, d := ValidateAbility(abilities[i]);
        abilities := abilities[i := a];
        dirty := dirty || d;
      }
      assert abilities == SyncAll(orig);
    }
  }
}

=== FILE: ability_db.dfy ===
/**
 * The immutable runtime ability database (AbilityDB.cs): the baked form of
 * the authored tree, read by the simulation systems.
 */
module AbilityDB {
  import opened UnityTypes

  datatype AbilityKeyType = Hitbox | Signal | AnimationEvent | CameraShake | Footstep | VFX | SFX | Custom
  datatype AbilityTrackType = Hitbox | Animation | VFX | SFX | Camera | Script | Custom
  datatype HitboxShapeType = Sphere | Cone | Capsule
  datatype AbilityClipType = Animation | SFX | VFX | Custom

  datatype HitboxKeyData = HitboxKeyData(
    shape: HitboxShapeType, radius: real, angle: real, height: real, damage: real,
    activeDuration: real, teamMask: int, offset: Vec3, useHeading: bool)

  datatype VFXKeyData = VFXKeyData(prefabGuidHash: int, offset: Vec3, rotation: Vec3, scale: real, attachToTarget: bool)

  datatype SFXKeyData = SFXKeyData(clipGuidHash: int, volume: real, pitch: real, loop: bool)

  /** Blob memory starts zeroed: a key record whose optional block was never written holds these. */
  const NoHitboxData := HitboxKeyData(Sphere, 0.0, 0.0, 0.0, 0.0, 0.0, 0, Zero3, false)
  const NoVFXData := VFXKeyData(0, Zero3, Zero3, 0.0, false)
  const NoSFXData := SFXKeyData(0, 0.0, 0.0, false)

  datatype AbilityKeyDef = AbilityKeyDef(
    keyType: AbilityKeyType, time: real, eventNameHash: int, stringParamHash: int,
    paramF: Vec4, intParam: int,
    hitboxData: HitboxKeyData, vfxData: VFXKeyData, sfxData: SFXKeyData)

  datatype AbilityClipDef = AbilityClipDef(
    clipType: AbilityClipType, start: real, duration: real,
    animationClipGuidHash: int, audioClipGuidHash: int, vfxPrefabGuidHash: int, paramF: Vec4)

  datatype AbilityTrackDef = AbilityTrackDef(trackType: AbilityTrackType, keys: seq<AbilityKeyDef>, clips: seq<AbilityClipDef>)

  datatype AbilityPhaseDef = AbilityPhaseDef(duration: real, tracks: seq<AbilityTrackDef>)

  datatype AbilityDef = AbilityDef(abilityIdHash: int, cooldown: real, phases: seq<AbilityPhaseDef>)

  datatype AbilityDBBlob = AbilityDBBlob(abilities: seq<AbilityDef>)
}

=== FILE: ability_db_baker.dfy ===
/**
 * AbilityDBBaker: the conversion of the authored ability tree into the
 * immutable runtime database.  `hash` stands for String.GetHashCode.
 */
module AbilityDBBaker {
  import opened Wrappers
  import opened UnityTypes
  import opened Mathf
  import C = AbilityConfigSO
  import D = AbilityDB

  // ---------------------------------------------------------------------
  // Specification: the baked value of each authored node

  function MapTrackType(t: C.TrackType): (r: D.AbilityTrackType)
  {
    match t
    case Hitbox => D.AbilityTrackType.Hitbox
    case Animation => D.AbilityTrackType.Animation
    case VFX => D.AbilityTrackType.VFX
    case SFX => D.AbilityTrackType.SFX
    case Camera => D.AbilityTrackType.Camera
    case Script => D.AbilityTrackType.Script
    case Custom => D.AbilityTrackType.Custom
  }

  /** Authored key types map name for name; the runtime-only VFX and SFX key types are never produced. */
  function MapKeyType(k: C.KeyType): (r: D.AbilityKeyType)
    ensures r != D.AbilityKeyType.VFX && r != D.AbilityKeyType.SFX
  {
    match k
    case Hitbox => D.AbilityKeyType.Hitbox
    case Signal => D.AbilityKeyType.Signal
    case AnimationEvent => D.AbilityKeyType.AnimationEvent
    case CameraShake => D.AbilityKeyType.CameraShake
    case Footstep => D.AbilityKeyType.Footstep
    case Custom => D.AbilityKeyType.Custom
  }

  function MapClipType(c: C.ClipType): (r: D.AbilityClipType)
  {
    match c
    case Animation => D.AbilityClipType.Animation
    case SFX => D.AbilityClipType.SFX
    case VFX => D.AbilityClipType.VFX
    case Custom => D.AbilityClipType.Custom
  }

  /** The type mappings are injective: distinct authored types bake to distinct runtime types. */
  lemma TypeMappingsInjective(t1: C.TrackType, t2: C.TrackType, k1: C.KeyType, k2: C.KeyType, c1: C.ClipType, c2: C.ClipType)
    ensures MapTrackType(t1) == MapTrackType(t2) ==> t1 == t2
    ensures MapKeyType(k1) == MapKeyType(k2) ==> k1 == k2
    ensures MapClipType(c1) == MapClipType(c2) ==> c1 == c2
  {
  }

  /** The hash stored for an optional name: 0 for a null or empty string. */
  function NameHash(s: Option<string>, hash: string -> int): (h: int)
    ensures IsNullOrEmpty(s) ==> h == 0
  {
    if IsNullOrEmpty(s) then 0 else hash(s.value)
  }

  function BakeHitbox(k: C.Key): D.HitboxKeyData
  {
    D.HitboxKeyData(
      match k.hitboxShape
        case Sphere => D.HitboxShapeType.Sphere
        case Cone => D.HitboxShapeType.Cone
        case Capsule => D.HitboxShapeType.Capsule,
      k.hitboxRadius, k.hitboxAngle, k.hitboxHeight, k.hitboxDamage,
      k.hitboxActiveDuration, k.hitboxTeamMask, k.hitboxOffset, k.hitboxUseHeading)
  }

  function BakeKey(k: C.Key, hash: string -> int): (r: D.AbilityKeyDef)
    ensures r.time >= 0.0 && (k.time >= 0.0 ==> r.time == k.time)
    ensures k.time < 0.0 ==> r.time == 0.0
    ensures r.keyType == MapKeyType(k.keyType)
    ensures IsNullOrEmpty(k.eventName) ==> r.eventNameHash == 0
    ensures IsNullOrEmpty(k.stringParam) ==> r.stringParamHash == 0
    ensures k.keyType != C.KeyType.Hitbox ==> r.hitboxData == D.NoHitboxData
    ensures (k.vfxPrefab.None? || IsNullOrEmpty(k.vfxPrefabGuid)) ==> r.vfxData == D.NoVFXData
    ensures (k.sfxClip.None? || IsNullOrEmpty(k.sfxClipGuid)) ==> r.sfxData == D.NoSFXData
  {
    D.AbilityKeyDef(
      MapKeyType(k.keyType),
      Max(0.0, k.time),
      NameHash(k.eventName, hash),
      NameHash(k.stringParam, hash),
      k.paramF,
      k.intParam,
      if k.keyType == C.KeyType.Hitbox then BakeHitbox(k) else D.NoHitboxData,
      if k.vfxPrefab.Some? && !IsNullOrEmpty(k.vfxPrefabGuid) then
        D.VFXKeyData(hash(k.vfxPrefabGuid.value), k.vfxOffset, k.vfxRotation, k.vfxScale, k.vfxAttachToTarget)
      else D.NoVFXData,
      if k.sfxClip.Some? && !IsNullOrEmpty(k.sfxClipGuid) then
        D.SFXKeyData(hash(k.sfxClipGuid.value), k.sfxVolume, k.sfxPitch, k.sfxLoop)
      else D.NoSFXData)
  }

  /** Whether a clip survives baking: Custom always, otherwise its type's resource and GUID must be set. */
  predicate HasValidResource(c: C.Clip)
  {
    match c.clipType
    case Animation => c.animationClip.Some? && !IsNullOrEmpty(c.animationClipGuid)
    case SFX => c.audioClip.Some? && !IsNullOrEmpty(c.audioClipGuid)
    case VFX => c.vfxPrefab.Some? && !IsNullOrEmpty(c.vfxPrefabGuid)
    case Custom => true
  }

  /** The clips kept by the baker's filter, in their authored order. */
  function ValidClips(cs: seq<C.Clip>): seq<C.Clip>
  {
    if cs == [] then []
    else ValidClips(cs[..|cs| - 1]) + (if HasValidResource(cs[|cs| - 1]) then [cs[|cs| - 1]] else [])
  }

  function BakeClip(c: C.Clip, hash: string -> int): (r: D.AbilityClipDef)
    ensures r.clipType == MapClipType(c.clipType)
    ensures r.start >= 0.0 && r.duration >= 0.0
    ensures c.start >= 0.0 ==> r.start == c.start
    ensures c.start < 0.0 ==> r.start == 0.0
    ensures r.duration == Max(0.0, C.Duration(c))
    ensures c.clipType != C.ClipType.Animation ==> r.animationClipGuidHash == 0
    ensures c.clipType != C.ClipType.SFX ==> r.audioClipGuidHash == 0
    ensures c.clipType != C.ClipType.VFX ==> r.vfxPrefabGuidHash == 0
  {
    D.AbilityClipDef(
      MapClipType(c.clipType),
      Max(0.0, c.start),
      Max(0.0, C.Duration(c)),
      if c.clipType == C.ClipType.Animation then NameHash(c.animationClipGuid, hash) else 0,
      if c.clipType == C.ClipType.SFX then NameHash(c.audioClipGuid, hash) else 0,
      if c.clipType == C.ClipType.VFX then NameHash(c.vfxPrefabGuid, hash) else 0,
      c.paramF)
  }

  function BakeTrack(t: C.Track, hash: string -> int): D.AbilityTrackDef
  {
    var valid := ValidClips(t.clips);
    D.AbilityTrackDef(
      MapTrackType(t.trackType),
      seq(|t.keys|, i requires 0 <= i < |t.keys| => BakeKey(t.keys[i], hash)),
      seq(|valid|, i requires 0 <= i < |valid| => BakeClip(valid[i], hash)))
  }

  function BakePhase(p: C.Phase, hash: string -> int): D.AbilityPhaseDef
  {
    D.AbilityPhaseDef(
      Max(0.0, p.duration),
      seq(|p.tracks|, i requires 0 <= i < |p.tracks| => BakeTrack(p.tracks[i], hash)))
  }

  function BakeAbility(a: C.AbilityDef, hash: string -> int): D.AbilityDef
  {
    D.AbilityDef(
      NameHash(a.abilityId, hash),
      Max(0.0, a.cooldown),
      seq(|a.phases|, i requires 0 <= i < |a.phases| => BakePhase(a.phases[i], hash)))
  }

  function BakeAll(abs: seq<C.AbilityDef>, hash: string -> int): D.AbilityDBBlob
  {
    D.AbilityDBBlob(seq(|abs|, i requires 0 <= i < |abs| => BakeAbility(abs[i], hash)))
  }

  // ---------------------------------------------------------------------
  // Properties of the conversion

  /**
   * The clip filter keeps exactly the clips with a valid resource, never
   * grows the list, and distributes over concatenation, so the kept clips
   * stay in their authored relative order.
   */
  lemma {:induction false} ValidClipsSpec(cs: seq<C.Clip>)
    ensures |ValidClips(cs)| <= |cs|
    ensures forall c :: c in ValidClips(cs) <==> c in cs && HasValidResource(c)
  {
    if cs != [] {
      var init := cs[..|cs| - 1];
      ValidClipsSpec(init);
      assert cs == init + [cs[|cs| - 1]];
    }
  }

  lemma {:induction false} ValidClipsConcat(a: seq<C.Clip>, b: seq<C.Clip>)
    ensures ValidClips(a + b) == ValidClips(a) + ValidClips(b)
  {
    if b == [] {
      assert a + b == a;
    } else {
      var bi := b[..|b| - 1];
      ValidClipsConcat(a, bi);
      assert (a + b)[..|a + b| - 1] == a + bi;
    }
  }

  /** Every clip is kept iff it has a valid resource; hence the filter is the identity on valid lists. */
  lemma {:induction false} ValidClipsAllValid(cs: seq<C.Clip>)
    requires forall c <- cs :: HasValidResource(c)
    ensures ValidClips(cs) == cs
  {
    if cs != [] {
      ValidClipsAllValid(cs[..|cs| - 1]);
      assert cs == cs[..|cs| - 1] + [cs[|cs| - 1]];
    }
  }

  /**
   * The database has the authored shape: as many abilities, phases per
   * ability, tracks per phase and keys per track, each the bake of the
   * authored node at the same position; clips are the baked valid clips.
   * All baked cooldowns, phase durations, key times and clip starts and
   * durations are non-negative.
   */
  lemma BakeShape(abs: seq<C.AbilityDef>, hash: string -> int)
    ensures var db := BakeAll(abs, hash);
      |db.abilities| == |abs| &&
      forall i | 0 <= i < |abs| ::
        db.abilities[i].cooldown >= 0.0 &&
        |db.abilities[i].phases| == |abs[i].phases| &&
        forall p | 0 <= p < |abs[i].phases| ::
          db.abilities[i].phases[p].duration >= 0.0 &&
          |db.abilities[i].phases[p].tracks| == |abs[i].phases[p].tracks| &&
          forall t | 0 <= t < |abs[i].phases[p].tracks| ::
            var src := abs[i].phases[p].tracks[t];
            var dst := db.abilities[i].phases[p].tracks[t];
            dst.trackType == MapTrackType(src.trackType) &&
            |dst.keys| == |src.keys| &&
            (forall k | 0 <= k < |src.keys| :: dst.keys[k] == BakeKey(src.keys[k], hash) && dst.keys[k].time >= 0.0) &&
            |dst.clips| <= |src.clips| &&
            (forall c | 0 <= c < |dst.clips| :: dst.clips[c].start >= 0.0 && dst.clips[c].duration >= 0.0)
  {
    forall i, p, t | 0 <= i < |abs| && 0 <= p < |abs[i].phases| && 0 <= t < |abs[i].phases[p].tracks|
      ensures |BakeAll(abs, hash).abilities[i].phases[p].tracks[t].clips| <= |abs[i].phases[p].tracks[t].clips|
    {
      ValidClipsSpec(abs[i].phases[p].tracks[t].clips);
    }
  }

  // ---------------------------------------------------------------------
  // The imperative baker: allocate each array, then fill it by index

  method BakeKeys(keys: seq<C.Key>, hash: string -> int) returns (r: seq<D.AbilityKeyDef>)
    ensures |r| == |keys|
    ensures forall k | 0 <= k < |keys| :: r[k] == BakeKey(keys[k], hash)
  {
    var keyArray := new D.AbilityKeyDef[|keys|];
    for k := 0 to |keys|
      invariant forall j | 0 <= j < k :: keyArray[j] == BakeKey(keys[j], hash)
    {
      var dst := D.AbilityKeyDef(
        MapKeyType(keys[k].keyType), Max(0.0, keys[k].time),
        NameHash(keys[k].eventName, hash), NameHash(keys[k].stringParam, hash),
        keys[k].paramF, keys[k].intParam, D.NoHitboxData, D.NoVFXData, D.NoSFXData);
      if keys[k].keyType == C.KeyType.Hitbox {
        dst := dst.(hitboxData := BakeHitbox(keys[k]));
      }
      if keys[k].vfxPrefab.Some? && !IsNullOrEmpty(keys[k].vfxPrefabGuid) {
        dst := dst.(vfxData := D.VFXKeyData(hash(keys[k].vfxPrefabGuid.value), keys[k].vfxOffset,
                                            keys[k].vfxRotation, keys[k].vfxScale, keys[k].vfxAttachToTarget));
      }
      if keys[k].sfxClip.Some? && !IsNullOrEmpty(keys[k].sfxClipGuid) {
        dst := dst.(sfxData := D.SFXKeyData(hash(keys[k].sfxClipGuid.value), keys[k].sfxVolume,
                                            keys[k].sfxPitch, keys[k].sfxLoop));
      }
      keyArray[k] := dst;
    }
    r := keyArray[..];
  }

  /** The foreach that collects the clips with a valid resource. */
  method FilterClips(clips: seq<C.Clip>) returns (valid: seq<C.Clip>)
    ensures valid == ValidClips(clips)
  {
    valid := [];
    for i := 0 to |clips|
      invariant valid == ValidClips(clips[..i])
    {
      var clip := clips[i];
      var hasValidResource := false;
      match clip.clipType {
        case Animation => hasValidResource := clip.animationClip.Some? && !IsNullOrEmpty(clip.animationClipGuid);
        case SFX => hasValidResource := clip.audioClip.Some? && !IsNullOrEmpty(clip.audioClipGuid);
        case VFX => hasValidResource := clip.vfxPrefab.Some? && !IsNullOrEmpty(clip.vfxPrefabGuid);
        case Custom => hasValidResource := true;
      }
      if hasValidResource {
        valid := valid + [clip];
      }
      assert clips[..i + 1][..i] == clips[..i];
    }
    assert clips[..|clips|] == clips;
  }

  method BakeClips(valid: seq<C.Clip>, hash: string -> int) returns (r: seq<D.AbilityClipDef>)
    ensures |r| == |valid|
    ensures forall c | 0 <= c < |valid| :: r[c] == BakeClip(valid[c], hash)
  {
    var clipArray := new D.AbilityClipDef[|valid|];
    for c := 0 to |valid|
      invariant forall j | 0 <= j < c :: clipArray[j] == BakeClip(valid[j], hash)
    {
      var src := valid[c];
      var dst := D.AbilityClipDef(MapClipType(src.clipType), Max(0.0, src.start), Max(0.0, C.Duration(src)),
                                  0, 0, 0, src.paramF);
      match src.clipType {
        case Animation =>
          if !IsNullOrEmpty(src.animationClipGuid) {
            dst := dst.(animationClipGuidHash := hash(src.animationClipGuid.value));
          }
        case SFX =>
          if !IsNullOrEmpty(src.audioClipGuid) {
            dst := dst.(audioClipGuidHash := hash(src.audioClipGuid.value));
          }
        case VFX =>
          if !IsNullOrEmpty(src.vfxPrefabGuid) {
            dst := dst.(vfxPrefabGuidHash := hash(src.vfxPrefabGuid.value));
          }
        case Custom =>
      }
      clipArray[c] := dst;
    }
    r := clipArray[..];
  }

  method BakeTracks(tracks: seq<C.Track>, hash: string -> int) returns (r: seq<D.AbilityTrackDef>)
    ensures |r| == |tracks|
    ensures forall t | 0 <= t < |tracks| :: r[t] == BakeTrack(tracks[t], hash)
  {
    var trackArray := new D.AbilityTrackDef[|tracks|];
    for t := 0 to |tracks|
      invariant forall j | 0 <= j < t :: trackArray[j] == BakeTrack(tracks[j], hash)
    {
      var keys := BakeKeys(tracks[t].keys, hash);
      var valid := FilterClips(tracks[t].clips);
      var clips := BakeClips(valid, hash);
      trackArray[t] := D.AbilityTrackDef(MapTrackType(tracks[t].trackType), keys, clips);
    }
    r := trackArray[..];
  }

  method BakePhases(phases: seq<C.Phase>, hash: string -> int) returns (r: seq<D.AbilityPhaseDef>)
    ensures |r| == |phases|
    ensures forall p | 0 <= p < |phases| :: r[p] == BakePhase(phases[p], hash)
  {
    var phaseArray := new D.AbilityPhaseDef[|phases|];
    for p := 0 to |phases|
      invariant forall j | 0 <= j < p :: phaseArray[j] == BakePhase(phases[j], hash)
    {
      var tracks := BakeTracks(phases[p].tracks, hash);
      phaseArray[p] := D.AbilityPhaseDef(Max(0.0, phases[p].duration), tracks);
    }
    r := phaseArray[..];
  }

  /**
   * Bake: a null config yields no database entity; otherwise the database
   * holds the baked form of every authored ability, in order.
   */
  method Bake(config: C.AbilityConfig?, hash: string -> int) returns (db: Option<D.AbilityDBBlob>)
    ensures config == null <==> db.None?
    ensures config != null ==> db == Some(BakeAll(config.abilities, hash))
  {
    if config == null {
      return None;
    }
    var abilities := config.abilities;
    var abilityArray := new D.AbilityDef[|abilities|];
    for i := 0 to |abilities|
      invariant forall j | 0 <= j < i :: abilityArray[j] == BakeAbility(abilities[j], hash)
    {
      var phases := BakePhases(abilities[i].phases, hash);
      abilityArray[i] := D.AbilityDef(NameHash(abilities[i].abilityId, hash), Max(0.0, abilities[i].cooldown), phases);
    }
    assert abilityArray[..] == BakeAll(abilities, hash).abilities;
    db := Some(D.AbilityDBBlob(abilityArray[..]));
  }
}

=== FILE: ability_paths.dfy ===
/**
 * Addressing inside the ability being edited: phase, track and key
 * indices, and the copy-with-one-part-replaced operations through which
 * the editor's in-place edits of nested lists are expressed.
 */
module AbilityPaths {
  import opened AbilityConfigSO

  predicate PhaseInRange(ab: AbilityDef, p: int)
  {
    0 <= p < |ab.phases|
  }

  predicate TrackInRange(ab: AbilityDef, p: int, t: int)
  {
    PhaseInRange(ab, p) && 0 <= t < |ab.phases[p].tracks|
  }

  predicate KeyInRange(ab: AbilityDef, p: int, t: int, k: int)
  {
    TrackInRange(ab, p, t) && 0 <= k < |ab.phases[p].tracks[t].keys|
  }

  predicate ClipInRange(ab: AbilityDef, p: int, t: int, c: int)
  {
    TrackInRange(ab, p, t) && 0 <= c < |ab.phases[p].tracks[t].clips|
  }

  function TrackAt(ab: AbilityDef, p: int, t: int): Track
    requires TrackInRange(ab, p, t)
  {
    ab.phases[p].tracks[t]
  }

  function KeyAt(ab: AbilityDef, p: int, t: int, k: int): Key
    requires KeyInRange(ab, p, t, k)
  {
    ab.phases[p].tracks[t].keys[k]
  }

  function ClipAt(ab: AbilityDef, p: int, t: int, c: int): Clip
    requires ClipInRange(ab, p, t, c)
  {
    ab.phases[p].tracks[t].clips[c]
  }

  /** The ability with track (p, t) replaced: every other track, every phase's own fields and the ability's fields stay. */
  function WithTrack(ab: AbilityDef, p: int, t: int, tr: Track): (r: AbilityDef)
    requires TrackInRange(ab, p, t)
    ensures r.abilityId == ab.abilityId && r.cooldown == ab.cooldown && |r.phases| == |ab.phases|
    ensures forall q :: 0 <= q < |ab.phases| ==>
      r.phases[q].enabled == ab.phases[q].enabled && r.phases[q].locked == ab.phases[q].locked &&
      r.phases[q].duration == ab.phases[q].duration && |r.phases[q].tracks| == |ab.phases[q].tracks|
    ensures forall q, u :: TrackInRange(ab, q, u) ==>
      TrackAt(r, q, u) == if q == p && u == t then tr else TrackAt(ab, q, u)
  {
    var ph := ab.phases[p];
    ab.(phases := ab.phases[p := ph.(tracks := ph.tracks[t := tr])])
  }

  /** Putting back the track that was there changes nothing. */
  lemma WithSameTrack(ab: AbilityDef, p: int, t: int)
    requires TrackInRange(ab, p, t)
    ensures WithTrack(ab, p, t, TrackAt(ab, p, t)) == ab
  {
    var r := WithTrack(ab, p, t, TrackAt(ab, p, t));
    assert r.phases[p].tracks == ab.phases[p].tracks;
    assert r.phases == ab.phases;
  }

  /** The ability with the time of key (p, t, k) replaced. */
  function SetKeyTime(ab: AbilityDef, p: int, t: int, k: int, time: real): (r: AbilityDef)
    requires KeyInRange(ab, p, t, k)
    ensures KeyInRange(r, p, t, k) && KeyAt(r, p, t, k) == KeyAt(ab, p, t, k).(time := time)
  {
    var tr := TrackAt(ab, p, t);
    WithTrack(ab, p, t, tr.(keys := tr.keys[k := tr.keys[k].(time := time)]))
  }
}

=== FILE: ability_systems.dfy ===
/**
 * AbilityStateMachineSystem and AbilityCueDispatchSystem for one entity.
 *
 * The entity's buffers and components are an EntityState value; an update
 * runs the state machine, then the dispatcher, then plays back the
 * end-of-simulation command buffers (structural changes recorded during the
 * pass) in the order they were created.  The pure functions below are the
 * specification; the class AbilityEntity at the end performs the same update
 * in place, loop by loop.
 */
module AbilitySystems {
  import opened Wrappers
  import opened UnityTypes
  import opened Mathf
  import opened AbilityDB
  import opened AbilityComponents

  /** A deferred structural change for this entity, recorded in an EntityCommandBuffer. */
  datatype Command =
    | AddCooldownBuffer
    | AddCastRequestBuffer
    | AddCueBuffer
    | AddActive(active: ActiveAbility)
    | RemoveActive
    | AppendCooldown(entry: AbilityCooldownEntry)
    | AddRequestBuffer(kind: RequestKind)
    | AppendRequest(request: Request)

  /**
   * One ability-owning entity (it carries an AbilityLoadout buffer).  A
   * buffer that the entity does not have is None; `requests` maps each
   * request buffer kind the entity has to its contents.  `position` and
   * `rotation` are what the dispatcher reads from Position and Heading.
   */
  datatype EntityState = EntityState(
    self: Entity,
    position: Vec3,
    rotation: Quat,
    loadout: seq<AbilityLoadout>,
    cooldowns: Option<seq<AbilityCooldownEntry>>,
    castRequests: Option<seq<AbilityCastRequest>>,
    cues: Option<seq<AbilityCueEvent>>,
    active: Option<ActiveAbility>,
    requests: map<RequestKind, seq<Request>>)

  /** Every request sits in the buffer of its own kind. */
  predicate RequestsWellTyped(s: EntityState)
  {
    forall k <- s.requests :: forall r <- s.requests[k] :: KindOf(r) == k
  }

  // ---------------------------------------------------------------------
  // Playback of the command buffers

  function ApplyCommand(s: EntityState, c: Command): EntityState
  {
    match c
    case AddCooldownBuffer => s.(cooldowns := Some([]))
    case AddCastRequestBuffer => s.(castRequests := Some([]))
    case AddCueBuffer => s.(cues := Some([]))
    case AddActive(a) => s.(active := Some(a))
    case RemoveActive => s.(active := None)
    case AppendCooldown(e) =>
      if s.cooldowns.Some? then s.(cooldowns := Some(s.cooldowns.value + [e])) else s
    case AddRequestBuffer(k) => s.(requests := s.requests[k := []])
    case AppendRequest(r) =>
      var k := KindOf(r);
      if k in s.requests then s.(requests := s.requests[k := s.requests[k] + [r]]) else s
  }

  function ApplyCommands(s: EntityState, cmds: seq<Command>): EntityState
  {
    if cmds == [] then s else ApplyCommand(ApplyCommands(s, cmds[..|cmds| - 1]), cmds[|cmds| - 1])
  }

  lemma {:induction false} ApplyCommandsConcat(s: EntityState, a: seq<Command>, b: seq<Command>)
    ensures ApplyCommands(s, a + b) == ApplyCommands(ApplyCommands(s, a), b)
  {
    if b == [] {
      assert a + b == a;
    } else {
      ApplyCommandsConcat(s, a, b[..|b| - 1]);
      assert (a + b)[..|a + b| - 1] == a + b[..|b| - 1];
    }
  }

  // ---------------------------------------------------------------------
  // AbilityStateMachineSystem

  /** The "ensure" buffer: every ability buffer the entity lacks is added at playback. */
  function EnsureAbilityBuffers(s: EntityState): seq<Command>
  {
    (if s.cooldowns.None? then [AddCooldownBuffer] else []) +
    (if s.castRequests.None? then [AddCastRequestBuffer] else []) +
    (if s.cues.None? then [AddCueBuffer] else [])
  }

  function Decay(e: AbilityCooldownEntry, dt: real): AbilityCooldownEntry
  {
    e.(remaining := Max(0.0, e.remaining - dt))
  }

  function DecayAll(cds: seq<AbilityCooldownEntry>, dt: real): seq<AbilityCooldownEntry>
  {
    seq(|cds|, i requires 0 <= i < |cds| => Decay(cds[i], dt))
  }

  /**
   * Each entry's Remaining becomes max(0, Remaining - dt): never negative,
   * never larger than before (for a non-negative entry and tick), exactly
   * dt less while that stays non-negative; ids and order are unchanged.
   */
  lemma DecayAllSpec(cds: seq<AbilityCooldownEntry>, dt: real, i: int)
    requires 0 <= i < |cds|
    ensures |DecayAll(cds, dt)| == |cds|
    ensures DecayAll(cds, dt)[i].abilityIdHash == cds[i].abilityIdHash
    ensures DecayAll(cds, dt)[i].remaining >= 0.0
    ensures dt >= 0.0 && cds[i].remaining >= 0.0 ==> DecayAll(cds, dt)[i].remaining <= cds[i].remaining
    ensures cds[i].remaining - dt >= 0.0 ==> DecayAll(cds, dt)[i].remaining == cds[i].remaining - dt
  {
  }

  /** The index of the first loadout entry for `slot`, or -1. */
  function FirstSlotIndex(l: seq<AbilityLoadout>, slot: int): (i: int)
    ensures -1 <= i < |l|
    ensures i >= 0 ==> l[i].slot == slot && forall j :: 0 <= j < i ==> l[j].slot != slot
    ensures i == -1 ==> forall j :: 0 <= j < |l| ==> l[j].slot != slot
  {
    if l == [] then -1
    else if l[0].slot == slot then 0
    else
      var r := FirstSlotIndex(l[1..], slot);
      if r < 0 then -1 else r + 1
  }

  /** The index of the first definition with id `id`, or -1. */
  function FirstDefIndex(defs: seq<AbilityDef>, id: int): (i: int)
    ensures -1 <= i < |defs|
    ensures i >= 0 ==> defs[i].abilityIdHash == id && forall j :: 0 <= j < i ==> defs[j].abilityIdHash != id
    ensures i == -1 ==> forall j :: 0 <= j < |defs| ==> defs[j].abilityIdHash != id
  {
    if defs == [] then -1
    else if defs[0].abilityIdHash == id then 0
    else
      var r := FirstDefIndex(defs[1..], id);
      if r < 0 then -1 else r + 1
  }

  predicate OnCooldown(cds: seq<AbilityCooldownEntry>, id: int)
  {
    exists i :: 0 <= i < |cds| && cds[i].abilityIdHash == id && cds[i].remaining > 0.0
  }

  /** The requested id; a zero id with a non-negative slot is looked up in the loadout (0 if absent). */
  function ResolvedId(req: AbilityCastRequest, loadout: seq<AbilityLoadout>): int
  {
    if req.abilityIdHash == 0 && req.slot >= 0 then
      var i := FirstSlotIndex(loadout, req.slot);
      if i >= 0 then loadout[i].abilityIdHash else 0
    else req.abilityIdHash
  }

  /** Whether handling this entity's first cast request reads its cooldown buffer. */
  predicate ReadsCooldowns(s: EntityState)
  {
    s.active.None? && s.castRequests.Some? && s.castRequests.value != [] &&
    ResolvedId(s.castRequests.value[0], s.loadout) != 0
  }

  /** The entity shape the state machine can run on: a cast that reaches the cooldown lookup finds the buffer. */
  predicate Runnable(s: EntityState)
  {
    ReadsCooldowns(s) ==> s.cooldowns.Some?
  }

  /** The id of an accepted cast, or None when the first request is dropped. */
  function Accepted(s: EntityState, defs: seq<AbilityDef>): (id: Option<int>)
    requires Runnable(s) && s.active.None? && s.castRequests.Some? && s.castRequests.value != []
    ensures id.Some? <==>
      ResolvedId(s.castRequests.value[0], s.loadout) != 0 &&
      !OnCooldown(s.cooldowns.value, ResolvedId(s.castRequests.value[0], s.loadout)) &&
      FirstDefIndex(defs, ResolvedId(s.castRequests.value[0], s.loadout)) >= 0
    ensures id.Some? ==> id.value == ResolvedId(s.castRequests.value[0], s.loadout) && id.value != 0
  {
    var id := ResolvedId(s.castRequests.value[0], s.loadout);
    if id == 0 then None
    else if OnCooldown(s.cooldowns.value, id) then None
    else if FirstDefIndex(defs, id) < 0 then None
    else Some(id)
  }

  /**
   * Cast handling: only for an entity with no active ability and a
   * non-empty request buffer; the buffer is then cleared whatever the
   * outcome, and an accepted cast records a fresh ActiveAbility.
   */
  function CastStep(s: EntityState, defs: seq<AbilityDef>): (r: (EntityState, seq<Command>))
    requires Runnable(s)
    ensures s.active.Some? || s.castRequests.None? || s.castRequests.value == [] ==> r == (s, [])
  {
    if s.active.Some? || s.castRequests.None? || s.castRequests.value == [] then (s, [])
    else
      var acc := Accepted(s, defs);
      (s.(castRequests := Some([])),
       if acc.Some? then [AddActive(ActiveAbility(acc.value, 0, 0.0, 0.0))] else [])
  }

  predicate InWindow(t: real, prev: real, now: real)
  {
    prev < t <= now
  }

  function KeyCue(key: AbilityKeyDef, id: int, elapsed: real): AbilityCueEvent
  {
    AbilityCueEvent(id, key.keyType, elapsed, 0, Zero4, 0)
  }

  /** The cues of one track's keys whose time lies in (prev, now], in key order. */
  function KeyCues(keys: seq<AbilityKeyDef>, prev: real, now: real, id: int, elapsed: real): seq<AbilityCueEvent>
  {
    if keys == [] then []
    else
      var last := keys[|keys| - 1];
      KeyCues(keys[..|keys| - 1], prev, now, id, elapsed) +
      (if InWindow(last.time, prev, now) then [KeyCue(last, id, elapsed)] else [])
  }

  /** The cues of a phase's tracks, track by track. */
  function TrackCues(tracks: seq<AbilityTrackDef>, prev: real, now: real, id: int, elapsed: real): seq<AbilityCueEvent>
  {
    if tracks == [] then []
    else TrackCues(tracks[..|tracks| - 1], prev, now, id, elapsed) + KeyCues(tracks[|tracks| - 1].keys, prev, now, id, elapsed)
  }

  /** The number of keys of a track whose time lies in (prev, now]. */
  function WindowCount(keys: seq<AbilityKeyDef>, prev: real, now: real): nat
  {
    if keys == [] then 0
    else WindowCount(keys[..|keys| - 1], prev, now) + (if InWindow(keys[|keys| - 1].time, prev, now) then 1 else 0)
  }

  /**
   * One cue per key in the window, each carrying the ability id, the key's
   * type and the current elapsed time; no other payload is set.
   */
  lemma {:induction false} KeyCuesSpec(keys: seq<AbilityKeyDef>, prev: real, now: real, id: int, elapsed: real)
    ensures |KeyCues(keys, prev, now, id, elapsed)| == WindowCount(keys, prev, now)
    ensures forall c <- KeyCues(keys, prev, now, id, elapsed) ::
      c.abilityIdHash == id && c.time == elapsed && c.param0 == 0 && c.paramF == Zero4 && c.targetSlot == 0 &&
      exists key <- keys :: InWindow(key.time, prev, now) && c.keyType == key.keyType
    ensures forall key <- keys :: InWindow(key.time, prev, now) ==> KeyCue(key, id, elapsed) in KeyCues(keys, prev, now, id, elapsed)
  {
    if keys != [] {
      var init := keys[..|keys| - 1];
      KeyCuesSpec(init, prev, now, id, elapsed);
      assert keys == init + [keys[|keys| - 1]];
    }
  }

  /** What one state-machine tick does to an active ability. */
  datatype StepResult = StepResult(active: ActiveAbility, cues: seq<AbilityCueEvent>, cmds: seq<Command>)

  /** WriteCooldown: a cooldown entry is recorded only for a positive cooldown. */
  function CooldownCommands(def: AbilityDef): seq<Command>
  {
    if def.cooldown <= 0.0 then [] else [AppendCooldown(AbilityCooldownEntry(def.abilityIdHash, def.cooldown))]
  }

  function StepActive(a: ActiveAbility, defs: seq<AbilityDef>, dt: real): StepResult
  {
    var di := FirstDefIndex(defs, a.abilityIdHash);
    if di < 0 then StepResult(a, [], [RemoveActive])
    else
      var def := defs[di];
      var prev := a.timeInPhase;
      var a1 := a.(timeInPhase := a.timeInPhase + dt, elapsed := a.elapsed + dt);
      if a1.phaseIndex < 0 || a1.phaseIndex >= |def.phases| then
        StepResult(a1, [], CooldownCommands(def) + [RemoveActive])
      else
        var phase := def.phases[a1.phaseIndex];
        var cues := TrackCues(phase.tracks, prev, a1.timeInPhase, a1.abilityIdHash, a1.elapsed);
        if a1.timeInPhase >= phase.duration then
          var a2 := a1.(phaseIndex := a1.phaseIndex + 1, timeInPhase := 0.0);
          if a2.phaseIndex >= |def.phases| then StepResult(a2, cues, CooldownCommands(def) + [RemoveActive])
          else StepResult(a2, cues, [])
        else StepResult(a1, cues, [])
  }

  /** Whether a tick ends the ability: unknown id, phase index out of range, or the last phase completes. */
  predicate Ends(a: ActiveAbility, defs: seq<AbilityDef>, dt: real)
  {
    var di := FirstDefIndex(defs, a.abilityIdHash);
    di < 0 ||
    a.phaseIndex < 0 || a.phaseIndex >= |defs[di].phases| ||
    (a.timeInPhase + dt >= defs[di].phases[a.phaseIndex].duration && a.phaseIndex + 1 >= |defs[di].phases|)
  }

  /**
   * A tick removes the active ability exactly when it ends; it records a
   * cooldown entry (the definition's id and full cooldown) exactly when it
   * ends with a known definition whose cooldown is positive.  An unknown id
   * is removed with no cooldown and nothing else changes.
   */
  lemma StepActiveEnds(a: ActiveAbility, defs: seq<AbilityDef>, dt: real)
    ensures var r := StepActive(a, defs, dt);
      (Ends(a, defs, dt) <==> RemoveActive in r.cmds) &&
      (forall c <- r.cmds :: c == RemoveActive || c.AppendCooldown?) &&
      (forall c <- r.cmds :: c.AppendCooldown? ==> c.entry.abilityIdHash == a.abilityIdHash && c.entry.remaining > 0.0) &&
      ((exists c <- r.cmds :: c.AppendCooldown?) <==>
        Ends(a, defs, dt) && FirstDefIndex(defs, a.abilityIdHash) >= 0 &&
        defs[FirstDefIndex(defs, a.abilityIdHash)].cooldown > 0.0)
    ensures FirstDefIndex(defs, a.abilityIdHash) < 0 ==> StepActive(a, defs, dt) == StepResult(a, [], [RemoveActive])
  {
    var r := StepActive(a, defs, dt);
    var di := FirstDefIndex(defs, a.abilityIdHash);
    if di >= 0 && defs[di].cooldown > 0.0 && Ends(a, defs, dt) {
      assert r.cmds[0].AppendCooldown?;
    }
  }

  /**
   * Phase advance: when the time in phase reaches the phase duration the
   * phase index increments and the time in phase restarts at exactly 0 (the
   * overshoot is dropped); otherwise the phase is kept and its time grows
   * by dt.  Elapsed always grows by dt.  The cues are those of the keys of
   * the current phase in the window (previous time, previous time + dt].
   */
  lemma StepActiveAdvance(a: ActiveAbility, defs: seq<AbilityDef>, dt: real)
    requires FirstDefIndex(defs, a.abilityIdHash) >= 0
    requires 0 <= a.phaseIndex < |defs[FirstDefIndex(defs, a.abilityIdHash)].phases|
    ensures var def := defs[FirstDefIndex(defs, a.abilityIdHash)];
      var phase := def.phases[a.phaseIndex];
      var r := StepActive(a, defs, dt);
      r.active.abilityIdHash == a.abilityIdHash &&
      r.active.elapsed == a.elapsed + dt &&
      r.cues == TrackCues(phase.tracks, a.timeInPhase, a.timeInPhase + dt, a.abilityIdHash, a.elapsed + dt) &&
      (a.timeInPhase + dt >= phase.duration ==> r.active.phaseIndex == a.phaseIndex + 1 && r.active.timeInPhase == 0.0) &&
      (a.timeInPhase + dt < phase.duration ==> r.active.phaseIndex == a.phaseIndex && r.active.timeInPhase == a.timeInPhase + dt && r.cmds == [])
  {
  }

  // Edge-triggered firing over successive ticks of one phase

  /** The time in phase after each tick, starting from 0: [0, d0, d0 + d1, ...]. */
  function PhaseTimes(dts: seq<real>): (times: seq<real>)
    ensures |times| == |dts| + 1 && times[0] == 0.0
  {
    if dts == [] then [0.0]
    else
      var p := PhaseTimes(dts[..|dts| - 1]);
      p + [p[|p| - 1] + dts[|dts| - 1]]
  }

  /** The number of ticks i in which a key at time t lies in the window (times[i], times[i+1]]. */
  function FireCount(times: seq<real>, t: real): nat
  {
    if |times| < 2 then 0
    else FireCount(times[..|times| - 1], t) + (if InWindow(t, times[|times| - 2], times[|times| - 1]) then 1 else 0)
  }

  /**
   * Over consecutive non-negative ticks of one phase, a key with
   * 0 < time <= the final time in phase fires in exactly one tick, and any
   * other key (in particular one at time 0) in none.
   */
  lemma {:induction false} FiresExactlyOnce(dts: seq<real>, t: real)
    requires forall i :: 0 <= i < |dts| ==> dts[i] >= 0.0
    ensures var times := PhaseTimes(dts);
      FireCount(times, t) == (if 0.0 < t <= times[|times| - 1] then 1 else 0)
    ensures PhaseTimes(dts)[|dts|] >= 0.0
  {
    if dts != [] {
      var init := dts[..|dts| - 1];
      FiresExactlyOnce(init, t);
      var p := PhaseTimes(init);
      assert PhaseTimes(dts)[..|PhaseTimes(dts)| - 1] == p;
    }
  }

  /** The state-machine pass: ensure commands, then the pass proper with its own command buffer. */
  function ActiveStep(s: EntityState, defs: seq<AbilityDef>, dt: real): (EntityState, seq<Command>)
  {
    if s.active.None? || s.cues.None? then (s, [])
    else
      var r := StepActive(s.active.value, defs, dt);
      (s.(active := Some(r.active), cues := Some(s.cues.value + r.cues)), r.cmds)
  }

  function DecayStep(s: EntityState, dt: real): EntityState
  {
    if s.cooldowns.Some? then s.(cooldowns := Some(DecayAll(s.cooldowns.value, dt))) else s
  }

  /** The outcome of AbilityStateMachineSystem.OnUpdate: the in-place state and the two command buffers. */
  datatype PassResult = PassResult(state: EntityState, ensureCmds: seq<Command>, cmds: seq<Command>)

  function StateMachinePass(s: EntityState, defs: seq<AbilityDef>, dt: real): PassResult
    requires Runnable(s)
  {
    var ensure := EnsureAbilityBuffers(s);
    var s1 := DecayStep(s, dt);
    var (s2, c2) := CastStep(s1, defs);
    var (s3, c3) := ActiveStep(s2, defs, dt);
    PassResult(s3, ensure, c2 + c3)
  }

  // ---------------------------------------------------------------------
  // AbilityCueDispatchSystem

  const AllRequestKinds: seq<RequestKind> :=
    [HitboxKind, VFXKind, SFXKind, AnimKind, CameraKind, TimeScaleKind, ScriptKind, ClipActivateKind]

  /** EnsureRequestBuffers: one AddBuffer per request buffer kind the entity lacks. */
  function EnsureRequestBuffers(s: EntityState): seq<Command>
  {
    RequestBufferCommands(s.requests, AllRequestKinds)
  }

  function RequestBufferCommands(present: map<RequestKind, seq<Request>>, kinds: seq<RequestKind>): seq<Command>
  {
    if kinds == [] then []
    else
      var k := kinds[|kinds| - 1];
      RequestBufferCommands(present, kinds[..|kinds| - 1]) + (if k in present then [] else [AddRequestBuffer(k)])
  }

  /** The request kind each cue type is dispatched to. */
  function TargetKind(t: AbilityKeyType): RequestKind
  {
    match t
    case Hitbox => HitboxKind
    case VFX => VFXKind
    case SFX => SFXKind
    case Footstep => SFXKind
    case AnimationEvent => AnimKind
    case CameraShake => CameraKind
    case Signal => ScriptKind
    case Custom => ScriptKind
  }

  function PositiveOr1(x: real): real
  {
    if x > 0.0 then x else 1.0
  }

  /**
   * DispatchCue: the one request a cue turns into.  `footstepHash` is the
   * hash of the string "Footstep", the fallback sound id of a Footstep cue.
   */
  function DispatchCue(cue: AbilityCueEvent, source: Entity, position: Vec3, rotation: Quat, footstepHash: int): (r: Request)
    ensures KindOf(r) == TargetKind(cue.keyType)
    ensures cue.keyType == Footstep ==>
      r.sfx.sfxIdHash == (if cue.param0 != 0 then cue.param0 else footstepHash) &&
      r.sfx.volume == 0.6 && r.sfx.pitch == 1.0 + (cue.paramF.y * 0.2 - 0.1) && r.sfx.attachTarget == NullEntity
    ensures cue.keyType == CameraShake ==>
      r.camera.duration == 0.2 && r.camera.magnitude > 0.0 && 0 <= r.camera.profileId < 256
    ensures cue.keyType == AnimationEvent ==> r.anim.paramType == Trigger && r.anim.triggerValue == 1
  {
    match cue.keyType
    case Hitbox => HitboxReq(HitboxActivateRequest(cue.param0, cue.paramF, cue.targetSlot))
    case VFX => VFXReq(VFXSpawnRequest(cue.param0, position, rotation, PositiveOr1(cue.paramF.x), 0, source))
    case SFX => SFXReq(SFXPlayRequest(cue.param0, position, PositiveOr1(cue.paramF.x), 1.0, 0, source))
    case AnimationEvent => AnimReq(AnimationParamRequest(cue.param0, Trigger, cue.paramF.x, 1, 1))
    case CameraShake => CameraReq(CameraImpulseRequest(Vec3(0.0, 0.0, 1.0), PositiveOr1(cue.paramF.x), 0.2, cue.param0 % 256))
    case Signal => ScriptReq(ScriptHookRequest(cue.param0, cue.param0, cue.paramF.x, source))
    case Footstep =>
      SFXReq(SFXPlayRequest(if cue.param0 != 0 then cue.param0 else footstepHash, position, 0.6,
                            1.0 + (cue.paramF.y * 0.2 - 0.1), 0, NullEntity))
    case Custom => ScriptReq(ScriptHookRequest(cue.param0, cue.param0, cue.paramF.x, source))
  }

  function DispatchAll(s: EntityState, cues: seq<AbilityCueEvent>, footstepHash: int): seq<Request>
  {
    seq(|cues|, i requires 0 <= i < |cues| => DispatchCue(cues[i], s.self, s.position, s.rotation, footstepHash))
  }

  function Appends(reqs: seq<Request>): seq<Command>
  {
    seq(|reqs|, i requires 0 <= i < |reqs| => AppendRequest(reqs[i]))
  }

  /** The dispatch pass: a non-empty cue buffer is fanned out, one request per cue, and then emptied. */
  function DispatchStep(s: EntityState, footstepHash: int): (EntityState, seq<Command>)
  {
    if s.cues.None? || s.cues.value == [] then (s, [])
    else (s.(cues := Some([])), EnsureRequestBuffers(s) + Appends(DispatchAll(s, s.cues.value, footstepHash)))
  }

  // ---------------------------------------------------------------------
  // One simulation update

  function SimulationUpdate(s: EntityState, db: AbilityDBBlob, dt: real, footstepHash: int): EntityState
    requires Runnable(s)
  {
    var pass := StateMachinePass(s, db.abilities, dt);
    var (s2, dispatchCmds) := DispatchStep(pass.state, footstepHash);
    ApplyCommands(s2, pass.ensureCmds + pass.cmds + dispatchCmds)
  }

  // ---------------------------------------------------------------------
  // The searches of the state machine, as the loops with early exit they are

  /** The first loadout entry bound to `slot`. */
  method FindSlot(loadout: seq<AbilityLoadout>, slot: int) returns (i: int)
    ensures i == FirstSlotIndex(loadout, slot)
  {
    i := 0;
    while i < |loadout|
      invariant 0 <= i <= |loadout|
      invariant forall j :: 0 <= j < i ==> loadout[j].slot != slot
    {
      if loadout[i].slot == slot {
        return;
      }
      i := i + 1;
    }
    i := -1;
  }

  /** The first definition with id `id`. */
  method FindDef(defs: seq<AbilityDef>, id: int) returns (i: int)
    ensures i == FirstDefIndex(defs, id)
  {
    i := 0;
    while i < |defs|
      invariant 0 <= i <= |defs|
      invariant forall j :: 0 <= j < i ==> defs[j].abilityIdHash != id
    {
      if defs[i].abilityIdHash == id {
        return;
      }
      i := i + 1;
    }
    i := -1;
  }

  /** Whether some entry for `id` still has time remaining. */
  method IsOnCooldown(cds: seq<AbilityCooldownEntry>, id: int) returns (onCd: bool)
    ensures onCd <==> OnCooldown(cds, id)
  {
    onCd := false;
    var i := 0;
    while i < |cds|
      invariant 0 <= i <= |cds|
      invariant forall j :: 0 <= j < i ==> !(cds[j].abilityIdHash == id && cds[j].remaining > 0.0)
    {
      if cds[i].abilityIdHash == id && cds[i].remaining > 0.0 {
        onCd := true;
        return;
      }
      i := i + 1;
    }
  }

  // ---------------------------------------------------------------------
  // The entity, updated in place

  class AbilityEntity {
    const self: Entity
    var position: Vec3
    var rotation: Quat
    var loadout: seq<AbilityLoadout>
    var cooldowns: Option<seq<AbilityCooldownEntry>>
    var castRequests: Option<seq<AbilityCastRequest>>
    var cues: Option<seq<AbilityCueEvent>>
    var active: Option<ActiveAbility>
    var requests: map<RequestKind, seq<Request>>

    function State(): EntityState
      reads this
    {
      EntityState(self, position, rotation, loadout, cooldowns, castRequests, cues, active, requests)
    }

    /** A freshly spawned ability owner: a loadout and nothing else. */
    constructor(self: Entity, position: Vec3, rotation: Quat, loadout: seq<AbilityLoadout>)
      ensures State() == EntityState(self, position, rotation, loadout, None, None, None, None, map[])
    {
      this.self := self;
      this.position := position;
      this.rotation := rotation;
      this.loadout := loadout;
      cooldowns := None;
      castRequests := None;
      cues := None;
      active := None;
      requests := map[];
    }

    /** The ensure pass: one AddBuffer command per missing ability buffer. */
    method RecordMissingBuffers() returns (cmds: seq<Command>)
      ensures cmds == EnsureAbilityBuffers(State())
    {
      cmds := [];
      if cooldowns.None? {
        cmds := cmds + [AddCooldownBuffer];
      }
      if castRequests.None? {
        cmds := cmds + [AddCastRequestBuffer];
      }
      if cues.None? {
        cmds := cmds + [AddCueBuffer];
      }
    }

    /** Every cooldown entry loses dt, floored at 0, in place. */
    method DecrementCooldowns(dt: real)
      modifies this
      ensures State() == DecayStep(old(State()), dt)
    {
      if cooldowns.None? {
        return;
      }
      var b := cooldowns.value;
      for i := 0 to |b|
        invariant cooldowns.Some? && |cooldowns.value| == |b|
        invariant cooldowns.value[..i] == DecayAll(b, dt)[..i]
        invariant cooldowns.value[i..] == b[i..]
        invariant State() == old(State()).(cooldowns := cooldowns)
      {
        var entry := cooldowns.value[i];
        entry := entry.(remaining := Max(0.0, entry.remaining - dt));
        cooldowns := Some(cooldowns.value[i := entry]);
      }
      assert cooldowns.value == cooldowns.value[..|b|];
      assert DecayAll(b, dt) == DecayAll(b, dt)[..|b|];
    }

    /** Cast handling for an entity with no active ability. */
    method HandleCast(defs: seq<AbilityDef>) returns (cmds: seq<Command>)
      requires Runnable(State())
      modifies this
      ensures (State(), cmds) == CastStep(old(State()), defs)
    {
      cmds := [];
      if active.Some? || castRequests.None? || castRequests.value == [] {
        return;
      }
      var req := castRequests.value[0];
      var abilityId := req.abilityIdHash;
      if abilityId == 0 && req.slot >= 0 {
        var i := FindSlot(loadout, req.slot);
        if i >= 0 {
          abilityId := loadout[i].abilityIdHash;
        }
      }
      assert abilityId == ResolvedId(req, loadout);
      if abilityId == 0 {
        castRequests := Some([]);
        return;
      }
      var onCd := IsOnCooldown(cooldowns.value, abilityId);
      if onCd {
        castRequests := Some([]);
        return;
      }
      var defIndex := FindDef(defs, abilityId);
      if defIndex < 0 {
        castRequests := Some([]);
        return;
      }
      cmds := [AddActive(ActiveAbility(abilityId, 0, 0.0, 0.0))];
      castRequests := Some([]);
    }

    /** Append the cue of every key of `tracks` whose time lies in (prev, now]. */
    method FireKeys(tracks: seq<AbilityTrackDef>, prev: real, now: real, id: int, elapsed: real)
      requires cues.Some?
      modifies this
      ensures cues == Some(old(cues.value) + TrackCues(tracks, prev, now, id, elapsed))
      ensures State() == old(State()).(cues := cues)
    {
      ghost var start := cues.value;
      assert tracks[..0] == [];
      assert start + [] == start;
      for t := 0 to |tracks|
        invariant cues.Some? && cues.value == start + TrackCues(tracks[..t], prev, now, id, elapsed)
        invariant State() == old(State()).(cues := cues)
      {
        var keys := tracks[t].keys;
        ghost var before := cues.value;
        assert keys[..0] == [];
        assert before + [] == before;
        for k := 0 to |keys|
          invariant cues.Some? && cues.value == before + KeyCues(keys[..k], prev, now, id, elapsed)
          invariant State() == old(State()).(cues := cues)
        {
          var key := keys[k];
          assert keys[..k + 1][..k] == keys[..k];
          if key.time > prev && key.time <= now {
            cues := Some(cues.value + [KeyCue(key, id, elapsed)]);
          }
        }
        assert keys[..|keys|] == keys;
        assert tracks[..t + 1][..t] == tracks[..t];
      }
      assert tracks[..|tracks|] == tracks;
    }

    /** One tick of the active ability, if the entity has one and a cue buffer. */
    method AdvanceActive(defs: seq<AbilityDef>, dt: real) returns (cmds: seq<Command>)
      modifies this
      ensures (State(), cmds) == ActiveStep(old(State()), defs, dt)
    {
      cmds := [];
      if active.None? || cues.None? {
        return;
      }
      var a := active.value;
      var defIndex := FindDef(defs, a.abilityIdHash);
      if defIndex < 0 {
        cmds := [RemoveActive];
        assert cues.value + [] == cues.value;
        return;
      }
      var def := defs[defIndex];
      var prev := a.timeInPhase;
      a := a.(timeInPhase := a.timeInPhase + dt, elapsed := a.elapsed + dt);
      if a.phaseIndex < 0 || a.phaseIndex >= |def.phases| {
        cmds := CooldownCommands(def) + [RemoveActive];
        active := Some(a);
        return;
      }
      var phase := def.phases[a.phaseIndex];
      FireKeys(phase.tracks, prev, a.timeInPhase, a.abilityIdHash, a.elapsed);
      if a.timeInPhase >= phase.duration {
        a := a.(phaseIndex := a.phaseIndex + 1, timeInPhase := 0.0);
        if a.phaseIndex >= |def.phases| {
          cmds := CooldownCommands(def) + [RemoveActive];
        }
      }
      active := Some(a);
    }

    /** AbilityStateMachineSystem.OnUpdate for this entity. */
    method StateMachineUpdate(defs: seq<AbilityDef>, dt: real) returns (ensureCmds: seq<Command>, cmds: seq<Command>)
      requires Runnable(State())
      modifies this
      ensures PassResult(State(), ensureCmds, cmds) == StateMachinePass(old(State()), defs, dt)
    {
      ensureCmds := RecordMissingBuffers();
      DecrementCooldowns(dt);
      var c2 := HandleCast(defs);
      var c3 := AdvanceActive(defs, dt);
      cmds := c2 + c3;
    }

    /** AbilityCueDispatchSystem.OnUpdate for this entity. */
    method DispatchCues(footstepHash: int) returns (cmds: seq<Command>)
      modifies this
      ensures (State(), cmds) == DispatchStep(old(State()), footstepHash)
    {
      cmds := [];
      if cues.None? || cues.value == [] {
        return;
      }
      var s := State();
      cmds := EnsureRequestBuffers(s);
      var b := cues.value;
      for i := 0 to |b|
        invariant cmds == EnsureRequestBuffers(s) + Appends(DispatchAll(s, b[..i], footstepHash))
      {
        cmds := cmds + [AppendRequest(DispatchCue(b[i], self, position, rotation, footstepHash))];
        assert DispatchAll(s, b[..i + 1], footstepHash) == DispatchAll(s, b[..i], footstepHash) + [DispatchCue(b[i], self, position, rotation, footstepHash)];
      }
      assert b[..|b|] == b;
      cues := Some([]);
    }

    /** Playback of recorded commands, in order. */
    method Playback(cmds: seq<Command>)
      modifies this
      ensures State() == ApplyCommands(old(State()), cmds)
    {
      for i := 0 to |cmds|
        invariant State() == ApplyCommands(old(State()), cmds[..i])
      {
        assert cmds[..i + 1][..i] == cmds[..i];
        match cmds[i]
        case AddCooldownBuffer =>
          cooldowns := Some([]);
        case AddCastRequestBuffer =>
          castRequests := Some([]);
        case AddCueBuffer =>
          cues := Some([]);
        case AddActive(a) =>
          active := Some(a);
        case RemoveActive =>
          active := None;
        case AppendCooldown(e) =>
          if cooldowns.Some? { cooldowns := Some(cooldowns.value + [e]); }
        case AddRequestBuffer(k) =>
          requests := requests[k := []];
        case AppendRequest(r) =>
          if KindOf(r) in requests { requests := requests[KindOf(r) := requests[KindOf(r)] + [r]]; }
      }
      assert cmds[..|cmds|] == cmds;
    }

    /** One simulation update: state machine, dispatch, then end-of-simulation playback. */
    method Update(db: AbilityDBBlob, dt: real, footstepHash: int)
      requires Runnable(State())
      modifies this
      ensures State() == SimulationUpdate(old(State()), db, dt, footstepHash)
    {
      var ensureCmds, cmds := StateMachineUpdate(db.abilities, dt);
      var dispatchCmds := DispatchCues(footstepHash);
      Playback(ensureCmds + cmds + dispatchCmds);
    }
  }
}

=== FILE: ability_update.dfy ===
/**
 * What one simulation update does to an ability owner, across the state
 * machine, the dispatcher and the playback of their command buffers.
 */
module AbilityUpdate {
  import opened Wrappers
  import opened AbilityDB
  import opened AbilityComponents
  import opened AbilitySystems

  function Filled<T>(o: Option<seq<T>>): Option<seq<T>>
  {
    if o.None? then Some([]) else o
  }

  lemma ApplySingle(x: EntityState, c: Command)
    ensures ApplyCommands(x, [c]) == ApplyCommand(x, c)
  {
    assert [c][..0] == [];
  }

  /** Commands that touch no request buffer leave the request buffers alone. */
  lemma {:induction false} ApplyKeepsRequests(x: EntityState, cmds: seq<Command>)
    requires forall c <- cmds :: !c.AddRequestBuffer? && !c.AppendRequest?
    ensures ApplyCommands(x, cmds).requests == x.requests
  {
    if cmds != [] {
      ApplyKeepsRequests(x, cmds[..|cmds| - 1]);
    }
  }

  /** Request-buffer commands touch nothing but the request buffers. */
  lemma {:induction false} ApplyOnlyRequests(x: EntityState, cmds: seq<Command>)
    requires forall c <- cmds :: c.AddRequestBuffer? || c.AppendRequest?
    ensures ApplyCommands(x, cmds) == x.(requests := ApplyCommands(x, cmds).requests)
  {
    if cmds != [] {
      var init := cmds[..|cmds| - 1];
      assert forall c <- init :: c in cmds;
      assert cmds[|cmds| - 1] in cmds;
      ApplyOnlyRequests(x, init);
    }
  }

  /** The ensure commands recorded against y fill exactly the buffers y lacks. */
  lemma ApplyEnsure(x: EntityState, y: EntityState)
    requires x.cooldowns.None? == y.cooldowns.None?
    requires x.castRequests.None? == y.castRequests.None?
    requires x.cues.None? == y.cues.None?
    ensures ApplyCommands(x, EnsureAbilityBuffers(y)) ==
      x.(cooldowns := Filled(x.cooldowns), castRequests := Filled(x.castRequests), cues := Filled(x.cues))
  {
    var a := if y.cooldowns.None? then [AddCooldownBuffer] else [];
    var b := if y.castRequests.None? then [AddCastRequestBuffer] else [];
    var c := if y.cues.None? then [AddCueBuffer] else [];
    ApplyCommandsConcat(x, a + b, c);
    ApplyCommandsConcat(x, a, b);
    if a != [] { ApplySingle(x, a[0]); }
    var xa := ApplyCommands(x, a);
    if b != [] { ApplySingle(xa, b[0]); }
    var xb := ApplyCommands(xa, b);
    if c != [] { ApplySingle(xb, c[0]); }
  }

  /** The requests of kind k among `reqs`, in order. */
  function OfKind(reqs: seq<Request>, k: RequestKind): seq<Request>
  {
    if reqs == [] then []
    else OfKind(reqs[..|reqs| - 1], k) + (if KindOf(reqs[|reqs| - 1]) == k then [reqs[|reqs| - 1]] else [])
  }

  /** The append commands of a non-empty list are those of its prefix followed by the last one. */
  lemma AppendsSnoc(x: EntityState, reqs: seq<Request>)
    requires reqs != []
    ensures ApplyCommands(x, Appends(reqs)) ==
      ApplyCommand(ApplyCommands(x, Appends(reqs[..|reqs| - 1])), AppendRequest(reqs[|reqs| - 1]))
  {
    assert Appends(reqs)[..|Appends(reqs)| - 1] == Appends(reqs[..|reqs| - 1]);
  }

  /** One append to an existing buffer extends that buffer by the request's kind share. */
  lemma AppendStep(x: EntityState, before: EntityState, init: seq<Request>, r: Request)
    requires KindOf(r) in before.requests
    requires before.requests.Keys == x.requests.Keys
    requires forall k <- x.requests :: before.requests[k] == x.requests[k] + OfKind(init, k)
    ensures ApplyCommand(before, AppendRequest(r)).requests.Keys == x.requests.Keys
    ensures forall k <- x.requests ::
      ApplyCommand(before, AppendRequest(r)).requests[k] == x.requests[k] + OfKind(init + [r], k)
  {
    var reqs := init + [r];
    var kr := KindOf(r);
    assert reqs[..|reqs| - 1] == init;
    var m := before.requests[kr := before.requests[kr] + [r]];
    assert ApplyCommand(before, AppendRequest(r)).requests == m;
    forall k <- x.requests
      ensures m[k] == x.requests[k] + OfKind(reqs, k)
    {
      if k == kr {
        assert OfKind(reqs, k) == OfKind(init, k) + [r];
        assert m[k] == (x.requests[k] + OfKind(init, k)) + [r];
      } else {
        assert OfKind(reqs, k) == OfKind(init, k);
      }
    }
  }

  /** Appending requests whose buffers exist extends each buffer by the requests of its kind. */
  lemma {:induction false} ApplyAppends(x: EntityState, reqs: seq<Request>)
    requires forall r <- reqs :: KindOf(r) in x.requests
    ensures ApplyCommands(x, Appends(reqs)).requests.Keys == x.requests.Keys
    ensures forall k <- x.requests :: ApplyCommands(x, Appends(reqs)).requests[k] == x.requests[k] + OfKind(reqs, k)
  {
    if reqs != [] {
      var init := reqs[..|reqs| - 1];
      var r := reqs[|reqs| - 1];
      assert forall q <- init :: q in reqs;
      assert r in reqs;
      ApplyAppends(x, init);
      AppendsSnoc(x, reqs);
      assert init + [r] == reqs;
      AppendStep(x, ApplyCommands(x, Appends(init)), init, r);
    }
  }

  /** Exactly the kinds present or listed have a buffer; a listed kind that was missing has an empty one. */
  predicate BuffersFor(m: map<RequestKind, seq<Request>>, present: map<RequestKind, seq<Request>>, kinds: seq<RequestKind>)
  {
    (forall k :: k in m <==> k in present || k in kinds) &&
    (forall k <- m :: m[k] == if k in present then present[k] else [])
  }

  lemma AddBufferStep(m: map<RequestKind, seq<Request>>, present: map<RequestKind, seq<Request>>,
                      init: seq<RequestKind>, k: RequestKind)
    requires BuffersFor(m, present, init)
    ensures k !in present ==> BuffersFor(if k in m then m else m[k := []], present, init + [k])
    ensures k in present ==> BuffersFor(m, present, init + [k])
  {
    assert forall j :: j in init + [k] <==> j in init || j == k;
  }

  /** The request-buffer commands recorded against x add an empty buffer for every missing kind. */
  lemma {:induction false} ApplyRequestBuffers(x: EntityState, kinds: seq<RequestKind>)
    ensures var m := ApplyCommands(x, RequestBufferCommands(x.requests, kinds)).requests;
      (forall k :: k in m <==> k in x.requests || k in kinds) &&
      (forall k <- m :: m[k] == if k in x.requests then x.requests[k] else [])
  {
    if kinds != [] {
      var init := kinds[..|kinds| - 1];
      var k := kinds[|kinds| - 1];
      ApplyRequestBuffers(x, init);
      var prior := RequestBufferCommands(x.requests, init);
      var m := ApplyCommands(x, prior).requests;
      assert kinds == init + [k];
      AddBufferStep(m, x.requests, init, k);
      if k !in x.requests {
        ApplyCommandsConcat(x, prior, [AddRequestBuffer(k)]);
        ApplySingle(ApplyCommands(x, prior), AddRequestBuffer(k));
      } else {
        assert RequestBufferCommands(x.requests, kinds) == prior + [] == prior;
      }
    }
  }

  lemma {:induction false} RequestBufferCommandsAreAdds(present: map<RequestKind, seq<Request>>, kinds: seq<RequestKind>)
    ensures forall c <- RequestBufferCommands(present, kinds) :: c.AddRequestBuffer?
  {
    if kinds != [] {
      RequestBufferCommandsAreAdds(present, kinds[..|kinds| - 1]);
    }
  }

  lemma DispatchCommandsTouchRequests(s: EntityState, footstepHash: int)
    ensures forall c <- DispatchStep(s, footstepHash).1 :: c.AddRequestBuffer? || c.AppendRequest?
  {
    RequestBufferCommandsAreAdds(s.requests, AllRequestKinds);
  }

  predicate PassCommand(c: Command)
  {
    c.AddActive? || c.RemoveActive? || c.AppendCooldown?
  }

  /** The state machine's own commands touch only the active ability and the cooldown buffer. */
  lemma {:induction false} ApplyPassCommands(x: EntityState, cmds: seq<Command>)
    requires forall c <- cmds :: PassCommand(c)
    ensures var y := ApplyCommands(x, cmds);
      y == x.(active := y.active, cooldowns := y.cooldowns) &&
      y.cooldowns.Some? == x.cooldowns.Some? &&
      ((forall c <- cmds :: !c.AddActive? && !c.RemoveActive?) ==> y.active == x.active) &&
      (x.cooldowns.Some? ==> |x.cooldowns.value| <= |y.cooldowns.value| &&
                             y.cooldowns.value[..|x.cooldowns.value|] == x.cooldowns.value) &&
      (x.cooldowns.Some? && (forall e <- x.cooldowns.value :: e.remaining >= 0.0) &&
       (forall c <- cmds :: c.AppendCooldown? ==> c.entry.remaining >= 0.0)
       ==> forall e <- y.cooldowns.value :: e.remaining >= 0.0)
  {
    if cmds != [] {
      var init := cmds[..|cmds| - 1];
      assert forall c <- init :: c in cmds;
      assert cmds[|cmds| - 1] in cmds;
      ApplyPassCommands(x, init);
    }
  }

  /** The commands of an ending tick: a cooldown entry for a positive cooldown, then removal. */
  lemma ApplyEnd(x: EntityState, def: AbilityDef)
    ensures ApplyCommands(x, CooldownCommands(def) + [RemoveActive]) ==
      x.(active := None,
         cooldowns := if x.cooldowns.Some? && def.cooldown > 0.0
                      then Some(x.cooldowns.value + [AbilityCooldownEntry(def.abilityIdHash, def.cooldown)])
                      else x.cooldowns)
  {
    var cd := CooldownCommands(def);
    ApplyCommandsConcat(x, cd, [RemoveActive]);
    if cd != [] {
      ApplySingle(x, cd[0]);
    }
    ApplySingle(ApplyCommands(x, cd), RemoveActive);
  }

  /** The pass never creates or drops an ability buffer; that is left to the ensure commands. */
  lemma PassKeepsShape(s: EntityState, defs: seq<AbilityDef>, dt: real, footstepHash: int)
    requires Runnable(s)
    ensures var p := StateMachinePass(s, defs, dt);
      var s2 := DispatchStep(p.state, footstepHash).0;
      s2.cooldowns.None? == s.cooldowns.None? && s2.castRequests.None? == s.castRequests.None? &&
      s2.cues.None? == s.cues.None? && s2.requests == s.requests &&
      (s.cues.Some? ==> s2.cues == Some([])) &&
      s2.loadout == s.loadout && s2.self == s.self && s2.position == s.position && s2.rotation == s.rotation &&
      s2.cooldowns == DecayStep(s, dt).cooldowns && s2.active == p.state.active &&
      forall c <- p.cmds :: PassCommand(c)
  {
    var p := StateMachinePass(s, defs, dt);
    StepActiveEndsCommands(s, defs, dt);
  }

  lemma StepActiveEndsCommands(s: EntityState, defs: seq<AbilityDef>, dt: real)
    requires Runnable(s)
    ensures forall c <- StateMachinePass(s, defs, dt).cmds :: PassCommand(c)
  {
    if s.active.Some? {
      StepActiveEnds(s.active.value, defs, dt);
    }
  }

  /** The update as three playback segments applied to the state after both passes. */
  lemma Segments(s: EntityState, db: AbilityDBBlob, dt: real, footstepHash: int)
    requires Runnable(s)
    ensures var p := StateMachinePass(s, db.abilities, dt);
      var (s2, d) := DispatchStep(p.state, footstepHash);
      SimulationUpdate(s, db, dt, footstepHash) ==
        ApplyCommands(ApplyCommands(ApplyCommands(s2, p.ensureCmds), p.cmds), d)
  {
    var p := StateMachinePass(s, db.abilities, dt);
    var (s2, d) := DispatchStep(p.state, footstepHash);
    ApplyCommandsConcat(s2, p.ensureCmds + p.cmds, d);
    ApplyCommandsConcat(s2, p.ensureCmds, p.cmds);
  }

  /**
   * After any update the entity has all three ability buffers, its cue
   * buffer is empty (every cue raised is dispatched in the same update), and
   * it is again in a shape the state machine can run on.
   */
  lemma UpdateEstablishesBuffers(s: EntityState, db: AbilityDBBlob, dt: real, footstepHash: int)
    requires Runnable(s)
    ensures var u := SimulationUpdate(s, db, dt, footstepHash);
      u.cooldowns.Some? && u.castRequests.Some? && u.cues == Some([]) && Runnable(u)
  {
    var p := StateMachinePass(s, db.abilities, dt);
    var (s2, d) := DispatchStep(p.state, footstepHash);
    Segments(s, db, dt, footstepHash);
    PassKeepsShape(s, db.abilities, dt, footstepHash);
    ApplyEnsure(s2, s);
    var x1 := ApplyCommands(s2, p.ensureCmds);
    ApplyPassCommands(x1, p.cmds);
    var x2 := ApplyCommands(x1, p.cmds);
    DispatchCommandsTouchRequests(p.state, footstepHash);
    ApplyOnlyRequests(x2, d);
  }

  /**
   * A cast is handled only for an idle entity with a pending request.  The
   * request buffer is emptied whatever the outcome; an accepted cast (a
   * non-zero resolved id, not on cooldown after this update's decrement,
   * with a definition) becomes the active ability at playback, at phase 0
   * with no time elapsed: it is not advanced in the update that accepts it.
   */
  lemma CastTakesEffectAtPlayback(s: EntityState, db: AbilityDBBlob, dt: real, footstepHash: int)
    requires Runnable(s) && s.active.None? && s.castRequests.Some? && s.castRequests.value != []
    ensures var acc := Accepted(DecayStep(s, dt), db.abilities);
      var u := SimulationUpdate(s, db, dt, footstepHash);
      u.castRequests == Some([]) &&
      u.active == (if acc.Some? then Some(ActiveAbility(acc.value, 0, 0.0, 0.0)) else None)
  {
    var p := StateMachinePass(s, db.abilities, dt);
    var (s2, d) := DispatchStep(p.state, footstepHash);
    Segments(s, db, dt, footstepHash);
    PassKeepsShape(s, db.abilities, dt, footstepHash);
    ApplyEnsure(s2, s);
    var x1 := ApplyCommands(s2, p.ensureCmds);
    var (s1c, c2) := CastStep(DecayStep(s, dt), db.abilities);
    assert p.cmds == c2 + [];
    if c2 != [] {
      ApplySingle(x1, c2[0]);
    }
    var x2 := ApplyCommands(x1, p.cmds);
    DispatchCommandsTouchRequests(p.state, footstepHash);
    ApplyOnlyRequests(x2, d);
  }

  /** The cooldown entry, if any, that a tick ending with a known definition records. */
  function EndEntry(a: ActiveAbility, defs: seq<AbilityDef>, dt: real): seq<AbilityCooldownEntry>
  {
    var di := FirstDefIndex(defs, a.abilityIdHash);
    if Ends(a, defs, dt) && di >= 0 && defs[di].cooldown > 0.0
    then [AbilityCooldownEntry(a.abilityIdHash, defs[di].cooldown)]
    else []
  }

  /** Playing back one tick's commands: removal when it ends, plus the cooldown entry it records. */
  lemma ApplyStepCommands(x: EntityState, a: ActiveAbility, defs: seq<AbilityDef>, dt: real)
    ensures ApplyCommands(x, StepActive(a, defs, dt).cmds) ==
      x.(active := if Ends(a, defs, dt) then None else x.active,
         cooldowns := if x.cooldowns.Some? then Some(x.cooldowns.value + EndEntry(a, defs, dt)) else x.cooldowns)
  {
    var di := FirstDefIndex(defs, a.abilityIdHash);
    if x.cooldowns.Some? {
      assert x.cooldowns.value + [] == x.cooldowns.value;
    }
    if di < 0 {
      ApplySingle(x, RemoveActive);
    } else if Ends(a, defs, dt) {
      assert defs[di].abilityIdHash == a.abilityIdHash;
      ApplyEnd(x, defs[di]);
    }
  }

  /**
   * An entity with an active ability ignores its cast requests.  After the
   * update the ability is gone if the tick ended it, and otherwise holds the
   * advanced state; the cooldown buffer holds every old entry decremented,
   * followed by the ending ability's full cooldown when it has one.
   */
  lemma ActiveAbilityTick(s: EntityState, db: AbilityDBBlob, dt: real, footstepHash: int)
    requires Runnable(s) && s.active.Some? && s.cues.Some?
    ensures var a := s.active.value;
      var u := SimulationUpdate(s, db, dt, footstepHash);
      u.castRequests == Filled(s.castRequests) &&
      u.active == (if Ends(a, db.abilities, dt) then None else Some(StepActive(a, db.abilities, dt).active)) &&
      (s.cooldowns.Some? ==> u.cooldowns == Some(DecayAll(s.cooldowns.value, dt) + EndEntry(a, db.abilities, dt)))
  {
    var a := s.active.value;
    var defs := db.abilities;
    var p := StateMachinePass(s, defs, dt);
    var (s2, d) := DispatchStep(p.state, footstepHash);
    Segments(s, db, dt, footstepHash);
    PassKeepsShape(s, defs, dt, footstepHash);
    ApplyEnsure(s2, s);
    var x1 := ApplyCommands(s2, p.ensureCmds);
    assert p.cmds == StepActive(a, defs, dt).cmds;
    ApplyStepCommands(x1, a, defs, dt);
    var x2 := ApplyCommands(x1, p.cmds);
    DispatchCommandsTouchRequests(p.state, footstepHash);
    ApplyOnlyRequests(x2, d);
  }

  /**
   * Cooldown entries are never negative after an update, whatever the tick,
   * and are never removed: the old entries, decremented, stay in front.
   */
  lemma CooldownsNeverNegative(s: EntityState, db: AbilityDBBlob, dt: real, footstepHash: int)
    requires Runnable(s)
    ensures SimulationUpdate(s, db, dt, footstepHash).cooldowns.Some?
    ensures forall e <- SimulationUpdate(s, db, dt, footstepHash).cooldowns.value :: e.remaining >= 0.0
    ensures s.cooldowns.Some? ==>
      var after := SimulationUpdate(s, db, dt, footstepHash).cooldowns.value;
      |s.cooldowns.value| <= |after| && after[..|s.cooldowns.value|] == DecayAll(s.cooldowns.value, dt)
  {
    var p := StateMachinePass(s, db.abilities, dt);
    var (s2, d) := DispatchStep(p.state, footstepHash);
    Segments(s, db, dt, footstepHash);
    PassKeepsShape(s, db.abilities, dt, footstepHash);
    ApplyEnsure(s2, s);
    var x1 := ApplyCommands(s2, p.ensureCmds);
    if s.cooldowns.Some? {
      var cds := s.cooldowns.value;
      forall e <- DecayAll(cds, dt)
        ensures e.remaining >= 0.0
      {
        var i :| 0 <= i < |DecayAll(cds, dt)| && DecayAll(cds, dt)[i] == e;
        DecayAllSpec(cds, dt, i);
      }
    }
    if s.active.Some? {
      StepActiveEnds(s.active.value, db.abilities, dt);
    }
    ApplyPassCommands(x1, p.cmds);
    var x2 := ApplyCommands(x1, p.cmds);
    DispatchCommandsTouchRequests(p.state, footstepHash);
    ApplyOnlyRequests(x2, d);
  }

  /**
   * The dispatcher turns the cue buffer left by the state machine (pending
   * cues plus those raised this update) into requests: nothing happens for
   * an empty buffer; otherwise every request buffer kind exists after
   * playback and each buffer is its old contents followed, in cue order, by
   * the requests of its kind -- one per cue.
   */
  lemma CuesFanOutToRequests(s: EntityState, db: AbilityDBBlob, dt: real, footstepHash: int)
    requires Runnable(s)
    ensures var p := StateMachinePass(s, db.abilities, dt).state;
      var u := SimulationUpdate(s, db, dt, footstepHash);
      (p.cues.None? || p.cues.value == [] ==> u.requests == s.requests) &&
      (p.cues.Some? && p.cues.value != [] ==>
        (forall k :: k in u.requests <==> k in s.requests || k in AllRequestKinds) &&
        (forall k <- u.requests :: u.requests[k] ==
          (if k in s.requests then s.requests[k] else []) + OfKind(DispatchAll(p, p.cues.value, footstepHash), k)))
  {
    var p := StateMachinePass(s, db.abilities, dt);
    var (s2, d) := DispatchStep(p.state, footstepHash);
    Segments(s, db, dt, footstepHash);
    PassKeepsShape(s, db.abilities, dt, footstepHash);
    ApplyEnsure(s2, s);
    var x1 := ApplyCommands(s2, p.ensureCmds);
    ApplyPassCommands(x1, p.cmds);
    var x2 := ApplyCommands(x1, p.cmds);
    assert x2.requests == s.requests;
    if p.state.cues.Some? && p.state.cues.value != [] {
      DispatchFanOut(x2, p.state, footstepHash);
    }
  }

  /** Playing back a non-empty dispatch: every request kind gets a buffer, and each buffer gains one request per cue of its kind. */
  lemma DispatchFanOut(x: EntityState, st: EntityState, footstepHash: int)
    requires st.cues.Some? && st.cues.value != [] && x.requests == st.requests
    ensures var m := ApplyCommands(x, DispatchStep(st, footstepHash).1).requests;
      (forall k :: k in m <==> k in st.requests || k in AllRequestKinds) &&
      (forall k <- m :: m[k] == (if k in st.requests then st.requests[k] else []) + OfKind(DispatchAll(st, st.cues.value, footstepHash), k))
  {
    var bufs := RequestBufferCommands(st.requests, AllRequestKinds);
    var reqs := DispatchAll(st, st.cues.value, footstepHash);
    assert DispatchStep(st, footstepHash).1 == bufs + Appends(reqs);
    ApplyCommandsConcat(x, bufs, Appends(reqs));
    ApplyRequestBuffers(x, AllRequestKinds);
    var x3 := ApplyCommands(x, bufs);
    forall r <- reqs
      ensures KindOf(r) in x3.requests
    {
      var i :| 0 <= i < |reqs| && reqs[i] == r;
      assert KindOf(r) == TargetKind(st.cues.value[i].keyType);
    }
    ApplyAppends(x3, reqs);
  }
}

=== FILE: clip_request_delivery.dfy ===
/**
 * Delivery of the requests ClipCueDispatchSystem appends to an owner.
 *
 * EnsureRequestBuffers asks the live world whether the owner has each
 * request buffer, and the world does not change until the end-of-simulation
 * playback.  So every dispatching clip of an owner that lacks a buffer
 * records its own AddBuffer for it, after the earlier clips' appends.  At
 * playback AddBuffer sets the buffer to the empty buffer it recorded, and
 * the earlier clips' requests are lost.  DispatchDropsEarlierRequests shows
 * this on two clips of one owner.
 *
 * FixedDispatchCommands records the AddBuffer commands only for the first
 * dispatching clip of each owner in a pass; FixedDelivers proves that every
 * request then lands in its owner's buffer, in clip order.
 */
module ClipRequestDelivery {
  import opened Wrappers
  import opened UnityTypes
  import opened AbilityDB
  import opened AbilityComponents
  import opened AbilityClipSystems
  import AbilityUpdate
  import AbilityClipUpdate

  // ---------------------------------------------------------------------
  // Playback seen from one owner

  /** What playing back `cmds` does to one owner. */
  function PlayOwner(o: Owner, cmds: seq<ClipCommand>): Owner
  {
    if cmds == [] then o else ApplyToOwner(PlayOwner(o, cmds[..|cmds| - 1]), cmds[|cmds| - 1])
  }

  /** Playback changes each owner as PlayOwner says, and keeps the owner list's length. */
  lemma {:induction false} OwnerAfter(w: World, cmds: seq<ClipCommand>)
    ensures |ApplyClipCommands(w, cmds).owners| == |w.owners|
    ensures forall j :: 0 <= j < |w.owners| ==> ApplyClipCommands(w, cmds).owners[j] == PlayOwner(w.owners[j], cmds)
  {
    if cmds != [] {
      OwnerAfter(w, cmds[..|cmds| - 1]);
    }
  }

  lemma {:induction false} PlayOwnerConcat(o: Owner, a: seq<ClipCommand>, b: seq<ClipCommand>)
    ensures PlayOwner(o, a + b) == PlayOwner(PlayOwner(o, a), b)
  {
    if b == [] {
      assert a + b == a;
    } else {
      PlayOwnerConcat(o, a, b[..|b| - 1]);
      assert (a + b)[..|a + b| - 1] == a + b[..|b| - 1];
    }
  }

  /** Playback changes nothing of an owner but its request buffers. */
  lemma {:induction false} PlayKeepsOwner(o: Owner, cmds: seq<ClipCommand>)
    ensures PlayOwner(o, cmds) == o.(requests := PlayOwner(o, cmds).requests)
  {
    if cmds != [] {
      PlayKeepsOwner(o, cmds[..|cmds| - 1]);
    }
  }

  /** Commands addressed to other entities leave an owner alone. */
  lemma {:induction false} PlayOthers(o: Owner, cmds: seq<ClipCommand>)
    requires forall c <- cmds :: (c.AddRequestBuffer? || c.AppendRequest?) && c.owner != o.entity
    ensures PlayOwner(o, cmds) == o
  {
    if cmds != [] {
      var init := cmds[..|cmds| - 1];
      assert forall c <- init :: c in cmds;
      assert cmds[|cmds| - 1] in cmds;
      PlayOthers(o, init);
    }
  }

  /** The ensure commands recorded against `o` give each kind `o` lacks an empty buffer. */
  lemma {:induction false} PlayEnsure(o: Owner, v: Owner, kinds: seq<RequestKind>)
    requires v.entity == o.entity
    ensures PlayOwner(v, EnsureCommands(o, kinds)) == v.(requests := PlayOwner(v, EnsureCommands(o, kinds)).requests)
    ensures var m := PlayOwner(v, EnsureCommands(o, kinds)).requests;
      (forall k :: k in m <==> k in v.requests || (k in kinds && k !in o.requests)) &&
      (forall k <- m :: m[k] == if k in kinds && k !in o.requests then [] else v.requests[k])
  {
    if kinds != [] {
      var init := kinds[..|kinds| - 1];
      var k := kinds[|kinds| - 1];
      PlayEnsure(o, v, init);
      var tail := if k in o.requests then [] else [AddRequestBuffer(o.entity, k)];
      PlayOwnerConcat(v, EnsureCommands(o, init), tail);
      assert forall q :: q in kinds <==> q in init || q == k;
      if k !in o.requests {
        assert PlayOwner(PlayOwner(v, EnsureCommands(o, init)), tail) ==
          ApplyToOwner(PlayOwner(v, EnsureCommands(o, init)), AddRequestBuffer(o.entity, k));
      }
    }
  }

  /** Appends to buffers that exist extend each buffer by the requests of its kind. */
  lemma {:induction false} PlayAppends(v: Owner, reqs: seq<Request>)
    requires forall r <- reqs :: KindOf(r) in v.requests
    ensures PlayOwner(v, AppendCommands(v.entity, reqs)) == v.(requests := PlayOwner(v, AppendCommands(v.entity, reqs)).requests)
    ensures PlayOwner(v, AppendCommands(v.entity, reqs)).requests.Keys == v.requests.Keys
    ensures forall k <- v.requests ::
      PlayOwner(v, AppendCommands(v.entity, reqs)).requests[k] == v.requests[k] + AbilityUpdate.OfKind(reqs, k)
  {
    if reqs != [] {
      var init := reqs[..|reqs| - 1];
      var r := reqs[|reqs| - 1];
      assert forall q <- init :: q in reqs;
      assert r in reqs;
      PlayAppends(v, init);
      var cmds := AppendCommands(v.entity, reqs);
      assert cmds[..|cmds| - 1] == AppendCommands(v.entity, init);
      assert cmds[|cmds| - 1] == AppendRequest(v.entity, r);
      var before := PlayOwner(v, AppendCommands(v.entity, init));
      var m := before.requests[KindOf(r) := before.requests[KindOf(r)] + [r]];
      assert PlayOwner(v, cmds).requests == m;
      forall k <- v.requests
        ensures m[k] == v.requests[k] + AbilityUpdate.OfKind(reqs, k)
      {
        if k == KindOf(r) {
          assert AbilityUpdate.OfKind(reqs, k) == AbilityUpdate.OfKind(init, k) + [r];
        } else {
          assert AbilityUpdate.OfKind(reqs, k) == AbilityUpdate.OfKind(init, k);
        }
      }
    }
  }

  /** A list with no request of kind k has no share of kind k. */
  lemma {:induction false} OfKindNone(reqs: seq<Request>, k: RequestKind)
    requires forall r <- reqs :: KindOf(r) != k
    ensures AbilityUpdate.OfKind(reqs, k) == []
  {
    if reqs != [] {
      var init := reqs[..|reqs| - 1];
      assert forall q <- init :: q in reqs;
      assert reqs[|reqs| - 1] in reqs;
      OfKindNone(init, k);
    }
  }

  // ---------------------------------------------------------------------
  // What an owner is sent, and the corrected dispatch

  /** Whether some clip among `clips` dispatches to entity e. */
  predicate Reached(owners: seq<Owner>, clips: seq<ClipEntity>, e: Entity)
  {
    exists i :: 0 <= i < |clips| && Dispatches(owners, clips[i]) && clips[i].clip.ownerEntity == e
  }

  /** The requests of kind k that the clips among `clips` send to entity e, in clip order. */
  function Sent(owners: seq<Owner>, clips: seq<ClipEntity>, e: Entity, k: RequestKind): seq<Request>
  {
    if clips == [] then []
    else
      var c := clips[|clips| - 1];
      Sent(owners, clips[..|clips| - 1], e, k) +
      (if Dispatches(owners, c) && c.clip.ownerEntity == e
       then AbilityUpdate.OfKind(ClipRequests(owners[FindOwner(owners, e)], c.clip, c.cues), k)
       else [])
  }

  /** The buffer of kind k an owner starts from: its own, or an empty one. */
  function Base(o: Owner, k: RequestKind): seq<Request>
  {
    if k in o.requests then o.requests[k] else []
  }

  /** One clip's commands under the correction: the ensure commands only if no earlier clip reached the owner. */
  function FixedDispatchClip(owners: seq<Owner>, earlier: seq<ClipEntity>, c: ClipEntity): seq<ClipCommand>
  {
    if !Dispatches(owners, c) then []
    else
      var o := owners[FindOwner(owners, c.clip.ownerEntity)];
      (if Reached(owners, earlier, o.entity) then [] else EnsureCommands(o, ClipRequestKinds)) +
      AppendCommands(o.entity, ClipRequests(o, c.clip, c.cues))
  }

  /** ClipCueDispatchSystem with EnsureRequestBuffers run once per owner per pass. */
  function FixedDispatchCommands(owners: seq<Owner>, clips: seq<ClipEntity>): seq<ClipCommand>
  {
    if clips == [] then []
    else
      var init := clips[..|clips| - 1];
      FixedDispatchCommands(owners, init) + FixedDispatchClip(owners, init, clips[|clips| - 1])
  }

  predicate DistinctEntities(owners: seq<Owner>)
  {
    forall i, j :: 0 <= i < j < |owners| ==> owners[i].entity != owners[j].entity
  }

  /** A clip that does not dispatch to e changes neither whether e was reached nor what it was sent. */
  lemma SentStepOther(owners: seq<Owner>, clips: seq<ClipEntity>, e: Entity, k: RequestKind)
    requires clips != []
    requires !(Dispatches(owners, clips[|clips| - 1]) && clips[|clips| - 1].clip.ownerEntity == e)
    ensures Reached(owners, clips, e) == Reached(owners, clips[..|clips| - 1], e)
    ensures Sent(owners, clips, e, k) == Sent(owners, clips[..|clips| - 1], e, k)
  {
    var init := clips[..|clips| - 1];
    if Reached(owners, clips, e) {
      var i :| 0 <= i < |clips| && Dispatches(owners, clips[i]) && clips[i].clip.ownerEntity == e;
      assert clips[i] == init[i];
    }
    if Reached(owners, init, e) {
      var i :| 0 <= i < |init| && Dispatches(owners, init[i]) && init[i].clip.ownerEntity == e;
      assert init[i] == clips[i];
    }
  }

  /** Nothing is sent to an entity no clip reaches. */
  lemma {:induction false} SentUnreached(owners: seq<Owner>, clips: seq<ClipEntity>, e: Entity, k: RequestKind)
    requires !Reached(owners, clips, e)
    ensures Sent(owners, clips, e, k) == []
  {
    if clips != [] {
      var init := clips[..|clips| - 1];
      assert !(Dispatches(owners, clips[|clips| - 1]) && clips[|clips| - 1].clip.ownerEntity == e);
      SentStepOther(owners, clips, e, k);
      SentUnreached(owners, init, e, k);
    }
  }

  /** The commands one dispatching clip records are addressed to its owner. */
  lemma FixedClipAddressed(owners: seq<Owner>, earlier: seq<ClipEntity>, c: ClipEntity)
    ensures forall x <- FixedDispatchClip(owners, earlier, c) ::
      (x.AddRequestBuffer? || x.AppendRequest?) && x.owner == c.clip.ownerEntity
  {
    if Dispatches(owners, c) {
      var o := owners[FindOwner(owners, c.clip.ownerEntity)];
      EnsureKindsAddressed(o, ClipRequestKinds);
    }
  }

  lemma {:induction false} EnsureKindsAddressed(o: Owner, kinds: seq<RequestKind>)
    ensures forall x <- EnsureCommands(o, kinds) :: x.AddRequestBuffer? && x.owner == o.entity
  {
    if kinds != [] {
      EnsureKindsAddressed(o, kinds[..|kinds| - 1]);
    }
  }

  /** What an owner looks like after the corrected dispatch of `clips` plays back. */
  predicate DeliveredTo(o: Owner, v: Owner, owners: seq<Owner>, clips: seq<ClipEntity>)
  {
    v == o.(requests := v.requests) &&
    (!Reached(owners, clips, o.entity) ==> v == o) &&
    (Reached(owners, clips, o.entity) ==>
      (forall k :: k in v.requests <==> k in o.requests || k in ClipRequestKinds) &&
      (forall k <- v.requests :: v.requests[k] == Base(o, k) + Sent(owners, clips, o.entity, k)))
  }

  /** A clip that dispatches to e reaches it and adds its own requests of each kind to what e was sent. */
  lemma SentStepOwn(owners: seq<Owner>, clips: seq<ClipEntity>, e: Entity, k: RequestKind)
    requires clips != []
    requires var c := clips[|clips| - 1]; Dispatches(owners, c) && c.clip.ownerEntity == e
    ensures Reached(owners, clips, e)
    ensures var c := clips[|clips| - 1];
      Sent(owners, clips, e, k) ==
      Sent(owners, clips[..|clips| - 1], e, k) + AbilityUpdate.OfKind(ClipRequests(owners[FindOwner(owners, e)], c.clip, c.cues), k)
  {
    assert Dispatches(owners, clips[|clips| - 1]) && clips[|clips| - 1].clip.ownerEntity == e;
  }

  /** Before its appends, a clip's owner has every clip request buffer, holding what it was sent so far. */
  lemma EnsurePhase(owners: seq<Owner>, init: seq<ClipEntity>, o: Owner, u: Owner)
    requires DeliveredTo(o, u, owners, init)
    ensures var v := PlayOwner(u, if Reached(owners, init, o.entity) then [] else EnsureCommands(o, ClipRequestKinds));
      v == o.(requests := v.requests) &&
      (forall k :: k in v.requests <==> k in o.requests || k in ClipRequestKinds) &&
      (forall k <- v.requests :: v.requests[k] == Base(o, k) + Sent(owners, init, o.entity, k))
  {
    if !Reached(owners, init, o.entity) {
      PlayEnsure(o, o, ClipRequestKinds);
      forall k ensures Sent(owners, init, o.entity, k) == [] {
        SentUnreached(owners, init, o.entity, k);
      }
    }
  }

  /** Appending a clip's requests extends each buffer of its owner by that clip's share of its kind. */
  lemma AppendPhase(o: Owner, v: Owner, reqs: seq<Request>, prior: RequestKind -> seq<Request>)
    requires v == o.(requests := v.requests)
    requires forall k :: k in v.requests <==> k in o.requests || k in ClipRequestKinds
    requires forall k <- v.requests :: v.requests[k] == Base(o, k) + prior(k)
    requires forall r <- reqs :: KindOf(r) in {VFXKind, SFXKind, AnimKind}
    ensures var after := PlayOwner(v, AppendCommands(o.entity, reqs));
      after == o.(requests := after.requests) &&
      (forall k :: k in after.requests <==> k in o.requests || k in ClipRequestKinds) &&
      (forall k <- after.requests :: after.requests[k] == Base(o, k) + (prior(k) + AbilityUpdate.OfKind(reqs, k)))
  {
    assert VFXKind in ClipRequestKinds && SFXKind in ClipRequestKinds && AnimKind in ClipRequestKinds;
    assert forall r <- reqs :: KindOf(r) in v.requests;
    PlayAppends(v, reqs);
  }

  /** A clip that dispatches to owner j records the ensure commands (unless j was reached before) and then its appends. */
  lemma FixedClipSplit(owners: seq<Owner>, init: seq<ClipEntity>, c: ClipEntity, j: int)
    requires 0 <= j < |owners| && FindOwner(owners, owners[j].entity) == j
    requires Dispatches(owners, c) && c.clip.ownerEntity == owners[j].entity
    ensures FixedDispatchClip(owners, init, c) ==
      (if Reached(owners, init, owners[j].entity) then [] else EnsureCommands(owners[j], ClipRequestKinds)) +
      AppendCommands(owners[j].entity, ClipRequests(owners[j], c.clip, c.cues))
  {
  }

  /** The owner's buffers after the appends are what DeliveredTo asks for. */
  lemma DeliveredAfterAppends(owners: seq<Owner>, clips: seq<ClipEntity>, o: Owner, after: Owner, reqs: seq<Request>)
    requires clips != [] && Reached(owners, clips, o.entity)
    requires after == o.(requests := after.requests)
    requires forall k :: k in after.requests <==> k in o.requests || k in ClipRequestKinds
    requires forall k <- after.requests ::
      after.requests[k] == Base(o, k) + (Sent(owners, clips[..|clips| - 1], o.entity, k) + AbilityUpdate.OfKind(reqs, k))
    requires forall k :: Sent(owners, clips, o.entity, k) == Sent(owners, clips[..|clips| - 1], o.entity, k) + AbilityUpdate.OfKind(reqs, k)
    ensures DeliveredTo(o, after, owners, clips)
  {
  }

  /** The step of FixedDelivers for a clip that dispatches to the owner in question. */
  lemma FixedStepOwn(owners: seq<Owner>, clips: seq<ClipEntity>, j: int, u: Owner)
    requires 0 <= j < |owners| && clips != []
    requires FindOwner(owners, owners[j].entity) == j
    requires var c := clips[|clips| - 1]; Dispatches(owners, c) && c.clip.ownerEntity == owners[j].entity
    requires DeliveredTo(owners[j], u, owners, clips[..|clips| - 1])
    ensures DeliveredTo(owners[j], PlayOwner(u, FixedDispatchClip(owners, clips[..|clips| - 1], clips[|clips| - 1])), owners, clips)
  {
    var init := clips[..|clips| - 1];
    var c := clips[|clips| - 1];
    var o := owners[j];
    var reqs := ClipRequests(o, c.clip, c.cues);
    AbilityClipUpdate.ClipRequestsSpec(o, c.clip, c.cues);
    var ensure := if Reached(owners, init, o.entity) then [] else EnsureCommands(o, ClipRequestKinds);
    var appends := AppendCommands(o.entity, reqs);
    FixedClipSplit(owners, init, c, j);
    PlayOwnerConcat(u, ensure, appends);
    EnsurePhase(owners, init, o, u);
    var v := PlayOwner(u, ensure);
    AppendPhase(o, v, reqs, k => Sent(owners, init, o.entity, k));
    forall k ensures Sent(owners, clips, o.entity, k) == Sent(owners, init, o.entity, k) + AbilityUpdate.OfKind(reqs, k) {
      SentStepOwn(owners, clips, o.entity, k);
    }
    SentStepOwn(owners, clips, o.entity, VFXKind);
    DeliveredAfterAppends(owners, clips, o, PlayOwner(v, appends), reqs);
  }

  /**
   * Under the corrected dispatch every request reaches its owner: an owner
   * some clip dispatched to has every clip request buffer, each holding
   * what it held before followed by the requests sent to it in clip order;
   * any other owner is unchanged.
   */
  lemma {:induction false} FixedDelivers(owners: seq<Owner>, clips: seq<ClipEntity>, j: int)
    requires 0 <= j < |owners| && DistinctEntities(owners)
    ensures DeliveredTo(owners[j], PlayOwner(owners[j], FixedDispatchCommands(owners, clips)), owners, clips)
  {
    if clips == [] {
      assert !Reached(owners, clips, owners[j].entity);
    } else {
      var init := clips[..|clips| - 1];
      var c := clips[|clips| - 1];
      var o := owners[j];
      FixedDelivers(owners, init, j);
      var u := PlayOwner(o, FixedDispatchCommands(owners, init));
      PlayOwnerConcat(o, FixedDispatchCommands(owners, init), FixedDispatchClip(owners, init, c));
      if Dispatches(owners, c) && c.clip.ownerEntity == o.entity {
        assert FindOwner(owners, o.entity) == j;
        FixedStepOwn(owners, clips, j, u);
      } else {
        FixedClipAddressed(owners, init, c);
        if Dispatches(owners, c) {
          assert c.clip.ownerEntity != o.entity;
        }
        PlayOthers(u, FixedDispatchClip(owners, init, c));
        forall k ensures Sent(owners, clips, o.entity, k) == Sent(owners, init, o.entity, k) {
          SentStepOther(owners, clips, o.entity, k);
        }
        SentStepOther(owners, clips, o.entity, VFXKind);
      }
    }
  }

  // ---------------------------------------------------------------------
  // The dispatch as written loses requests

  const Owner1 := Owner(Entity(1), Zero3, Identity, None, map[])

  function VFXCue(n: int): ClipCueEvent
  {
    ClipCueEvent(7, AbilityKeyType.VFX, 0.0, n, 0.0, NullEntity)
  }

  function ClipOf1(id: int, n: int): ClipEntity
  {
    ClipEntity(Entity(id), ActiveClip(7, AbilityClipType.VFX, Entity(1), 0.0, 1.0, 0), Zero3, [VFXCue(n)], false)
  }

  /** The VFX request a cue with Param0 n sends to owner 1. */
  function VFXFor(n: int): Request
  {
    VFXReq(VFXSpawnRequest(n, Zero3, Identity, 1.0, 0, Entity(1)))
  }

  /** The two clips' dispatch as written: each records the ensure commands, then its append. */
  lemma TwoClipCommands()
    ensures DispatchCommands([Owner1], [ClipOf1(2, 1), ClipOf1(3, 2)]) ==
      (EnsureCommands(Owner1, ClipRequestKinds) + [AppendRequest(Entity(1), VFXFor(1))]) +
      (EnsureCommands(Owner1, ClipRequestKinds) + [AppendRequest(Entity(1), VFXFor(2))])
  {
    var owners := [Owner1];
    var c1, c2 := ClipOf1(2, 1), ClipOf1(3, 2);
    var ensure := EnsureCommands(Owner1, ClipRequestKinds);
    assert FindOwner(owners, Entity(1)) == 0;
    assert Dispatches(owners, c1) && Dispatches(owners, c2);
    assert ClipRequests(Owner1, c1.clip, c1.cues) == [VFXFor(1)];
    assert ClipRequests(Owner1, c2.clip, c2.cues) == [VFXFor(2)];
    assert AppendCommands(Entity(1), [VFXFor(1)]) == [AppendRequest(Entity(1), VFXFor(1))];
    assert AppendCommands(Entity(1), [VFXFor(2)]) == [AppendRequest(Entity(1), VFXFor(2))];
    assert DispatchClip(owners, c1).1 == ensure + [AppendRequest(Entity(1), VFXFor(1))];
    assert DispatchClip(owners, c2).1 == ensure + [AppendRequest(Entity(1), VFXFor(2))];
    assert [c1, c2][..1] == [c1];
    assert [c1][..0] == [];
    assert DispatchCommands(owners, [c1]) == DispatchCommands(owners, []) + DispatchClip(owners, c1).1;
    assert DispatchCommands(owners, [c1, c2]) == DispatchCommands(owners, [c1]) + DispatchClip(owners, c2).1;
  }

  /**
   * Owner 1 has no VFX buffer and two of its clips each carry one VFX cue.
   * After the dispatch as written plays back, its VFX buffer holds only the
   * second clip's request: the AddBuffer the second clip recorded emptied it.
   */
  lemma DispatchDropsEarlierRequests()
    ensures var m := PlayOwner(Owner1, DispatchCommands([Owner1], [ClipOf1(2, 1), ClipOf1(3, 2)])).requests;
      VFXKind in m && m[VFXKind] == [VFXFor(2)]
  {
    var ensure := EnsureCommands(Owner1, ClipRequestKinds);
    var a1 := [AppendRequest(Entity(1), VFXFor(1))];
    var a2 := [AppendRequest(Entity(1), VFXFor(2))];
    TwoClipCommands();
    PlayOwnerConcat(Owner1, ensure + a1, ensure + a2);
    var u := PlayOwner(Owner1, ensure + a1);
    PlayKeepsOwner(Owner1, ensure + a1);
    PlayOwnerConcat(u, ensure, a2);
    PlayEnsure(Owner1, u, ClipRequestKinds);
    var v := PlayOwner(u, ensure);
    assert VFXKind in ClipRequestKinds;
    assert VFXKind in v.requests && v.requests[VFXKind] == [];
    assert PlayOwner(v, a2) == ApplyToOwner(v, AppendRequest(Entity(1), VFXFor(2)));
  }

  /** Each such clip dispatches to owner 1 and sends it exactly its VFX request. */
  lemma ClipOf1Sends(id: int, n: int)
    ensures FindOwner([Owner1], Entity(1)) == 0
    ensures Dispatches([Owner1], ClipOf1(id, n))
    ensures ClipRequests(Owner1, ClipOf1(id, n).clip, ClipOf1(id, n).cues) == [VFXFor(n)]
    ensures AbilityUpdate.OfKind([VFXFor(n)], VFXKind) == [VFXFor(n)]
  {
    assert [VFXCue(n)][..0] == [];
    assert AbilityUpdate.OfKind([VFXFor(n)], VFXKind) == AbilityUpdate.OfKind([], VFXKind) + [VFXFor(n)];
  }

  /** Both clips reach owner 1, and it is sent their VFX requests in clip order. */
  lemma SentTwo()
    ensures Reached([Owner1], [ClipOf1(2, 1), ClipOf1(3, 2)], Entity(1))
    ensures Sent([Owner1], [ClipOf1(2, 1), ClipOf1(3, 2)], Entity(1), VFXKind) == [VFXFor(1), VFXFor(2)]
  {
    var owners := [Owner1];
    var c1, c2 := ClipOf1(2, 1), ClipOf1(3, 2);
    var clips := [c1, c2];
    ClipOf1Sends(2, 1);
    ClipOf1Sends(3, 2);
    assert clips[0] == c1;
    assert clips[..1] == [c1];
    assert [c1][..0] == [];
    assert Sent(owners, [c1], Entity(1), VFXKind) == Sent(owners, [], Entity(1), VFXKind) + [VFXFor(1)];
    assert Sent(owners, clips, Entity(1), VFXKind) == Sent(owners, [c1], Entity(1), VFXKind) + [VFXFor(2)];
  }

  /** The corrected dispatch keeps both requests, in order. */
  lemma FixedKeepsBothRequests()
    ensures var m := PlayOwner(Owner1, FixedDispatchCommands([Owner1], [ClipOf1(2, 1), ClipOf1(3, 2)])).requests;
      VFXKind in m && m[VFXKind] == [VFXFor(1), VFXFor(2)]
  {
    var owners, clips := [Owner1], [ClipOf1(2, 1), ClipOf1(3, 2)];
    var v := PlayOwner(Owner1, FixedDispatchCommands(owners, clips));
    FixedDelivers(owners, clips, 0);
    assert DeliveredTo(Owner1, v, owners, clips);
    SentTwo();
    assert VFXKind in ClipRequestKinds;
    assert VFXKind in v.requests;
    assert Base(Owner1, VFXKind) == [];
    assert v.requests[VFXKind] == Base(Owner1, VFXKind) + Sent(owners, clips, Entity(1), VFXKind);
  }
}

=== FILE: list_ops.dfy ===
/**
 * The in-place list edits the editor performs on List<T>: RemoveAt,
 * Insert, and the remove-then-insert that moves an item, as values.
 */
module ListOps {

  /** List.RemoveAt: the item at `i` goes, the others close up in order. */
  function RemoveAt<T>(s: seq<T>, i: int): (r: seq<T>)
    requires 0 <= i < |s|
    ensures |r| == |s| - 1
    ensures forall j :: 0 <= j < i ==> r[j] == s[j]
    ensures forall j :: i <= j < |r| ==> r[j] == s[j + 1]
    ensures multiset(r) + multiset{s[i]} == multiset(s)
  {
    assert s == s[..i] + [s[i]] + s[i + 1..];
    s[..i] + s[i + 1..]
  }

  /** List.Insert: `x` lands at index `i`, the items from `i` on move up by one. */
  function Insert<T>(s: seq<T>, i: int, x: T): (r: seq<T>)
    requires 0 <= i <= |s|
    ensures |r| == |s| + 1 && r[i] == x
    ensures forall j :: 0 <= j < i ==> r[j] == s[j]
    ensures forall j :: i < j < |r| ==> r[j] == s[j - 1]
    ensures multiset(r) == multiset(s) + multiset{x}
  {
    assert s == s[..i] + s[i..];
    s[..i] + [x] + s[i..]
  }

  /** The move of MovePhase and MoveTrack: remove the item at `from`, insert it again at `to`. */
  function Move<T>(s: seq<T>, from: int, to: int): (r: seq<T>)
    requires 0 <= from < |s| && 0 <= to < |s|
    ensures |r| == |s| && r[to] == s[from]
    ensures multiset(r) == multiset(s)
  {
    Insert(RemoveAt(s, from), to, s[from])
  }

  /** Items outside the moved span keep their index; inside it they shift by one towards `from`. */
  lemma MoveShifts<T>(s: seq<T>, from: int, to: int, j: int)
    requires 0 <= from < |s| && 0 <= to < |s| && 0 <= j < |s| && j != to
    ensures from <= to && from <= j < to ==> Move(s, from, to)[j] == s[j + 1]
    ensures to < from && to < j <= from ==> Move(s, from, to)[j] == s[j - 1]
    ensures (j < from && j < to) || (j > from && j > to) ==> Move(s, from, to)[j] == s[j]
  {
  }

  /** Moving an item and moving it back restores the list. */
  lemma {:induction false} MoveBack<T>(s: seq<T>, from: int, to: int)
    requires 0 <= from < |s| && 0 <= to < |s|
    ensures Move(Move(s, from, to), to, from) == s
  {
    var m := Move(s, from, to);
    var b := Move(m, to, from);
    forall j | 0 <= j < |s|
      ensures b[j] == s[j]
    {
      if j != from {
        MoveShifts(m, to, from, j);
        if from <= to && from < j <= to {
          MoveShifts(s, from, to, j - 1);
        } else if to < from && to <= j < from {
          MoveShifts(s, from, to, j + 1);
        } else if j != to {
          MoveShifts(s, from, to, j);
        }
      }
    }
  }

  /** List.IndexOf: the first index holding `x`. */
  function IndexOf<T(==)>(s: seq<T>, x: T): (i: int)
    requires x in s
    ensures 0 <= i < |s| && s[i] == x
    ensures forall j :: 0 <= j < i ==> s[j] != x
  {
    if s[0] == x then 0 else 1 + IndexOf(s[1..], x)
  }

  /** List.Remove: drops the first occurrence of `x`, if any. */
  function RemoveFirst<T(==)>(s: seq<T>, x: T): (r: seq<T>)
    ensures x in s ==> multiset(r) == multiset(s) - multiset{x}
    ensures x !in s ==> r == s
  {
    if x in s then RemoveAt(s, IndexOf(s, x)) else s
  }
}

=== FILE: mathf.dfy ===
/** The UnityEngine.Mathf helpers the editor uses, over real numbers. */
module Mathf {

  function Max(a: real, b: real): (r: real)
    ensures r >= a && r >= b
    ensures r == a || r == b
  {
    if a >= b then a else b
  }

  function Min(a: real, b: real): (r: real)
    ensures r <= a && r <= b
    ensures r == a || r == b
  {
    if a <= b then a else b
  }

  /** Mathf.Abs. */
  function Abs(x: real): (r: real)
    ensures r >= 0.0 && (r == x || r == -x)
  {
    if x < 0.0 then -x else x
  }

  /** Mathf.Clamp: below `lo` gives `lo`, above `hi` gives `hi`. */
  function Clamp(v: real, lo: real, hi: real): (r: real)
    ensures lo <= hi ==> lo <= r <= hi
    ensures lo <= v <= hi ==> r == v
    ensures v < lo ==> r == lo
    ensures v >= lo && v > hi ==> r == hi
  {
    if v < lo then lo else if v > hi then hi else v
  }

  /**
   * Mathf.Round: the nearest integer, ties going to the even neighbour
   * (System.Math.Round's default mode).
   */
  function Round(x: real): (r: int)
    ensures x - 0.5 <= r as real <= x + 0.5
    ensures x == x.Floor as real ==> r == x.Floor
    ensures x - x.Floor as real == 0.5 ==> r % 2 == 0
  {
    var f := x.Floor;
    var frac := x - f as real;
    if frac < 0.5 then f
    else if frac > 0.5 then f + 1
    else if f % 2 == 0 then f
    else f + 1
  }

  /** Mathf.Repeat: `t` wrapped into [0, len). */
  function Repeat(t: real, len: real): (r: real)
    requires len > 0.0
    ensures 0.0 <= r < len
    ensures 0.0 <= t < len ==> r == t
  {
    FloorScaled(t, len);
    t - (t / len).Floor as real * len
  }

  /** The multiple of `len` that Repeat subtracts lies in (t - len, t]. */
  lemma FloorScaled(t: real, len: real)
    requires len > 0.0
    ensures (t / len).Floor as real * len <= t < (t / len).Floor as real * len + len
    ensures 0.0 <= t < len ==> (t / len).Floor == 0
  {
    var q := t / len;
    assert q * len == t;
    ScaledBounds(t, len, q, q.Floor as real);
  }

  lemma ScaledBounds(t: real, len: real, q: real, k: real)
    requires len > 0.0 && q * len == t && k <= q < k + 1.0
    ensures k * len <= t < k * len + len
    ensures 0.0 <= t < len ==> 0.0 <= q < 1.0
  {
    AboveFloor(t, q, k, len);
    BelowNext(t, q, k, len);
    UnitRange(t, len, q);
  }

  /** `k * len` lies at or below `t = q * len` when `k <= q`. */
  lemma AboveFloor(t: real, q: real, k: real, len: real)
    requires q * len == t && k <= q && len > 0.0
    ensures k * len <= t
  {
    MulMonotone(k, q, len);
  }

  /** One period past `k * len` lies strictly above `t = q * len` when `q < k + 1`. */
  lemma BelowNext(t: real, q: real, k: real, len: real)
    requires q * len == t && q < k + 1.0 && len > 0.0
    ensures t < k * len + len
  {
    var gap := k + 1.0 - q;
    MulStrict(0.0, gap, len);
    assert 0.0 * len == 0.0;
    assert gap * len == k * len + len - q * len;
  }

  lemma UnitRange(t: real, len: real, q: real)
    requires len > 0.0 && q * len == t
    ensures 0.0 <= t < len ==> 0.0 <= q < 1.0
  {
    if 0.0 <= t < len {
      if q >= 1.0 {
        MulMonotone(1.0, q, len);
      }
      if q < 0.0 {
        MulStrict(q, 0.0, len);
      }
    }
  }

  lemma MulMonotone(a: real, b: real, c: real)
    requires a <= b && c > 0.0
    ensures a * c <= b * c
  {
    assert b * c - a * c == (b - a) * c;
  }

  lemma MulStrict(a: real, b: real, c: real)
    requires a < b && c > 0.0
    ensures a * c < b * c
  {
    assert b * c - a * c == (b - a) * c;
  }

  lemma DivUnique(x: real, y: real, q: real)
    requires y > 0.0 && q * y == x
    ensures x / y == q
  {
    assert (x / y) * y == x;
    assert (x / y - q) * y == 0.0;
  }

  /** Wrapping is periodic: shifting by one period does not change the result. */
  lemma {:induction false} RepeatPeriodic(t: real, len: real)
    requires len > 0.0
    ensures Repeat(t + len, len) == Repeat(t, len)
  {
    DivUnique(t + len, len, t / len + 1.0);
    assert ((t + len) / len).Floor == (t / len).Floor + 1;
  }
}

=== FILE: prefab_guid_utility.dfy ===
/**
 * GUID helpers: reading an asset's GUID, validating a GUID string and
 * hashing it for runtime lookup.
 */
module PrefabGuidUtility {
  import opened Wrappers
  import opened UnityTypes

  /**
   * GetGuid, both overloads.  A null asset gives the empty string; for a
   * live asset the asset database's answer is the asset's `assetGuid`.
   */
  function GetGuid(asset: Option<Asset>): (guid: string)
    ensures asset.None? ==> guid == ""
  {
    match asset
    case None => ""
    case Some(a) => a.assetGuid
  }

  /** System.Uri.IsHexDigit. */
  predicate IsHexDigit(c: char)
  {
    ('0' <= c <= '9') || ('a' <= c <= 'f') || ('A' <= c <= 'F')
  }

  /** A well-formed asset GUID: exactly 32 hexadecimal digits. */
  predicate WellFormedGuid(s: string)
  {
    |s| == 32 && forall i :: 0 <= i < |s| ==> IsHexDigit(s[i])
  }

  /** IsValidGuid: a scan with early returns over a nullable string. */
  method IsValidGuid(guid: Option<string>) returns (valid: bool)
    ensures IsNullOrEmpty(guid) ==> !valid
    ensures guid.Some? && |guid.value| != 32 ==> !valid
    ensures valid <==> guid.Some? && WellFormedGuid(guid.value)
  {
    if IsNullOrEmpty(guid) {
      return false;
    }
    var s := guid.value;
    if |s| != 32 {
      return false;
    }
    for i := 0 to |s|
      invariant forall j :: 0 <= j < i ==> IsHexDigit(s[j])
    {
      if !IsHexDigit(s[i]) {
        return false;
      }
    }
    return true;
  }

  /**
   * GuidToHash: 0 for a null or empty GUID, otherwise the string hash
   * (`hash` stands for String.GetHashCode, which the model does not fix).
   */
  function GuidToHash(guid: Option<string>, hash: string -> int): (h: int)
    ensures IsNullOrEmpty(guid) ==> h == 0
    ensures !IsNullOrEmpty(guid) ==> h == hash(guid.value)
  {
    if IsNullOrEmpty(guid) then 0 else hash(guid.value)
  }
}

=== FILE: preview_controller.dfy ===
/**
 * The editor's preview (PreviewController.cs): which clips and keys of
 * the current ability are active at a sampled time, the preview-mode
 * flag, and the dictionary of live VFX/SFX clip instances that each
 * sample reconciles.
 */
module Preview {
  import opened Wrappers
  import opened Mathf
  import opened AbilityConfigSO
  import opened AbilityPaths
  import opened TimelineState

  /**
   * Stands in for the identity of a Clip or Key object: where it sits in
   * the ability (phase, track, index in the track's list).
   */
  datatype ItemRef = ItemRef(phase: int, track: int, index: int)

  /** KeyPreviewData: an active key and its global time. */
  datatype KeyPreview = KeyPreview(ref: ItemRef, key: Key, time: real)

  /** ClipPreviewData: an active clip, its global start and the time inside it. */
  datatype ClipPreview = ClipPreview(ref: ItemRef, clip: Clip, startTime: real, localTime: real)

  /** How close to a key's time the sampled time must be for the key to show. */
  const KeyDisplayWindow: real := 0.1

  // ---------------------------------------------------------------------
  // What is active at a time

  function PhaseStart(ab: AbilityDef, p: int): real
  {
    PhaseStartOffset(Some(ab), p)
  }

  /** List.Exists(t => t.Solo). */
  predicate HasSolo(tracks: seq<Track>)
  {
    exists t :: 0 <= t < |tracks| && tracks[t].solo
  }

  /** The phase is enabled and the time lies in [start, start + Duration). */
  predicate PhaseLive(ab: AbilityDef, time: real, p: int)
    requires PhaseInRange(ab, p)
  {
    ab.phases[p].enabled && PhaseStart(ab, p) <= time < PhaseStart(ab, p) + ab.phases[p].duration
  }

  /** The track is enabled, not muted, and either solo or in a phase without a solo track. */
  predicate TrackLive(ab: AbilityDef, p: int, t: int)
    requires TrackInRange(ab, p, t)
  {
    var tr := TrackAt(ab, p, t);
    tr.enabled && !tr.muted && (!HasSolo(ab.phases[p].tracks) || tr.solo)
  }

  /** The phase-local time lies in [Start, Start + Duration) of the clip. */
  predicate ClipLive(ab: AbilityDef, time: real, p: int, t: int, c: int)
    requires ClipInRange(ab, p, t, c)
  {
    var clip := ClipAt(ab, p, t, c);
    var local := time - PhaseStart(ab, p);
    clip.start <= local < clip.start + Duration(clip)
  }

  /** The key's global time is within the display window of the sampled time. */
  predicate KeyLive(ab: AbilityDef, time: real, p: int, t: int, k: int)
    requires KeyInRange(ab, p, t, k)
  {
    Abs(time - (PhaseStart(ab, p) + KeyAt(ab, p, t, k).time)) <= KeyDisplayWindow
  }

  predicate ClipActive(ab: AbilityDef, time: real, p: int, t: int, c: int)
    requires ClipInRange(ab, p, t, c)
  {
    PhaseLive(ab, time, p) && TrackLive(ab, p, t) && ClipLive(ab, time, p, t, c)
  }

  predicate KeyActive(ab: AbilityDef, time: real, p: int, t: int, k: int)
    requires KeyInRange(ab, p, t, k)
  {
    PhaseLive(ab, time, p) && TrackLive(ab, p, t) && KeyLive(ab, time, p, t, k)
  }

  function ClipPreviewAt(ab: AbilityDef, time: real, p: int, t: int, c: int): ClipPreview
    requires ClipInRange(ab, p, t, c)
  {
    var clip := ClipAt(ab, p, t, c);
    ClipPreview(ItemRef(p, t, c), clip, PhaseStart(ab, p) + clip.start, (time - PhaseStart(ab, p)) - clip.start)
  }

  function KeyPreviewAt(ab: AbilityDef, time: real, p: int, t: int, k: int): KeyPreview
    requires KeyInRange(ab, p, t, k)
  {
    var key := KeyAt(ab, p, t, k);
    KeyPreview(ItemRef(p, t, k), key, PhaseStart(ab, p) + key.time)
  }

  /** The clips Sample records for the first `n` clips of track (p, t), in list order. */
  function TrackClips(ab: AbilityDef, time: real, p: int, t: int, n: int): (r: seq<ClipPreview>)
    requires TrackInRange(ab, p, t) && 0 <= n <= |TrackAt(ab, p, t).clips|
    ensures forall i :: 0 <= i < |r| ==>
      r[i].ref.phase == p && r[i].ref.track == t && 0 <= r[i].ref.index < n &&
      ClipLive(ab, time, p, t, r[i].ref.index) && r[i] == ClipPreviewAt(ab, time, p, t, r[i].ref.index)
    ensures forall c :: 0 <= c < n && ClipLive(ab, time, p, t, c) ==> ClipPreviewAt(ab, time, p, t, c) in r
  {
    if n == 0 then []
    else
      TrackClips(ab, time, p, t, n - 1) +
      (if ClipLive(ab, time, p, t, n - 1) then [ClipPreviewAt(ab, time, p, t, n - 1)] else [])
  }

  /** The keys Sample records for the first `n` keys of track (p, t), in list order. */
  function TrackKeys(ab: AbilityDef, time: real, p: int, t: int, n: int): (r: seq<KeyPreview>)
    requires TrackInRange(ab, p, t) && 0 <= n <= |TrackAt(ab, p, t).keys|
    ensures forall i :: 0 <= i < |r| ==>
      r[i].ref.phase == p && r[i].ref.track == t && 0 <= r[i].ref.index < n &&
      KeyLive(ab, time, p, t, r[i].ref.index) && r[i] == KeyPreviewAt(ab, time, p, t, r[i].ref.index)
    ensures forall k :: 0 <= k < n && KeyLive(ab, time, p, t, k) ==> KeyPreviewAt(ab, time, p, t, k) in r
  {
    if n == 0 then []
    else
      TrackKeys(ab, time, p, t, n - 1) +
      (if KeyLive(ab, time, p, t, n - 1) then [KeyPreviewAt(ab, time, p, t, n - 1)] else [])
  }

  /** The clips Sample records for the first `n` tracks of phase p. */
  function PhaseClips(ab: AbilityDef, time: real, p: int, n: int): (r: seq<ClipPreview>)
    requires PhaseInRange(ab, p) && 0 <= n <= |ab.phases[p].tracks|
    ensures forall i :: 0 <= i < |r| ==>
      r[i].ref.phase == p && 0 <= r[i].ref.track < n && ClipInRange(ab, p, r[i].ref.track, r[i].ref.index) &&
      TrackLive(ab, p, r[i].ref.track) && ClipLive(ab, time, p, r[i].ref.track, r[i].ref.index) &&
      r[i] == ClipPreviewAt(ab, time, p, r[i].ref.track, r[i].ref.index)
    ensures forall t, c :: 0 <= t < n && ClipInRange(ab, p, t, c) && TrackLive(ab, p, t) && ClipLive(ab, time, p, t, c) ==>
      ClipPreviewAt(ab, time, p, t, c) in r
  {
    if n == 0 then []
    else
      PhaseClips(ab, time, p, n - 1) +
      (if TrackLive(ab, p, n - 1) then TrackClips(ab, time, p, n - 1, |TrackAt(ab, p, n - 1).clips|) else [])
  }

  /** The keys Sample records for the first `n` tracks of phase p. */
  function PhaseKeys(ab: AbilityDef, time: real, p: int, n: int): (r: seq<KeyPreview>)
    requires PhaseInRange(ab, p) && 0 <= n <= |ab.phases[p].tracks|
    ensures forall i :: 0 <= i < |r| ==>
      r[i].ref.phase == p && 0 <= r[i].ref.track < n && KeyInRange(ab, p, r[i].ref.track, r[i].ref.index) &&
      TrackLive(ab, p, r[i].ref.track) && KeyLive(ab, time, p, r[i].ref.track, r[i].ref.index) &&
      r[i] == KeyPreviewAt(ab, time, p, r[i].ref.track, r[i].ref.index)
    ensures forall t, k :: 0 <= t < n && KeyInRange(ab, p, t, k) && TrackLive(ab, p, t) && KeyLive(ab, time, p, t, k) ==>
      KeyPreviewAt(ab, time, p, t, k) in r
  {
    if n == 0 then []
    else
      PhaseKeys(ab, time, p, n - 1) +
      (if TrackLive(ab, p, n - 1) then TrackKeys(ab, time, p, n - 1, |TrackAt(ab, p, n - 1).keys|) else [])
  }

  /** The clips Sample records for the first `n` phases. */
  function ClipsUpTo(ab: AbilityDef, time: real, n: int): (r: seq<ClipPreview>)
    requires 0 <= n <= |ab.phases|
    ensures forall i :: 0 <= i < |r| ==>
      0 <= r[i].ref.phase < n && ClipInRange(ab, r[i].ref.phase, r[i].ref.track, r[i].ref.index) &&
      ClipActive(ab, time, r[i].ref.phase, r[i].ref.track, r[i].ref.index) &&
      r[i] == ClipPreviewAt(ab, time, r[i].ref.phase, r[i].ref.track, r[i].ref.index)
    ensures forall p, t, c :: 0 <= p < n && ClipInRange(ab, p, t, c) && ClipActive(ab, time, p, t, c) ==>
      ClipPreviewAt(ab, time, p, t, c) in r
  {
    if n == 0 then []
    else
      ClipsUpTo(ab, time, n - 1) +
      (if PhaseLive(ab, time, n - 1) then PhaseClips(ab, time, n - 1, |ab.phases[n - 1].tracks|) else [])
  }

  /** The keys Sample records for the first `n` phases. */
  function KeysUpTo(ab: AbilityDef, time: real, n: int): (r: seq<KeyPreview>)
    requires 0 <= n <= |ab.phases|
    ensures forall i :: 0 <= i < |r| ==>
      0 <= r[i].ref.phase < n && KeyInRange(ab, r[i].ref.phase, r[i].ref.track, r[i].ref.index) &&
      KeyActive(ab, time, r[i].ref.phase, r[i].ref.track, r[i].ref.index) &&
      r[i] == KeyPreviewAt(ab, time, r[i].ref.phase, r[i].ref.track, r[i].ref.index)
    ensures forall p, t, k :: 0 <= p < n && KeyInRange(ab, p, t, k) && KeyActive(ab, time, p, t, k) ==>
      KeyPreviewAt(ab, time, p, t, k) in r
  {
    if n == 0 then []
    else
      KeysUpTo(ab, time, n - 1) +
      (if PhaseLive(ab, time, n - 1) then PhaseKeys(ab, time, n - 1, |ab.phases[n - 1].tracks|) else [])
  }

  /** The active clips at a time: exactly the clips of live phases and tracks whose span holds the time. */
  function ActiveClips(ab: AbilityDef, time: real): (r: seq<ClipPreview>)
    ensures forall cp :: cp in r <==>
      ClipInRange(ab, cp.ref.phase, cp.ref.track, cp.ref.index) &&
      ClipActive(ab, time, cp.ref.phase, cp.ref.track, cp.ref.index) &&
      cp == ClipPreviewAt(ab, time, cp.ref.phase, cp.ref.track, cp.ref.index)
  {
    ClipsUpTo(ab, time, |ab.phases|)
  }

  /** The active keys at a time: exactly the keys of live phases and tracks within the display window. */
  function ActiveKeys(ab: AbilityDef, time: real): (r: seq<KeyPreview>)
    ensures forall kp :: kp in r <==>
      KeyInRange(ab, kp.ref.phase, kp.ref.track, kp.ref.index) &&
      KeyActive(ab, time, kp.ref.phase, kp.ref.track, kp.ref.index) &&
      kp == KeyPreviewAt(ab, time, kp.ref.phase, kp.ref.track, kp.ref.index)
  {
    KeysUpTo(ab, time, |ab.phases|)
  }

  /** An active clip's recorded local time lies in [0, Duration). */
  lemma ActiveClipLocalTime(ab: AbilityDef, time: real, cp: ClipPreview)
    requires cp in ActiveClips(ab, time)
    ensures 0.0 <= cp.localTime < Duration(cp.clip)
    ensures cp.startTime + cp.localTime == time
  {
    var p, t, c := cp.ref.phase, cp.ref.track, cp.ref.index;
    assert ClipLive(ab, time, p, t, c);
  }

  /** A muted or disabled track contributes nothing, and neither does a non-solo track next to a solo one. */
  lemma SkippedTrackContributesNothing(ab: AbilityDef, time: real, p: int, t: int)
    requires TrackInRange(ab, p, t)
    requires !TrackAt(ab, p, t).enabled || TrackAt(ab, p, t).muted || (HasSolo(ab.phases[p].tracks) && !TrackAt(ab, p, t).solo)
    ensures forall cp :: cp in ActiveClips(ab, time) ==> cp.ref.phase != p || cp.ref.track != t
    ensures forall kp :: kp in ActiveKeys(ab, time) ==> kp.ref.phase != p || kp.ref.track != t
  {
  }

  // ---------------------------------------------------------------------
  // Clip instances

  /** Only VFX and SFX clips get a live instance. */
  predicate Instanced(c: Clip)
  {
    c.clipType == ClipType.VFX || c.clipType == ClipType.SFX
  }

  /** An element of the list Sample hands to UpdateClips. */
  datatype ClipSample = ClipSample(ref: ItemRef, clip: Clip, localTime: real)

  /** The live preview object of one clip; its sampling and destruction are Unity effects. */
  datatype ClipInstance = VFXInstance(clip: Clip) | SFXInstance(clip: Clip)

  /** CreateInstance: an instance of the clip's kind for VFX and SFX clips, none otherwise. */
  function CreateInstance(clip: Clip): (r: Option<ClipInstance>)
    ensures r.Some? <==> Instanced(clip)
    ensures r.Some? ==> r.value.clip == clip
  {
    match clip.clipType
    case VFX => Some(VFXInstance(clip))
    case SFX => Some(SFXInstance(clip))
    case _ => None
  }

  /** The VFX and SFX entries of the active clips, in order. */
  function InstanceSamples(cs: seq<ClipPreview>): (r: seq<ClipSample>)
    ensures forall i :: 0 <= i < |r| ==> Instanced(r[i].clip)
    ensures forall i :: 0 <= i < |cs| && Instanced(cs[i].clip) ==> ClipSample(cs[i].ref, cs[i].clip, cs[i].localTime) in r
    ensures forall s :: s in r ==> exists cp :: cp in cs && s == ClipSample(cp.ref, cp.clip, cp.localTime)
  {
    if cs == [] then []
    else
      var last := cs[|cs| - 1];
      var rest := InstanceSamples(cs[..|cs| - 1]);
      assert forall cp :: cp in cs[..|cs| - 1] ==> cp in cs;
      rest + (if Instanced(last.clip) then [ClipSample(last.ref, last.clip, last.localTime)] else [])
  }

  function RefsOf(samples: seq<ClipSample>): set<ItemRef>
  {
    set s | s in samples :: s.ref
  }

  /** The first loop of UpdateClips: reuse an existing instance, else create one where possible. */
  function WithCreated(m: map<ItemRef, ClipInstance>, samples: seq<ClipSample>): (r: map<ItemRef, ClipInstance>)
    ensures forall x :: x in m ==> x in r && r[x] == m[x]
  {
    if samples == [] then m
    else
      var r := WithCreated(m, samples[..|samples| - 1]);
      var s := samples[|samples| - 1];
      if s.ref in r then r
      else match CreateInstance(s.clip)
        case Some(inst) => r[s.ref := inst]
        case None => r
  }

  /** A ref ends up in the map iff it was there or one of its samples' clips can be instanced. */
  lemma {:induction false} WithCreatedKeys(m: map<ItemRef, ClipInstance>, samples: seq<ClipSample>, x: ItemRef)
    ensures x in WithCreated(m, samples) <==>
      x in m || exists i :: 0 <= i < |samples| && samples[i].ref == x && Instanced(samples[i].clip)
  {
    if samples != [] {
      var init := samples[..|samples| - 1];
      WithCreatedKeys(m, init, x);
      if exists i :: 0 <= i < |init| && init[i].ref == x && Instanced(init[i].clip) {
        var i :| 0 <= i < |init| && init[i].ref == x && Instanced(init[i].clip);
        assert samples[i] == init[i];
      }
      if exists i :: 0 <= i < |samples| && samples[i].ref == x && Instanced(samples[i].clip) {
        var i :| 0 <= i < |samples| && samples[i].ref == x && Instanced(samples[i].clip);
        if i < |init| {
          assert init[i] == samples[i];
        }
      }
    }
  }

  /** UpdateClips as a whole: created or reused instances, minus the old ones no sample mentions. */
  function Reconcile(m: map<ItemRef, ClipInstance>, samples: seq<ClipSample>): map<ItemRef, ClipInstance>
  {
    WithCreated(m, samples) - (m.Keys - RefsOf(samples))
  }

  /**
   * After UpdateClips the map holds exactly the passed clips that already
   * had an instance or could get one; surviving instances are reused.
   */
  lemma ReconcileKeys(m: map<ItemRef, ClipInstance>, samples: seq<ClipSample>)
    ensures forall x :: x in Reconcile(m, samples) <==>
      x in RefsOf(samples) &&
      (x in m || exists i :: 0 <= i < |samples| && samples[i].ref == x && Instanced(samples[i].clip))
    ensures forall x :: x in m && x in Reconcile(m, samples) ==> Reconcile(m, samples)[x] == m[x]
  {
    forall x
      ensures x in Reconcile(m, samples) <==>
        x in RefsOf(samples) &&
        (x in m || exists i :: 0 <= i < |samples| && samples[i].ref == x && Instanced(samples[i].clip))
    {
      WithCreatedKeys(m, samples, x);
      if exists i :: 0 <= i < |samples| && samples[i].ref == x && Instanced(samples[i].clip) {
        var i :| 0 <= i < |samples| && samples[i].ref == x && Instanced(samples[i].clip);
        assert samples[i] in samples;
      }
    }
  }

  /** When every sample can be instanced (as Sample guarantees), the map's keys are exactly the samples' refs. */
  lemma ReconcileInstancedKeys(m: map<ItemRef, ClipInstance>, samples: seq<ClipSample>)
    requires forall i :: 0 <= i < |samples| ==> Instanced(samples[i].clip)
    ensures Reconcile(m, samples).Keys == RefsOf(samples)
  {
    ReconcileKeys(m, samples);
    forall x | x in RefsOf(samples)
      ensures x in Reconcile(m, samples)
    {
      var s :| s in samples && s.ref == x;
      var i :| 0 <= i < |samples| && samples[i] == s;
    }
  }

  class PreviewClipInstanceManager {
    var instances: map<ItemRef, ClipInstance>

    constructor()
      ensures instances == map[]
    {
      instances := map[];
    }

    /** UpdateClips: create or reuse an instance per passed clip, then drop the stale ones. */
    method UpdateClips(samples: seq<ClipSample>)
      modifies this
      ensures instances == Reconcile(old(instances), samples)
    {
      var toRemove := instances.Keys;
      for i := 0 to |samples|
        invariant instances == WithCreated(old(instances), samples[..i])
        invariant toRemove == old(instances).Keys - RefsOf(samples[..i])
      {
        assert samples[..i + 1][..i] == samples[..i];
        assert RefsOf(samples[..i + 1]) == RefsOf(samples[..i]) + {samples[i].ref};
        var s := samples[i];
        var instance: Option<ClipInstance>;
        if s.ref in instances {
          instance := Some(instances[s.ref]);
        } else {
          instance := CreateInstance(s.clip);
          if instance.Some? {
            instances := instances[s.ref := instance.value];
          }
        }
        if instance.Some? {
          toRemove := toRemove - {s.ref};
        }
      }
      assert samples[..|samples|] == samples;
      DestroyStale(toRemove);
    }

    /** The second loop of UpdateClips: every stale instance still in the map is destroyed and removed. */
    method DestroyStale(stale: set<ItemRef>)
      modifies this
      ensures instances == old(instances) - stale
    {
      var pending := stale;
      while pending != {}
        invariant pending <= stale
        invariant instances == old(instances) - (stale - pending)
        decreases |pending|
      {
        var x :| x in pending;
        if x in instances {
          instances := instances - {x};
        }
        pending := pending - {x};
      }
    }

    /** ClearAll: every instance is destroyed and the map emptied. */
    method ClearAll()
      modifies this
      ensures instances == map[]
    {
      instances := map[];
    }
  }

  class PreviewController {
    const state: TimelineState
    /** The preview target's identity; None is a null GameObject. */
    var previewTarget: Option<int>
    var isPreviewMode: bool
    var currentPreviewTime: real
    var activeKeys: seq<KeyPreview>
    var activeClips: seq<ClipPreview>
    var manager: PreviewClipInstanceManager?

    constructor(state: TimelineState)
      ensures this.state == state && previewTarget.None? && !isPreviewMode
      ensures activeKeys == [] && activeClips == [] && manager == null
    {
      this.state := state;
      previewTarget := None;
      isPreviewMode := false;
      currentPreviewTime := 0.0;
      activeKeys := [];
      activeClips := [];
      manager := null;
    }

    /** ExitPreviewMode: outside preview mode nothing happens; otherwise instances, flag and lists are cleared. */
    method ExitPreviewMode()
      modifies this, manager
      ensures manager == old(manager) && previewTarget == old(previewTarget)
      ensures !old(isPreviewMode) ==>
        !isPreviewMode && activeKeys == old(activeKeys) && activeClips == old(activeClips) &&
        (manager != null ==> manager.instances == old(manager.instances))
      ensures old(isPreviewMode) ==>
        !isPreviewMode && activeKeys == [] && activeClips == [] && (manager != null ==> manager.instances == map[])
    {
      if !isPreviewMode {
        return;
      }
      if manager != null {
        manager.ClearAll();
      }
      isPreviewMode := false;
      activeKeys := [];
      activeClips := [];
    }

    /** EnterPreviewMode: succeeds at once in preview mode, fails without a target, else turns preview on. */
    method EnterPreviewMode() returns (ok: bool)
      modifies this
      ensures ok <==> isPreviewMode
      ensures ok <==> old(isPreviewMode) || previewTarget.Some?
      ensures previewTarget == old(previewTarget) && manager == old(manager)
      ensures activeKeys == old(activeKeys) && activeClips == old(activeClips)
    {
      if isPreviewMode {
        return true;
      }
      if previewTarget.None? {
        return false;
      }
      isPreviewMode := true;
      return true;
    }

    /**
     * SetPreviewTarget: switching to another target leaves preview mode
     * first; a target gets a fresh, empty instance manager, no target none.
     */
    method SetPreviewTarget(target: Option<int>)
      modifies this, manager
      ensures previewTarget == target
      ensures manager != null <==> target.Some?
      ensures manager != null ==> fresh(manager) && manager.instances == map[]
      ensures old(isPreviewMode) && old(previewTarget) != target ==>
        !isPreviewMode && activeKeys == [] && activeClips == [] &&
        (old(manager) != null ==> old(manager).instances == map[])
      ensures !(old(isPreviewMode) && old(previewTarget) != target) ==>
        isPreviewMode == old(isPreviewMode) && activeKeys == old(activeKeys) && activeClips == old(activeClips)
    {
      if isPreviewMode && previewTarget != target {
        ExitPreviewMode();
      }
      previewTarget := target;
      if target.Some? {
        manager := new PreviewClipInstanceManager();
      } else {
        manager := null;
      }
    }

    /**
     * Sample: only in preview mode with a target. Both lists are rebuilt
     * from the current ability; the VFX and SFX entries then reconcile the
     * live instances.
     */
    method Sample(time: real)
      modifies this, manager
      ensures manager == old(manager) && previewTarget == old(previewTarget) && isPreviewMode == old(isPreviewMode)
      ensures !isPreviewMode || previewTarget.None? ==>
        activeKeys == old(activeKeys) && activeClips == old(activeClips) &&
        currentPreviewTime == old(currentPreviewTime) &&
        (manager != null ==> manager.instances == old(manager.instances))
      ensures isPreviewMode && previewTarget.Some? && state.data.CurrentAbility().None? ==>
        currentPreviewTime == time && activeKeys == [] && activeClips == [] &&
        (manager != null ==> manager.instances == old(manager.instances))
      ensures isPreviewMode && previewTarget.Some? && state.data.CurrentAbility().Some? ==>
        currentPreviewTime == time &&
        activeClips == ActiveClips(state.data.CurrentAbility().value, time) &&
        activeKeys == ActiveKeys(state.data.CurrentAbility().value, time) &&
        (manager != null ==> manager.instances == Reconcile(old(manager.instances), InstanceSamples(activeClips)))
    {
      if !isPreviewMode || previewTarget.None? {
        return;
      }
      currentPreviewTime := time;
      activeKeys := [];
      activeClips := [];
      var abOpt := state.data.CurrentAbility();
      if abOpt.None? {
        return;
      }
      var ab := abOpt.value;
      var clips, keys := CollectActive(ab, time);
      activeClips, activeKeys := clips, keys;
      if manager != null {
        var sampleData := CollectSamples(clips);
        manager.UpdateClips(sampleData);
      }
    }

    /** The loop of Sample that keeps the VFX and SFX clips for the instance manager. */
    method CollectSamples(clips: seq<ClipPreview>) returns (sampleData: seq<ClipSample>)
      ensures sampleData == InstanceSamples(clips)
    {
      sampleData := [];
      for i := 0 to |clips|
        invariant sampleData == InstanceSamples(clips[..i])
      {
        assert clips[..i + 1][..i] == clips[..i];
        var cd := clips[i];
        if cd.clip.clipType == ClipType.VFX || cd.clip.clipType == ClipType.SFX {
          sampleData := sampleData + [ClipSample(cd.ref, cd.clip, cd.localTime)];
        }
      }
      assert clips[..|clips|] == clips;
    }

    /** The phase, track, clip and key loops of Sample. */
    method CollectActive(ab: AbilityDef, time: real) returns (clips: seq<ClipPreview>, keys: seq<KeyPreview>)
      requires state.data.CurrentAbility() == Some(ab)
      ensures clips == ActiveClips(ab, time) && keys == ActiveKeys(ab, time)
    {
      clips, keys := [], [];
      for i := 0 to |ab.phases|
        invariant clips == ClipsUpTo(ab, time, i) && keys == KeysUpTo(ab, time, i)
      {
        var phase := ab.phases[i];
        if !phase.enabled {
          continue;
        }
        var phaseStartTime := state.GetPhaseStartOffset(i);
        var phaseEndTime := phaseStartTime + phase.duration;
        if time < phaseStartTime || time >= phaseEndTime {
          continue;
        }
        var phaseClips, phaseKeys := CollectPhase(ab, time, i, phaseStartTime);
        clips, keys := clips + phaseClips, keys + phaseKeys;
      }
    }

    /** The track loop of Sample for the live phase i. */
    method CollectPhase(ab: AbilityDef, time: real, i: int, phaseStartTime: real)
      returns (clips: seq<ClipPreview>, keys: seq<KeyPreview>)
      requires PhaseInRange(ab, i) && phaseStartTime == PhaseStart(ab, i)
      ensures clips == PhaseClips(ab, time, i, |ab.phases[i].tracks|)
      ensures keys == PhaseKeys(ab, time, i, |ab.phases[i].tracks|)
    {
      var phase := ab.phases[i];
      clips, keys := [], [];
      for j := 0 to |phase.tracks|
        invariant clips == PhaseClips(ab, time, i, j) && keys == PhaseKeys(ab, time, i, j)
      {
        var track := phase.tracks[j];
        if !track.enabled || track.muted {
          continue;
        }
        var hasSolo := HasSolo(phase.tracks);
        if hasSolo && !track.solo {
          continue;
        }
        var trackClips, trackKeys := CollectTrack(ab, time, i, j, phaseStartTime);
        clips, keys := clips + trackClips, keys + trackKeys;
      }
    }

    /** The clip and key loops of Sample for track j of phase i. */
    method CollectTrack(ab: AbilityDef, time: real, i: int, j: int, phaseStartTime: real)
      returns (clips: seq<ClipPreview>, keys: seq<KeyPreview>)
      requires TrackInRange(ab, i, j) && phaseStartTime == PhaseStart(ab, i)
      ensures clips == TrackClips(ab, time, i, j, |TrackAt(ab, i, j).clips|)
      ensures keys == TrackKeys(ab, time, i, j, |TrackAt(ab, i, j).keys|)
    {
      clips := CollectTrackClips(ab, time, i, j, phaseStartTime);
      keys := CollectTrackKeys(ab, time, i, j, phaseStartTime);
    }

    /** The clip loop: a clip is recorded when the phase-local time lies in [Start, Start + Duration). */
    method CollectTrackClips(ab: AbilityDef, time: real, i: int, j: int, phaseStartTime: real)
      returns (clips: seq<ClipPreview>)
      requires TrackInRange(ab, i, j) && phaseStartTime == PhaseStart(ab, i)
      ensures clips == TrackClips(ab, time, i, j, |TrackAt(ab, i, j).clips|)
    {
      var track := ab.phases[i].tracks[j];
      var localTime := time - phaseStartTime;
      clips := [];
      for c := 0 to |track.clips|
        invariant clips == TrackClips(ab, time, i, j, c)
      {
        var clip := track.clips[c];
        assert clip == ClipAt(ab, i, j, c);
        var clipStart := clip.start;
        var clipEnd := clipStart + Duration(clip);
        ghost var live := ClipLive(ab, time, i, j, c);
        assert live == !(localTime < clipStart || localTime >= clipEnd);
        assert TrackClips(ab, time, i, j, c + 1) ==
          clips + (if live then [ClipPreviewAt(ab, time, i, j, c)] else []);
        if localTime < clipStart || localTime >= clipEnd {
          continue;
        }
        var clipLocalTime := localTime - clipStart;
        var entry := ClipPreview(ItemRef(i, j, c), clip, phaseStartTime + clipStart, clipLocalTime);
        assert entry == ClipPreviewAt(ab, time, i, j, c);
        clips := clips + [entry];
      }
    }

    /** The key loop: a key is recorded when it lies within the display window of the time. */
    method CollectTrackKeys(ab: AbilityDef, time: real, i: int, j: int, phaseStartTime: real)
      returns (keys: seq<KeyPreview>)
      requires TrackInRange(ab, i, j) && phaseStartTime == PhaseStart(ab, i)
      ensures keys == TrackKeys(ab, time, i, j, |TrackAt(ab, i, j).keys|)
    {
      var track := ab.phases[i].tracks[j];
      keys := [];
      for k := 0 to |track.keys|
        invariant keys == TrackKeys(ab, time, i, j, k)
      {
        var key := track.keys[k];
        var keyTime := phaseStartTime + key.time;
        assert key == KeyAt(ab, i, j, k);
        ghost var live := KeyLive(ab, time, i, j, k);
        assert live == (Abs(time - keyTime) <= KeyDisplayWindow);
        assert KeyPreviewAt(ab, time, i, j, k) == KeyPreview(ItemRef(i, j, k), key, keyTime);
        assert TrackKeys(ab, time, i, j, k + 1) ==
          keys + (if live then [KeyPreviewAt(ab, time, i, j, k)] else []);
        if Abs(time - keyTime) <= KeyDisplayWindow {
          keys := keys + [KeyPreview(ItemRef(i, j, k), key, keyTime)];
        }
      }
    }
  }

  /** After a sample, the live instances are exactly the active VFX and SFX clips. */
  lemma SampledInstances(m: map<ItemRef, ClipInstance>, ab: AbilityDef, time: real)
    ensures Reconcile(m, InstanceSamples(ActiveClips(ab, time))).Keys ==
      set cp | cp in ActiveClips(ab, time) && Instanced(cp.clip) :: cp.ref
  {
    var cs := ActiveClips(ab, time);
    var samples := InstanceSamples(cs);
    ReconcileInstancedKeys(m, samples);
    forall x | x in RefsOf(samples)
      ensures exists cp :: cp in cs && Instanced(cp.clip) && cp.ref == x
    {
      var s :| s in samples && s.ref == x;
      var cp :| cp in cs && s == ClipSample(cp.ref, cp.clip, cp.localTime);
    }
    forall cp | cp in cs && Instanced(cp.clip)
      ensures cp.ref in RefsOf(samples)
    {
      var i :| 0 <= i < |cs| && cs[i] == cp;
      assert ClipSample(cp.ref, cp.clip, cp.localTime) in samples;
    }
  }
}

=== FILE: timeline_controller.dfy ===
/**
 * The editor's controllers (TimelineController.cs): the selection model,
 * the playback driver with its range, loop and clamp rules, and the edit
 * operations (panning, zoom, group key drag, adding, deleting and moving
 * phases and tracks).
 */
module TimelineController {
  import opened Wrappers
  import opened UnityTypes
  import opened Mathf
  import opened AbilityConfigSO
  import opened TimelineState
  import opened AbilityPaths
  import opened ListOps
  import opened Preview

  // ---------------------------------------------------------------------
  // Selection

  /** ToggleSelection on the list: drop the first occurrence of the item, or append it. */
  function Toggled(ms: seq<SelItem>, item: SelItem): (r: seq<SelItem>)
    ensures item in ms ==> multiset(r) == multiset(ms) - multiset{item}
    ensures item !in ms ==> multiset(r) == multiset(ms) + multiset{item} && r[|r| - 1] == item
  {
    if item in ms then RemoveFirst(ms, item) else ms + [item]
  }

  /** Toggling an item that was not selected, then toggling it again, restores the list. */
  lemma {:induction false} ToggleTwice(ms: seq<SelItem>, item: SelItem)
    requires item !in ms
    ensures Toggled(Toggled(ms, item), item) == ms
  {
    var once := ms + [item];
    assert once[|ms|] == item;
    assert IndexOf(once, item) == |ms| by {
      var i := IndexOf(once, item);
      if i < |ms| {
        assert false;
      }
    }
    assert once[..|ms|] == ms;
  }

  class SelectionController {
    const state: TimelineState

    constructor(state: TimelineState)
      ensures this.state == state
    {
      this.state := state;
    }

    /** IsPrimary: the key is the primary key selection. */
    predicate IsPrimary(p: int, t: int, k: int)
      reads state.selection
    {
      state.selection.kind == KeySelection && state.selection.phaseIndex == p &&
      state.selection.trackIndex == t && state.selection.keyIndex == k
    }

    /** IsSelected: the primary key selection or an entry of the multi-selection. */
    predicate IsSelected(p: int, t: int, k: int)
      reads state.selection
    {
      IsPrimary(p, t, k) || SelItem(p, t, k) in state.selection.multiSelection
    }

    /** SelectKey: the key becomes the primary selection and the only multi-selection entry. */
    method SelectKey(p: int, t: int, k: int)
      modifies state.selection
      ensures state.selection.kind == KeySelection && state.selection.phaseIndex == p
      ensures state.selection.trackIndex == t && state.selection.keyIndex == k && state.selection.clipIndex == -1
      ensures state.selection.multiSelection == [SelItem(p, t, k)]
      ensures state.selection.Valid() && IsPrimary(p, t, k) && IsSelected(p, t, k)
    {
      var sel := state.selection;
      sel.Clear();
      sel.kind := KeySelection;
      sel.phaseIndex, sel.trackIndex, sel.keyIndex := p, t, k;
      sel.multiSelection := [];
      sel.multiSelection := sel.multiSelection + [SelItem(p, t, k)];
    }

    /** SelectClip: a clip selection with an empty multi-selection. */
    method SelectClip(p: int, t: int, c: int)
      modifies state.selection
      ensures state.selection.kind == ClipSelection && state.selection.phaseIndex == p
      ensures state.selection.trackIndex == t && state.selection.keyIndex == -1 && state.selection.clipIndex == c
      ensures state.selection.multiSelection == [] && state.selection.Valid()
    {
      var sel := state.selection;
      sel.Clear();
      sel.kind := ClipSelection;
      sel.phaseIndex, sel.trackIndex, sel.clipIndex := p, t, c;
    }

    /** SelectPhase: a phase selection with an empty multi-selection. */
    method SelectPhase(p: int)
      modifies state.selection
      ensures state.selection.kind == PhaseSelection && state.selection.phaseIndex == p
      ensures state.selection.trackIndex == -1 && state.selection.keyIndex == -1 && state.selection.clipIndex == -1
      ensures state.selection.multiSelection == [] && state.selection.Valid()
    {
      var sel := state.selection;
      sel.Clear();
      sel.kind := PhaseSelection;
      sel.phaseIndex := p;
    }

    /** SelectTrack: a track selection with an empty multi-selection. */
    method SelectTrack(p: int, t: int)
      modifies state.selection
      ensures state.selection.kind == TrackSelection && state.selection.phaseIndex == p
      ensures state.selection.trackIndex == t && state.selection.keyIndex == -1 && state.selection.clipIndex == -1
      ensures state.selection.multiSelection == [] && state.selection.Valid()
    {
      var sel := state.selection;
      sel.Clear();
      sel.kind := TrackSelection;
      sel.phaseIndex, sel.trackIndex := p, t;
    }

    /**
     * AddToSelection: without an ability nothing happens; otherwise a lone
     * primary key is first copied into the empty multi-selection, the item
     * is appended (even if already present) and becomes the primary key.
     */
    method AddToSelection(p: int, t: int, k: int)
      modifies state.selection
      ensures state.data.CurrentAbility().None? ==>
        state.selection.kind == old(state.selection.kind) && state.selection.phaseIndex == old(state.selection.phaseIndex) &&
        state.selection.trackIndex == old(state.selection.trackIndex) && state.selection.keyIndex == old(state.selection.keyIndex) &&
        state.selection.multiSelection == old(state.selection.multiSelection)
      ensures state.data.CurrentAbility().Some? ==>
        state.selection.multiSelection ==
          old(state.selection.multiSelection) +
          (if old(|state.selection.multiSelection| == 0 && state.selection.kind == KeySelection)
           then [SelItem(old(state.selection.phaseIndex), old(state.selection.trackIndex), old(state.selection.keyIndex))]
           else []) +
          [SelItem(p, t, k)] &&
        IsPrimary(p, t, k) && IsSelected(p, t, k)
      ensures state.selection.clipIndex == old(state.selection.clipIndex)
      ensures old(state.selection.Valid()) ==> state.selection.Valid()
    {
      if state.data.CurrentAbility().None? {
        return;
      }
      var sel := state.selection;
      var lone := [];
      if |sel.multiSelection| == 0 && sel.kind == KeySelection {
        lone := [SelItem(sel.phaseIndex, sel.trackIndex, sel.keyIndex)];
        sel.multiSelection := sel.multiSelection + lone;
      }
      sel.multiSelection := sel.multiSelection + [SelItem(p, t, k)];
      sel.kind := KeySelection;
      sel.phaseIndex, sel.trackIndex, sel.keyIndex := p, t, k;
    }

    /**
     * ToggleSelection: the item is removed or appended; the first remaining
     * entry becomes the primary key, and an emptied list clears the selection.
     */
    method ToggleSelection(p: int, t: int, k: int)
      modifies state.selection
      ensures state.selection.multiSelection == Toggled(old(state.selection.multiSelection), SelItem(p, t, k))
      ensures state.selection.multiSelection != [] ==>
        state.selection.kind == KeySelection && state.selection.phaseIndex == state.selection.multiSelection[0].p &&
        state.selection.trackIndex == state.selection.multiSelection[0].t &&
        state.selection.keyIndex == state.selection.multiSelection[0].k &&
        state.selection.clipIndex == old(state.selection.clipIndex)
      ensures state.selection.multiSelection == [] ==> state.selection.Cleared()
      ensures SelItem(p, t, k) !in old(state.selection.multiSelection) ==> IsSelected(p, t, k)
      ensures old(state.selection.Valid()) ==> state.selection.Valid()
    {
      var sel := state.selection;
      var item := SelItem(p, t, k);
      ghost var before := sel.multiSelection;
      if item in sel.multiSelection {
        sel.multiSelection := RemoveFirst(sel.multiSelection, item);
      } else {
        sel.multiSelection := sel.multiSelection + [item];
      }
      if |sel.multiSelection| > 0 {
        var it := sel.multiSelection[0];
        sel.kind := KeySelection;
        sel.phaseIndex, sel.trackIndex, sel.keyIndex := it.p, it.t, it.k;
      } else {
        sel.Clear();
      }
      if item !in before {
        assert sel.multiSelection[|sel.multiSelection| - 1] == item;
      }
      if old(sel.Valid()) && item in before {
        forall j | 0 <= j < |sel.multiSelection|
          ensures sel.multiSelection[j].c == -1
        {
          var i := IndexOf(before, item);
          if j < i {
            assert sel.multiSelection[j] == before[j];
          } else {
            assert sel.multiSelection[j] == before[j + 1];
          }
        }
      }
    }

    /** ClearSelection. */
    method ClearSelection()
      modifies state.selection
      ensures state.selection.Cleared() && state.selection.Valid()
    {
      state.selection.Clear();
    }
  }

  // ---------------------------------------------------------------------
  // Playback

  /** Where the bounds put the advanced playhead, and whether they stop playback. */
  datatype PlayResult = PlayResult(playhead: real, stops: bool)

  /**
   * The bounds UpdatePlayback applies to the advanced playhead `p`. With a
   * range, [inT, min(rangeOut, duration)] bounds it on both sides; without
   * one only `duration` bounds it from above. Looping wraps, otherwise the
   * playhead is clamped to the bound it crossed and playback stops.
   */
  function BoundPlayhead(p: real, duration: real, rangeEnabled: bool, loop: bool, inT: real, rangeOut: real): (r: PlayResult)
    requires duration > 0.0
    ensures rangeEnabled && inT <= p <= Min(rangeOut, duration) ==> r == PlayResult(p, false)
    ensures rangeEnabled && loop && (p < inT || p > Min(rangeOut, duration)) ==>
      !r.stops && inT <= r.playhead < inT + Max(0.0001, Min(rangeOut, duration) - inT)
    ensures rangeEnabled && !loop && p > Min(rangeOut, duration) ==> r == PlayResult(Min(rangeOut, duration), true)
    ensures rangeEnabled && !loop && p < inT && p <= Min(rangeOut, duration) ==> r == PlayResult(inT, true)
    ensures !rangeEnabled && p <= duration ==> r == PlayResult(p, false)
    ensures !rangeEnabled && p > duration && loop ==> !r.stops && 0.0 <= r.playhead < duration
    ensures !rangeEnabled && p > duration && !loop ==> r == PlayResult(duration, true)
  {
    if rangeEnabled then
      var outT := Min(rangeOut, duration);
      var len := Max(0.0001, outT - inT);
      if p > outT then
        if loop then PlayResult(inT + Repeat(p - inT, len), false) else PlayResult(outT, true)
      else if p < inT then
        if loop then PlayResult(inT + Repeat(p - inT, len), false) else PlayResult(inT, true)
      else PlayResult(p, false)
    else if p > duration then
      if loop then PlayResult(Repeat(p, duration), false) else PlayResult(duration, true)
    else PlayResult(p, false)
  }

  /** The worked example: at 2.9 a step of 0.3 in the looping range [1, 3] wraps to 1.2. */
  lemma LoopWrapExample()
    ensures BoundPlayhead(2.9 + 0.3, 3.0, true, true, 1.0, 3.0) == PlayResult(1.2, false)
  {
    assert 2.2 / 2.0 == 1.1;
    assert (1.1).Floor == 1;
  }

  /** How far the playhead moves in one tick: elapsed editor time scaled by the playback speed. */
  function Advance(deltaTime: real, speed: real): real
  {
    deltaTime * speed
  }

  class PlaybackController {
    const state: TimelineState

    constructor(state: TimelineState)
      ensures this.state == state
    {
      this.state := state;
    }

    /** TogglePlay: flips IsPlaying; pausing snaps the playhead to the grid whether or not Snap is on. */
    method TogglePlay()
      modifies state.playback
      ensures state.playback.isPlaying == !old(state.playback.isPlaying)
      ensures old(state.playback.isPlaying) ==> state.playback.playhead == state.view.SnapToGrid(old(state.playback.playhead))
      ensures !old(state.playback.isPlaying) ==> state.playback.playhead == old(state.playback.playhead)
      ensures state.playback.rangeIn == old(state.playback.rangeIn) && state.playback.rangeOut == old(state.playback.rangeOut)
    {
      var wasPlaying := state.playback.isPlaying;
      state.playback.isPlaying := !state.playback.isPlaying;
      if wasPlaying && !state.playback.isPlaying {
        var snapped := state.view.SnapToGrid(state.playback.playhead);
        state.playback.playhead := snapped;
      }
    }

    /** Stop: not playing, playhead at 0. */
    method Stop()
      modifies state.playback
      ensures !state.playback.isPlaying && state.playback.playhead == 0.0
      ensures state.playback.rangeIn == old(state.playback.rangeIn) && state.playback.rangeOut == old(state.playback.rangeOut)
    {
      state.playback.isPlaying := false;
      state.playback.playhead := 0.0;
    }

    /** SetPlayhead: the time clamped into [0, TotalDuration]. */
    method SetPlayhead(time: real)
      modifies state.playback
      ensures state.playback.playhead == Clamp(time, 0.0, state.TotalDuration())
      ensures 0.0 <= state.playback.playhead <= state.TotalDuration()
      ensures state.playback.isPlaying == old(state.playback.isPlaying)
      ensures state.playback.rangeIn == old(state.playback.rangeIn) && state.playback.rangeOut == old(state.playback.rangeOut)
    {
      state.playback.playhead := Clamp(time, 0.0, state.TotalDuration());
    }

    /** SetPlayheadFromGlobalTime: snapped first only when Snap is on, then clamped. */
    method SetPlayheadFromGlobalTime(globalTime: real)
      modifies state.playback
      ensures state.playback.playhead ==
        Clamp(if state.view.snap then state.view.SnapToGrid(globalTime) else globalTime, 0.0, state.TotalDuration())
      ensures state.playback.isPlaying == old(state.playback.isPlaying)
      ensures state.playback.rangeIn == old(state.playback.rangeIn) && state.playback.rangeOut == old(state.playback.rangeOut)
    {
      var time := globalTime;
      if state.view.snap {
        time := state.view.SnapToGrid(time);
      }
      SetPlayhead(time);
    }

    /** UpdatePlayback: advance by deltaTime * Speed, then apply the range, loop and end bounds. */
    method UpdatePlayback(deltaTime: real)
      modifies state.playback
      ensures state.playback.rangeEnabled ==>
        (state.playback.rangeIn, state.playback.rangeOut) ==
          ValidRange(old(state.playback.rangeIn), old(state.playback.rangeOut), state.TotalDuration())
      ensures !state.playback.rangeEnabled ==>
        state.playback.rangeIn == old(state.playback.rangeIn) && state.playback.rangeOut == old(state.playback.rangeOut)
      ensures var r := BoundPlayhead(old(state.playback.playhead) + Advance(deltaTime, old(state.playback.speed)), state.TotalDuration(),
                                     state.playback.rangeEnabled, state.playback.loop,
                                     state.playback.rangeIn, state.playback.rangeOut);
        state.playback.playhead == r.playhead && state.playback.isPlaying == (old(state.playback.isPlaying) && !r.stops)
      ensures state.playback.speed == old(state.playback.speed) && state.playback.loop == old(state.playback.loop)
      ensures state.playback.rangeEnabled == old(state.playback.rangeEnabled)
    {
      var pb := state.playback;
      var playhead := pb.playhead + Advance(deltaTime, pb.speed);
      var stops := false;
      var duration := state.TotalDuration();
      if pb.rangeEnabled {
        state.EnsureRangeValid();
        var inT := pb.rangeIn;
        var outT := Min(pb.rangeOut, duration);
        var len := Max(0.0001, outT - inT);
        if playhead > outT {
          if pb.loop {
            playhead := inT + Repeat(playhead - inT, len);
          } else {
            playhead, stops := outT, true;
          }
        } else if playhead < inT {
          if pb.loop {
            playhead := inT + Repeat(playhead - inT, len);
          } else {
            playhead, stops := inT, true;
          }
        }
      } else if playhead > duration {
        if pb.loop {
          playhead := Repeat(playhead, duration);
        } else {
          playhead, stops := duration, true;
        }
      }
      pb.playhead := playhead;
      if stops {
        pb.isPlaying := false;
      }
    }
  }

  // ---------------------------------------------------------------------
  // Zoom

  /**
   * Zoom on values: the new pixels-per-second is the scaled one clamped
   * into [50, 600]; the scroll keeps the time under the cursor where it was
   * unless that would need a negative scroll, which is cut to 0.
   */
  function ZoomView(pps: real, scrollX: real, factor: real, cursorX: real, rulerLeft: real): (r: (real, real))
    requires pps > 0.0
    ensures 50.0 <= r.0 <= 600.0 && r.1 >= 0.0
  {
    var newPps := Clamp(pps * factor, 50.0, 600.0);
    var timeAtCursor := (cursorX - rulerLeft + scrollX) / pps;
    var desiredScroll := timeAtCursor * newPps - (cursorX - rulerLeft);
    (newPps, Max(0.0, desiredScroll))
  }

  /** When no clamping of the scroll is needed, the time under the cursor is the same before and after. */
  lemma ZoomKeepsCursorTime(pps: real, scrollX: real, factor: real, cursorX: real, rulerLeft: real)
    requires pps > 0.0
    requires (cursorX - rulerLeft + scrollX) / pps * Clamp(pps * factor, 50.0, 600.0) >= cursorX - rulerLeft
    ensures var r := ZoomView(pps, scrollX, factor, cursorX, rulerLeft);
      (cursorX - rulerLeft + r.1) / r.0 == (cursorX - rulerLeft + scrollX) / pps
  {
    var r := ZoomView(pps, scrollX, factor, cursorX, rulerLeft);
    var time := (cursorX - rulerLeft + scrollX) / pps;
    assert cursorX - rulerLeft + r.1 == time * r.0;
    DivUnique(cursorX - rulerLeft + r.1, r.0, time);
  }

  // ---------------------------------------------------------------------
  // Group key drag

  /**
   * The times BeginGroupDrag records: for each multi-selection entry whose
   * key exists, that key's time (a later entry for the same item writes the
   * same value again).
   */
  function InitialTimes(ab: AbilityDef, items: seq<SelItem>): (m: map<SelItem, real>)
    ensures forall it :: it in m <==> it in items && KeyInRange(ab, it.p, it.t, it.k)
    ensures forall it :: it in m ==> m[it] == KeyAt(ab, it.p, it.t, it.k).time
  {
    if items == [] then map[]
    else
      var it := items[|items| - 1];
      var m := InitialTimes(ab, items[..|items| - 1]);
      assert items == items[..|items| - 1] + [it];
      if KeyInRange(ab, it.p, it.t, it.k) then m[it := KeyAt(ab, it.p, it.t, it.k).time] else m
  }

  /**
   * Where an edited key time lands in its phase: snapped to the grid when
   * Snap is on, then clamped into [0, max(0, duration)]. A time already
   * inside the phase moves by at most half a grid step.
   */
  function SnapClamp(time: real, snap: bool, step: real, duration: real): (r: real)
    requires step > 0.0
    ensures 0.0 <= r <= Max(0.0, duration)
    ensures !snap && 0.0 <= time <= duration ==> r == time
    ensures snap && 0.0 <= time - step / 2.0 && time + step / 2.0 <= duration ==>
      time - step / 2.0 <= r <= time + step / 2.0
  {
    var snapped := if snap then GridSnap(time, step) else time;
    Clamp(snapped, 0.0, Max(0.0, duration))
  }

  function DragKey(key: Key, item: SelItem, m: map<SelItem, real>, done: set<SelItem>,
                   delta: real, snap: bool, step: real, duration: real): Key
    requires done <= m.Keys && step > 0.0
  {
    if item in done then key.(time := SnapClamp(m[item] + delta, snap, step, duration)) else key
  }

  function DragTrack(tr: Track, p: int, t: int, m: map<SelItem, real>, done: set<SelItem>,
                     delta: real, snap: bool, step: real, duration: real): Track
    requires done <= m.Keys && step > 0.0
  {
    tr.(keys := seq(|tr.keys|, k requires 0 <= k < |tr.keys| =>
      DragKey(tr.keys[k], SelItem(p, t, k), m, done, delta, snap, step, duration)))
  }

  function DragPhase(ph: Phase, p: int, m: map<SelItem, real>, done: set<SelItem>,
                     delta: real, snap: bool, step: real): Phase
    requires done <= m.Keys && step > 0.0
  {
    ph.(tracks := seq(|ph.tracks|, t requires 0 <= t < |ph.tracks| =>
      DragTrack(ph.tracks[t], p, t, m, done, delta, snap, step, ph.duration)))
  }

  /**
   * UpdateGroupDrag over the entries in `done`: every key recorded there is
   * moved to its dragged time; every other key, and everything else of the
   * ability, is left as it was.
   */
  function DragAbility(ab: AbilityDef, m: map<SelItem, real>, done: set<SelItem>,
                       delta: real, snap: bool, step: real): (r: AbilityDef)
    requires done <= m.Keys && step > 0.0
    ensures r.abilityId == ab.abilityId && r.cooldown == ab.cooldown && |r.phases| == |ab.phases|
    ensures forall p :: 0 <= p < |ab.phases| ==>
      r.phases[p].duration == ab.phases[p].duration && |r.phases[p].tracks| == |ab.phases[p].tracks|
    ensures forall p, t :: TrackInRange(ab, p, t) ==> |r.phases[p].tracks[t].keys| == |ab.phases[p].tracks[t].keys|
    ensures forall p, t, k :: KeyInRange(ab, p, t, k) ==>
      KeyInRange(r, p, t, k) && KeyAt(r, p, t, k) == if SelItem(p, t, k) in done
        then KeyAt(ab, p, t, k).(time := SnapClamp(m[SelItem(p, t, k)] + delta, snap, step, ab.phases[p].duration))
        else KeyAt(ab, p, t, k)
  {
    ab.(phases := seq(|ab.phases|, p requires 0 <= p < |ab.phases| =>
      DragPhase(ab.phases[p], p, m, done, delta, snap, step)))
  }

  lemma DragTrackSame(tr: Track, p: int, t: int, m: map<SelItem, real>, d1: set<SelItem>, d2: set<SelItem>,
                      delta: real, snap: bool, step: real, duration: real)
    requires d1 <= m.Keys && d2 <= m.Keys && step > 0.0
    requires forall k :: 0 <= k < |tr.keys| ==> (SelItem(p, t, k) in d1 <==> SelItem(p, t, k) in d2)
    ensures DragTrack(tr, p, t, m, d1, delta, snap, step, duration) == DragTrack(tr, p, t, m, d2, delta, snap, step, duration)
  {
    assert DragTrack(tr, p, t, m, d1, delta, snap, step, duration).keys == DragTrack(tr, p, t, m, d2, delta, snap, step, duration).keys;
  }

  lemma DragPhaseSame(ph: Phase, p: int, m: map<SelItem, real>, d1: set<SelItem>, d2: set<SelItem>,
                      delta: real, snap: bool, step: real)
    requires d1 <= m.Keys && d2 <= m.Keys && step > 0.0
    requires forall t, k :: 0 <= t < |ph.tracks| && 0 <= k < |ph.tracks[t].keys| ==>
      (SelItem(p, t, k) in d1 <==> SelItem(p, t, k) in d2)
    ensures DragPhase(ph, p, m, d1, delta, snap, step) == DragPhase(ph, p, m, d2, delta, snap, step)
  {
    forall t | 0 <= t < |ph.tracks|
      ensures DragTrack(ph.tracks[t], p, t, m, d1, delta, snap, step, ph.duration) ==
              DragTrack(ph.tracks[t], p, t, m, d2, delta, snap, step, ph.duration)
    {
      DragTrackSame(ph.tracks[t], p, t, m, d1, d2, delta, snap, step, ph.duration);
    }
    assert DragPhase(ph, p, m, d1, delta, snap, step).tracks == DragPhase(ph, p, m, d2, delta, snap, step).tracks;
  }

  /** Processing one more recorded entry leaves every other phase alone. */
  lemma DragOtherPhases(ab: AbilityDef, m: map<SelItem, real>, done: set<SelItem>, it: SelItem,
                        delta: real, snap: bool, step: real)
    requires done <= m.Keys && it in m && it !in done && step > 0.0
    ensures forall p :: 0 <= p < |ab.phases| && p != it.p ==>
      DragAbility(ab, m, done + {it}, delta, snap, step).phases[p] == DragAbility(ab, m, done, delta, snap, step).phases[p]
  {
    forall p | 0 <= p < |ab.phases| && p != it.p
      ensures DragAbility(ab, m, done + {it}, delta, snap, step).phases[p] == DragAbility(ab, m, done, delta, snap, step).phases[p]
    {
      DragPhaseSame(ab.phases[p], p, m, done + {it}, done, delta, snap, step);
    }
  }

  lemma DragStepMiss(ab: AbilityDef, m: map<SelItem, real>, done: set<SelItem>, it: SelItem,
                     delta: real, snap: bool, step: real)
    requires done <= m.Keys && it in m && it !in done && it.c == -1 && step > 0.0
    requires !KeyInRange(ab, it.p, it.t, it.k)
    ensures DragAbility(ab, m, done + {it}, delta, snap, step) == DragAbility(ab, m, done, delta, snap, step)
  {
    var after := DragAbility(ab, m, done + {it}, delta, snap, step);
    var before := DragAbility(ab, m, done, delta, snap, step);
    DragOtherPhases(ab, m, done, it, delta, snap, step);
    if 0 <= it.p < |ab.phases| {
      DragPhaseSame(ab.phases[it.p], it.p, m, done + {it}, done, delta, snap, step);
    }
    assert after.phases == before.phases;
  }

  lemma DragTrackHit(tr: Track, p: int, t: int, k: int, m: map<SelItem, real>, done: set<SelItem>,
                     delta: real, snap: bool, step: real, duration: real)
    requires done <= m.Keys && SelItem(p, t, k) in m && SelItem(p, t, k) !in done && step > 0.0
    requires 0 <= k < |tr.keys|
    ensures var before := DragTrack(tr, p, t, m, done, delta, snap, step, duration);
      DragTrack(tr, p, t, m, done + {SelItem(p, t, k)}, delta, snap, step, duration) ==
      before.(keys := before.keys[k := before.keys[k].(time := SnapClamp(m[SelItem(p, t, k)] + delta, snap, step, duration))])
  {
  }

  lemma DragStepHit(ab: AbilityDef, m: map<SelItem, real>, done: set<SelItem>, it: SelItem,
                    delta: real, snap: bool, step: real)
    requires done <= m.Keys && it in m && it !in done && it.c == -1 && step > 0.0
    requires KeyInRange(ab, it.p, it.t, it.k)
    ensures DragAbility(ab, m, done + {it}, delta, snap, step) ==
      SetKeyTime(DragAbility(ab, m, done, delta, snap, step), it.p, it.t, it.k,
                 SnapClamp(m[it] + delta, snap, step, ab.phases[it.p].duration))
  {
    var after := DragAbility(ab, m, done + {it}, delta, snap, step);
    var before := DragAbility(ab, m, done, delta, snap, step);
    DragOtherPhases(ab, m, done, it, delta, snap, step);
    var ph := ab.phases[it.p];
    var target := SetKeyTime(before, it.p, it.t, it.k, SnapClamp(m[it] + delta, snap, step, ph.duration));
    forall t | 0 <= t < |ph.tracks| && t != it.t
      ensures after.phases[it.p].tracks[t] == before.phases[it.p].tracks[t]
    {
      DragTrackSame(ph.tracks[t], it.p, t, m, done + {it}, done, delta, snap, step, ph.duration);
    }
    DragTrackHit(ph.tracks[it.t], it.p, it.t, it.k, m, done, delta, snap, step, ph.duration);
    assert after.phases[it.p].tracks[it.t] == target.phases[it.p].tracks[it.t];
    assert after.phases[it.p].tracks == target.phases[it.p].tracks;
    assert after.phases == target.phases;
  }

  /** Processing one more recorded entry moves exactly its key, if that key exists. */
  lemma DragStep(ab: AbilityDef, m: map<SelItem, real>, done: set<SelItem>, it: SelItem,
                 delta: real, snap: bool, step: real)
    requires done <= m.Keys && it in m && it !in done && it.c == -1 && step > 0.0
    ensures !KeyInRange(ab, it.p, it.t, it.k) ==>
      DragAbility(ab, m, done + {it}, delta, snap, step) == DragAbility(ab, m, done, delta, snap, step)
    ensures KeyInRange(ab, it.p, it.t, it.k) ==>
      DragAbility(ab, m, done + {it}, delta, snap, step) ==
      SetKeyTime(DragAbility(ab, m, done, delta, snap, step), it.p, it.t, it.k,
                 SnapClamp(m[it] + delta, snap, step, ab.phases[it.p].duration))
  {
    if KeyInRange(ab, it.p, it.t, it.k) {
      DragStepHit(ab, m, done, it, delta, snap, step);
    } else {
      DragStepMiss(ab, m, done, it, delta, snap, step);
    }
  }

  /** The dragged ability has the same keys in range and the same phase durations. */
  lemma DragShape(ab: AbilityDef, m: map<SelItem, real>, done: set<SelItem>, delta: real, snap: bool, step: real,
                  p: int, t: int, k: int)
    requires done <= m.Keys && step > 0.0
    ensures KeyInRange(DragAbility(ab, m, done, delta, snap, step), p, t, k) <==> KeyInRange(ab, p, t, k)
    ensures 0 <= p < |ab.phases| ==> DragAbility(ab, m, done, delta, snap, step).phases[p].duration == ab.phases[p].duration
  {
  }

  /** With nothing processed, the drag is the identity. */
  lemma DragNone(ab: AbilityDef, m: map<SelItem, real>, delta: real, snap: bool, step: real)
    requires step > 0.0
    ensures DragAbility(ab, m, {}, delta, snap, step) == ab
  {
    var r := DragAbility(ab, m, {}, delta, snap, step);
    forall p | 0 <= p < |ab.phases|
      ensures r.phases[p] == ab.phases[p]
    {
      forall t | 0 <= t < |ab.phases[p].tracks|
        ensures r.phases[p].tracks[t] == ab.phases[p].tracks[t]
      {
        assert r.phases[p].tracks[t].keys == ab.phases[p].tracks[t].keys;
      }
      assert r.phases[p].tracks == ab.phases[p].tracks;
    }
    assert r.phases == ab.phases;
  }

  // ---------------------------------------------------------------------
  // Phase and track edits on values

  /** DeletePhase: bounds-checked RemoveAt on the phase list. */
  function PhaseDeleted(ab: AbilityDef, i: int): (r: AbilityDef)
    ensures !(0 <= i < |ab.phases|) ==> r == ab
    ensures 0 <= i < |ab.phases| ==>
      |r.phases| == |ab.phases| - 1 && multiset(r.phases) + multiset{ab.phases[i]} == multiset(ab.phases)
  {
    if 0 <= i < |ab.phases| then ab.(phases := RemoveAt(ab.phases, i)) else ab
  }

  /** MovePhase: nothing when either index is out of range, else the phase moves to `i + delta`. */
  function PhaseMoved(ab: AbilityDef, i: int, delta: int): (r: AbilityDef)
    ensures !(0 <= i < |ab.phases| && 0 <= i + delta < |ab.phases|) ==> r == ab
    ensures 0 <= i < |ab.phases| && 0 <= i + delta < |ab.phases| ==>
      |r.phases| == |ab.phases| && multiset(r.phases) == multiset(ab.phases) && r.phases[i + delta] == ab.phases[i]
  {
    if 0 <= i < |ab.phases| && 0 <= i + delta < |ab.phases| then ab.(phases := Move(ab.phases, i, i + delta)) else ab
  }

  /** Moving a phase by `delta` and then back by `-delta` restores the ability. */
  lemma PhaseMoveBack(ab: AbilityDef, i: int, delta: int)
    requires 0 <= i < |ab.phases| && 0 <= i + delta < |ab.phases|
    ensures PhaseMoved(PhaseMoved(ab, i, delta), i + delta, -delta) == ab
  {
    MoveBack(ab.phases, i, i + delta);
  }

  /** DeleteTrack: bounds-checked RemoveAt on a phase's track list. */
  function TrackDeleted(ab: AbilityDef, p: int, t: int): (r: AbilityDef)
    ensures !TrackInRange(ab, p, t) ==> r == ab
    ensures TrackInRange(ab, p, t) ==> (
      |r.phases| == |ab.phases| &&
      (forall q :: 0 <= q < |ab.phases| && q != p ==> r.phases[q] == ab.phases[q]) &&
      r.phases[p] == ab.phases[p].(tracks := r.phases[p].tracks) &&
      multiset(r.phases[p].tracks) + multiset{ab.phases[p].tracks[t]} == multiset(ab.phases[p].tracks))
  {
    if TrackInRange(ab, p, t) then
      var ph := ab.phases[p];
      ab.(phases := ab.phases[p := ph.(tracks := RemoveAt(ph.tracks, t))])
    else ab
  }

  /** MoveTrack: nothing when an index is out of range, else the track moves within its phase. */
  function TrackMoved(ab: AbilityDef, p: int, t: int, delta: int): (r: AbilityDef)
    ensures !(TrackInRange(ab, p, t) && TrackInRange(ab, p, t + delta)) ==> r == ab
    ensures TrackInRange(ab, p, t) && TrackInRange(ab, p, t + delta) ==> (
      |r.phases| == |ab.phases| &&
      (forall q :: 0 <= q < |ab.phases| && q != p ==> r.phases[q] == ab.phases[q]) &&
      r.phases[p] == ab.phases[p].(tracks := r.phases[p].tracks) &&
      multiset(r.phases[p].tracks) == multiset(ab.phases[p].tracks) && r.phases[p].tracks[t + delta] == ab.phases[p].tracks[t])
  {
    if TrackInRange(ab, p, t) && TrackInRange(ab, p, t + delta) then
      var ph := ab.phases[p];
      ab.(phases := ab.phases[p := ph.(tracks := Move(ph.tracks, t, t + delta))])
    else ab
  }

  /** The loop of UpdateGroupDrag: every recorded key that still exists gets its dragged, snapped and clamped time. */
  method DragRecordedKeys(ab0: AbilityDef, m: map<SelItem, real>, delta: real, snap: bool, step: real)
    returns (ab: AbilityDef)
    requires step > 0.0 && forall it <- m :: it.c == -1
    ensures ab == DragAbility(ab0, m, m.Keys, delta, snap, step)
  {
    ab := ab0;
    var remaining := m.Keys;
    ghost var done: set<SelItem> := {};
    DragNone(ab0, m, delta, snap, step);
    while remaining != {}
      invariant remaining <= m.Keys && done == m.Keys - remaining
      invariant ab == DragAbility(ab0, m, done, delta, snap, step)
      decreases |remaining|
    {
      var it :| it in remaining;
      DragStep(ab0, m, done, it, delta, snap, step);
      DragShape(ab0, m, done, delta, snap, step, it.p, it.t, it.k);
      if KeyInRange(ab, it.p, it.t, it.k) {
        var newTime := m[it] + delta;
        if snap {
          newTime := GridSnap(newTime, step);
        }
        newTime := Clamp(newTime, 0.0, Max(0.0, ab.phases[it.p].duration));
        assert newTime == SnapClamp(m[it] + delta, snap, step, ab0.phases[it.p].duration);
        ab := SetKeyTime(ab, it.p, it.t, it.k, newTime);
      }
      remaining := remaining - {it};
      done := done + {it};
    }
    assert done == m.Keys;
  }

  /** The loop of BeginGroupDrag that records the time of every existing selected key. */
  method RecordInitialTimes(ab: AbilityDef, items: seq<SelItem>) returns (times: map<SelItem, real>)
    ensures times == InitialTimes(ab, items)
  {
    times := map[];
    for i := 0 to |items|
      invariant times == InitialTimes(ab, items[..i])
    {
      assert items[..i + 1][..i] == items[..i];
      var it := items[i];
      if KeyInRange(ab, it.p, it.t, it.k) {
        times := times[it := KeyAt(ab, it.p, it.t, it.k).time];
      }
    }
    assert items[..|items|] == items;
  }

  class EditController {
    const state: TimelineState
    var groupDragActive: bool
    var groupDragStartTime: real
    var groupDragInitialTimes: map<SelItem, real>

    /** The recorded times belong to an active drag, and are keyed by items built from three indices. */
    predicate Valid()
      reads this
    {
      (!groupDragActive ==> groupDragInitialTimes == map[]) &&
      forall it :: it in groupDragInitialTimes ==> it.c == -1
    }

    constructor(state: TimelineState)
      ensures this.state == state && !groupDragActive && Valid()
    {
      this.state := state;
      groupDragActive := false;
      groupDragStartTime := 0.0;
      groupDragInitialTimes := map[];
    }

    method StartPanning(mousePos: Vec2)
      modifies state.edit
      ensures state.edit.isPanning && state.edit.lastMousePos == mousePos
    {
      state.edit.isPanning := true;
      state.edit.lastMousePos := mousePos;
    }

    /** UpdatePanning: only while panning; the scroll follows the mouse's horizontal motion and stays >= 0. */
    method UpdatePanning(mousePos: Vec2, pixelsPerSecond: real)
      modifies state.view, state.edit
      ensures !old(state.edit.isPanning) ==>
        state.view.scrollX == old(state.view.scrollX) && state.edit.lastMousePos == old(state.edit.lastMousePos)
      ensures old(state.edit.isPanning) ==>
        state.view.scrollX == Max(0.0, old(state.view.scrollX) - (mousePos.x - old(state.edit.lastMousePos.x))) &&
        state.edit.lastMousePos == mousePos
      ensures old(state.view.scrollX) >= 0.0 ==> state.view.scrollX >= 0.0
      ensures state.view.pixelsPerSecond == old(state.view.pixelsPerSecond) && state.edit.isPanning == old(state.edit.isPanning)
    {
      if !state.edit.isPanning {
        return;
      }
      var dx := mousePos.x - state.edit.lastMousePos.x;
      state.view.scrollX := Max(0.0, state.view.scrollX - dx);
      state.edit.lastMousePos := mousePos;
    }

    method StopPanning()
      modifies state.edit
      ensures !state.edit.isPanning && state.edit.lastMousePos == old(state.edit.lastMousePos)
    {
      state.edit.isPanning := false;
    }

    /** Zoom: pixels-per-second clamped into [50, 600], scroll adjusted around the cursor and kept >= 0. */
    method Zoom(factor: real, cursorX: real, rulerLeft: real)
      requires state.view.pixelsPerSecond > 0.0
      modifies state.view
      ensures (state.view.pixelsPerSecond, state.view.scrollX) ==
        ZoomView(old(state.view.pixelsPerSecond), old(state.view.scrollX), factor, cursorX, rulerLeft)
      ensures 50.0 <= state.view.pixelsPerSecond <= 600.0 && state.view.scrollX >= 0.0
      ensures state.view.snap == old(state.view.snap) && state.view.frameMode == old(state.view.frameMode)
    {
      var view := state.view;
      var zoomed := ZoomView(view.pixelsPerSecond, view.scrollX, factor, cursorX, rulerLeft);
      view.pixelsPerSecond, view.scrollX := zoomed.0, zoomed.1;
    }

    /** EndGroupDrag: no drag, nothing recorded. */
    method EndGroupDrag()
      modifies this
      ensures !groupDragActive && groupDragInitialTimes == map[] && groupDragStartTime == old(groupDragStartTime)
      ensures Valid()
    {
      groupDragActive := false;
      groupDragInitialTimes := map[];
    }

    /**
     * BeginGroupDrag: an active drag is ended first; with an ability, a lone
     * primary key is copied into the empty multi-selection and the time of
     * every existing selected key is recorded.
     */
    method BeginGroupDrag(startGlobalTime: real, config: AbilityConfig?)
      requires Valid() && state.selection.Valid()
      modifies this, state.selection
      ensures Valid() && state.selection.Valid()
      ensures state.data.CurrentAbility().None? ==>
        !groupDragActive && groupDragInitialTimes == map[] &&
        state.selection.multiSelection == old(state.selection.multiSelection)
      ensures state.data.CurrentAbility().Some? ==>
        groupDragActive && groupDragStartTime == startGlobalTime &&
        state.selection.multiSelection ==
          old(state.selection.multiSelection) +
          (if old(|state.selection.multiSelection| == 0 && state.selection.kind == KeySelection)
           then [SelItem(old(state.selection.phaseIndex), old(state.selection.trackIndex), old(state.selection.keyIndex))]
           else []) &&
        groupDragInitialTimes == InitialTimes(state.data.CurrentAbility().value, state.selection.multiSelection)
      ensures state.selection.kind == old(state.selection.kind) && state.selection.phaseIndex == old(state.selection.phaseIndex)
      ensures state.selection.trackIndex == old(state.selection.trackIndex) && state.selection.keyIndex == old(state.selection.keyIndex)
    {
      if groupDragActive {
        EndGroupDrag();
      }
      var abOpt := state.data.CurrentAbility();
      if abOpt.None? {
        return;
      }
      var ab := abOpt.value;
      groupDragActive := true;
      groupDragStartTime := startGlobalTime;
      var sel := state.selection;
      if |sel.multiSelection| == 0 && sel.kind == KeySelection {
        sel.multiSelection := sel.multiSelection + [SelItem(sel.phaseIndex, sel.trackIndex, sel.keyIndex)];
      }
      groupDragInitialTimes := RecordInitialTimes(ab, sel.multiSelection);
    }

    /**
     * UpdateGroupDrag: only while dragging and with an ability; every
     * recorded key that still exists is set to its dragged time.
     */
    method UpdateGroupDrag(curGlobalTime: real, config: AbilityConfig?)
      requires Valid()
      modifies state.data.config
      ensures state.data.OnlyCurrentChanged()
      ensures !groupDragActive || old(state.data.CurrentAbility()).None? ==>
        state.data.CurrentAbility() == old(state.data.CurrentAbility())
      ensures groupDragActive && old(state.data.CurrentAbility()).Some? ==>
        state.data.CurrentAbility() ==
          Some(DragAbility(old(state.data.CurrentAbility()).value, groupDragInitialTimes, groupDragInitialTimes.Keys,
                           curGlobalTime - groupDragStartTime, state.view.snap, state.view.Step()))
    {
      if !groupDragActive {
        return;
      }
      var abOpt := state.data.CurrentAbility();
      if abOpt.None? {
        return;
      }
      var delta := curGlobalTime - groupDragStartTime;
      var ab := DragRecordedKeys(abOpt.value, groupDragInitialTimes, delta, state.view.snap, state.view.Step());
      state.data.SetCurrentAbility(ab);
    }

    /** AddPhase: with an ability and a config, one default phase is appended. */
    method AddPhase(config: AbilityConfig?)
      modifies state.data.config
      ensures state.data.OnlyCurrentChanged()
      ensures old(state.data.CurrentAbility()).None? || config == null ==>
        state.data.CurrentAbility() == old(state.data.CurrentAbility())
      ensures old(state.data.CurrentAbility()).Some? && config != null ==>
        state.data.CurrentAbility() ==
          Some(old(state.data.CurrentAbility()).value.(phases := old(state.data.CurrentAbility()).value.phases + [NewPhase()]))
    {
      var abOpt := state.data.CurrentAbility();
      if abOpt.None? || config == null {
        return;
      }
      var ab := abOpt.value;
      state.data.SetCurrentAbility(ab.(phases := ab.phases + [NewPhase()]));
    }

    /** DeletePhase: with an ability and a config, the phase at a valid index is removed. */
    method DeletePhase(i: int, config: AbilityConfig?)
      modifies state.data.config
      ensures state.data.OnlyCurrentChanged()
      ensures old(state.data.CurrentAbility()).None? || config == null ==>
        state.data.CurrentAbility() == old(state.data.CurrentAbility())
      ensures old(state.data.CurrentAbility()).Some? && config != null ==>
        state.data.CurrentAbility() == Some(PhaseDeleted(old(state.data.CurrentAbility()).value, i))
    {
      var abOpt := state.data.CurrentAbility();
      if abOpt.None? || config == null {
        return;
      }
      var ab := abOpt.value;
      if i < 0 || i >= |ab.phases| {
        return;
      }
      state.data.SetCurrentAbility(ab.(phases := RemoveAt(ab.phases, i)));
    }

    /** MovePhase: remove-then-insert at `i + delta` when both indices are valid. */
    method MovePhase(i: int, delta: int, config: AbilityConfig?)
      modifies state.data.config
      ensures state.data.OnlyCurrentChanged()
      ensures old(state.data.CurrentAbility()).None? || config == null ==>
        state.data.CurrentAbility() == old(state.data.CurrentAbility())
      ensures old(state.data.CurrentAbility()).Some? && config != null ==>
        state.data.CurrentAbility() == Some(PhaseMoved(old(state.data.CurrentAbility()).value, i, delta))
    {
      var abOpt := state.data.CurrentAbility();
      if abOpt.None? || config == null {
        return;
      }
      var ab := abOpt.value;
      if i < 0 || i >= |ab.phases| {
        assert PhaseMoved(ab, i, delta) == ab;
        return;
      }
      var newIndex := i + delta;
      if newIndex < 0 || newIndex >= |ab.phases| {
        assert PhaseMoved(ab, i, delta) == ab;
        return;
      }
      var moved := ab.(phases := Move(ab.phases, i, newIndex));
      assert moved == PhaseMoved(ab, i, delta);
      state.data.SetCurrentAbility(moved);
    }

    /** AddTrackToPhase: a default (enabled) track is appended to a valid phase. */
    method AddTrackToPhase(p: int, config: AbilityConfig?)
      modifies state.data.config
      ensures state.data.OnlyCurrentChanged()
      ensures var ab := old(state.data.CurrentAbility());
        if ab.None? || config == null || !PhaseInRange(ab.value, p) then state.data.CurrentAbility() == ab
        else (state.data.CurrentAbility() ==
          Some(ab.value.(phases := ab.value.phases[p := ab.value.phases[p].(tracks := ab.value.phases[p].tracks + [NewTrack()])])))
    {
      var abOpt := state.data.CurrentAbility();
      if abOpt.None? || config == null {
        return;
      }
      var ab := abOpt.value;
      if p < 0 || p >= |ab.phases| {
        return;
      }
      var phase := ab.phases[p];
      state.data.SetCurrentAbility(ab.(phases := ab.phases[p := phase.(tracks := phase.tracks + [NewTrack()])]));
    }

    /** DeleteTrack: the track at a valid (phase, track) index pair is removed. */
    method DeleteTrack(p: int, t: int, config: AbilityConfig?)
      modifies state.data.config
      ensures state.data.OnlyCurrentChanged()
      ensures old(state.data.CurrentAbility()).None? || config == null ==>
        state.data.CurrentAbility() == old(state.data.CurrentAbility())
      ensures old(state.data.CurrentAbility()).Some? && config != null ==>
        state.data.CurrentAbility() == Some(TrackDeleted(old(state.data.CurrentAbility()).value, p, t))
    {
      var abOpt := state.data.CurrentAbility();
      if abOpt.None? || config == null {
        return;
      }
      var ab := abOpt.value;
      if p < 0 || p >= |ab.phases| {
        return;
      }
      var phase := ab.phases[p];
      if t < 0 || t >= |phase.tracks| {
        return;
      }
      state.data.SetCurrentAbility(ab.(phases := ab.phases[p := phase.(tracks := RemoveAt(phase.tracks, t))]));
    }

    /** MoveTrack: remove-then-insert within the phase when both indices are valid. */
    method MoveTrack(p: int, t: int, delta: int, config: AbilityConfig?)
      modifies state.data.config
      ensures state.data.OnlyCurrentChanged()
      ensures old(state.data.CurrentAbility()).None? || config == null ==>
        state.data.CurrentAbility() == old(state.data.CurrentAbility())
      ensures old(state.data.CurrentAbility()).Some? && config != null ==>
        state.data.CurrentAbility() == Some(TrackMoved(old(state.data.CurrentAbility()).value, p, t, delta))
    {
      var abOpt := state.data.CurrentAbility();
      if abOpt.None? || config == null {
        return;
      }
      var ab := abOpt.value;
      if p < 0 || p >= |ab.phases| {
        assert TrackMoved(ab, p, t, delta) == ab;
        return;
      }
      var phase := ab.phases[p];
      if t < 0 || t >= |phase.tracks| {
        assert TrackMoved(ab, p, t, delta) == ab;
        return;
      }
      var newIndex := t + delta;
      if newIndex < 0 || newIndex >= |phase.tracks| {
        assert TrackMoved(ab, p, t, delta) == ab;
        return;
      }
      var moved := ab.(phases := ab.phases[p := phase.(tracks := Move(phase.tracks, t, newIndex))]);
      assert moved == TrackMoved(ab, p, t, delta);
      state.data.SetCurrentAbility(moved);
    }
  }

  // ---------------------------------------------------------------------
  // The per-frame driver

  /** The viewport width and the margin EnsurePlayheadVisible keeps, in pixels. */
  const ViewportWidth: real := 800.0
  const ViewportMargin: real := 50.0

  /**
   * EnsurePlayheadVisible on values: the scroll for a playhead drawn at
   * pixel `x`. Afterwards the playhead lies inside the viewport, a margin
   * away from either edge, unless it is within a margin of time 0; a
   * playhead already inside leaves the scroll alone.
   */
  function FollowScroll(x: real, scrollX: real): (s: real)
    ensures s + ViewportMargin <= x <= s + ViewportWidth - ViewportMargin || (s == 0.0 && x < ViewportMargin)
    ensures scrollX + ViewportMargin <= x <= scrollX + ViewportWidth - ViewportMargin ==> s == scrollX
    ensures scrollX >= 0.0 ==> s >= 0.0
  {
    if x < scrollX + ViewportMargin then Max(0.0, x - ViewportMargin)
    else if x > scrollX + ViewportWidth - ViewportMargin then x - ViewportWidth + ViewportMargin
    else scrollX
  }

  /** How far the playhead lies from time 0 on screen. */
  function TimeToPixels(time: real, pixelsPerSecond: real): real
  {
    time * pixelsPerSecond
  }

  /** The coordinator that owns the sub-controllers and drives playback and preview each editor frame. */
  class TimelineController {
    const state: TimelineState
    const selectionCtrl: SelectionController
    const playbackCtrl: PlaybackController
    const editCtrl: EditController
    const previewCtrl: PreviewController
    /** The editor clock reading of the previous Update. */
    var lastEditorTime: real

    predicate Wired()
      reads this, selectionCtrl, playbackCtrl, editCtrl, previewCtrl
    {
      selectionCtrl.state == state && playbackCtrl.state == state &&
      editCtrl.state == state && previewCtrl.state == state
    }

    /** Construction followed by Initialize: every sub-controller shares the state; `now` is the editor clock. */
    constructor(state: TimelineState, now: real)
      ensures Wired() && this.state == state && lastEditorTime == now
      ensures fresh(previewCtrl) && !previewCtrl.isPreviewMode
    {
      this.state := state;
      selectionCtrl := new SelectionController(state);
      playbackCtrl := new PlaybackController(state);
      editCtrl := new EditController(state);
      previewCtrl := new PreviewController(state);
      lastEditorTime := now;
    }

    /** EnsurePlayheadVisible: the scroll follows the playhead; zoom and snap settings stay. */
    method EnsurePlayheadVisible()
      modifies state.view
      ensures state.view.scrollX ==
        FollowScroll(TimeToPixels(state.playback.playhead, state.view.pixelsPerSecond), old(state.view.scrollX))
      ensures state.view.pixelsPerSecond == old(state.view.pixelsPerSecond)
      ensures state.view.snap == old(state.view.snap) && state.view.frameMode == old(state.view.frameMode)
    {
      var x := TimeToPixels(state.playback.playhead, state.view.pixelsPerSecond);
      var scrollX := state.view.scrollX;
      if x < scrollX + ViewportMargin {
        state.view.scrollX := Max(0.0, x - ViewportMargin);
      } else if x > scrollX + ViewportWidth - ViewportMargin {
        state.view.scrollX := x - ViewportWidth + ViewportMargin;
      }
    }

    /** The playing branch of Update: playback advances by `deltaTime` and the view follows the playhead. */
    method PlayFrame(deltaTime: real)
      requires Wired() && state.playback.isPlaying
      modifies state.playback, state.view
      ensures var r := BoundPlayhead(old(state.playback.playhead) + Advance(deltaTime, old(state.playback.speed)),
                                     state.TotalDuration(), state.playback.rangeEnabled, state.playback.loop,
                                     state.playback.rangeIn, state.playback.rangeOut);
        state.playback.playhead == r.playhead && state.playback.isPlaying == !r.stops &&
        state.view.scrollX ==
          FollowScroll(TimeToPixels(state.playback.playhead, state.view.pixelsPerSecond), old(state.view.scrollX))
      ensures state.playback.rangeEnabled ==>
        (state.playback.rangeIn, state.playback.rangeOut) ==
          ValidRange(old(state.playback.rangeIn), old(state.playback.rangeOut), state.TotalDuration())
    {
      playbackCtrl.UpdatePlayback(deltaTime);
      EnsurePlayheadVisible();
    }

    /**
     * Update, called every editor frame with the clock reading `now`:
     * while playing, playback advances by the time since the last frame and
     * the view follows the playhead; in preview mode the preview is then
     * resampled at the playhead, whether or not playback moved it.
     */
    method Update(now: real)
      requires Wired()
      modifies this, state.playback, state.view, previewCtrl, previewCtrl.manager
      ensures lastEditorTime == now
      ensures !old(state.playback.isPlaying) ==> unchanged(state.playback, state.view)
      ensures old(state.playback.isPlaying) ==>
        var r := BoundPlayhead(old(state.playback.playhead) + Advance(now - old(lastEditorTime), old(state.playback.speed)),
                               state.TotalDuration(), state.playback.rangeEnabled, state.playback.loop,
                               state.playback.rangeIn, state.playback.rangeOut);
        state.playback.playhead == r.playhead && state.playback.isPlaying == !r.stops &&
        state.view.scrollX ==
          FollowScroll(TimeToPixels(state.playback.playhead, state.view.pixelsPerSecond), old(state.view.scrollX))
      ensures old(state.playback.isPlaying) && state.playback.rangeEnabled ==>
        (state.playback.rangeIn, state.playback.rangeOut) ==
          ValidRange(old(state.playback.rangeIn), old(state.playback.rangeOut), state.TotalDuration())
      ensures !old(previewCtrl.isPreviewMode) ==>
        unchanged(previewCtrl) && (previewCtrl.manager != null ==> unchanged(previewCtrl.manager))
      ensures old(previewCtrl.isPreviewMode) && previewCtrl.previewTarget.Some? ==>
        previewCtrl.currentPreviewTime == state.playback.playhead &&
        (state.data.CurrentAbility().Some? ==>
          previewCtrl.activeClips == ActiveClips(state.data.CurrentAbility().value, state.playback.playhead) &&
          previewCtrl.activeKeys == ActiveKeys(state.data.CurrentAbility().value, state.playback.playhead))
    {
      var deltaTime := now - lastEditorTime;
      lastEditorTime := now;
      if state.playback.isPlaying {
        PlayFrame(deltaTime);
      }
      if previewCtrl.isPreviewMode {
        previewCtrl.Sample(state.playback.playhead);
      }
    }
  }
}

=== FILE: timeline_state.dfy ===
/**
 * The editor's central state (TimelineState): the view, selection,
 * playback and data sub-states, and the helpers that derive the timeline
 * length, the phase start offsets and a valid playback range from the
 * ability being edited.
 */
module TimelineState {
  import opened Wrappers
  import opened UnityTypes
  import opened Mathf
  import opened AbilityConfigSO

  datatype SelectionKind = NoSelection | KeySelection | ClipSelection | TrackSelection | PhaseSelection | MarkerSelection

  /** One multi-selection entry: phase, track and key index, and a clip index that defaults to -1. */
  datatype SelItem = SelItem(p: int, t: int, k: int, c: int := -1)

  /** SelItem equality compares all four indices, and an item built from three indices has clip index -1. */
  lemma SelItemEquality(a: SelItem, b: SelItem, p: int, t: int, k: int)
    ensures a == b <==> a.p == b.p && a.t == b.t && a.k == b.k && a.c == b.c
    ensures SelItem(p, t, k) == SelItem(p, t, k, -1)
  {
  }

  class ViewState {
    var pixelsPerSecond: real
    var scrollX: real
    var snap: bool
    var frameMode: bool
    /** SnapStep and FPS keep their initial values: nothing in the editor assigns them. */
    const snapStep: real := 0.01
    const fps: real := 60.0

    constructor()
      ensures pixelsPerSecond == 200.0 && scrollX == 0.0 && snap && !frameMode
    {
      pixelsPerSecond := 200.0;
      scrollX := 0.0;
      snap := true;
      frameMode := false;
    }

    /** The grid step: one frame in frame mode, otherwise the snap step. */
    function Step(): (step: real)
      reads this
      ensures step > 0.0
    {
      if frameMode then 1.0 / fps else snapStep
    }

    /** SnapTimeToGrid: the nearest multiple of the grid step. */
    function SnapToGrid(time: real): real
      reads this
    {
      GridSnap(time, Step())
    }
  }

  /** Rounding to the nearest multiple of `step` moves a time by at most half a step. */
  function GridSnap(time: real, step: real): (r: real)
    requires step > 0.0
    ensures time - step / 2.0 <= r <= time + step / 2.0
  {
    var n := Round(time / step);
    GridBound(time, step, n);
    n as real * step
  }

  lemma GridBound(time: real, step: real, n: int)
    requires step > 0.0 && time / step - 0.5 <= n as real <= time / step + 0.5
    ensures time - step / 2.0 <= n as real * step <= time + step / 2.0
  {
    var q := time / step;
    assert q * step == time;
    MulMonotone(q - 0.5, n as real, step);
    MulMonotone(n as real, q + 0.5, step);
  }

  class SelectionState {
    var kind: SelectionKind
    var phaseIndex: int
    var trackIndex: int
    var keyIndex: int
    var clipIndex: int
    var multiSelection: seq<SelItem>

    constructor()
      ensures Cleared() && Valid()
    {
      kind := NoSelection;
      phaseIndex, trackIndex, keyIndex, clipIndex := -1, -1, -1, -1;
      multiSelection := [];
    }

    /** Every entry the editor puts in the multi-selection is built from three indices. */
    predicate Valid()
      reads this
    {
      forall i :: 0 <= i < |multiSelection| ==> multiSelection[i].c == -1
    }

    predicate Cleared()
      reads this
    {
      kind == NoSelection && phaseIndex == -1 && trackIndex == -1 && keyIndex == -1 && clipIndex == -1 &&
      multiSelection == []
    }

    predicate HasSelection()
      reads this
    {
      kind != NoSelection
    }

    predicate HasMultiSelection()
      reads this
    {
      |multiSelection| > 0
    }

    /** SelectionState.Clear: no kind, all indices -1, empty multi-selection. */
    method Clear()
      modifies this
      ensures Cleared() && Valid()
      ensures !HasSelection() && !HasMultiSelection()
    {
      kind := NoSelection;
      phaseIndex, trackIndex, keyIndex, clipIndex := -1, -1, -1, -1;
      multiSelection := [];
    }
  }

  class PlaybackState {
    var isPlaying: bool
    var playhead: real
    var speed: real
    var loop: bool
    var rangeEnabled: bool
    var rangeIn: real
    var rangeOut: real

    constructor()
      ensures !isPlaying && playhead == 0.0 && speed == 1.0 && loop && !rangeEnabled
      ensures rangeIn == 0.0 && rangeOut == 0.0
    {
      isPlaying, playhead, speed, loop := false, 0.0, 1.0, true;
      rangeEnabled, rangeIn, rangeOut := false, 0.0, 0.0;
    }
  }

  class EditState {
    var isPanning: bool
    var lastMousePos: Vec2

    constructor()
      ensures !isPanning && lastMousePos == Vec2(0.0, 0.0)
    {
      isPanning := false;
      lastMousePos := Vec2(0.0, 0.0);
    }
  }

  // ---------------------------------------------------------------------
  // Derived lengths

  /** The sum of the phase durations, in list order. */
  function SumDurations(phases: seq<Phase>): real
  {
    if phases == [] then 0.0 else SumDurations(phases[..|phases| - 1]) + phases[|phases| - 1].duration
  }

  /** DataState.CurrentAbility: the ability at AbilityIndex, absent without a config or with the index out of range. */
  function SelectAbility(config: Option<seq<AbilityDef>>, index: int): (ab: Option<AbilityDef>)
    ensures ab.None? <==> config.None? || index < 0 || index >= |config.value|
    ensures ab.Some? ==> ab.value == config.value[index]
  {
    if config.None? || index < 0 || index >= |config.value| then None else Some(config.value[index])
  }

  /** DataState.TotalDuration: 1 without an ability, else the phase sum but never below 0.001. */
  function TotalDurationOf(ab: Option<AbilityDef>): (d: real)
    ensures d >= 0.001
    ensures ab.None? ==> d == 1.0
    ensures ab.Some? ==> d >= SumDurations(ab.value.phases) && (SumDurations(ab.value.phases) >= 0.001 ==> d == SumDurations(ab.value.phases))
    ensures ab.Some? && SumDurations(ab.value.phases) < 0.001 ==> d == 0.001
  {
    if ab.None? then 1.0 else Max(0.001, SumDurations(ab.value.phases))
  }

  /** GetPhaseStartOffset: the durations of the phases before `i`; 0 for no ability or an invalid index. */
  function PhaseStartOffset(ab: Option<AbilityDef>, i: int): real
  {
    if ab.None? || i < 0 || i >= |ab.value.phases| then 0.0 else SumDurations(ab.value.phases[..i])
  }

  /** Each phase starts where the previous one ends. */
  lemma PhaseStartOffsetStep(ab: AbilityDef, i: int)
    requires 0 <= i && i + 1 < |ab.phases|
    ensures PhaseStartOffset(Some(ab), i + 1) == PhaseStartOffset(Some(ab), i) + ab.phases[i].duration
    ensures PhaseStartOffset(Some(ab), 0) == 0.0
  {
    assert ab.phases[..i + 1][..i] == ab.phases[..i];
  }

  /** The last phase ends at the sum of all durations. */
  lemma LastPhaseEnds(ab: AbilityDef)
    requires |ab.phases| > 0
    ensures PhaseStartOffset(Some(ab), |ab.phases| - 1) + ab.phases[|ab.phases| - 1].duration == SumDurations(ab.phases)
  {
    assert ab.phases[..|ab.phases|] == ab.phases;
  }

  /** EnsureRangeValid on values: both ends clamped into [0, duration], then swapped if out of order. */
  function ValidRange(rangeIn: real, rangeOut: real, duration: real): (r: (real, real))
    requires duration >= 0.0
    ensures 0.0 <= r.0 <= r.1 <= duration
    ensures 0.0 <= rangeIn <= rangeOut <= duration ==> r == (rangeIn, rangeOut)
  {
    var a := Clamp(rangeIn, 0.0, duration);
    var b := Clamp(rangeOut, 0.0, duration);
    if b < a then (b, a) else (a, b)
  }

  /** Making a range valid twice is the same as once. */
  lemma ValidRangeIdempotent(rangeIn: real, rangeOut: real, duration: real)
    requires duration >= 0.0
    ensures var r := ValidRange(rangeIn, rangeOut, duration); ValidRange(r.0, r.1, duration) == r
  {
  }

  class DataState {
    var config: AbilityConfig?
    var abilityIndex: int

    constructor()
      ensures config == null && abilityIndex == 0
    {
      config := null;
      abilityIndex := 0;
    }

    function CurrentAbility(): Option<AbilityDef>
      reads this, config
    {
      SelectAbility(if config == null then None else Some(config.abilities), abilityIndex)
    }

    function TotalDuration(): real
      reads this, config
    {
      TotalDurationOf(CurrentAbility())
    }

    /** Only the current ability's slot of the config's list may differ from before. */
    twostate predicate OnlyCurrentChanged()
      reads this, config
    {
      old(config) == config &&
      (config != null ==>
        |config.abilities| == |old(config.abilities)| &&
        forall j :: 0 <= j < |config.abilities| && j != abilityIndex ==> config.abilities[j] == old(config.abilities[j]))
    }

    /** Writes an edited copy of the current ability back into the config's list. */
    method SetCurrentAbility(ab: AbilityDef)
      requires CurrentAbility().Some?
      modifies config
      ensures config.abilities == old(config.abilities)[abilityIndex := ab]
      ensures CurrentAbility() == Some(ab) && OnlyCurrentChanged()
    {
      config.abilities := config.abilities[abilityIndex := ab];
    }
  }

  class TimelineState {
    const view: ViewState
    const selection: SelectionState
    const playback: PlaybackState
    const edit: EditState
    const data: DataState

    constructor()
      ensures fresh(view) && fresh(selection) && fresh(playback) && fresh(edit) && fresh(data)
      ensures selection.Cleared() && selection.Valid() && data.config == null
    {
      view := new ViewState();
      selection := new SelectionState();
      playback := new PlaybackState();
      edit := new EditState();
      data := new DataState();
    }

    function TotalDuration(): real
      reads data, data.config
    {
      data.TotalDuration()
    }

    function GetPhaseStartOffset(i: int): real
      reads data, data.config
    {
      PhaseStartOffset(data.CurrentAbility(), i)
    }

    /** EnsureRangeValid: afterwards 0 <= RangeIn <= RangeOut <= TotalDuration; nothing else changes. */
    method EnsureRangeValid()
      modifies playback
      ensures (playback.rangeIn, playback.rangeOut) == ValidRange(old(playback.rangeIn), old(playback.rangeOut), TotalDuration())
      ensures 0.0 <= playback.rangeIn <= playback.rangeOut <= TotalDuration()
      ensures playback.playhead == old(playback.playhead) && playback.isPlaying == old(playback.isPlaying)
      ensures playback.rangeEnabled == old(playback.rangeEnabled) && playback.loop == old(playback.loop)
      ensures playback.speed == old(playback.speed)
    {
      var dur := TotalDuration();
      playback.rangeIn := Clamp(playback.rangeIn, 0.0, dur);
      playback.rangeOut := Clamp(playback.rangeOut, 0.0, dur);
      if playback.rangeOut < playback.rangeIn {
        playback.rangeIn, playback.rangeOut := playback.rangeOut, playback.rangeIn;
      }
    }

    /** EnsurePlayheadInRange: nothing without a range; otherwise the range is made valid and the playhead clamped into it. */
    method EnsurePlayheadInRange()
      modifies playback
      ensures !old(playback.rangeEnabled) ==>
        playback.playhead == old(playback.playhead) &&
        playback.rangeIn == old(playback.rangeIn) && playback.rangeOut == old(playback.rangeOut)
      ensures old(playback.rangeEnabled) ==>
        (playback.rangeIn, playback.rangeOut) == ValidRange(old(playback.rangeIn), old(playback.rangeOut), TotalDuration()) &&
        playback.playhead == Clamp(old(playback.playhead), playback.rangeIn, Min(playback.rangeOut, TotalDuration())) &&
        playback.rangeIn <= playback.playhead <= playback.rangeOut
      ensures playback.isPlaying == old(playback.isPlaying) && playback.rangeEnabled == old(playback.rangeEnabled)
      ensures playback.loop == old(playback.loop) && playback.speed == old(playback.speed)
    {
      if !playback.rangeEnabled {
        return;
      }
      EnsureRangeValid();
      playback.playhead := Clamp(playback.playhead, playback.rangeIn, Min(playback.rangeOut, TotalDuration()));
    }
  }
}

=== FILE: timeline_view.dfy ===
/**
 * The timeline view's key deletion (TimelineView.cs): the Delete-key
 * guard and DeleteSelectedKeys, which removes every selected key from the
 * current ability in descending (phase, track, key) order so that each
 * removal leaves the indices still to be removed valid.
 */
module TimelineView {
  import opened Wrappers
  import opened AbilityConfigSO
  import opened AbilityPaths
  import opened TimelineState
  import opened ListOps

  /** A (phase, track, key) index triple. */
  type Target = (int, int, int)

  // ---------------------------------------------------------------------
  // The sort

  /** `a` sorts strictly before `b`: lexicographically greater on (phase, track, key). */
  predicate Above(a: Target, b: Target)
  {
    a.0 > b.0 || (a.0 == b.0 && (a.1 > b.1 || (a.1 == b.1 && a.2 > b.2)))
  }

  predicate SortedDesc(s: seq<Target>)
  {
    forall i, j :: 0 <= i < j < |s| ==> s[i] == s[j] || Above(s[i], s[j])
  }

  predicate StrictlyDesc(s: seq<Target>)
  {
    forall i, j :: 0 <= i < j < |s| ==> Above(s[i], s[j])
  }

  predicate Distinct(s: seq<Target>)
  {
    forall i, j :: 0 <= i < j < |s| ==> s[i] != s[j]
  }

  /** Inserts `x` in front of the first element it is not below. */
  function InsertDesc(x: Target, s: seq<Target>): (r: seq<Target>)
    ensures multiset(r) == multiset(s) + multiset{x}
  {
    if s == [] || s[0] == x || Above(x, s[0]) then
      [x] + s
    else
      assert s == [s[0]] + s[1..];
      [s[0]] + InsertDesc(x, s[1..])
  }

  /** `h` is at or above every element of `s`. */
  predicate AtOrAboveAll(h: Target, s: seq<Target>)
  {
    forall y <- s :: h == y || Above(h, y)
  }

  lemma ConsSorted(h: Target, s: seq<Target>)
    requires SortedDesc(s) && AtOrAboveAll(h, s)
    ensures SortedDesc([h] + s)
  {
    var r := [h] + s;
    forall i, j | 0 <= i < j < |r|
      ensures r[i] == r[j] || Above(r[i], r[j])
    {
      if i > 0 {
        assert r[i] == s[i - 1] && r[j] == s[j - 1];
      } else {
        assert r[j] == s[j - 1] && s[j - 1] in s;
      }
    }
  }

  lemma HeadAtOrAbove(s: seq<Target>)
    requires SortedDesc(s) && s != []
    ensures AtOrAboveAll(s[0], s) && SortedDesc(s[1..])
  {
    forall y <- s
      ensures s[0] == y || Above(s[0], y)
    {
      var j :| 0 <= j < |s| && s[j] == y;
      if j > 0 { assert s[0] == s[j] || Above(s[0], s[j]); }
    }
    var tail := s[1..];
    forall i, j | 0 <= i < j < |tail|
      ensures tail[i] == tail[j] || Above(tail[i], tail[j])
    {
      assert tail[i] == s[i + 1] && tail[j] == s[j + 1];
    }
  }

  lemma AboveAllTrans(x: Target, h: Target, s: seq<Target>)
    requires x == h || Above(x, h)
    requires AtOrAboveAll(h, s)
    ensures AtOrAboveAll(x, s)
  {
  }

  lemma {:induction false} InsertSorted(x: Target, s: seq<Target>)
    requires SortedDesc(s)
    ensures SortedDesc(InsertDesc(x, s))
  {
    if s == [] {
      ConsSorted(x, s);
    } else if s[0] == x || Above(x, s[0]) {
      HeadAtOrAbove(s);
      AboveAllTrans(x, s[0], s);
      ConsSorted(x, s);
    } else {
      HeadAtOrAbove(s);
      var tail := s[1..];
      InsertSorted(x, tail);
      var rest := InsertDesc(x, tail);
      assert Above(s[0], x);
      forall y <- rest
        ensures s[0] == y || Above(s[0], y)
      {
        assert y in multiset(rest);
        if y != x {
          assert y in multiset(tail);
          assert y in s;
        }
      }
      ConsSorted(s[0], rest);
    }
  }

  /** List.Sort with the descending comparison: the sorted permutation of the targets. */
  function SortDesc(s: seq<Target>): (r: seq<Target>)
    ensures multiset(r) == multiset(s)
  {
    if s == [] then []
    else
      assert s == [s[0]] + s[1..];
      InsertDesc(s[0], SortDesc(s[1..]))
  }

  lemma {:induction false} SortSorted(s: seq<Target>)
    ensures SortedDesc(SortDesc(s))
  {
    if s != [] {
      SortSorted(s[1..]);
      InsertSorted(s[0], SortDesc(s[1..]));
    }
  }

  lemma {:induction false} DistinctCount(s: seq<Target>, x: Target)
    requires Distinct(s)
    ensures multiset(s)[x] <= 1
  {
    if s != [] {
      assert s == [s[0]] + s[1..];
      assert Distinct(s[1..]) by {
        forall i, j | 0 <= i < j < |s[1..]|
          ensures s[1..][i] != s[1..][j]
        {
          assert s[1..][i] == s[i + 1] && s[1..][j] == s[j + 1];
        }
      }
      DistinctCount(s[1..], x);
      if x == s[0] {
        forall j | 0 <= j < |s[1..]|
          ensures s[1..][j] != x
        {
          assert s[1..][j] == s[j + 1];
        }
      }
    }
  }

  lemma TwoCopies(r: seq<Target>, i: int, j: int)
    requires 0 <= i < j < |r| && r[i] == r[j]
    ensures multiset(r)[r[i]] >= 2
  {
    assert r == r[..i] + [r[i]] + r[i + 1..j] + [r[j]] + r[j + 1..];
  }

  /** Distinct targets sort into a strictly descending list. */
  lemma SortDistinct(s: seq<Target>)
    requires Distinct(s)
    ensures StrictlyDesc(SortDesc(s))
  {
    var r := SortDesc(s);
    SortSorted(s);
    forall i, j | 0 <= i < j < |r|
      ensures Above(r[i], r[j])
    {
      if r[i] == r[j] {
        TwoCopies(r, i, j);
        DistinctCount(s, r[i]);
        assert false;
      }
    }
  }

  // ---------------------------------------------------------------------
  // Removal

  /** Track.Keys.RemoveAt(k) on track (p, t). */
  function RemoveKey(ab: AbilityDef, x: Target): (r: AbilityDef)
    requires KeyInRange(ab, x.0, x.1, x.2)
  {
    var ph := ab.phases[x.0];
    var tr := ph.tracks[x.1];
    ab.(phases := ab.phases[x.0 := ph.(tracks := ph.tracks[x.1 := tr.(keys := RemoveAt(tr.keys, x.2))])])
  }

  /**
   * The removal loop: each target still in range of the ability as it is
   * at that point is removed and counted; the rest are skipped.
   */
  function DeleteKeys(ab: AbilityDef, targets: seq<Target>): (r: (AbilityDef, int))
    ensures 0 <= r.1 <= |targets|
  {
    if targets == [] then (ab, 0)
    else
      var prev := DeleteKeys(ab, targets[..|targets| - 1]);
      var x := targets[|targets| - 1];
      if KeyInRange(prev.0, x.0, x.1, x.2) then (RemoveKey(prev.0, x), prev.1 + 1) else prev
  }

  /** The removal loop over one more target takes one more step. */
  lemma DeleteKeysSnoc(ab: AbilityDef, s: seq<Target>, x: Target)
    ensures var prev := DeleteKeys(ab, s);
      DeleteKeys(ab, s + [x]) ==
        if KeyInRange(prev.0, x.0, x.1, x.2) then (RemoveKey(prev.0, x), prev.1 + 1) else prev
  {
    assert (s + [x])[..|s|] == s;
  }

  /** The keys of `s` from index `m` on whose index is not in `drop`, in order. */
  function KeepFrom<T>(s: seq<T>, drop: set<int>, m: int): (r: seq<T>)
    requires 0 <= m <= |s|
    ensures |r| <= |s| - m
    decreases |s| - m
  {
    if m == |s| then [] else (if m in drop then [] else [s[m]]) + KeepFrom(s, drop, m + 1)
  }

  /** The key indices of track (p, t) named in S. */
  function DropAt(S: set<Target>, p: int, t: int): set<int>
  {
    set x | x in S && x.0 == p && x.1 == t :: x.2
  }

  /** The ability with exactly the keys named in S removed, every other key kept in order. */
  function Filtered(ab: AbilityDef, S: set<Target>): (r: AbilityDef)
    ensures r.abilityId == ab.abilityId && r.cooldown == ab.cooldown && |r.phases| == |ab.phases|
    ensures forall p :: 0 <= p < |ab.phases| ==> |r.phases[p].tracks| == |ab.phases[p].tracks|
  {
    ab.(phases := seq(|ab.phases|, p requires 0 <= p < |ab.phases| =>
      var ph := ab.phases[p];
      ph.(tracks := seq(|ph.tracks|, t requires 0 <= t < |ph.tracks| =>
        var tr := ph.tracks[t];
        tr.(keys := KeepFrom(tr.keys, DropAt(S, p, t), 0))))))
  }

  lemma {:induction false} KeepSame<T>(s: seq<T>, d1: set<int>, d2: set<int>, m: int)
    requires 0 <= m <= |s|
    requires forall i :: m <= i < |s| ==> (i in d1 <==> i in d2)
    ensures KeepFrom(s, d1, m) == KeepFrom(s, d2, m)
    decreases |s| - m
  {
    if m < |s| {
      KeepSame(s, d1, d2, m + 1);
    }
  }

  lemma {:induction false} KeepPrefix<T>(s: seq<T>, drop: set<int>, m: int, j: int)
    requires 0 <= m <= j <= |s|
    requires forall i :: m <= i < j ==> i !in drop
    ensures KeepFrom(s, drop, m) == s[m..j] + KeepFrom(s, drop, j)
    decreases j - m
  {
    if m < j {
      KeepPrefix(s, drop, m + 1, j);
      calc {
        KeepFrom(s, drop, m);
        [s[m]] + KeepFrom(s, drop, m + 1);
        [s[m]] + (s[m + 1..j] + KeepFrom(s, drop, j));
        ([s[m]] + s[m + 1..j]) + KeepFrom(s, drop, j);
        { assert [s[m]] + s[m + 1..j] == s[m..j]; }
        s[m..j] + KeepFrom(s, drop, j);
      }
    }
  }

  /**
   * With nothing at or below k dropped, index k is still key k, and
   * removing it is the same as dropping it.
   */
  lemma KeepRemove<T>(s: seq<T>, drop: set<int>, k: int)
    requires 0 <= k < |s|
    requires forall i :: 0 <= i <= k ==> i !in drop
    ensures |KeepFrom(s, drop, 0)| > k
    ensures RemoveAt(KeepFrom(s, drop, 0), k) == KeepFrom(s, drop + {k}, 0)
  {
    var tail := KeepFrom(s, drop, k + 1);
    KeepPrefix(s, drop, 0, k + 1);
    KeepPrefix(s, drop + {k}, 0, k);
    KeepSame(s, drop + {k}, drop, k + 1);
    assert KeepFrom(s, drop + {k}, k) == tail;
    var kept := s[..k + 1] + tail;
    assert kept[..k] == s[..k] && kept[k + 1..] == tail;
  }

  /** Dropping one more target changes no other phase and no other track of its phase. */
  lemma FilterOthers(ab: AbilityDef, S: set<Target>, x: Target)
    requires TrackInRange(ab, x.0, x.1)
    ensures forall q :: 0 <= q < |ab.phases| && q != x.0 ==> Filtered(ab, S + {x}).phases[q] == Filtered(ab, S).phases[q]
    ensures forall u :: 0 <= u < |ab.phases[x.0].tracks| && u != x.1 ==>
      Filtered(ab, S + {x}).phases[x.0].tracks[u] == Filtered(ab, S).phases[x.0].tracks[u]
  {
    var f := Filtered(ab, S);
    var g := Filtered(ab, S + {x});
    forall q | 0 <= q < |ab.phases| && q != x.0
      ensures g.phases[q] == f.phases[q]
    {
      forall u | 0 <= u < |ab.phases[q].tracks|
        ensures g.phases[q].tracks[u] == f.phases[q].tracks[u]
      {
        assert DropAt(S + {x}, q, u) == DropAt(S, q, u);
      }
      assert g.phases[q].tracks == f.phases[q].tracks;
    }
    forall u | 0 <= u < |ab.phases[x.0].tracks| && u != x.1
      ensures g.phases[x.0].tracks[u] == f.phases[x.0].tracks[u]
    {
      assert DropAt(S + {x}, x.0, u) == DropAt(S, x.0, u);
    }
  }

  /**
   * One more target, below every target removed so far in its track: it is
   * in range now iff it was in range originally, and removing it extends
   * the removed set by it.
   */
  lemma FilterStep(ab: AbilityDef, S: set<Target>, x: Target)
    requires forall y :: y in S && y.0 == x.0 && y.1 == x.1 ==> y.2 > x.2
    ensures KeyInRange(Filtered(ab, S), x.0, x.1, x.2) <==> KeyInRange(ab, x.0, x.1, x.2)
    ensures KeyInRange(ab, x.0, x.1, x.2) ==> RemoveKey(Filtered(ab, S), x) == Filtered(ab, S + {x})
  {
    var (p, t, k) := x;
    var f := Filtered(ab, S);
    if TrackInRange(ab, p, t) {
      var keys := ab.phases[p].tracks[t].keys;
      var drop := DropAt(S, p, t);
      assert f.phases[p].tracks[t].keys == KeepFrom(keys, drop, 0);
      if 0 <= k < |keys| {
        assert forall i :: 0 <= i <= k ==> i !in drop;
        KeepRemove(keys, drop, k);
        assert DropAt(S + {x}, p, t) == drop + {k};
        var g := Filtered(ab, S + {x});
        var r := RemoveKey(f, x);
        FilterOthers(ab, S, x);
        assert r.phases[p].tracks[t] == g.phases[p].tracks[t];
        assert r.phases[p].tracks == g.phases[p].tracks;
        assert r.phases == g.phases;
      }
    }
  }

  /** Removing nothing leaves the ability as it is. */
  lemma FilteredNone(ab: AbilityDef)
    ensures Filtered(ab, {}) == ab
  {
    var f := Filtered(ab, {});
    forall p | 0 <= p < |ab.phases|
      ensures f.phases[p] == ab.phases[p]
    {
      forall t | 0 <= t < |ab.phases[p].tracks|
        ensures f.phases[p].tracks[t] == ab.phases[p].tracks[t]
      {
        var keys := ab.phases[p].tracks[t].keys;
        KeepPrefix(keys, DropAt({}, p, t), 0, |keys|);
        assert keys[0..|keys|] == keys;
      }
      assert f.phases[p].tracks == ab.phases[p].tracks;
    }
    assert f.phases == ab.phases;
  }

  /** The targets in S that name a key of the original ability. */
  function InRangeOf(ab: AbilityDef, targets: seq<Target>): set<Target>
  {
    set x | x in targets && KeyInRange(ab, x.0, x.1, x.2)
  }

  /** Appending a target adds it to the in-range set exactly when it names a key. */
  lemma InRangeSnoc(ab: AbilityDef, init: seq<Target>, x: Target)
    ensures KeyInRange(ab, x.0, x.1, x.2) ==> InRangeOf(ab, init + [x]) == InRangeOf(ab, init) + {x}
    ensures !KeyInRange(ab, x.0, x.1, x.2) ==> InRangeOf(ab, init + [x]) == InRangeOf(ab, init)
  {
  }

  /** One step of the removal loop, given the claim for the targets before it. */
  lemma DeleteStep(ab: AbilityDef, init: seq<Target>, x: Target)
    requires DeleteKeys(ab, init) == (Filtered(ab, InRangeOf(ab, init)), |InRangeOf(ab, init)|)
    requires forall y :: y in init ==> Above(y, x)
    ensures DeleteKeys(ab, init + [x]) == (Filtered(ab, InRangeOf(ab, init + [x])), |InRangeOf(ab, init + [x])|)
  {
    var S := InRangeOf(ab, init);
    var targets := init + [x];
    assert targets[..|targets| - 1] == init;
    assert targets[|targets| - 1] == x;
    var prev := DeleteKeys(ab, init);
    assert x !in S;
    FilterStep(ab, S, x);
    InRangeSnoc(ab, init, x);
    if KeyInRange(ab, x.0, x.1, x.2) {
      assert |S + {x}| == |S| + 1;
      assert DeleteKeys(ab, targets) == (RemoveKey(prev.0, x), prev.1 + 1);
    } else {
      assert DeleteKeys(ab, targets) == prev;
    }
  }

  /** Dropping the last element of a strictly descending list keeps it so, and every earlier element is above the last. */
  lemma StrictSplit(targets: seq<Target>)
    requires StrictlyDesc(targets) && targets != []
    ensures var init := targets[..|targets| - 1];
      StrictlyDesc(init) && forall y <- init :: Above(y, targets[|targets| - 1])
  {
    var init := targets[..|targets| - 1];
    forall y <- init
      ensures Above(y, targets[|targets| - 1])
    {
      var i :| 0 <= i < |init| && init[i] == y;
      assert targets[i] == y;
    }
  }

  /**
   * In strictly descending order, the removal loop deletes exactly the
   * targets that name a key of the original ability, keeps every other
   * key in its order, and counts the deleted ones.
   */
  lemma {:induction false} DeleteSortedExactly(ab: AbilityDef, targets: seq<Target>)
    requires StrictlyDesc(targets)
    ensures DeleteKeys(ab, targets) == (Filtered(ab, InRangeOf(ab, targets)), |InRangeOf(ab, targets)|)
  {
    if targets == [] {
      assert InRangeOf(ab, targets) == {};
      FilteredNone(ab);
    } else {
      var init := targets[..|targets| - 1];
      var x := targets[|targets| - 1];
      StrictSplit(targets);
      DeleteSortedExactly(ab, init);
      DeleteStep(ab, init, x);
      assert targets == init + [x];
    }
  }

  /** The triples DeleteSelectedKeys collects from the multi-selection, in order. */
  function TargetsOf(ms: seq<SelItem>): (r: seq<Target>)
    ensures |r| == |ms| && forall i :: 0 <= i < |ms| ==> r[i] == (ms[i].p, ms[i].t, ms[i].k)
  {
    if ms == [] then [] else TargetsOf(ms[..|ms| - 1]) + [(ms[|ms| - 1].p, ms[|ms| - 1].t, ms[|ms| - 1].k)]
  }

  /**
   * For a multi-selection without repeated triples, DeleteSelectedKeys
   * deletes exactly the selected keys that exist and counts them.
   */
  lemma DeleteSelectedExactly(ab: AbilityDef, ms: seq<SelItem>)
    requires Distinct(TargetsOf(ms))
    ensures var targets := TargetsOf(ms);
      DeleteKeys(ab, SortDesc(targets)) == (Filtered(ab, InRangeOf(ab, targets)), |InRangeOf(ab, targets)|)
  {
    var targets := TargetsOf(ms);
    var sorted := SortDesc(targets);
    SortDistinct(targets);
    DeleteSortedExactly(ab, sorted);
    assert InRangeOf(ab, sorted) == InRangeOf(ab, targets) by {
      forall x
        ensures x in sorted <==> x in targets
      {
        assert x in multiset(sorted) <==> x in multiset(targets);
      }
    }
  }

  /**
   * A repeated triple is removed twice.  Shift-clicking a selected key
   * selects it again, and the second removal takes the neighbour that moved
   * into its index: one key is selected but two are deleted.
   */
  lemma DuplicateRemovesNeighbour(ab: AbilityDef, x: Target)
    requires KeyInRange(ab, x.0, x.1, x.2) && KeyInRange(ab, x.0, x.1, x.2 + 1)
    ensures InRangeOf(ab, [x, x]) == {x}
    ensures DeleteKeys(ab, SortDesc([x, x])).1 == 2
  {
    SortPair(x);
    DeleteKeysSnoc(ab, [], x);
    assert [] + [x] == [x];
    RemoveKeepsNext(ab, x);
    DeleteKeysSnoc(ab, [x], x);
    assert [x] + [x] == [x, x];
  }

  lemma SortPair(x: Target)
    ensures SortDesc([x, x]) == [x, x]
  {
    assert [x, x][1..] == [x];
  }

  /** After removing key k, the key that followed it sits at index k. */
  lemma RemoveKeepsNext(ab: AbilityDef, x: Target)
    requires KeyInRange(ab, x.0, x.1, x.2) && KeyInRange(ab, x.0, x.1, x.2 + 1)
    ensures KeyInRange(RemoveKey(ab, x), x.0, x.1, x.2)
  {
  }

  /** The selected triples without repeats, each kept at its first occurrence. */
  function Dedup(s: seq<Target>): (r: seq<Target>)
    ensures Distinct(r)
    ensures forall x :: x in r <==> x in s
  {
    if s == [] then []
    else
      var d := Dedup(s[..|s| - 1]);
      var x := s[|s| - 1];
      assert forall y :: y in s <==> y in s[..|s| - 1] || y == x;
      if x in d then d else d + [x]
  }

  /**
   * With repeats dropped before sorting, the removal loop deletes exactly
   * the selected keys that exist and counts them, whatever the selection.
   */
  lemma DeleteDedupExactly(ab: AbilityDef, targets: seq<Target>)
    ensures DeleteKeys(ab, SortDesc(Dedup(targets))) == (Filtered(ab, InRangeOf(ab, targets)), |InRangeOf(ab, targets)|)
  {
    var d := Dedup(targets);
    var sorted := SortDesc(d);
    SortDistinct(d);
    DeleteSortedExactly(ab, sorted);
    assert InRangeOf(ab, sorted) == InRangeOf(ab, targets) by {
      forall x
        ensures x in sorted <==> x in targets
      {
        assert x in multiset(sorted) <==> x in multiset(d);
      }
    }
  }

  /** The first loop of DeleteSelectedKeys: the (phase, track, key) triple of every selected item, in order. */
  method CollectTargets(ms: seq<SelItem>) returns (toDelete: seq<Target>)
    ensures toDelete == TargetsOf(ms)
  {
    toDelete := [];
    for i := 0 to |ms|
      invariant toDelete == TargetsOf(ms[..i])
    {
      assert ms[..i + 1][..i] == ms[..i];
      toDelete := toDelete + [(ms[i].p, ms[i].t, ms[i].k)];
    }
    assert ms[..|ms|] == ms;
  }

  /** The removal loop of DeleteSelectedKeys: each target still in range is removed and counted. */
  method RemoveTargets(ab0: AbilityDef, toDelete: seq<Target>) returns (ab: AbilityDef, deletedCount: int)
    ensures (ab, deletedCount) == DeleteKeys(ab0, toDelete)
  {
    ab, deletedCount := ab0, 0;
    for i := 0 to |toDelete|
      invariant (ab, deletedCount) == DeleteKeys(ab0, toDelete[..i])
    {
      var x := toDelete[i];
      assert toDelete[..i + 1] == toDelete[..i] + [x];
      DeleteKeysSnoc(ab0, toDelete[..i], x);
      var (p, t, k) := x;
      if 0 <= p < |ab.phases| && 0 <= t < |ab.phases[p].tracks| && 0 <= k < |ab.phases[p].tracks[t].keys| {
        ab := RemoveKey(ab, x);
        deletedCount := deletedCount + 1;
      }
    }
    assert toDelete[..|toDelete|] == toDelete;
  }

  class TimelineView {
    const state: TimelineState

    constructor(state: TimelineState)
      ensures this.state == state
    {
      this.state := state;
    }

    /**
     * DeleteSelectedKeys: without an ability nothing happens; otherwise
     * the selected triples are sorted descending, removed one by one where
     * still in range and counted, and the selection is cleared.
     */
    method DeleteSelectedKeys() returns (deletedCount: int)
      modifies state.data.config, state.selection
      ensures state.data.OnlyCurrentChanged()
      ensures old(state.data.CurrentAbility()).None? ==>
        deletedCount == 0 && state.data.CurrentAbility() == old(state.data.CurrentAbility()) &&
        state.selection.multiSelection == old(state.selection.multiSelection) &&
        state.selection.kind == old(state.selection.kind)
      ensures old(state.data.CurrentAbility()).Some? ==>
        var r := DeleteKeys(old(state.data.CurrentAbility()).value, SortDesc(TargetsOf(old(state.selection.multiSelection))));
        state.data.CurrentAbility() == Some(r.0) && deletedCount == r.1 && state.selection.Cleared()
    {
      var abOpt := state.data.CurrentAbility();
      if abOpt.None? {
        return 0;
      }
      var toDelete := CollectTargets(state.selection.multiSelection);
      toDelete := SortDesc(toDelete);
      var ab;
      ab, deletedCount := RemoveTargets(abOpt.value, toDelete);
      state.data.SetCurrentAbility(ab);
      state.selection.Clear();
    }

    /** OnKeyDown: the Delete key deletes only when the selection is a non-empty key multi-selection. */
    method OnKeyDown(isDeleteKey: bool) returns (handled: bool)
      modifies state.data.config, state.selection
      ensures handled <==>
        isDeleteKey && old(state.selection.kind) == KeySelection && |old(state.selection.multiSelection)| > 0
      ensures !handled ==>
        state.data.CurrentAbility() == old(state.data.CurrentAbility()) &&
        state.selection.multiSelection == old(state.selection.multiSelection) &&
        state.selection.kind == old(state.selection.kind)
      ensures state.data.OnlyCurrentChanged()
    {
      handled := false;
      if isDeleteKey && state.selection.kind == KeySelection && |state.selection.multiSelection| > 0 {
        var _ := DeleteSelectedKeys();
        handled := true;
      }
    }
  }
}

=== FILE: track_element.dfy ===
/**
 * The per-track editing rules (TrackElement.cs): the Mute, Solo and Lock
 * buttons of a track header, and, on a track row, the mouse-down gesture
 * dispatch, adding keys and clips at a position, dragging a clip, and
 * deleting and duplicating keys and clips.
 */
module TrackElement {
  import opened Wrappers
  import opened UnityTypes
  import opened Mathf
  import opened AbilityConfigSO
  import opened TimelineState
  import opened AbilityPaths
  import opened ListOps
  import opened TrackTypeRules
  import opened TimelineController
  import opened TimelineView

  // ---------------------------------------------------------------------
  // Status buttons

  /** The Mute button: Mute flips, and turning it on clears Solo. */
  function MuteToggled(tr: Track): (r: Track)
    ensures r.muted == !tr.muted && !(r.muted && r.solo)
    ensures r.solo <==> tr.solo && tr.muted
    ensures r.locked == tr.locked && r.enabled == tr.enabled && r.visible == tr.visible && r.trackType == tr.trackType
    ensures r.keys == tr.keys && r.clips == tr.clips
  {
    tr.(muted := !tr.muted, solo := tr.solo && tr.muted)
  }

  /** The Solo button: Solo flips, and turning it on clears Mute. */
  function SoloToggled(tr: Track): (r: Track)
    ensures r.solo == !tr.solo && !(r.muted && r.solo)
    ensures r.muted <==> tr.muted && tr.solo
    ensures r.locked == tr.locked && r.enabled == tr.enabled && r.visible == tr.visible && r.trackType == tr.trackType
    ensures r.keys == tr.keys && r.clips == tr.clips
  {
    tr.(solo := !tr.solo, muted := tr.muted && tr.solo)
  }

  /** The Lock button: Lock flips and nothing else changes. */
  function LockToggled(tr: Track): (r: Track)
    ensures r.locked == !tr.locked
    ensures r.muted == tr.muted && r.solo == tr.solo && r.enabled == tr.enabled && r.visible == tr.visible
    ensures r.trackType == tr.trackType && r.keys == tr.keys && r.clips == tr.clips
  {
    tr.(locked := !tr.locked)
  }

  /**
   * Mute and Solo are never both on after a button press that started from
   * a track where they were not both on; Lock toggles back to where it was.
   */
  lemma StatusExclusive(tr: Track)
    requires !(tr.muted && tr.solo)
    ensures var m := MuteToggled(tr); !(m.muted && m.solo)
    ensures var s := SoloToggled(tr); !(s.muted && s.solo)
    ensures var l := LockToggled(tr); !(l.muted && l.solo)
    ensures LockToggled(LockToggled(tr)) == tr
  {
  }

  /**
   * Pressing Mute twice restores the track exactly when Solo was off: one
   * of the two presses turns Mute on and so clears Solo. The same holds for
   * Solo with Mute.
   */
  lemma ToggleTwiceRestores(tr: Track)
    ensures MuteToggled(MuteToggled(tr)) == tr <==> !tr.solo
    ensures SoloToggled(SoloToggled(tr)) == tr <==> !tr.muted
  {
    if tr.solo {
      assert MuteToggled(MuteToggled(tr)).solo != tr.solo;
    } else {
      assert MuteToggled(MuteToggled(tr)) == tr.(muted := tr.muted, solo := tr.solo);
    }
    if tr.muted {
      assert SoloToggled(SoloToggled(tr)).muted != tr.muted;
    } else {
      assert SoloToggled(SoloToggled(tr)) == tr.(solo := tr.solo, muted := tr.muted);
    }
  }

  // ---------------------------------------------------------------------
  // Keys and clips of one track, as values

  /** Track.Keys.Add(key) on track (p, t). */
  function KeyAdded(ab: AbilityDef, p: int, t: int, key: Key): (r: AbilityDef)
    requires TrackInRange(ab, p, t)
    ensures r.abilityId == ab.abilityId && r.cooldown == ab.cooldown
    ensures forall q, u :: TrackInRange(ab, q, u) ==> TrackInRange(r, q, u)
    ensures forall q, u :: TrackInRange(ab, q, u) && (q != p || u != t) ==> TrackAt(r, q, u) == TrackAt(ab, q, u)
    ensures forall k :: 0 <= k < |TrackAt(ab, p, t).keys| ==> KeyInRange(r, p, t, k) && KeyAt(r, p, t, k) == KeyAt(ab, p, t, k)
    ensures var n := |TrackAt(ab, p, t).keys|;
      |TrackAt(r, p, t).keys| == n + 1 && KeyAt(r, p, t, n) == key
    ensures TrackAt(r, p, t).clips == TrackAt(ab, p, t).clips
  {
    var tr := TrackAt(ab, p, t);
    WithTrack(ab, p, t, tr.(keys := tr.keys + [key]))
  }

  /** Track.Clips.Add(clip) on track (p, t). */
  function ClipAdded(ab: AbilityDef, p: int, t: int, clip: Clip): (r: AbilityDef)
    requires TrackInRange(ab, p, t)
    ensures r.abilityId == ab.abilityId && r.cooldown == ab.cooldown
    ensures forall q, u :: TrackInRange(ab, q, u) ==> TrackInRange(r, q, u)
    ensures forall q, u :: TrackInRange(ab, q, u) && (q != p || u != t) ==> TrackAt(r, q, u) == TrackAt(ab, q, u)
    ensures forall c :: 0 <= c < |TrackAt(ab, p, t).clips| ==> ClipInRange(r, p, t, c) && ClipAt(r, p, t, c) == ClipAt(ab, p, t, c)
    ensures var n := |TrackAt(ab, p, t).clips|;
      |TrackAt(r, p, t).clips| == n + 1 && ClipAt(r, p, t, n) == clip
    ensures TrackAt(r, p, t).keys == TrackAt(ab, p, t).keys
  {
    var tr := TrackAt(ab, p, t);
    WithTrack(ab, p, t, tr.(clips := tr.clips + [clip]))
  }

  /** Track.Clips.RemoveAt(c) on track (p, t). */
  function ClipRemoved(ab: AbilityDef, p: int, t: int, c: int): (r: AbilityDef)
    requires ClipInRange(ab, p, t, c)
    ensures forall q, u :: TrackInRange(ab, q, u) ==> TrackInRange(r, q, u)
    ensures forall q, u :: TrackInRange(ab, q, u) && (q != p || u != t) ==> TrackAt(r, q, u) == TrackAt(ab, q, u)
    ensures TrackAt(r, p, t).keys == TrackAt(ab, p, t).keys
    ensures TrackAt(r, p, t).clips == RemoveAt(TrackAt(ab, p, t).clips, c)
  {
    var tr := TrackAt(ab, p, t);
    WithTrack(ab, p, t, tr.(clips := RemoveAt(tr.clips, c)))
  }

  /** Deleting the key just added (the last one of its track) restores the ability. */
  lemma AddKeyThenDelete(ab: AbilityDef, p: int, t: int, key: Key)
    requires TrackInRange(ab, p, t)
    ensures var n := |TrackAt(ab, p, t).keys|;
      KeyInRange(KeyAdded(ab, p, t, key), p, t, n) && RemoveKey(KeyAdded(ab, p, t, key), (p, t, n)) == ab
  {
    var tr := TrackAt(ab, p, t);
    var n := |tr.keys|;
    var d := RemoveKey(KeyAdded(ab, p, t, key), (p, t, n));
    assert RemoveAt(tr.keys + [key], n) == tr.keys;
    assert d.phases[p].tracks[t] == tr;
    assert d.phases[p].tracks == ab.phases[p].tracks;
    assert d.phases == ab.phases;
  }

  /** Deleting the clip just added (the last one of its track) restores the ability. */
  lemma AddClipThenDelete(ab: AbilityDef, p: int, t: int, clip: Clip)
    requires TrackInRange(ab, p, t)
    ensures var n := |TrackAt(ab, p, t).clips|;
      ClipInRange(ClipAdded(ab, p, t, clip), p, t, n) && ClipRemoved(ClipAdded(ab, p, t, clip), p, t, n) == ab
  {
    var tr := TrackAt(ab, p, t);
    var n := |tr.clips|;
    var d := ClipRemoved(ClipAdded(ab, p, t, clip), p, t, n);
    assert RemoveAt(tr.clips + [clip], n) == tr.clips;
    assert d.phases[p].tracks[t] == tr;
    assert d.phases[p].tracks == ab.phases[p].tracks;
    assert d.phases == ab.phases;
  }

  /** The ability with the start of clip (p, t, c) replaced. */
  function ClipMoved(ab: AbilityDef, p: int, t: int, c: int, start: real): (r: AbilityDef)
    requires ClipInRange(ab, p, t, c)
    ensures ClipInRange(r, p, t, c) && ClipAt(r, p, t, c) == ClipAt(ab, p, t, c).(start := start)
    ensures Duration(ClipAt(r, p, t, c)) == Duration(ClipAt(ab, p, t, c))
    ensures forall q, u :: TrackInRange(ab, q, u) ==> TrackInRange(r, q, u)
    ensures forall q, u :: TrackInRange(ab, q, u) && (q != p || u != t) ==> TrackAt(r, q, u) == TrackAt(ab, q, u)
    ensures TrackAt(r, p, t).keys == TrackAt(ab, p, t).keys
  {
    var tr := TrackAt(ab, p, t);
    WithTrack(ab, p, t, tr.(clips := tr.clips[c := tr.clips[c].(start := start)]))
  }

  // ---------------------------------------------------------------------
  // New keys and clips

  /**
   * DuplicateKey's copy: Type, EventName, StringParam, ParamF, IntParam and
   * EditorColor are taken over, the time is 0.1 later, and every other
   * field (hitbox shape, VFX, SFX, marker data) keeps a new key's default.
   */
  function Duplicate(k: Key): (d: Key)
    ensures d.time == k.time + 0.1 && d.keyType == k.keyType && d.eventName == k.eventName
    ensures d.stringParam == k.stringParam && d.paramF == k.paramF && d.intParam == k.intParam
    ensures d.editorColor == k.editorColor
    ensures d.(time := 0.05, keyType := KeyType.Hitbox, eventName := Some("OnKey"), stringParam := Some(""),
               paramF := Zero4, intParam := 0, editorColor := Cyan) == NewKey()
  {
    NewKey().(time := k.time + 0.1, keyType := k.keyType, eventName := k.eventName, stringParam := k.stringParam,
              paramF := k.paramF, intParam := k.intParam, editorColor := k.editorColor)
  }

  /**
   * A duplicate equals its original moved by 0.1 exactly when the original
   * holds a new key's defaults in every field the copy does not take over.
   */
  lemma DuplicateFaithful(k: Key)
    ensures Duplicate(k) == k.(time := k.time + 0.1) <==>
      k.(time := 0.05, keyType := KeyType.Hitbox, eventName := Some("OnKey"), stringParam := Some(""),
         paramF := Zero4, intParam := 0, editorColor := Cyan) == NewKey()
  {
    var base := k.(time := 0.05, keyType := KeyType.Hitbox, eventName := Some("OnKey"), stringParam := Some(""),
                   paramF := Zero4, intParam := 0, editorColor := Cyan);
    if Duplicate(k) == k.(time := k.time + 0.1) {
      assert base == Duplicate(k).(time := 0.05, keyType := KeyType.Hitbox, eventName := Some("OnKey"), stringParam := Some(""),
                                   paramF := Zero4, intParam := 0, editorColor := Cyan);
    }
  }

  /**
   * The clip AddClipAtPosition builds: the chosen type at `start`, no
   * resource, and a Custom clip's ParamF.x set to 0.25. Without a resource
   * its length is 1 for VFX and 0.25 for every other type.
   */
  function PlannedClip(clipType: ClipType, start: real): (c: Clip)
    ensures c.clipType == clipType && c.start == start
    ensures c.animationClip.None? && c.audioClip.None? && c.vfxPrefab.None?
    ensures Duration(c) == if clipType == ClipType.VFX then 1.0 else 0.25
  {
    var c := NewClip().(clipType := clipType, start := start);
    if clipType == ClipType.Custom then c.(paramF := Vec4(0.25, 0.0, 0.0, 0.0)) else c
  }

  /**
   * Whether AddClipAtPosition accepts the clip: the track must allow the
   * type and the planned clip must end within the phase.
   */
  predicate ClipAccepted(trackType: TrackType, clipType: ClipType, start: real, phaseDuration: real)
  {
    CanAddClip(trackType, clipType) && start + Duration(PlannedClip(clipType, start)) <= phaseDuration
  }

  /**
   * An accepted clip placed at a snapped-and-clamped time lies entirely
   * inside its phase, and a Hitbox track never accepts one.
   */
  lemma AcceptedClipFits(trackType: TrackType, clipType: ClipType, time: real, snap: bool, step: real, phaseDuration: real)
    requires step > 0.0
    requires ClipAccepted(trackType, clipType, SnapClamp(time, snap, step, phaseDuration), phaseDuration)
    ensures var c := PlannedClip(clipType, SnapClamp(time, snap, step, phaseDuration));
      0.0 <= c.start && c.start + Duration(c) <= phaseDuration && Duration(c) > 0.0
    ensures trackType != TrackType.Hitbox
  {
    HitboxTrackRules(clipType, KeyType.Hitbox);
  }

  /**
   * A dragged clip's start is clamped so that the clip starts at or after 0
   * and, when it fits in the phase at all, ends by the phase's end.
   */
  lemma DraggedClipFits(time: real, snap: bool, step: real, phaseDuration: real, clip: Clip)
    requires step > 0.0
    ensures var s := SnapClamp(time, snap, step, phaseDuration - Duration(clip));
      0.0 <= s && (Duration(clip) <= phaseDuration ==> s + Duration(clip) <= phaseDuration) &&
      (Duration(clip) > phaseDuration ==> s == 0.0)
  {
  }

  /** The time a pixel distance spans at the current zoom. */
  function PixelsToSeconds(deltaX: real, pixelsPerSecond: real): real
    requires pixelsPerSecond > 0.0
  {
    deltaX / pixelsPerSecond
  }

  /** The track at (p, t) of the ability being edited, if there is one. */
  function TrackOf(ab: Option<AbilityDef>, p: int, t: int): (r: Option<Track>)
    ensures r.Some? <==> ab.Some? && TrackInRange(ab.value, p, t)
  {
    if ab.Some? && TrackInRange(ab.value, p, t) then Some(TrackAt(ab.value, p, t)) else None
  }

  // ---------------------------------------------------------------------
  // The track header

  class TrackHeader {
    const state: TimelineState
    const phaseIndex: int
    const trackIndex: int

    constructor(state: TimelineState, phaseIndex: int, trackIndex: int)
      ensures this.state == state && this.phaseIndex == phaseIndex && this.trackIndex == trackIndex
    {
      this.state := state;
      this.phaseIndex := phaseIndex;
      this.trackIndex := trackIndex;
    }

    function Row(): Option<Track>
      reads state.data, state.data.config
    {
      TrackOf(state.data.CurrentAbility(), phaseIndex, trackIndex)
    }

    /** The Mute button, present only while the header addresses a track. */
    method ToggleMute()
      modifies state.data.config
      ensures state.data.OnlyCurrentChanged()
      ensures old(Row()).None? ==> state.data.CurrentAbility() == old(state.data.CurrentAbility())
      ensures old(Row()).Some? ==>
        state.data.CurrentAbility() ==
          Some(WithTrack(old(state.data.CurrentAbility()).value, phaseIndex, trackIndex, MuteToggled(old(Row()).value)))
    {
      var abOpt := state.data.CurrentAbility();
      if abOpt.None? || !TrackInRange(abOpt.value, phaseIndex, trackIndex) {
        return;
      }
      var track := TrackAt(abOpt.value, phaseIndex, trackIndex);
      track := track.(muted := !track.muted);
      if track.muted && track.solo {
        track := track.(solo := false);
      }
      state.data.SetCurrentAbility(WithTrack(abOpt.value, phaseIndex, trackIndex, track));
    }

    /** The Solo button, present only while the header addresses a track. */
    method ToggleSolo()
      modifies state.data.config
      ensures state.data.OnlyCurrentChanged()
      ensures old(Row()).None? ==> state.data.CurrentAbility() == old(state.data.CurrentAbility())
      ensures old(Row()).Some? ==>
        state.data.CurrentAbility() ==
          Some(WithTrack(old(state.data.CurrentAbility()).value, phaseIndex, trackIndex, SoloToggled(old(Row()).value)))
    {
      var abOpt := state.data.CurrentAbility();
      if abOpt.None? || !TrackInRange(abOpt.value, phaseIndex, trackIndex) {
        return;
      }
      var track := TrackAt(abOpt.value, phaseIndex, trackIndex);
      track := track.(solo := !track.solo);
      if track.solo && track.muted {
        track := track.(muted := false);
      }
      state.data.SetCurrentAbility(WithTrack(abOpt.value, phaseIndex, trackIndex, track));
    }

    /** The Lock button, present only while the header addresses a track. */
    method ToggleLock()
      modifies state.data.config
      ensures state.data.OnlyCurrentChanged()
      ensures old(Row()).None? ==> state.data.CurrentAbility() == old(state.data.CurrentAbility())
      ensures old(Row()).Some? ==>
        state.data.CurrentAbility() ==
          Some(WithTrack(old(state.data.CurrentAbility()).value, phaseIndex, trackIndex, LockToggled(old(Row()).value)))
    {
      var abOpt := state.data.CurrentAbility();
      if abOpt.None? || !TrackInRange(abOpt.value, phaseIndex, trackIndex) {
        return;
      }
      var track := TrackAt(abOpt.value, phaseIndex, trackIndex);
      track := track.(locked := !track.locked);
      state.data.SetCurrentAbility(WithTrack(abOpt.value, phaseIndex, trackIndex, track));
    }
  }

  // ---------------------------------------------------------------------
  // The track row

  class TrackRow {
    const state: TimelineState
    const selection: SelectionController
    const edit: EditController
    const phaseIndex: int
    const trackIndex: int
    var isDragging: bool
    var dragKeyIndex: int
    var isDraggingClip: bool
    var dragClipIndex: int
    var clipDragStartTime: real
    var clipDragMouseStartX: real
    var isBoxSelecting: bool
    var pendingClick: bool

    constructor(state: TimelineState, selection: SelectionController, edit: EditController, phaseIndex: int, trackIndex: int)
      requires selection.state == state && edit.state == state
      ensures Wired() && this.phaseIndex == phaseIndex && this.trackIndex == trackIndex
      ensures !isDragging && dragKeyIndex == -1 && !isDraggingClip && dragClipIndex == -1
      ensures !isBoxSelecting && !pendingClick
    {
      this.state := state;
      this.selection := selection;
      this.edit := edit;
      this.phaseIndex := phaseIndex;
      this.trackIndex := trackIndex;
      isDragging, dragKeyIndex := false, -1;
      isDraggingClip, dragClipIndex := false, -1;
      clipDragStartTime, clipDragMouseStartX := 0.0, 0.0;
      isBoxSelecting, pendingClick := false, false;
    }

    /** The row's controllers work on the row's own editor state. */
    predicate Wired()
    {
      selection.state == state && edit.state == state
    }

    /**
     * The row indexes its phase and track without a bounds check, so it is
     * only ever shown for indices that address a track of the ability.
     */
    predicate Placed()
      reads state.data, state.data.config
    {
      state.data.CurrentAbility().Some? ==> TrackInRange(state.data.CurrentAbility().value, phaseIndex, trackIndex)
    }

    function Row(): Option<Track>
      reads state.data, state.data.config
    {
      TrackOf(state.data.CurrentAbility(), phaseIndex, trackIndex)
    }

    /** Snap: the nearest grid time when Snap is on, the time itself otherwise. */
    function Snap(time: real): (r: real)
      reads state.view
      ensures !state.view.snap ==> r == time
      ensures state.view.snap ==> time - state.view.Step() / 2.0 <= r <= time + state.view.Step() / 2.0
    {
      if !state.view.snap then time else state.view.SnapToGrid(time)
    }

    /** The time a new key gets for the phase-local time under the mouse. */
    function PlacedTime(localTime: real): (r: real)
      reads state.view, state.data, state.data.config
      requires Placed() && Row().Some?
    {
      SnapClamp(localTime, state.view.snap, state.view.Step(), state.data.CurrentAbility().value.phases[phaseIndex].duration)
    }

    /** Appends a key to the row's track. */
    method AppendKey(key: Key)
      requires Placed() && Row().Some?
      modifies state.data.config
      ensures state.data.OnlyCurrentChanged()
      ensures state.data.CurrentAbility() == Some(KeyAdded(old(state.data.CurrentAbility()).value, phaseIndex, trackIndex, key))
    {
      var ab := state.data.CurrentAbility().value;
      var track := TrackAt(ab, phaseIndex, trackIndex);
      track := track.(keys := track.keys + [key]);
      state.data.SetCurrentAbility(WithTrack(ab, phaseIndex, trackIndex, track));
    }

    /**
     * The left-button branch of OnMouseDown on a key: the selection follows
     * the modifiers, then a key drag and a group drag start.
     */
    method PressKey(hitKey: int, ctrl: bool, shift: bool, globalTime: real)
      requires Wired() && Row().Some? && edit.Valid() && state.selection.Valid()
      modifies this, state.selection, edit
      ensures isDragging && dragKeyIndex == hitKey
      ensures edit.Valid() && state.selection.Valid()
      ensures edit.groupDragActive && edit.groupDragStartTime == globalTime
      ensures !ctrl || SelItem(phaseIndex, trackIndex, hitKey) !in old(state.selection.multiSelection) ==>
        selection.IsSelected(phaseIndex, trackIndex, hitKey)
      ensures !ctrl && shift ==> selection.IsPrimary(phaseIndex, trackIndex, hitKey)
      ensures isDraggingClip == old(isDraggingClip) && dragClipIndex == old(dragClipIndex)
      ensures isBoxSelecting == old(isBoxSelecting) && pendingClick == old(pendingClick)
      ensures clipDragStartTime == old(clipDragStartTime) && clipDragMouseStartX == old(clipDragMouseStartX)
    {
      SelectPressedKey(hitKey, ctrl, shift);
      isDragging := true;
      dragKeyIndex := hitKey;
      edit.BeginGroupDrag(globalTime, state.data.config);
    }

    /** The selection half of a key press: Ctrl toggles, Shift adds, a plain press selects an unselected key. */
    method SelectPressedKey(hitKey: int, ctrl: bool, shift: bool)
      requires Wired() && Row().Some? && state.selection.Valid()
      modifies state.selection
      ensures state.selection.Valid()
      ensures !ctrl || SelItem(phaseIndex, trackIndex, hitKey) !in old(state.selection.multiSelection) ==>
        selection.IsSelected(phaseIndex, trackIndex, hitKey)
      ensures !ctrl && shift ==> selection.IsPrimary(phaseIndex, trackIndex, hitKey)
    {
      var isAlreadySelected := selection.IsSelected(phaseIndex, trackIndex, hitKey);
      if ctrl {
        selection.ToggleSelection(phaseIndex, trackIndex, hitKey);
      } else if shift {
        selection.AddToSelection(phaseIndex, trackIndex, hitKey);
      } else if !isAlreadySelected {
        selection.SelectKey(phaseIndex, trackIndex, hitKey);
      }
    }

    /** The branch of OnMouseDown on a clip: the clip is selected and a clip drag starts. */
    method PressClip(hitClip: int, mouseX: real)
      requires Wired() && Row().Some? && 0 <= hitClip < |Row().value.clips|
      modifies this, state.selection
      ensures state.selection.kind == ClipSelection && state.selection.phaseIndex == phaseIndex
      ensures state.selection.trackIndex == trackIndex && state.selection.clipIndex == hitClip
      ensures state.selection.multiSelection == [] && state.selection.Valid()
      ensures isDraggingClip && dragClipIndex == hitClip
      ensures clipDragStartTime == Row().value.clips[hitClip].start && clipDragMouseStartX == mouseX
      ensures isDragging == old(isDragging) && dragKeyIndex == old(dragKeyIndex)
      ensures isBoxSelecting == old(isBoxSelecting) && pendingClick == old(pendingClick)
    {
      selection.SelectClip(phaseIndex, trackIndex, hitClip);
      isDraggingClip := true;
      dragClipIndex := hitClip;
      clipDragStartTime := TrackAt(state.data.CurrentAbility().value, phaseIndex, trackIndex).clips[hitClip].start;
      clipDragMouseStartX := mouseX;
    }

    /**
     * OnMouseDown. Hit-testing and the pixel-to-time mapping are inputs:
     * `hitKey` and `hitClip` are -1 or the index under the mouse, and
     * `localTime`/`globalTime` the phase and timeline times under it.
     * Nothing happens for another button, without an ability, or on a
     * locked track. A key press selects and starts a drag; a double click
     * elsewhere adds a Hitbox key at the placed time without consulting the
     * track's rules; a clip press selects the clip and starts its drag; a
     * press on empty space arms a pending click.
     */
    method OnMouseDown(button: int, hitKey: int, hitClip: int, clickCount: int, ctrl: bool, shift: bool,
                       mouseX: real, localTime: real, globalTime: real)
      requires Wired() && Placed() && edit.Valid() && state.selection.Valid()
      requires Row().Some? ==> -1 <= hitKey < |Row().value.keys| && -1 <= hitClip < |Row().value.clips|
      modifies this, state.selection, state.data.config, edit
      ensures state.data.OnlyCurrentChanged() && edit.Valid() && state.selection.Valid()
      ensures button != 0 || old(Row()).None? || old(Row()).value.locked ==>
        unchanged(this, state.selection, edit) && state.data.CurrentAbility() == old(state.data.CurrentAbility())
      ensures button == 0 && old(Row()).Some? && !old(Row()).value.locked ==> (
        if hitKey >= 0 then
          isDragging && dragKeyIndex == hitKey && edit.groupDragActive && edit.groupDragStartTime == globalTime &&
          state.data.CurrentAbility() == old(state.data.CurrentAbility()) &&
          (!ctrl || SelItem(phaseIndex, trackIndex, hitKey) !in old(state.selection.multiSelection) ==>
            selection.IsSelected(phaseIndex, trackIndex, hitKey))
        else if clickCount == 2 then
          unchanged(this, state.selection, edit) &&
          state.data.CurrentAbility() ==
            Some(KeyAdded(old(state.data.CurrentAbility()).value, phaseIndex, trackIndex,
                          NewKey().(time := old(PlacedTime(localTime)), keyType := KeyType.Hitbox)))
        else if hitClip >= 0 then
          isDraggingClip && dragClipIndex == hitClip && clipDragStartTime == old(Row()).value.clips[hitClip].start &&
          state.selection.kind == ClipSelection && state.selection.clipIndex == hitClip &&
          state.data.CurrentAbility() == old(state.data.CurrentAbility()) && unchanged(edit)
        else
          pendingClick && isDragging == old(isDragging) && isDraggingClip == old(isDraggingClip) &&
          unchanged(state.selection, edit) && state.data.CurrentAbility() == old(state.data.CurrentAbility()))
    {
      if button != 0 {
        return;
      }
      var abOpt := state.data.CurrentAbility();
      if abOpt.None? {
        return;
      }
      var phase := abOpt.value.phases[phaseIndex];
      var track := phase.tracks[trackIndex];
      if track.locked {
        return;
      }
      if hitKey >= 0 {
        PressKey(hitKey, ctrl, shift, globalTime);
        return;
      }
      if clickCount == 2 {
        var time := localTime;
        if state.view.snap {
          time := Snap(time);
        }
        time := Clamp(time, 0.0, Max(0.0, phase.duration));
        AppendKey(NewKey().(time := time, keyType := KeyType.Hitbox));
        return;
      }
      if hitClip >= 0 {
        PressClip(hitClip, mouseX);
        return;
      }
      pendingClick := true;
    }

    /**
     * The clip-drag branch of OnMouseMove: the clip's start follows the
     * mouse from where the drag began, snapped when Snap is on, clamped so
     * the clip stays in its phase, and written only when it moves by more
     * than 0.0001.
     */
    method DragClip(mouseX: real)
      requires Placed() && state.view.pixelsPerSecond > 0.0
      modifies state.data.config
      ensures state.data.OnlyCurrentChanged()
      ensures !(isDraggingClip && dragClipIndex >= 0 && old(Row()).Some? && dragClipIndex < |old(Row()).value.clips|) ==>
        state.data.CurrentAbility() == old(state.data.CurrentAbility())
      ensures isDraggingClip && dragClipIndex >= 0 && old(Row()).Some? && dragClipIndex < |old(Row()).value.clips| ==>
        var ab := old(state.data.CurrentAbility()).value;
        var clip := ClipAt(ab, phaseIndex, trackIndex, dragClipIndex);
        var target := SnapClamp(clipDragStartTime + PixelsToSeconds(mouseX - clipDragMouseStartX, state.view.pixelsPerSecond),
                                state.view.snap, state.view.Step(), ab.phases[phaseIndex].duration - Duration(clip));
        state.data.CurrentAbility() ==
          Some(ClipMoved(ab, phaseIndex, trackIndex, dragClipIndex, if Abs(clip.start - target) > 0.0001 then target else clip.start))
    {
      if !(isDraggingClip && dragClipIndex >= 0) {
        return;
      }
      var abOpt := state.data.CurrentAbility();
      if abOpt.None? {
        return;
      }
      var ab := abOpt.value;
      var phase := ab.phases[phaseIndex];
      var track := phase.tracks[trackIndex];
      if dragClipIndex < |track.clips| {
        var clip := track.clips[dragClipIndex];
        var deltaTime := PixelsToSeconds(mouseX - clipDragMouseStartX, state.view.pixelsPerSecond);
        var newStart := DraggedStart(clipDragStartTime + deltaTime, state.view.snap, state.view.Step(),
                                     phase.duration - Duration(clip));
        if Abs(clip.start - newStart) > 0.0001 {
          state.data.SetCurrentAbility(ClipMoved(ab, phaseIndex, trackIndex, dragClipIndex, newStart));
        } else {
          WithSameClip(ab, phaseIndex, trackIndex, dragClipIndex);
        }
      }
    }

    /** The clip start DragClip computes: snapped to the grid when snapping is on, then kept inside the phase. */
    method DraggedStart(start: real, snap: bool, step: real, room: real) returns (newStart: real)
      requires step > 0.0
      ensures newStart == SnapClamp(start, snap, step, room)
      ensures 0.0 <= newStart <= Max(0.0, room)
    {
      newStart := start;
      if snap {
        newStart := GridSnap(newStart, step);
      }
      newStart := Clamp(newStart, 0.0, Max(0.0, room));
    }

    /** DeleteKey: removes the key when the index is in range, otherwise nothing. */
    method DeleteKey(keyIndex: int)
      requires Placed()
      modifies state.data.config
      ensures state.data.OnlyCurrentChanged()
      ensures old(Row()).Some? && 0 <= keyIndex < |old(Row()).value.keys| ==>
        state.data.CurrentAbility() == Some(RemoveKey(old(state.data.CurrentAbility()).value, (phaseIndex, trackIndex, keyIndex)))
      ensures !(old(Row()).Some? && 0 <= keyIndex < |old(Row()).value.keys|) ==>
        state.data.CurrentAbility() == old(state.data.CurrentAbility())
    {
      var abOpt := state.data.CurrentAbility();
      if abOpt.None? {
        return;
      }
      var ab := abOpt.value;
      var track := ab.phases[phaseIndex].tracks[trackIndex];
      if 0 <= keyIndex < |track.keys| {
        state.data.SetCurrentAbility(RemoveKey(ab, (phaseIndex, trackIndex, keyIndex)));
      }
    }

    /**
     * DeleteClip: removes the clip when the index is in range, and clears
     * the selection exactly when it was that clip; otherwise nothing.
     */
    method DeleteClip(clipIndex: int)
      requires Wired() && Placed()
      modifies state.data.config, state.selection
      ensures state.data.OnlyCurrentChanged()
      ensures old(Row()).Some? && 0 <= clipIndex < |old(Row()).value.clips| ==>
        state.data.CurrentAbility() == Some(ClipRemoved(old(state.data.CurrentAbility()).value, phaseIndex, trackIndex, clipIndex)) &&
        (old(state.selection.kind == ClipSelection && state.selection.phaseIndex == phaseIndex &&
             state.selection.trackIndex == trackIndex && state.selection.clipIndex == clipIndex)
         ==> state.selection.Cleared())
      ensures !(old(Row()).Some? && 0 <= clipIndex < |old(Row()).value.clips| &&
                old(state.selection.kind == ClipSelection && state.selection.phaseIndex == phaseIndex &&
                    state.selection.trackIndex == trackIndex && state.selection.clipIndex == clipIndex)) ==>
        unchanged(state.selection)
      ensures !(old(Row()).Some? && 0 <= clipIndex < |old(Row()).value.clips|) ==>
        state.data.CurrentAbility() == old(state.data.CurrentAbility())
    {
      var abOpt := state.data.CurrentAbility();
      if abOpt.None? {
        return;
      }
      var ab := abOpt.value;
      var track := ab.phases[phaseIndex].tracks[trackIndex];
      if 0 <= clipIndex < |track.clips| {
        var track' := track.(clips := RemoveAt(track.clips, clipIndex));
        state.data.SetCurrentAbility(WithTrack(ab, phaseIndex, trackIndex, track'));
        var sel := state.selection;
        if sel.kind == ClipSelection && sel.phaseIndex == phaseIndex && sel.trackIndex == trackIndex &&
           sel.clipIndex == clipIndex {
          selection.ClearSelection();
        }
      }
    }

    /** DuplicateKey: appends a copy of the key 0.1 later, unclamped, when the index is in range. */
    method DuplicateKey(keyIndex: int)
      requires Placed()
      modifies state.data.config
      ensures state.data.OnlyCurrentChanged()
      ensures old(Row()).Some? && 0 <= keyIndex < |old(Row()).value.keys| ==>
        state.data.CurrentAbility() ==
          Some(KeyAdded(old(state.data.CurrentAbility()).value, phaseIndex, trackIndex, Duplicate(old(Row()).value.keys[keyIndex])))
      ensures !(old(Row()).Some? && 0 <= keyIndex < |old(Row()).value.keys|) ==>
        state.data.CurrentAbility() == old(state.data.CurrentAbility())
    {
      var abOpt := state.data.CurrentAbility();
      if abOpt.None? {
        return;
      }
      var track := abOpt.value.phases[phaseIndex].tracks[trackIndex];
      if 0 <= keyIndex < |track.keys| {
        var original := track.keys[keyIndex];
        var duplicate := NewKey().(time := original.time + 0.1, keyType := original.keyType, eventName := original.eventName,
                                   stringParam := original.stringParam, paramF := original.paramF,
                                   intParam := original.intParam, editorColor := original.editorColor);
        AppendKey(duplicate);
      }
    }

    /**
     * AddKeyAtPosition: a key of the track's default type at the placed
     * time. The "no key type allowed" refusal cannot happen: every track
     * type allows one.
     */
    method AddKeyAtPosition(localTime: real)
      requires Placed()
      modifies state.data.config
      ensures state.data.OnlyCurrentChanged()
      ensures old(Row()).None? ==> state.data.CurrentAbility() == old(state.data.CurrentAbility())
      ensures old(Row()).Some? ==>
        state.data.CurrentAbility() ==
          Some(KeyAdded(old(state.data.CurrentAbility()).value, phaseIndex, trackIndex,
                        NewKey().(time := old(PlacedTime(localTime)), keyType := DefaultKeyType(old(Row()).value.trackType))))
    {
      var abOpt := state.data.CurrentAbility();
      if abOpt.None? {
        return;
      }
      var phase := abOpt.value.phases[phaseIndex];
      var track := phase.tracks[trackIndex];
      KeyTypesNeverEmpty(track.trackType);
      var time := localTime;
      if state.view.snap {
        time := Snap(time);
      }
      time := Clamp(time, 0.0, Max(0.0, phase.duration));
      AppendKey(NewKey().(time := time, keyType := DefaultKeyType(track.trackType)));
    }

    /**
     * AddClipAtPosition: refused when the track does not allow the type or
     * the clip would end after the phase; otherwise the clip is appended
     * and selected as the track's last clip.
     */
    method AddClipAtPosition(localTime: real, clipType: ClipType) returns (added: bool)
      requires Wired() && Placed()
      modifies state.data.config, state.selection
      ensures state.data.OnlyCurrentChanged()
      ensures added <==> (old(Row()).Some? &&
        ClipAccepted(old(Row()).value.trackType, clipType, old(PlacedTime(localTime)),
                     old(state.data.CurrentAbility()).value.phases[phaseIndex].duration))
      ensures !added ==> state.data.CurrentAbility() == old(state.data.CurrentAbility()) && unchanged(state.selection)
      ensures added ==>
        state.data.CurrentAbility() ==
          Some(ClipAdded(old(state.data.CurrentAbility()).value, phaseIndex, trackIndex, PlannedClip(clipType, old(PlacedTime(localTime))))) &&
        state.selection.kind == ClipSelection && state.selection.phaseIndex == phaseIndex &&
        state.selection.trackIndex == trackIndex && state.selection.clipIndex == |old(Row()).value.clips|
    {
      added := false;
      var abOpt := state.data.CurrentAbility();
      if abOpt.None? {
        return;
      }
      var ab := abOpt.value;
      var phase := ab.phases[phaseIndex];
      var track := phase.tracks[trackIndex];
      if !CanAddClip(track.trackType, clipType) {
        return;
      }
      var time := localTime;
      if state.view.snap {
        time := Snap(time);
      }
      time := Clamp(time, 0.0, Max(0.0, phase.duration));
      var tempClip := NewClip().(clipType := clipType, start := time);
      if clipType == ClipType.Custom {
        tempClip := tempClip.(paramF := Vec4(0.25, 0.0, 0.0, 0.0));
      }
      var clipEnd := tempClip.start + Duration(tempClip);
      if clipEnd > phase.duration {
        return;
      }
      track := track.(clips := track.clips + [tempClip]);
      state.data.SetCurrentAbility(WithTrack(ab, phaseIndex, trackIndex, track));
      selection.SelectClip(phaseIndex, trackIndex, |track.clips| - 1);
      added := true;
    }
  }

  /** Writing back the clip start that is already there changes nothing. */
  lemma WithSameClip(ab: AbilityDef, p: int, t: int, c: int)
    requires ClipInRange(ab, p, t, c)
    ensures ClipMoved(ab, p, t, c, ClipAt(ab, p, t, c).start) == ab
  {
    var tr := TrackAt(ab, p, t);
    assert tr.clips[c := tr.clips[c].(start := tr.clips[c].start)] == tr.clips;
    WithSameTrack(ab, p, t);
  }
}

=== FILE: track_type_rules.dfy ===
/**
 * The editor's compatibility matrix: which clip and key types each track
 * type accepts, and which types a new item on a track gets by default.
 */
module TrackTypeRules {
  import opened AbilityConfigSO

  function AllowedClipTypes(t: TrackType): set<ClipType>
  {
    match t
    case Hitbox => {}
    case Animation => {ClipType.Animation}
    case VFX => {ClipType.VFX, ClipType.Custom}
    case SFX => {ClipType.SFX, ClipType.Custom}
    case Camera => {ClipType.Custom}
    case Script => {ClipType.Custom}
    case Custom => {ClipType.Animation, ClipType.VFX, ClipType.SFX, ClipType.Custom}
  }

  function AllowedKeyTypes(t: TrackType): set<KeyType>
  {
    match t
    case Hitbox => {KeyType.Hitbox}
    case Animation => {KeyType.AnimationEvent, KeyType.Signal}
    case VFX => {KeyType.Signal, KeyType.Custom}
    case SFX => {KeyType.Footstep, KeyType.Signal, KeyType.Custom}
    case Camera => {KeyType.CameraShake, KeyType.Signal}
    case Script => {KeyType.Signal, KeyType.Custom}
    case Custom => {KeyType.Hitbox, KeyType.Signal, KeyType.AnimationEvent,
                    KeyType.CameraShake, KeyType.Footstep, KeyType.Custom}
  }

  predicate CanAddClip(t: TrackType, c: ClipType)
  {
    c in AllowedClipTypes(t)
  }

  predicate CanAddKey(t: TrackType, k: KeyType)
  {
    k in AllowedKeyTypes(t)
  }

  /** The key type a new key on a track of type `t` receives; always one the track accepts. */
  function DefaultKeyType(t: TrackType): (k: KeyType)
    ensures CanAddKey(t, k)
  {
    match t
    case Hitbox => KeyType.Hitbox
    case Animation => KeyType.AnimationEvent
    case VFX => KeyType.Signal
    case SFX => KeyType.Footstep
    case Camera => KeyType.CameraShake
    case Script => KeyType.Signal
    case Custom => KeyType.Custom
  }

  /**
   * The clip type suggested for a track of type `t`.  A Hitbox track accepts
   * no clip at all, so there the suggestion (Custom) is rejected.
   */
  function DefaultClipType(t: TrackType): (c: ClipType)
    ensures t != TrackType.Hitbox <==> CanAddClip(t, c)
  {
    match t
    case Animation => ClipType.Animation
    case VFX => ClipType.VFX
    case SFX => ClipType.SFX
    case _ => ClipType.Custom
  }

  /** A Hitbox track holds only Hitbox keys and no clips. */
  lemma HitboxTrackRules(c: ClipType, k: KeyType)
    ensures !CanAddClip(TrackType.Hitbox, c)
    ensures CanAddKey(TrackType.Hitbox, k) <==> k == KeyType.Hitbox
  {
  }

  /** A Custom track accepts every clip type and every key type. */
  lemma CustomTrackAcceptsAll(c: ClipType, k: KeyType)
    ensures CanAddClip(TrackType.Custom, c)
    ensures CanAddKey(TrackType.Custom, k)
  {
  }

  /**
   * Every track type accepts some key type, so the "no key allowed" branch
   * of adding a key is unreachable; Signal is accepted everywhere except on
   * Hitbox tracks.
   */
  lemma KeyTypesNeverEmpty(t: TrackType)
    ensures AllowedKeyTypes(t) != {}
    ensures CanAddKey(t, KeyType.Signal) <==> t != TrackType.Hitbox
  {
    assert DefaultKeyType(t) in AllowedKeyTypes(t);
  }

  /**
   * The authored defaults disagree with the editor's rules: a new track is
   * an Animation track holding one Hitbox key, a key type the editor would
   * not let anyone add to an Animation track.
   */
  lemma DefaultTrackKeyNotAllowed()
    ensures NewTrack().trackType == TrackType.Animation && |NewTrack().keys| == 1
    ensures !CanAddKey(NewTrack().trackType, NewTrack().keys[0].keyType)
  {
  }
}

=== FILE: unity_types.dfy ===
/**
 * The Unity value types the timeline engine copies around: vectors,
 * quaternions, colours, and the few facts about an asset (its GUID, its
 * length, its particle system) that the authored tree reads.
 */
module UnityTypes {
  import opened Wrappers

  datatype Vec2 = Vec2(x: real, y: real)
  datatype Vec3 = Vec3(x: real, y: real, z: real)
  datatype Vec4 = Vec4(x: real, y: real, z: real, w: real)
  datatype Quat = Quat(x: real, y: real, z: real, w: real)
  datatype Color = Color(r: real, g: real, b: real, a: real)

  const Zero3 := Vec3(0.0, 0.0, 0.0)
  const Zero4 := Vec4(0.0, 0.0, 0.0, 0.0)
  const Identity := Quat(0.0, 0.0, 0.0, 1.0)
  const White := Color(1.0, 1.0, 1.0, 1.0)
  const Cyan := Color(0.0, 1.0, 1.0, 1.0)

  /** The `main` module of a prefab's ParticleSystem: its duration and the upper bound of its start lifetime. */
  datatype ParticleMain = ParticleMain(duration: real, startLifetimeMax: real)

  /**
   * A non-null Unity asset reference (GameObject prefab, AnimationClip or
   * AudioClip).  `assetGuid` is what the asset database answers for it,
   * `length` is the clip length, `particles` the prefab's ParticleSystem if any.
   */
  datatype Asset = Asset(assetGuid: string, length: real, particles: Option<ParticleMain>)

  /** C# `string.IsNullOrEmpty` on a nullable string. */
  predicate IsNullOrEmpty(s: Option<string>)
  {
    s.None? || s.value == ""
  }
}

=== FILE: wrappers.dfy ===
/** Optional values: a C# reference that may be null, or a lookup that may miss. */
module Wrappers {
  datatype Option<T> = None | Some(value: T)
}
